=== FILE: README.md ===
# A verified model of the reconstruction pipeline's data formats and drivers

This project models the core of a multi-view reconstruction pipeline. The pipeline strings structure-from-motion
(sfm) programs together with multi-view-stereo (mvs) and fusion programs. It converts between their file formats
and evaluates the sparse models they produce. The model is written in Dafny. Its parts are:

- **The MVE prebundle format** (`prebundle.dfy`, `mve_feature.dfy`, `bytes.dfy`). The C++ writer
  `save_prebundle_data`, the C++ reader `load_prebundle_data` with the end-of-file check of
  `load_prebundle_from_file`, and the Python reader `read_mve_feature`. All three work over bytes. Counts are
  little-endian `int32`. A container size is cast to `int32` with explicit wrap-around. Float bit patterns are
  opaque 32-bit words.
- **The Bundler/Photosynther text format** (`tokens.dfy`, `bundle_cpp.dfy`, `bundle_py.dfy`, `synth.dfy`,
  `mve_writer.dfy`, `synth_py.dfy`, `synth_cpp.dfy`, `save_roundtrip.dfy`).
  - The C++ reader `load_bundler_ps_intern` is modelled over an `istream` of tokens with eof and fail flags.
  - The Python reader `read_bundler` is modelled over split lines.
  - The writer is `save_mve_sfm`, which produces `synth_0.out` and the `meta.ini` files.
  - Both readers take back every `SynthFile` the writer can produce. A model saved by `save_mve_sfm` reads back
    with either reader when its counts and feature indices fit that reader.
- **Track repair** (`tracks.dfy`). `fixed_openmvg_to_colmap_error` and its older copy `FixedOpenmvgToColmapError`
  rebuild every track's observation arrays from the images' feature-to-track lists.
- **Camera models and statistics** (`cameras.dfy`, `statistics.dfy`, `colmap.dfy`, `sorting.dfy`).
  - The RADIAL and FULL_OPENCV projections, `format_camera` and `ProjectPoint` are over reals.
  - `ProjectPoint`, and so the statistics, project a FULL_OPENCV lens with the formula as the source writes it
    (see Findings). The corrected formula, `OpencvProject`, is proved equal to OpenCV's model.
  - `PrintReprojectionErrors` counts, sorts and takes the median. `PrintTrackLengthHistogram` takes the mean.
- **Feature matching jobs** (`features.dfy`). `FeatureDetector::run` filters by extension and sorts the names,
  enumerates the `i < j` pairs and applies Lowe's ratio test. It writes a pair only when it has at least 16
  matches.
- **Selection helpers** (`selection.dfy`, `strings.dfy`). `GetFileFromBuildId`, the GPU choice of
  `SetupFreeGpu`, `mvs_network_check`, and the build-id file choice of the older `theiasfm2colmap`.
- **The converter dispatch table** (`converter.dfy`). `sfm_convert_helper` looks an adapter up by the name
  `'sfm_' + src + '2' + target`. The model also gives each adapter's steps, with its build-id checks, the
  image-suffix search of `sfm_theiasfm2pmvs`, the selections it makes and when they exit, and
  `create_colmap_sparse_directory`.
- **The drivers** (`pipeline.dfy`). The GPU choice that opens each driver, then the stage-rerun state machine
  of `pipeline/pipeline_run.py` (sfm, mvs, fuse) and of the older `pipeline_run.py` (sfm, normalize,
  conversion, mvs). The `force_run` counter, directory-existence gates, directory clearing and work directory
  names are modelled.

External programs, file I/O and the clock are parameters or abstract steps: a directory listing is a sequence of
names, a file a sequence of bytes or lines, a program call an action value.

## Model

| member | source | states |
|---|---|---|
| Bytes.WrapInt32 | helper_cc/theiasfm_reconstruction_helper.cpp:35-39 | the int32 cast of a size is congruent to it modulo 2^32 and equals it when it fits |
| Bytes.LittleEndianRoundTrip | helper_cc/theiasfm_reconstruction_helper.cpp:35-39 | a number below 256^k written as k little-endian bytes reads back unchanged |
| Bytes.FromLittleEndianRoundTrip | helper_cc/theiasfm_reconstruction_helper.cpp:84-151 | any byte string read as a number and written back gives the same bytes |
| Bytes.WordRoundTrip | helper_cc/theiasfm_reconstruction_helper.cpp:47-50 | a 32-bit word written as four bytes reads back unchanged |
| Bytes.EncodeDecodeWord | helper_cc/theiasfm_reconstruction_helper.cpp:99-121 | every four bytes are the encoding of the word they decode to |
| Bytes.Int32RoundTrip | helper_cc/theiasfm_reconstruction_helper.cpp:35-39 | a written int32 reads back as the same signed value |
| Prebundle.SavePositions | helper_cc/theiasfm_reconstruction_helper.cpp:47-50 | positions take eight bytes each |
| Prebundle.SaveColors | helper_cc/theiasfm_reconstruction_helper.cpp:53-56 | colours take three bytes each |
| Prebundle.SaveMatches | helper_cc/theiasfm_reconstruction_helper.cpp:60-81 | correspondences take eight bytes each |
| Prebundle.Save | helper_cc/theiasfm_reconstruction_helper.cpp:30-82 | the output starts with the 14-byte signature followed by the viewport count cast to int32 |
| Prebundle.ReadViewports | helper_cc/theiasfm_reconstruction_helper.cpp:99-121 | the viewport loop fails only with a stream error, never with a signature error |
| Prebundle.ReadPairs | helper_cc/theiasfm_reconstruction_helper.cpp:124-150 | the pair loop fails only with a stream error, never with a signature error |
| Prebundle.Load | helper_cc/theiasfm_reconstruction_helper.cpp:89-93 | loading reports an invalid signature exactly when the first 14 bytes are not "MVE_PREBUNDLE\n" |
| Prebundle.LoadBody | helper_cc/theiasfm_reconstruction_helper.cpp:164-188 | after the signature the model reports only a premature end of file or a negative size; a count cut off by the end of the file is reported as a premature end of file |
| PrebundleRoundTrip.PositionsRoundTrip | helper_cc/theiasfm_reconstruction_helper.cpp:99-121 | saved positions read back in order, leaving the following bytes |
| PrebundleRoundTrip.ColorsRoundTrip | helper_cc/theiasfm_reconstruction_helper.cpp:99-121 | saved colours read back in order, leaving the following bytes |
| PrebundleRoundTrip.ViewportRoundTrip | helper_cc/theiasfm_reconstruction_helper.cpp:47-56 | a saved viewport with int32-sized lists reads back whole; the two counts are independent |
| PrebundleRoundTrip.ViewportsRoundTrip | helper_cc/theiasfm_reconstruction_helper.cpp:99-121 | a saved list of viewports reads back in order |
| PrebundleRoundTrip.MatchesRoundTrip | helper_cc/theiasfm_reconstruction_helper.cpp:124-150 | saved correspondences read back in order |
| PrebundleRoundTrip.PairRoundTrip | helper_cc/theiasfm_reconstruction_helper.cpp:60-81 | a saved pair reads back with its view ids and matches |
| PrebundleRoundTrip.PairsRoundTrip | helper_cc/theiasfm_reconstruction_helper.cpp:124-150 | a saved list of pairs reads back in order |
| PrebundleRoundTrip.LoadBodyRoundTrip | helper_cc/theiasfm_reconstruction_helper.cpp:84-151 | everything after the signature reads back as the data saved, leaving the trailing bytes |
| PrebundleRoundTrip.SaveLoadRoundTrip | helper_cc/theiasfm_reconstruction_helper.cpp:30-188 | loading what was saved restores every viewport and every pair in order when no count wraps; trailing bytes are left unread |
| Tokens.PyInt | load_mve_sfm.py:28 | `int(tok)` succeeds exactly on integer literals and gives their value |
| Tokens.PyFloat | load_mve_sfm.py:33 | `float(tok)` succeeds exactly on numeric literals, integers included |
| Tokens.PyInts | load_mve_sfm.py:52 | `map(int, ...)` succeeds exactly when every token is an integer, with the values in order |
| Tokens.PyFloats | load_mve_sfm.py:51 | `map(float, ...)` succeeds exactly when every token is numeric, with the values in order |
| Tokens.IntTokensRoundTrip | load_mve_sfm.py:147-150 | integers written with `%d` read back with `int` |
| Tokens.DecTokensRoundTrip | load_mve_sfm.py:136-146 | numbers written with `%f` read back with `float` |
| Tokens.Flatten | helper_cc/theiasfm_reconstruction_helper.cpp:230-233 | the token stream of a file is empty exactly when every line is empty |
| Strings.NatToString | load_mve_sfm.py:46 | `str(n)` is all digits, one digit exactly below 10, and no leading zero |
| Strings.IntToString | utils.py:55 | `str(i)` starts with '-' exactly for negative numbers |
| Strings.NatToStringRoundTrip | utils.py:25 | the decimal text of a number parses back to it |
| Strings.NatToStringInjective | load_mve_sfm.py:158 | different numbers print differently |
| Strings.IntToStringSingle | utils.py:55 | `str(i)` is one character exactly for 0 to 9 |
| Strings.Pad4 | load_mve_sfm.py:158 | `'%04d'` gives at least four digits, exactly four below 10000 |
| Strings.Pad4RoundTrip | load_mve_sfm.py:158 | the zero-padded text still parses back to the number |
| Sorting.SortBy | load_mve_sfm.py:131 | `sorted(key=...)` is a permutation ordered by the key |
| Sorting.SortByIsStable | utils.py:27 | the sort is stable: elements with equal keys keep their input order |
| Colmap.MaxDim | load_mve_sfm.py:32 | `max(width, height)` is one of the two and at least both |
| Colmap.FindCamera | load_mve_sfm.py:133 | `cameras[id]` finds a camera exactly when one carries the id, and it carries it |
| Synth.SynthLines | load_mve_sfm.py:126-151 | synth_0.out after its version line is the count line, five lines per camera and three per point |
| CppStream.Consume | helper_cc/theiasfm_reconstruction_helper.cpp:233 | extracting a token that ends the file without trailing space sets eof |
| CppStream.ReadInt | helper_cc/theiasfm_reconstruction_helper.cpp:233 | on whole tokens, `in >> n` fails exactly on a failed stream, at the end, or on a token that is not an int in range; otherwise it takes the token's value |
| CppStream.ReadFloat | helper_cc/theiasfm_reconstruction_helper.cpp:253-262 | `in >> x` fails exactly on a failed stream, at the end, or on a non-numeric token |
| CppStream.ReadFloats | helper_cc/theiasfm_reconstruction_helper.cpp:253-262 | k extractions into floats: unless the stream fails, the values are the next k tokens read as floats and the stream moves past exactly them; a failed stream stays as it is |
| CppStream.ReadFloatsAfter | helper_cc/theiasfm_reconstruction_helper.cpp:253-262 | reading written decimals one by one takes exactly them, in order |
| BundleCpp.ReadCamera | helper_cc/theiasfm_reconstruction_helper.cpp:249-266 | a camera block yields two distortion terms, nine rotation entries and three translation entries; unless the stream fails they are, with the focal length, the float values of the next fifteen tokens in file order, and the stream moves past them |
| BundleCpp.ReadRef | helper_cc/theiasfm_reconstruction_helper.cpp:302-313 | unless the stream fails, the reference takes exactly its 3 (Photosynther) or 4 (Bundler) tokens: the view and feature ids are the first two int tokens, and a Bundler position is the next two tokens' values; Photosynther drops the quality and sets no position |
| BundleCpp.ReadRefs | helper_cc/theiasfm_reconstruction_helper.cpp:295-316 | unless the stream fails, the k-th reference is read from the k-th group of 3 or 4 tokens and the stream moves past all of them; every position has two entries, none for Photosynther |
| BundleCpp.ScaleColor | helper_cc/theiasfm_reconstruction_helper.cpp:283 | each colour channel is divided by 255 |
| BundleCpp.ReadFeatures | helper_cc/theiasfm_reconstruction_helper.cpp:268-326 | the feature loop returns at most the announced number of well-formed features; a reference amount outside [0, views] is its only error |
| BundleCpp.LoadBundlerPs | helper_cc/theiasfm_reconstruction_helper.cpp:200-330 | the reader rejects the signature exactly when the first line is not the format's version line; a bundle respects the 10000-camera and 100000000-feature bounds |
| Strings.Strip | load_mve_sfm.py:19 | `strip()` leaves no whitespace, in Python's sense of `isspace()`, at either end |
| Strings.StripInfix | load_mve_sfm.py:19 | `strip()` keeps a slice of the line with only whitespace before and after it |
| Strings.StripPadded | utils.py:24-25 | `strip()` of a word padded with whitespace is the word |
| BundlePy.Every3 | load_mve_sfm.py:54-55 | `s[::3]` has a third of the elements, rounded up, and its element k is s[3k] |
| BundlePy.Unassigned | load_mve_sfm.py:48 | every point3D id starts at -1 |
| BundlePy.Pixels | load_mve_sfm.py:47 | feature pixels are xy·max_dim + (width/2, height/2) - 0.5 |
| BundlePy.ReadView | load_mve_sfm.py:30-48 | camera i is RADIAL with params (f·max_dim, width/2 - 0.5, height/2 - 0.5, k1, k2), f, k1 and k2 being the floats of the block's first line; the next three lines are the rotation rows and the fifth the translation; image i is named '%04d.jpg', holds the features scaled to pixels and has no 3D points; reading moves past the five lines |
| BundlePy.RadialCamera | load_mve_sfm.py:34-38 | the camera is RADIAL with id i and the image's size, and its params are f·max_dim, width/2 - 0.5, height/2 - 0.5, then k1 and k2 from the first line |
| BundlePy.ReadRotation | load_mve_sfm.py:39-42 | the rotation rows are the floats of the block's lines 1 to 3, three to a line; when it fails, the error is ValueError |
| BundlePy.ReadViewsIds | load_mve_sfm.py:30-48 | the camera loop numbers cameras and images consecutively, each image with all point ids -1 |
| BundlePy.ReadPoint | load_mve_sfm.py:50-61 | a point gets the loop index as its id and equally many image ids and feature indices |
| BundlePy.ReadPoints | load_mve_sfm.py:50-63 | the point loop keeps the shape of the images' point-id arrays |
| BundlePy.ReadBundler | load_mve_sfm.py:13-67 | only the format's version line is accepted; one camera and one image per feature list |
| BundlePyTracks.LastRefIsLast | load_mve_sfm.py:62-63 | the reference definition names the last point whose track refers to a slot, or -1 when none does |
| BundlePyTracks.AssignWrites | load_mve_sfm.py:62-63 | one track overwrites exactly the slots it names, with the point's index |
| BundlePyTracks.AssignStep | load_mve_sfm.py:62-63 | assigning one more point moves the reference definition forward by that point |
| BundlePyTracks.ReadPointsIds | load_mve_sfm.py:50-63 | after the point loop the point ids are the reference definition |
| BundlePyTracks.ReadBundlerTrackIds | load_mve_sfm.py:13-67 | after `read_bundler`, slot s of image j holds the last point whose track names (j, s), or -1 |
| MveFeature.PyRead | load_mve_sfm.py:75 | `f.read(n)` splits the bytes; it reads n bytes when enough remain |
| MveFeature.DecodePositions | load_mve_sfm.py:82 | `iter_unpack('ff')` yields one position per eight bytes |
| MveFeature.ReadMveFeature | load_mve_sfm.py:70-97 | a successful read starts with the prebundle signature |
| MveFeature.PositionLists | load_mve_sfm.py:80-83 | the position lists are the viewports' positions, one per view |
| MveFeatureRoundTrip.DecodeSavedPositions | load_mve_sfm.py:82 | the Python decoder reads back the positions the C++ writer saved |
| MveFeatureRoundTrip.SkipColorsAfter | load_mve_sfm.py:84-86 | the colour block is skipped whole |
| MveFeatureRoundTrip.PyViewsAfter | load_mve_sfm.py:80-86 | the view loop returns one position list per saved viewport, in order |
| MveFeatureRoundTrip.PyPairsAfter | load_mve_sfm.py:88-94 | the pair loop skips every saved pair |
| MveFeatureRoundTrip.ReadSavedFeatures | load_mve_sfm.py:70-97 | `read_mve_feature` on a saved file returns each viewport's positions |
| MveFeatureRoundTrip.TrailingBytesRejected | load_mve_sfm.py:95-96 | trailing bytes trip the Python end-of-file assertion, while the C++ reader accepts them |
| MveFeatureRoundTrip.SavedThenRest | load_mve_sfm.py:70-97 | the Python reader accepts a saved file exactly when nothing follows the data |
| MveWriter.ById | load_mve_sfm.py:131 | the images sorted by id are a permutation in ascending id order |
| MveWriter.IndexOfId | load_mve_sfm.py:142 | `new_image_id[id]` is the first position with that id, and is missing exactly when no image has it |
| MveWriter.First3 | load_mve_sfm.py:141 | indexing v[0..2] succeeds exactly on vectors of three or more |
| MveWriter.WriteCamera | load_mve_sfm.py:133-141 | the focal length written times max_dim is params[0]; zero distortion; R and t as stored |
| MveWriter.WriteCameras | load_mve_sfm.py:132-143 | one camera block per image in id order, failing exactly where an image's camera is missing |
| MveWriter.WriteTrack | load_mve_sfm.py:148-150 | a track is written as (new id, feature index) pairs up to the shorter array |
| MveWriter.WritePoint | load_mve_sfm.py:145-151 | a point is written as position, colour, the track length and the renumbered track |
| MveWriter.WriteSynth | load_mve_sfm.py:126-151 | synth_0.out holds the camera block of every image in id order and the block of every point in the model's order; it is written exactly when all of them can be |
| MveWriter.CameraMeta | load_mve_sfm.py:169-174 | meta.ini is written exactly for PINHOLE cameras with equal focal lengths, with the image's R, t, number and name |
| MveWriter.WriteMeta | load_mve_sfm.py:152-174 | meta.ini of an image is written exactly when its camera passes the assertions |
| MveWriter.CameraMetaNormalised | load_mve_sfm.py:173 | the intrinsics in meta.ini scaled back by max_dim, width and height give the camera's parameters |
| MveWriter.WriteMetas | load_mve_sfm.py:152-174 | the meta loop succeeds exactly when every image passes, numbering them in id order |
| MveWriter.SaveMveSfm | load_mve_sfm.py:105-174 | the save succeeds exactly when synth_0.out can be written and every image's camera passes |
| MveWriterFacts.EveryImageRenumbered | load_mve_sfm.py:142 | every image of the model gets a new number |
| MveWriterFacts.RenumberKeepsOrder | load_mve_sfm.py:131-143 | renumbering keeps the order of the original ids |
| MveWriterFacts.ByIdStrict | load_mve_sfm.py:131 | with distinct ids the sorted ids increase strictly |
| MveWriterFacts.RenumberIsPosition | load_mve_sfm.py:129-143 | with distinct ids the image at position k in id order is numbered k |
| MveWriterFacts.MetaAgreesWithSynth | load_mve_sfm.py:136-173 | the focal length and rotation in meta.ini are those in synth_0.out for the same view |
| MveWriterFacts.ViewDirInjective | load_mve_sfm.py:158 | different view numbers give different directory names |
| MveWriterFacts.MetaDirsDistinct | load_mve_sfm.py:158-159 | different views go to different directories |
| SynthPy.ReadViewAt | load_mve_sfm.py:30-48 | a written camera block reads back as the RADIAL camera and image built from it |
| SynthPy.Every3Views | load_mve_sfm.py:54 | `elems[1::3]` of a written track line is the list of views |
| SynthPy.Every3Feats | load_mve_sfm.py:55 | `elems[2::3]` of a written track line is the list of feature indices |
| SynthPy.ReadPointAt | load_mve_sfm.py:50-61 | a written point block reads back with its position, colour and track |
| SynthPy.AssignOk | load_mve_sfm.py:62-63 | a track whose elements name existing slots is assigned without error |
| SynthPy.PyReadsSynth | load_mve_sfm.py:13-67 | `read_bundler` takes back every written camera, image and point, and fills each slot with the last point naming it |
| SynthCpp.RotTokens | helper_cc/theiasfm_reconstruction_helper.cpp:256-260 | the three written rotation rows are the nine entries in the reader's order |
| SynthCpp.CameraTokens | helper_cc/theiasfm_reconstruction_helper.cpp:249-266 | a written camera block is its fifteen numbers in reading order |
| SynthCpp.ReadCamerasAfter | helper_cc/theiasfm_reconstruction_helper.cpp:249-266 | the C++ camera loop takes back every written camera |
| SynthCpp.ReadRefsAfter | helper_cc/theiasfm_reconstruction_helper.cpp:295-316 | the C++ reference loop takes back every written track element |
| SynthCpp.ReadFeaturesAfter | helper_cc/theiasfm_reconstruction_helper.cpp:268-326 | the C++ feature loop takes back every written point |
| SynthCpp.CppReadsSynth | helper_cc/theiasfm_reconstruction_helper.cpp:200-330 | `load_bundler_ps_intern` returns every camera and point the writer put in the file, within the reader's bounds |
| SaveRoundTrip.CppReadsSaved | load_mve_sfm.py:105-151 | the synth_0.out of a successful `save_mve_sfm` loads with `load_bundler_ps_intern` into its cameras and points, when the counts and feature indices fit the reader's bounds |
| SaveRoundTrip.PyReadsSaved | load_mve_sfm.py:13-151 | the synth_0.out of a successful `save_mve_sfm` reads back with `read_bundler` into its cameras and points, when every track names an existing feature |
| Tracks.PointIndex | pipeline/sfm_converter.py:49 | `points3Ds[pid]` finds the track with that id, and fails exactly when none has it |
| Tracks.Overwrite | pipeline/sfm_converter.py:51-52 | the first slots of an array are overwritten and the rest kept |
| Tracks.FixTracks | pipeline/sfm_converter.py:38-57 | the repair returns one track per input track |
| Tracks.FixTracksSpec | pipeline/sfm_converter.py:38-57 | the repair succeeds exactly when every feature names a track and every track is filled exactly; each track then holds its observations in visiting order; each error names its cause |
| Tracks.VisitFromSpec | pipeline/sfm_converter.py:46-53 | the double loop keeps every track's slots equal to the observations visited so far, and fails only for a missing or overfull track |
| Tracks.RefsUpToStep | pipeline/sfm_converter.py:46-53 | one inner-loop step adds an observation to exactly the track the feature names |
| Tracks.RefilledSnoc | pipeline/sfm_converter.py:50-53 | writing one more observation goes into the track's next free slot |
| Tracks.OverfullWitness | pipeline/sfm_converter.py:50-52 | a feature whose track is already full shows that the track is overfull |
| TracksFacts.RefsSound | sfm_converter.py:21-28 | every collected observation is a feature naming the track |
| TracksFacts.RefsComplete | sfm_converter.py:21-28 | every feature naming the track is collected |
| TracksFacts.RefilledAt | sfm_converter.py:26-27 | slot k of a refilled track holds the k-th observation, or is kept past them |
| TracksFacts.FixedSlotSound | sfm_converter.py:13-32 | after a successful repair every slot holds an image id and a feature index of that image naming the track |
| TracksFacts.FixedFeatureFound | sfm_converter.py:13-32 | after a successful repair every feature naming a track appears in one of its slots |
| Cameras.RadialProject | eval/compute_sfm_statistics.py:20-24 | the point (0, 0) projects to the principal point |
| Cameras.RadialOnRay | eval/compute_sfm_statistics.py:20-24 | the distortion is radial: the pixel lies on the ray from the principal point through p |
| Cameras.RadialSymmetric | eval/compute_sfm_statistics.py:20-24 | mirroring a point through the axis mirrors its pixel through the principal point |
| Cameras.RadialPinhole | eval/compute_sfm_statistics.py:20-24 | without distortion coefficients the lens is a pinhole |
| Cameras.RationalFactor | eval/compute_sfm_statistics.py:49 | the rational factor is undefined exactly where its denominator vanishes |
| Cameras.OpencvAsWritten | eval/compute_sfm_statistics.py:42-55 | the source's FULL_OPENCV call has no pixel exactly where its denominator, with r^8 in place of r^6, vanishes |
| Cameras.OpencvProject | eval/compute_sfm_statistics.py:42-55 | the corrected FULL_OPENCV projection has no pixel exactly where its denominator 1 + k4·r^2 + k5·r^4 + k6·r^6 vanishes |
| Cameras.OpencvMatchesReference | eval/compute_sfm_statistics.py:42-55 | the corrected FULL_OPENCV projection is OpenCV's model written independently by Horner's rule |
| Cameras.OpencvExtendsRadial | eval/compute_sfm_statistics.py:12-55 | a FULL_OPENCV lens without tangential or higher terms and with fx = fy is the RADIAL lens |
| Cameras.OpencvAsWrittenIgnoresTangential | eval/compute_sfm_statistics.py:50-55 | as written, p1 and p2 have no effect on the pixel |
| Cameras.OpencvAsWrittenDropsTangential | eval/compute_sfm_statistics.py:50-55 | as written, a pure tangential lens maps (1, 1) to (1, 1), where OpenCV gives (3, 5) |
| Cameras.OpencvAsWrittenEighthOrder | eval/compute_sfm_statistics.py:46-49 | as written, k3 multiplies r^8: at radius 2 the pixel is 514, where OpenCV gives 130 |
| Cameras.FormatCamera | eval/compute_sfm_statistics.py:81-96 | RADIAL and SIMPLE_RADIAL become the radial lens, FULL_OPENCV the twelve-parameter lens, any other model is unsupported |
| Cameras.FormatCameraRoundTrip | eval/compute_sfm_statistics.py:84-92 | every lens comes back from the camera record that stores its parameters |
| Cameras.FormatSimpleRadial | eval/compute_sfm_statistics.py:85-86 | SIMPLE_RADIAL (f, cx, cy, k) is the RADIAL lens with k2 = 0 |
| Cameras.FormatCameras | eval/compute_sfm_statistics.py:81-96 | every camera keeps its id and succeeds exactly when every camera is supported |
| Cameras.LensOf | eval/compute_sfm_statistics.py:111 | `new_cameras[id]` finds the lens with that id, and fails exactly when none has it |
| Cameras.Project | eval/compute_sfm_statistics.py:101 | a radial lens always gives a pixel; a FULL_OPENCV lens, as written, gives none exactly where its denominator vanishes |
| Cameras.ProjectPoint | eval/compute_sfm_statistics.py:99-101 | the depth returned is the z of R·X + t; depth zero gives no pixel |
| Cameras.ProjectPointUsesAsWritten | eval/compute_sfm_statistics.py:42-55 | the statistics project a FULL_OPENCV lens as the source writes it: k3 = 1 sends the camera-frame point (2, 0, 1) to pixel 514, not OpenCV's 130 |
| Cameras.ProjectAlongRay | eval/compute_sfm_statistics.py:99-101 | scaling a point scales its depth and keeps its pixel for a camera at the origin |
| Cameras.AxisToPrincipalPoint | eval/compute_sfm_statistics.py:99-101 | a point on the axis of an unrotated camera lands on the principal point |
| Statistics.TrackObs | eval/compute_sfm_statistics.py:109 | `zip` pairs image ids with feature indices up to the shorter array |
| Statistics.ObservationsComplete | eval/compute_sfm_statistics.py:108-109 | every pair of every track is visited |
| Statistics.ObservationsSound | eval/compute_sfm_statistics.py:108-109 | nothing but pairs of the tracks is visited |
| Statistics.PyIndex | eval/compute_sfm_statistics.py:112 | Python indexing succeeds exactly for -len <= i < len |
| Statistics.FindImage | eval/compute_sfm_statistics.py:110 | `images[id]` finds an image carrying the id, and fails exactly when none has it |
| Statistics.Observe | eval/compute_sfm_statistics.py:110-122 | an observation passes only when its image exists and the feature names the track |
| Statistics.Reproject | eval/compute_sfm_statistics.py:108-122 | one error and one behind-camera flag per observation, or the first observation's failure |
| Statistics.Mean | eval/compute_sfm_statistics.py:130 | the mean times the count is the sum |
| Statistics.Summarise | eval/compute_sfm_statistics.py:124-131 | no errors give the early return; otherwise the count, behind count, sorted errors, mean and the element at len//2 |
| Statistics.ReprojectionStats | eval/compute_sfm_statistics.py:104-135 | the statistics exist exactly when every observation passes, and are empty exactly without observations |
| Statistics.MedianSplits | eval/compute_sfm_statistics.py:129-131 | the median is an error with none before it larger and none after it smaller |
| Statistics.MeanBetweenExtremes | eval/compute_sfm_statistics.py:130 | the mean error lies between the smallest and the largest |
| Statistics.CountTrueExtremes | eval/compute_sfm_statistics.py:117-118 | the behind count is zero exactly when no flag is set and full exactly when all are |
| Statistics.MeanTrackLength | eval/compute_sfm_statistics.py:138-149 | no tracks is fatal; otherwise the mean times the count is the sum of track lengths |
| Statistics.MeanTrackLengthBounds | eval/compute_sfm_statistics.py:148 | the mean track length lies between the shortest and the longest track |
| Statistics.FindImageDistinct | eval/compute_sfm_statistics.py:110 | with distinct ids, looking an image's id up finds that image |
| Statistics.RepairedObservationConsistent | eval/compute_sfm_statistics.py:108-116 | on repaired tracks the consistency assertion never fails; only a missing camera or a non-finite projection can stop the loop |
| NameOrder.LexLeqTotal | FeatureDetector.cpp:65 | the name order is total |
| NameOrder.LexLeqTransitive | FeatureDetector.cpp:65 | the name order is transitive |
| NameOrder.LexLeqAntisymmetric | FeatureDetector.cpp:65 | the name order is antisymmetric |
| NameOrder.SortNames | FeatureDetector.cpp:65 | `std::sort` of names is a sorted permutation |
| NameOrder.SortedUnique | FeatureDetector.cpp:65 | two sorted orders of the same names are equal |
| Features.LastDot | FeatureDetector.cpp:60 | the position found is a dot with no dot after it, and none is found exactly without a dot |
| Features.Extension | FeatureDetector.cpp:60 | `extension()` is the name from its last dot on; empty without a dot and for "." and ".." |
| Features.ImageBySuffix | FeatureDetector.cpp:22 | a file is an image exactly when its name ends in .jpg, .JPG, .png or .PNG |
| Features.ImageFilter | FeatureDetector.cpp:59-63 | the image entries are kept with their multiplicity, the others dropped |
| Features.ImageList | FeatureDetector.cpp:59-65 | the listing is sorted and holds exactly the image entries |
| Features.ImageListIgnoresOrder | FeatureDetector.cpp:59-65 | the listing does not depend on the directory's order |
| Features.Row | FeatureDetector.cpp:91-93 | the inner loop yields (i, j) for j from i + 1 to n - 1 |
| Features.PairsSpec | FeatureDetector.cpp:88-94 | every pair i < j < n appears once, in lexicographic order: n(n-1)/2 jobs |
| Features.RatioTest | FeatureDetector.cpp:107-112 | at most one match per query; every query is kept exactly when all are distinctive, and none exactly when none is |
| Features.RatioTestKeeps | FeatureDetector.cpp:107-112 | the test keeps a query's nearest neighbour exactly when it is strictly below 0.7 of the second |
| Features.RatioTestSound | FeatureDetector.cpp:107-112 | nothing but distinctive nearest neighbours is kept |
| Features.RatioTestComplete | FeatureDetector.cpp:107-112 | every distinctive nearest neighbour is kept |
| Features.Kept | FeatureDetector.cpp:121-123 | at most one record per job; every job is written exactly when each has at least 16 good matches, and none exactly when none has |
| Features.KeptSound | FeatureDetector.cpp:121-123 | a written record is a job with at least 16 good matches |
| Features.KeptComplete | FeatureDetector.cpp:121-123 | every job with at least 16 good matches is written |
| Features.KeptIncreasing | FeatureDetector.cpp:121-134 | records are written in pair order |
| Features.Emit | FeatureDetector.cpp:124-132 | at least two lines per record, and the file opens with the first record's "i j" line and its match count |
| Features.EmitRoundTrip | FeatureDetector.cpp:124-132 | the match file reads back as the records written: "i j", the count, then one "queryIdx trainIdx" line each |
| Features.Good | FeatureDetector.cpp:103-113 | the good matches of each job are the ratio test of its two images' knn results |
| Features.Run | FeatureDetector.cpp:29-138 | missing arguments, a missing path and a non-directory each fail; otherwise the output file holds the records, in pair order |
| Features.Records | FeatureDetector.cpp:59-134 | the records of a listing are in strictly increasing pair order |
| Features.RecordsExact | FeatureDetector.cpp:59-134 | a pair is written exactly when it is i < j of the sorted listing with at least 16 good matches, with those matches |
| Selection.MatchingOne | utils.py:55 | the filter keeps exactly the candidates whose last character is the id's text |
| Selection.GetFileFromBuildId | utils.py:47-59 | without an id exactly one candidate is required; with one, exactly one candidate ending in the id's text |
| Selection.MultiDigitIdNeverMatches | utils.py:55-58 | an id of ten or more, or a negative id, never selects a file |
| Selection.PathJoin | utils.py:53 | `os.path.join` ends in a relative second piece |
| Selection.TheiaReconstructionFile | sfm_converter.py:51-59 | without an id exactly one candidate is required; with one, the file is 'reconstruction.bin-' + str(id) |
| Selection.TheiaAgreesWithLookup | sfm_converter.py:51-59 | for one-digit ids the two selections agree; for longer ids only the older one finds a file |
| Selection.FirstField | utils.py:25 | `split(' ')[0]` is the text up to the first space |
| Selection.FreeMemory | utils.py:25 | the free-memory field parses exactly when the first space-separated word after stripping is a decimal number |
| Selection.ParseIndexRoundTrip | utils.py:24 | a GPU index with whitespace around it parses back to the index |
| Selection.FreeMemoryRoundTrip | utils.py:25 | " n MiB", with any whitespace around it, parses back to n |
| Selection.ParseStatus | utils.py:22-25 | the rows parse exactly when every index and free-memory field parses, and then the k-th GPU is the k-th row's two values |
| Selection.PrintedRow | utils.py:16-25 | the row `nvidia-smi` prints for a GPU parses back to its index and its free memory |
| Selection.StatusRoundTrip | utils.py:16-25 | the rows `nvidia-smi` prints for a list of GPUs parse back to that list, in order |
| Selection.SetupFreeGpuFromStatus | utils.py:13-32 | nothing for n <= 0; otherwise ValueError exactly when a field does not parse, and else the choice among the parsed GPUs |
| Selection.Ranked | utils.py:27 | the GPUs are a permutation sorted by free memory, most first |
| Selection.SetupFreeGpu | utils.py:13-33 | n <= 0 chooses nothing; more than the GPUs available fails; otherwise the first n ranked GPUs |
| Selection.ChosenHaveMostFreeMemory | utils.py:27-31 | each chosen GPU has at least as much free memory as each one left out |
| Selection.SplitJoin | utils.py:32 | joining parts without the separator and splitting again gives the parts back |
| Selection.VisibleDevicesListChosen | utils.py:29-32 | `CUDA_VISIBLE_DEVICES` lists exactly the chosen indices |
| Selection.MvsNetworkCheck | utils.py:61-73 | the name comes back unchanged, and it fails exactly for a learned network whose directory is missing |
| Selection.MvsNetworkCheckIdempotent | utils.py:61-73 | applying the check to its own result changes nothing |
| Converter.FormatsFound | pipeline/sfm_converter.py:60-232 | no two adapters carry the same formats, and no format contains a '2' |
| Converter.Lookup | pipeline/sfm_converter.py:237 | `getattr` finds an adapter of that name exactly when one exists |
| Converter.SplitUnique | pipeline/sfm_converter.py:237 | a synthesised name with one '2' splits into source and target one way only |
| Converter.Dispatch | pipeline/sfm_converter.py:235-238 | the function found carries the name `'sfm_' + src + '2' + target`; nothing is found when no adapter has that name |
| Converter.DispatchTheiasfmToPmvs | pipeline/sfm_converter.py:164 | `sfm_theiasfm2pmvs` is found for theiasfm and pmvs and for no other pair |
| Converter.DispatchExact | pipeline/sfm_converter.py:235-238 | `sfm_convert_helper(src, target)` calls an adapter exactly when its name carries those formats |
| Converter.DispatchAgrees | pipeline/sfm_converter.py:235-238 | the name lookup agrees with an explicit table of supported pairs |
| Converter.NoAdapterForColmapToOpenmvs | pipeline/sfm_converter.py:105 | colmap to openmvs has no adapter, since its function lacks the 'sfm_' prefix |
| Converter.LearnedTargetsFromColmapOnly | pipeline/sfm_converter.py:214-232 | the learned MVS targets are reachable from colmap only |
| Converter.Plan | pipeline/sfm_converter.py:60-232 | every adapter that passes its assertions does at least one step |
| Converter.PlanFailsExactly | pipeline/sfm_converter.py:60-232 | an adapter fails its own assertions exactly when it asserts no build id and is given one, or it is `sfm_theiasfm2pmvs` and the images directory holds no .JPG/.jpg/.PNG/.png file; the failure is an AssertionError |
| Converter.PlanWithoutBuildId | pipeline/sfm_converter.py:165-171 | called without a build id, as the pipeline calls it, the only adapter assertion that can fail is the image-suffix one of `sfm_theiasfm2pmvs`, and it fails exactly when no image file is listed |
| Converter.NoSelectionsFind | utils.py:47-59 | a plan without a `GetFileFromBuildId` step never exits, whatever the globs yield |
| Converter.ColmapToPmvsPlan | pipeline/sfm_converter.py:143-150 | `sfm_colmap2pmvs` without a build id selects the sfm result's `sparse` model, then undistorts into pmvs |
| Converter.UndistortFinds | utils.py:47-52 | an undistortion without a build id finds its input exactly when the glob of `sparse` yields one path, and otherwise exits |
| Converter.PathSuffix | pipeline/sfm_converter.py:167 | `Path.suffix` is a dot-led tail of the name, after a non-empty stem |
| Converter.FirstImageSuffix | pipeline/sfm_converter.py:165-171 | no suffix is found exactly when no entry is an image file; otherwise it is the suffix of the first image file in listing order |
| Converter.TheiaToPmvs | pipeline/sfm_converter.py:164-176 | `sfm_theiasfm2pmvs` fails exactly when no image file is found; otherwise it selects the Theia reconstruction once, with the caller's id |
| Converter.TheiasToPmvsSelects | pipeline/sfm_converter.py:172 | the plan of `sfm_theiasfm2pmvs` selects its input once, with the caller's id |
| Converter.JpegOnlyHasNoImage | pipeline/sfm_converter.py:167-171 | a directory holding only `a.jpeg` trips the assertion: ".jpeg" is not an accepted suffix |
| Converter.LearnedTargetsShareMvsnet | pipeline/sfm_converter.py:214-232 | rmvsnet is mvsnet; pointmvsnet is mvsnet plus a fix-up step |
| Converter.SelectionsAppend | pipeline/sfm_converter.py:86 | the selections of a composed plan are those of its parts |
| Converter.BuildIdSelectsInputOnly | pipeline/sfm_converter.py:60-232 | a build id reaches only the first selection; intermediate models are selected without one |
| Converter.ColmapSelects | pipeline/sfm_converter.py:143-150 | colmap adapters select the input with the caller's id once |
| Converter.TheiasFamilySelects | pipeline/sfm_converter.py:123-130 | theiasfm adapters through colmap select the input with the id, then the intermediate model without one |
| Converter.MveFamilySelects | pipeline/sfm_converter.py:60-72 | mve adapters select their intermediate model without an id |
| Converter.CreateSparseDirectory | pipeline/sfm_converter.py:17-26 | the result is base/sparse/0 and afterwards base, base/sparse and base/sparse/0 exist |
| Converter.CreateSparseDirectoryIdempotent | pipeline/sfm_converter.py:17-26 | creating the sparse directory again changes nothing and returns the same path |
| Converter.OpenmvgToColmapDirect | sfm_converter.py:34-43 | the older openmvg2colmap fails exactly when given a build id, and otherwise repairs the tracks |
| Workspace.ReplayAppend | pipeline/pipeline_run.py:51-57 | replaying two action lists is replaying one after the other |
| Workspace.ReplayWork | pipeline/pipeline_run.py:54-56 | external calls leave the directories as they are |
| Workspace.PrepareEffect | pipeline/pipeline_run.py:51-52 | clearing and recreating leaves the stage directory fresh and nothing else beneath it |
| Workspace.Gated | pipeline/pipeline_run.py:50-57 | a stage records whether it ran; a run raises force_run by one unless its work raises, which stops the driver |
| Workspace.GatedActions | pipeline/pipeline_run.py:50-57 | a stage that runs clears, creates, then works; a skipped stage does nothing |
| Workspace.GatedDirs | pipeline/pipeline_run.py:50-57 | after a stage runs its directory exists and only directories beneath it are gone |
| Workspace.Then | pipeline_run.py:66-71 | an ungated step leaves the gates and counter alone and either works or stops the run |
| Workspace.ChainRules | pipeline/pipeline_run.py:36-68 | the first stage runs exactly when its directory is missing; a later one when its directory is missing or the counter so far is positive |
| Workspace.ChainCascade | pipeline/pipeline_run.py:36-68 | with the counter at zero, once a stage runs every later reached stage runs |
| Workspace.ChainRunsMissing | pipeline/pipeline_run.py:36-68 | with the counter at -3 or below, exactly the missing stages run |
| Workspace.ChainReplays | pipeline/pipeline_run.py:41-68 | the directories after a run are those its actions produce |
| Workspace.ChainDirs | pipeline/pipeline_run.py:41-68 | a completed run leaves every stage directory in place |
| Workspace.JoinedApart | pipeline/pipeline_run.py:42-60 | distinct names without '/' joined to one workspace lie neither beneath the other |
| Stages.MvsWork | pipeline/pipeline_run.py:54-56 | the mvs stage converts with the adapter named by its formats, then runs. It raises AttributeError exactly when there is no adapter. It raises AssertionError exactly when the adapter is `sfm_theiasfm2pmvs` and the images directory holds no image file. Otherwise it exits exactly when one of the adapter's `GetFileFromBuildId` calls does not single out one file |
| Stages.Converted | pipeline/pipeline_run.py:54-56 | the adapter fails with AssertionError as `sfm_theiasfm2pmvs` without an image file, and with an exit when one of its selections does not find exactly one file; otherwise the conversion is followed by `mvs_run_helper` |
| Stages.ColmapToPmvsNeedsOneModel | pipeline/sfm_converter.py:143-144 | colmap to pmvs passes the mvs stage exactly when the glob of the sfm result's `sparse` directory yields one model; otherwise `GetFileFromBuildId` exits |
| Stages.Drive | pipeline/pipeline_run.py:34-68 | the GPU choice runs first: with `--num_gpu` positive, a field that does not parse raises ValueError and more GPUs than `nvidia-smi` lists raise IndexError, before any stage; otherwise the stages run |
| Stages.TwoGpusOnOneMachine | pipeline/pipeline_run.py:34 | `--num_gpu 2` on a machine with one GPU stops with IndexError before the sfm stage |
| Stages.Run | pipeline/pipeline_run.py:36-68 | once the GPU choice has gone through, the sfm stage runs exactly when its directory is missing; the stages reach all three unless one stops, and none stops before the mvs stage |
| Stages.RunIsChain | pipeline/pipeline_run.py:36-68 | the driver is three gated stages: sfm never forced, mvs and fuse cleared and forced |
| Stages.DirsApart | pipeline/pipeline_run.py:41-60 | the three work directories are distinct and none lies beneath another |
| Stages.StageRules | pipeline/pipeline_run.py:36-68 | once the GPU choice has gone through, sfm runs exactly when its directory is missing; mvs and fuse when theirs is missing or force_run is positive; each run adds one |
| Stages.CascadeWithoutAutoRerun | pipeline/pipeline_run.py:36-68 | without --auto_rerun, once a stage runs every later one reruns |
| Stages.AutoRerunRunsMissing | pipeline/pipeline_run.py:36-68 | with --auto_rerun, exactly the stages whose directory is missing run |
| Stages.RunReplays | pipeline/pipeline_run.py:41-68 | the directories after a run are those its actions produce |
| Stages.RunLeavesStageDirs | pipeline/pipeline_run.py:41-68 | a completed run leaves every work directory in place |
| Converter.MvsDispatch | pipeline/mvs_converter.py:22-25 | the function found carries the name `'mvs_' + src + '2' + target`; nothing is found when no `mvs_*` function has that name |
| Converter.MvsDispatchExact | pipeline/mvs_converter.py:10-25 | `mvs_convert_helper` finds an `mvs_*` function exactly when both formats are the same and one of colmap, mvsnet, pointmvsnet |
| Stages.FuseWork | pipeline/pipeline_run.py:64-67 | the fuse stage links the mvs result with the adapter named by its formats, then fuses; it raises AttributeError exactly when there is none |
| Stages.StopsWithoutAdapter | pipeline/pipeline_run.py:48-68 | the stages stop exactly when the mvs stage runs without an `sfm_*` adapter (AttributeError), as `sfm_theiasfm2pmvs` without an image file (AssertionError) or with a selection that does not find one file (exit), or when the fuse stage runs without an `mvs_*` adapter (AttributeError); after an mvs-stage stop the fuse stage is not reached |
| Stages.FuseStopsUnlessLinked | pipeline/pipeline_run.py:59-68 | a fuse algorithm that differs from the mvs algorithm, or an mvs result other than colmap, mvsnet or pointmvsnet, stops the run whenever the fuse stage runs |
| Stages.ColmapToOpenmvsStops | pipeline/pipeline_run.py:48-57 | colmap to openmvs stops the run whenever the mvs stage runs |
| LegacyStages.Drive | pipeline_run.py:44-79 | the GPU choice runs first: with `--num_gpu` positive, a field that does not parse raises ValueError and more GPUs than `nvidia-smi` lists raise IndexError, before any stage; otherwise the stages run as written |
| LegacyStages.Run | pipeline_run.py:46-79 | once the GPU choice has gone through, with the intended conversion, the sfm stage runs exactly when its directory is missing, and the run reaches all three stages unless it stops |
| LegacyStages.RunAsWritten | pipeline_run.py:46-79 | once the GPU choice has gone through, as written, the sfm stage runs exactly when its directory is missing, and the run reaches all three stages unless it stops |
| LegacyStages.Runner | pipeline_run.py:14-30 | a runner succeeds exactly for colmap; any other algorithm raises RuntimeError |
| LegacyStages.LayoutHolds | pipeline_run.py:51-79 | the three stage directories are distinct and none lies beneath another |
| LegacyStages.StageRules | pipeline_run.py:46-79 | once the GPU choice has gone through, sfm runs exactly when its directory is missing; normalize and mvs when theirs is missing or force_run is positive |
| LegacyStages.CascadeWithoutAutoRerun | pipeline_run.py:46-79 | without --auto_rerun, once a stage runs every later reached stage reruns |
| LegacyStages.AutoRerunRunsMissing | pipeline_run.py:46-79 | with --auto_rerun, exactly the stages whose directory is missing run |
| LegacyStages.RunLeavesStageDirs | pipeline_run.py:51-79 | the directories after a run are those its actions produce, and a completed run leaves every stage directory |
| LegacyStages.RunnersAcceptOnlyColmap | pipeline_run.py:14-30 | a stage that runs with an algorithm other than colmap stops the run with RuntimeError |
| LegacyStages.ConversionFeedsMvs | pipeline_run.py:66-79 | with the intended conversion, differing algorithms convert into 'sfm_normalize_' + mvs, which the mvs stage then reads |
| LegacyStages.ConvertIsUndefined | pipeline_run.py:66-71 | as written, differing algorithms never reach the mvs stage; after normalize the run stops with NameError |
| LegacyStages.AsWrittenAgreesWhenSame | pipeline_run.py:66 | when the algorithms agree there is no conversion and both runs coincide |

## Left out

- Floating point: IEEE rounding, `%f` six-decimal text and float32 ranges are not modelled. Reals stand in for
  floats and doubles. The prebundle's float32 values are opaque 32-bit words, which is enough for its round trip.
- `np.linalg.norm` is a parameter (`dist`) of the statistics loop. A projection that divides by zero gives
  `NonFinite` instead of an infinity. `np.median`, `np.histogram` and the log output are left out. The median
  modelled is the element at `len // 2` that the reprojection statistics use.
- File I/O, `cv2.imread`, `os.mkdir`, `os.rename`, `os.symlink`, globbing and absolute paths are left out:
  - image sizes, the images directory's listing, the `nvidia-smi` rows and what each glob of
    `GetFileFromBuildId` yields are inputs of the drivers (`Stages.Listings`); a glob of a directory an earlier
    step of the same adapter creates is an input too, not derived from that step;
  - the file system of the drivers is the set of existing directories.
- External programs (colmap, openMVG, Theia, MVE, pmvs, MVSNet, PointMVSNet, `nvidia-smi`) are abstract steps. So
  are `sfm_run_helper`, `mvs_run_helper` and `fuse_run_helper`. The `mvs_*` functions that `mvs_convert_helper`
  finds are modelled only as the symlink they name. The effect of these steps on files inside directories is not
  modelled. The run helpers are assumed to return normally, although `sfm_run_helper` calls `sfm_theiasfm` and
  `sfm_mve` with two arguments where they take three (pipeline/sfm_run.py:120-123 against :81 and :113), which
  raises TypeError for those two algorithms.
- `Stages.MvsWork`, `Stages.Converted`, `Stages.StopsWithoutAdapter` and `Converter.PlanWithoutBuildId` do not see
  the assertions inside the code an adapter's steps call. These depend on file contents the stage does not read:
  - the track-count assertion of `fixed_openmvg_to_colmap_error` (pipeline/sfm_converter.py:55), reached from
    `sfm_openmvg2colmap`;
  - `save_mve_sfm`'s PINHOLE and fx≈fy assertions (load_mve_sfm.py:169-170), reached from `sfm_colmap2mve` and
    `sfm_theiasfm2mve`;
  - the reader assertions of `load_mve_sfm` (load_mve_sfm.py:57-66), reached from the mve adapters.

  Their "exactly when" holds for files that pass these checks. The checks themselves are modelled on their own by
  `Tracks.FixTracks`, `MveWriter.WriteMetas` and `BundlePy.ReadBundler`.
- OpenCV SIFT, FLANN and the OpenMP loops of `FeatureDetector::run` are left out. The knn results are a
  parameter. A query with fewer than two neighbours is not modelled: the source reads `knn[1]` unconditionally.
- `0.7f` is the real 7/10; the float comparison is not modelled.
- The Boost.Filesystem version 3 rule for `extension()` is assumed. Dot files such as ".jpg" count as having
  the extension ".jpg".
- Python `int()` is modelled on tokens, and on the `nvidia-smi` fields after `strip()`, as plain decimal digits:
  a sign and digit-group underscores are not modelled. argparse is not modelled:
  - its `choices` are a `Valid` predicate;
  - `type=bool` on `--auto_rerun` is a plain boolean;
  - `mvs_network_check` is a function, not an argparse type hook.
- `GetFileFromBuildId` returns the candidate itself, not its absolute path.
- `sfm_convert_helper`'s build id is not passed into the modelled conversion steps, and its images directory
  reaches them only as the listing `sfm_theiasfm2pmvs` searches for an image suffix. That listing is an input, in
  the order `Path.iterdir()` gives, which the file system decides.
- Marker files and context files of the run helpers are left out.
- The C++ `load_bundler_ps_intern` is declared `void`, yet the model returns the bundle it builds, as intended.
- `CppStream.ReadInt`: extraction is modelled on whole tokens. C++ `in >> n` takes the integer prefix of a token
  such as "1.5", storing 1 and leaving ".5" for the next extraction. The model instead fails on any token that is not
  an integer literal. The tokens abstract away the characters, so the prefix cannot be expressed; files written by
  the writer never put a decimal where an integer is read. On a stream that has already failed, C++ leaves the
  variable unchanged; for `num_views`, `num_features` and `ref_amount` that is their initial 0, but the ids of
  `Bundle::Feature2D ref` (theiasfm_reconstruction_helper.cpp:302) are default-initialised and so indeterminate,
  and such a reference is still pushed when the stream failed without reaching the end of the file. The model
  gives those ids 0, and likewise 0.0 for every float read from a failed stream or past the end of the file, where C++
  also leaves the variable unchanged, whether a camera value, a feature's position or colour, or a Bundler
  position.
- `BundleCpp.ReadFeatures`: the contract states shape and error facts only. The exact features read are stated
  for written files by `SynthCpp.ReadFeaturesAfter`.
- `Prebundle.ReadViewports`: its contract only excludes signature errors. What it reads is stated by
  `PrebundleRoundTrip.ViewportsRoundTrip`.
- `Prebundle.LoadBody`: a count that the end of the file cuts short is reported as `PrematureEof`. In C++ a
  failed `in.read` leaves that `int32_t` partly or wholly indeterminate, and every later count read from the failed
  stream is indeterminate too. `resize` on such a value may throw `std::length_error` or `std::bad_alloc` before the
  end-of-file test at theiasfm_reconstruction_helper.cpp:182-186 is reached, or the pair loop may run for an
  arbitrary count. The model picks the outcome the end-of-file test gives and does not model the others.
- `Prebundle.ReadPairs`: its contract only excludes signature errors. The pairs it reads are stated by
  `PrebundleRoundTrip.PairsRoundTrip`.
- Rotations are held as matrices. `rotmat2qvec` (load_mve_sfm.py:42) and `qvec2rotmat` (load_mve_sfm.py:137 and
  163, compute_sfm_statistics.py:100) are not modelled. The model treats the matrix to quaternion to matrix trip
  as the identity. That holds, up to rounding, only for proper rotation matrices: rows read from a Bundler file
  that are not a rotation come back changed in the source, while the model keeps them as read.
- `MveFeature.ReadMveFeature`: the contract states only the signature requirement. The lists it returns are
  stated for saved files by `MveFeatureRoundTrip.SavedThenRest`.
- View selection, neighbour scoring and depth-range estimation have no code among the repository's files; they
  are not part of this model.

## Findings

| source | as written | input that shows it | evidently intended | confidence | as-written member | corrected member |
|---|---|---|---|---|---|---|
| eval/compute_sfm_statistics.py:47 | `r6 = r4 * r4`, so k3 and k6 multiply r^8 | fx = fy = 1, k3 = 1, the rest 0, point (2, 0): pixel x 514 | r^6 = r4·r2, which gives 130 | not executed | Cameras.OpencvAsWrittenEighthOrder | Cameras.OpencvMatchesReference |
| eval/compute_sfm_statistics.py:52-55 | the tangential deltas go into `p` after `ret = p * coef`, so they never reach the pixel | fx = fy = 1, p1 = 1, the rest 0, point (1, 1): pixel (1, 1) | OpenCV's model adds the deltas to the distorted point, giving (3, 5) | not executed | Cameras.OpencvAsWrittenDropsTangential | Cameras.OpencvMatchesReference |
| pipeline_run.py:70 | calls `convert`, a name the module never defines | sfm = colmap, mvs = openmvs with both stages succeeding: NameError | convert the normalized model into `sfm_normalize_<mvs>` and run mvs on it | not executed | LegacyStages.ConvertIsUndefined | LegacyStages.ConversionFeedsMvs |

=== FILE: bundle_cpp.dfy ===
/**
 * Formatted extraction from a C++ `std::istream` (`in >> x`), at the level of
 * tokens.  A stream holds the tokens not yet read, whether whitespace follows
 * the last token, and its eof and fail bits.
 */
module CppStream {
  import opened Tokens

  datatype Stream = Stream(toks: seq<Token>, spaceAtEnd: bool, eof: bool, fail: bool)

  /** A value extracted and the stream after the extraction. */
  datatype Got<T> = Got(st: Stream, v: T)

  const IntMin: int := -0x8000_0000
  const IntMax: int := 0x7fff_ffff

  /** A freshly opened stream over a file's tokens. */
  function Open(toks: seq<Token>, spaceAtEnd: bool): Stream {
    Stream(toks, spaceAtEnd, false, false)
  }

  /**
   * Takes the first token.  Parsing a token that ends the file (no
   * whitespace after it) runs into the end of the file and sets eof.
   */
  function Consume(st: Stream): (r: Stream)
    requires st.toks != []
    ensures r.toks == st.toks[1..] && r.fail == st.fail
    ensures r.eof <==> st.eof || (|st.toks| == 1 && !st.spaceAtEnd)
  {
    st.(toks := st.toks[1..], eof := st.eof || (|st.toks| == 1 && !st.spaceAtEnd))
  }

  /**
   * `in >> n` for an `int n`, on whole tokens.  On a failed stream nothing is
   * read; at the end of the file eof and fail are set; a token that is not
   * an integer literal sets fail; an out-of-range literal sets fail and
   * clamps.  A failed parse stores 0.  On a stream that had already failed,
   * C++ leaves the variable as it was; the model gives 0 there.  That is
   * what `num_views`, `num_features` and `ref_amount` were initialised to,
   * but the ids of a fresh `Bundle::Feature2D ref` are indeterminate, so for
   * `ReadRef` the 0 is the model's choice.
   */
  function ReadInt(st: Stream): (r: Got<int>)
    ensures st.fail ==> r.st == st
    ensures st.eof ==> r.st.eof
    ensures r.st.fail <==> st.fail || st.toks == [] || !st.toks[0].Int? || !(IntMin <= st.toks[0].i <= IntMax)
    ensures !r.st.fail ==> r.v == st.toks[0].i && r.st == Consume(st)
  {
    if st.fail then Got(st, 0)
    else if st.toks == [] then Got(st.(eof := true, fail := true), 0)
    else
      match st.toks[0]
      case Int(i) =>
        if i > IntMax then Got(Consume(st).(fail := true), IntMax)
        else if i < IntMin then Got(Consume(st).(fail := true), IntMin)
        else Got(Consume(st), i)
      case _ => Got(st.(fail := true), 0)
  }

  /** `in >> x` for a `float x`; float range and precision are not modelled. */
  function ReadFloat(st: Stream): (r: Got<real>)
    ensures st.fail ==> r.st == st
    ensures st.eof ==> r.st.eof
    ensures r.st.fail <==> st.fail || st.toks == [] || st.toks[0].Word?
    ensures !r.st.fail ==> r.st == Consume(st) && Some(r.v) == PyFloat(st.toks[0])
  {
    if st.fail then Got(st, 0.0)
    else if st.toks == [] then Got(st.(eof := true, fail := true), 0.0)
    else
      match st.toks[0]
      case Int(i) => Got(Consume(st), i as real)
      case Dec(x) => Got(Consume(st), x)
      case Word => Got(st.(fail := true), 0.0)
  }

  /** `k` extractions into consecutive floats. */
  function ReadFloats(st: Stream, k: nat): (r: Got<seq<real>>)
    ensures |r.v| == k
    ensures st.eof ==> r.st.eof
    ensures st.fail ==> r.st == st
    ensures !r.st.fail ==> k <= |st.toks| && r.st.toks == st.toks[k..]
    ensures !r.st.fail ==> forall i | 0 <= i < k :: Some(r.v[i]) == PyFloat(st.toks[i])
    decreases k
  {
    if k == 0 then Got(st, [])
    else
      var x := ReadFloat(st);
      var tail := ReadFloats(x.st, k - 1);
      assert !tail.st.fail ==> forall i | 1 <= i < k :: st.toks[i] == x.st.toks[i - 1];
      Got(tail.st, [x.v] + tail.v)
  }

  import opened Wrappers

  /** Reading decimal tokens one by one takes exactly them, in order. */
  lemma {:induction false} ReadFloatsAfter(xs: seq<real>, rest: seq<Token>, spaceAtEnd: bool)
    requires rest != [] || spaceAtEnd
    ensures ReadFloats(Open(DecTokens(xs) + rest, spaceAtEnd), |xs|) == Got(Open(rest, spaceAtEnd), xs)
  {
    if xs != [] {
      var st := Open(DecTokens(xs) + rest, spaceAtEnd);
      assert st.toks[1..] == DecTokens(xs[1..]) + rest;
      assert ReadFloat(st) == Got(Open(DecTokens(xs[1..]) + rest, spaceAtEnd), xs[0]);
      ReadFloatsAfter(xs[1..], rest, spaceAtEnd);
      assert [xs[0]] + xs[1..] == xs;
    } else {
      assert DecTokens(xs) + rest == rest;
    }
  }
}

/**
 * `load_bundler_ps_intern` in theiasfm_reconstruction_helper.cpp: reads a
 * Photosynther ("drews 1.0") or Noah Bundler ("# Bundle file v0.3") file
 * into cameras and 3D features with their 2D references.
 */
module BundleCpp {
  import opened Wrappers
  import opened Tokens
  import opened CppStream

  datatype Format = Photosynther | NoahBundler

  /** The first line each format must start with. */
  function VersionLine(f: Format): string {
    match f
    case Photosynther => "drews 1.0"
    case NoahBundler => "# Bundle file v0.3"
  }

  /** `CameraInfo`: focal length, two radial distortion terms, a row-major rotation, a translation. */
  datatype CameraInfo = CameraInfo(flen: real, dist: seq<real>, rot: seq<real>, trans: seq<real>)

  /** `Bundle::Feature2D`: a view, a feature in it, and a position. */
  datatype Feature2D = Feature2D(viewId: int, featureId: int, pos: seq<real>)

  /** `Bundle::Feature3D`: position, colour scaled to [0,1] for byte input, references. */
  datatype Feature3D = Feature3D(pos: seq<real>, color: seq<real>, refs: seq<Feature2D>)

  datatype Bundle = Bundle(cameras: seq<CameraInfo>, features: seq<Feature3D>)

  datatype BundleError =
    | InvalidSignature(line: string)  // "Invalid file signature: ..."
    | UnexpectedEof                   // "Unexpected EOF in bundle file"
    | SpuriousAmount                  // "Spurious amount of cameras or features"
    | ReadError                       // "Bundle file read error"
    | InvalidRefAmount                // "Invalid feature reference amount"

  const MaxViews: int := 10000
  const MaxFeatures: int := 100000000

  /** Photosynther files carry no 2D positions; the reader fills in (-1, -1). */
  const NoPosition: seq<real> := [-1.0, -1.0]

  /** The fifteen numbers of a camera in the order the file lists them. */
  function CameraValues(c: CameraInfo): seq<real> {
    [c.flen] + c.dist + c.rot + c.trans
  }

  /**
   * One camera block: focal length, two distortion terms, nine rotation
   * entries and three translation entries, extracted in that order.  When
   * the stream has not failed, these are the values of its next fifteen
   * tokens, read as floats.
   */
  function ReadCamera(st: Stream): (r: Got<CameraInfo>)
    ensures |r.v.dist| == 2 && |r.v.rot| == 9 && |r.v.trans| == 3
    ensures st.eof ==> r.st.eof
    ensures st.fail ==> r.st == st
    ensures !r.st.fail ==> 15 <= |st.toks| && r.st.toks == st.toks[15..]
    ensures !r.st.fail ==> PyFloats(st.toks[..15]) == Some(CameraValues(r.v))
  {
    var f := ReadFloat(st);
    var d := ReadFloats(f.st, 2);
    var rot := ReadFloats(d.st, 9);
    var t := ReadFloats(rot.st, 3);
    var r := Got(t.st, CameraInfo(f.v, d.v, rot.v, t.v));
    CameraTokens(st, f, d, rot, t);
    r
  }

  /** The four extractions of a camera block read its fifteen tokens in turn. */
  lemma CameraTokens(st: Stream, f: Got<real>, d: Got<seq<real>>, rot: Got<seq<real>>, t: Got<seq<real>>)
    requires f == ReadFloat(st) && d == ReadFloats(f.st, 2) && rot == ReadFloats(d.st, 9) && t == ReadFloats(rot.st, 3)
    ensures !t.st.fail ==> 15 <= |st.toks| && t.st.toks == st.toks[15..]
    ensures !t.st.fail ==> PyFloats(st.toks[..15]) == Some(CameraValues(CameraInfo(f.v, d.v, rot.v, t.v)))
  {
    if !t.st.fail {
      assert !rot.st.fail && !d.st.fail && !f.st.fail;
      var vs := CameraValues(CameraInfo(f.v, d.v, rot.v, t.v));
      assert |vs| == 15;
      forall i | 0 <= i < 15
        ensures Some(vs[i]) == PyFloat(st.toks[..15][i])
      {
        if i == 0 {
        } else if i < 3 {
          assert vs[i] == d.v[i - 1] && st.toks[i] == f.st.toks[i - 1];
        } else if i < 12 {
          assert vs[i] == rot.v[i - 3] && st.toks[i] == d.st.toks[i - 3];
        } else {
          assert vs[i] == t.v[i - 12] && st.toks[i] == rot.st.toks[i - 12];
        }
      }
      var ps := PyFloats(st.toks[..15]);
      assert forall i | 0 <= i < 15 :: !st.toks[..15][i].Word?;
      assert ps.Some?;
      assert forall i | 0 <= i < 15 :: Some(ps.value[i]) == Some(vs[i]);
      assert ps.value == vs;
    }
  }

  function ReadCameras(st: Stream, n: nat): (r: Got<seq<CameraInfo>>)
    ensures |r.v| == n
    ensures st.eof ==> r.st.eof
    ensures st.fail ==> r.st == st
    decreases n
  {
    if n == 0 then Got(st, [])
    else
      var c := ReadCamera(st);
      var tail := ReadCameras(c.st, n - 1);
      Got(tail.st, [c.v] + tail.v)
  }

  /** The number of tokens one reference takes in each format. */
  function RefWidth(format: Format): nat {
    match format
    case Photosynther => 3
    case NoahBundler => 4
  }

  /**
   * `ts` are the tokens of reference `f`: two `int` literals for the view
   * and feature ids, then a number for the quality or two for the position.
   */
  predicate Encodes(ts: seq<Token>, format: Format, f: Feature2D) {
    && |ts| == RefWidth(format)
    && ts[0] == Int(f.viewId) && ts[1] == Int(f.featureId)
    && IntMin <= f.viewId <= IntMax && IntMin <= f.featureId <= IntMax
    && match format
       case Photosynther => !ts[2].Word? && f.pos == NoPosition
       case NoahBundler => PyFloats(ts[2..]) == Some(f.pos)
  }

  /** One reference: view and feature ids, then the quality (dropped) or the position. */
  function ReadRef(st: Stream, format: Format): (r: Got<Feature2D>)
    ensures format == Photosynther ==> r.v.pos == NoPosition
    ensures |r.v.pos| == 2
    ensures st.eof ==> r.st.eof
    ensures st.fail ==> r.st == st
    ensures !r.st.fail ==> && RefWidth(format) <= |st.toks| && r.st.toks == st.toks[RefWidth(format)..]
                           && Encodes(st.toks[..RefWidth(format)], format, r.v)
  {
    var view := ReadInt(st);
    var feat := ReadInt(view.st);
    match format
    case Photosynther =>
      var quality := ReadFloat(feat.st);
      Got(quality.st, Feature2D(view.v, feat.v, NoPosition))
    case NoahBundler =>
      var pos := ReadFloats(feat.st, 2);
      RefPosition(st.toks, feat.st.toks, pos.v, pos.st.fail);
      Got(pos.st, Feature2D(view.v, feat.v, pos.v))
  }

  /** Two position values read from the tokens after the ids are those tokens' values. */
  lemma RefPosition(toks: seq<Token>, after: seq<Token>, pos: seq<real>, failed: bool)
    requires !failed ==> && 2 <= |toks| && after == toks[2..] && 2 <= |after| && |pos| == 2
                         && forall i | 0 <= i < 2 :: Some(pos[i]) == PyFloat(after[i])
    ensures !failed ==> PyFloats(toks[..4][2..]) == Some(pos)
  {
    if !failed {
      var ts := toks[..4][2..];
      assert forall i | 0 <= i < 2 :: ts[i] == after[i];
      var ps := PyFloats(ts);
      assert ps.Some?;
      assert forall i | 0 <= i < 2 :: Some(ps.value[i]) == Some(pos[i]);
      assert ps.value == pos;
    }
  }

  /**
   * `n` references, one after another: unless the stream fails, the k-th
   * reference is read from the k-th group of `RefWidth` tokens.
   */
  function ReadRefs(st: Stream, n: nat, format: Format): (r: Got<seq<Feature2D>>)
    ensures |r.v| == n
    ensures forall k | 0 <= k < n :: |r.v[k].pos| == 2 && (format == Photosynther ==> r.v[k].pos == NoPosition)
    ensures st.eof ==> r.st.eof
    ensures st.fail ==> r.st == st
    ensures !r.st.fail ==> && n * RefWidth(format) <= |st.toks| && r.st.toks == st.toks[n * RefWidth(format)..]
                           && forall k | 0 <= k < n :: Encodes(RefTokens(st.toks, format, k), format, r.v[k])
    decreases n
  {
    if n == 0 then Got(st, [])
    else
      var x := ReadRef(st, format);
      var tail := ReadRefs(x.st, n - 1, format);
      RefsShift(st.toks, x.st.toks, format, n, x.v, tail.v, tail.st.fail);
      Got(tail.st, [x.v] + tail.v)
  }

  /** The k-th group of `RefWidth(format)` tokens. */
  function RefTokens(ts: seq<Token>, format: Format, k: nat): seq<Token>
    requires (k + 1) * RefWidth(format) <= |ts|
  {
    ts[k * RefWidth(format)..(k + 1) * RefWidth(format)]
  }

  /** Reading one reference and then `n - 1` more reads the groups in order. */
  lemma RefsShift(ts: seq<Token>, after: seq<Token>, format: Format, n: nat, f: Feature2D, fs: seq<Feature2D>, failed: bool)
    requires 0 < n && |fs| == n - 1
    requires !failed ==> RefWidth(format) <= |ts| && after == ts[RefWidth(format)..] && Encodes(ts[..RefWidth(format)], format, f)
    requires !failed ==> && (n - 1) * RefWidth(format) <= |after|
                         && forall k | 0 <= k < n - 1 :: Encodes(RefTokens(after, format, k), format, fs[k])
    ensures !failed ==> && n * RefWidth(format) <= |ts| && after[(n - 1) * RefWidth(format)..] == ts[n * RefWidth(format)..]
                        && forall k | 0 <= k < n :: Encodes(RefTokens(ts, format, k), format, ([f] + fs)[k])
  {
    var w := RefWidth(format);
    if !failed {
      assert n * w == w + (n - 1) * w;
      forall k | 0 <= k < n
        ensures Encodes(RefTokens(ts, format, k), format, ([f] + fs)[k])
      {
        if k == 0 {
          assert RefTokens(ts, format, 0) == ts[..w];
        } else {
          assert k * w == w + (k - 1) * w && (k + 1) * w == w + k * w;
          assert RefTokens(ts, format, k) == RefTokens(after, format, k - 1);
        }
      }
    }
  }

  /** `feature.color[j] /= 255.0f` for each channel. */
  function ScaleColor(c: seq<real>): (r: seq<real>)
    ensures |r| == |c| && forall j | 0 <= j < |c| :: r[j] * 255.0 == c[j]
  {
    seq(|c|, j requires 0 <= j < |c| => c[j] / 255.0)
  }

  /** What every feature the reader returns satisfies. */
  ghost predicate WellFormedFeature(f: Feature3D, numViews: int, format: Format) {
    && |f.pos| == 3 && |f.color| == 3 && 0 <= |f.refs| <= numViews
    && forall k | 0 <= k < |f.refs| :: |f.refs[k].pos| == 2 && (format == Photosynther ==> f.refs[k].pos == NoPosition)
  }

  /**
   * The feature loop: a reference amount outside [0, numViews] is an error;
   * when eof is seen after a feature, that feature is dropped and the loop
   * stops, with no error.
   */
  function ReadFeatures(st: Stream, n: nat, numViews: int, format: Format): (r: Result<seq<Feature3D>, BundleError>)
    ensures r.Ok? ==> |r.value| <= n
    ensures r.Ok? ==> forall k | 0 <= k < |r.value| :: WellFormedFeature(r.value[k], numViews, format)
    ensures r.Err? ==> r.error == InvalidRefAmount
    decreases n
  {
    if n == 0 then Ok([])
    else
      var pos := ReadFloats(st, 3);
      var col := ReadFloats(pos.st, 3);
      var amount := ReadInt(col.st);
      if amount.v < 0 || amount.v > numViews then Err(InvalidRefAmount)
      else
        var refs := ReadRefs(amount.st, amount.v, format);
        if refs.st.eof then Ok([])
        else
          var tail :- ReadFeatures(refs.st, n - 1, numViews, format);
          Ok([Feature3D(pos.v, ScaleColor(col.v), refs.v)] + tail)
  }

  /**
   * `load_bundler_ps_intern` over the file's first line and the tokens after
   * it; `spaceAtEnd` tells whether the file ends in whitespace.
   */
  function LoadBundlerPs(firstLine: string, toks: seq<Token>, spaceAtEnd: bool, format: Format)
    : (r: Result<Bundle, BundleError>)
    ensures r == Err(InvalidSignature(firstLine)) <==> firstLine != VersionLine(format)
    ensures r.Ok? ==> |r.value.cameras| <= MaxViews && |r.value.features| <= MaxFeatures
    ensures r.Ok? ==> forall k | 0 <= k < |r.value.features| ::
                        WellFormedFeature(r.value.features[k], |r.value.cameras|, format)
  {
    if firstLine != VersionLine(format) then Err(InvalidSignature(firstLine))
    else
      var views := ReadInt(Open(toks, spaceAtEnd));
      var feats := ReadInt(views.st);
      if feats.st.eof then Err(UnexpectedEof)
      else if views.v < 0 || views.v > MaxViews || feats.v < 0 || feats.v > MaxFeatures then Err(SpuriousAmount)
      else
        var cams := ReadCameras(feats.st, views.v);
        if cams.st.eof then Err(UnexpectedEof)
        else if cams.st.fail then Err(ReadError)
        else
          var features :- ReadFeatures(cams.st, feats.v, views.v, format);
          Ok(Bundle(cams.v, features))
  }
}

=== FILE: bundle_py.dfy ===
/**
 * `read_bundler` in load_mve_sfm.py: reads a Photosynther or Bundler file
 * line by line into COLMAP cameras, images and points.  The image sizes that
 * the source takes from `cv2.imread` and the per-view feature positions from
 * `read_mve_feature` are parameters.
 */
module BundlePy {
  import opened Wrappers
  import opened Tokens
  import opened Colmap
  import opened Strings
  import BundleCpp

  /** `cv2.imread(...).shape` of a view's original image. */
  datatype ImageSize = ImageSize(width: nat, height: nat)

  datatype PyBundleError =
    | WrongFormat          // LogThanExitIfFailed on the first line: the process exits
    | ValueError           // int()/float() of a bad token, a bad unpack, arrays that do not fit
    | IndexError           // a missing parameter, a missing field, a bad feature index
    | KeyError             // a track names an image that is not in the file
    | ImageNotFound        // cv2.imread found no image for the view
    | TrackLengthMismatch  // assert track_lengths == len(image_ids) / len(point2D_idxs)
    | DataLeft             // assert left == ''
    | ViewCountMismatch    // assert len(images_xys) == len(images)

  /** A value read and the lines left after it. */
  datatype Step<T> = Step(value: T, rest: seq<Line>)

  /** `f.readline().split()`: at the end of the file the line is empty. */
  function NextLine(ls: seq<Line>): (r: Step<Line>)
    ensures ls != [] ==> r == Step(ls[0], ls[1..])
    ensures ls == [] ==> r == Step([], [])
  {
    if ls == [] then Step([], []) else Step(ls[0], ls[1..])
  }

  /** `s[k:]`. */
  function Drop(s: seq<Token>, k: nat): (r: seq<Token>)
    ensures |s| <= k ==> r == []
    ensures k < |s| ==> r == s[k..]
  {
    if |s| <= k then [] else s[k..]
  }

  /** `s[::3]`. */
  function Every3(s: seq<Token>): (r: seq<Token>)
    ensures |r| == (|s| + 2) / 3
    ensures forall k | 0 <= k < |r| :: r[k] == s[3 * k]
    decreases |s|
  {
    if s == [] then []
    else
      var tail := Every3(Drop(s, 3));
      assert forall k | 1 <= k < |tail| + 1 :: tail[k - 1] == s[3 * k];
      [s[0]] + tail
  }

  /** `np.ones(n) * -1`. */
  function Unassigned(n: nat): (r: seq<int>)
    ensures |r| == n && forall s | 0 <= s < n :: r[s] == -1
  {
    seq(n, _ => -1)
  }

  /** Where numpy puts `a[idx]` for an array of length `n`: negative indices count from the end. */
  function Slot(idx: int, n: nat): int {
    if idx < 0 then idx + n else idx
  }

  /** Whether numpy accepts `idx` for an array of length `n`. */
  predicate ValidIndex(idx: int, n: nat) {
    -(n as int) <= idx < n
  }

  /**
   * `images_xys[i] * max_dim + [width / 2, height / 2] - 0.5`: positions
   * relative to the image centre in units of the larger side, turned into
   * pixel coordinates.
   */
  function Pixels(xy: seq<Point2>, size: ImageSize): (r: seq<Point2>)
    ensures |r| == |xy|
    ensures forall k | 0 <= k < |xy| ::
              var m := MaxDim(size.width, size.height) as real;
              && r[k].x == xy[k].x * m + size.width as real / 2.0 - 0.5
              && r[k].y == xy[k].y * m + size.height as real / 2.0 - 0.5
  {
    var m := MaxDim(size.width, size.height) as real;
    seq(|xy|, k requires 0 <= k < |xy| =>
      Point2(xy[k].x * m + size.width as real / 2.0 - 0.5, xy[k].y * m + size.height as real / 2.0 - 0.5))
  }

  /** Line `k`, as the `k + 1`-th `f.readline()` returns it: empty past the end. */
  function LineAt(ls: seq<Line>, k: nat): Line {
    if k < |ls| then ls[k] else []
  }

  /** The lines left after `k` reads. */
  function LinesAfter(ls: seq<Line>, k: nat): seq<Line> {
    if k <= |ls| then ls[k..] else []
  }

  /** Reading line by line and reading line `k` directly agree. */
  lemma NextLineAt(ls: seq<Line>, k: nat)
    ensures NextLine(LinesAfter(ls, k)) == Step(LineAt(ls, k), LinesAfter(ls, k + 1))
  {
  }

  /** The entries of a rotation row. */
  function RowEntries(v: Vec3): seq<real> {
    [v.x, v.y, v.z]
  }

  /**
   * Lines 1 to 3 of a camera block, stacked into the rotation matrix: each
   * line must hold three floats.
   */
  function ReadRotation(ls: seq<Line>): (r: Result<Mat3, PyBundleError>)
    ensures r.Err? ==> r.error == ValueError
    ensures r.Ok? ==> && PyFloats(LineAt(ls, 1)) == Some(RowEntries(r.value.r0))
                      && PyFloats(LineAt(ls, 2)) == Some(RowEntries(r.value.r1))
                      && PyFloats(LineAt(ls, 3)) == Some(RowEntries(r.value.r2))
  {
    var row1 :- PyFloats(LineAt(ls, 1)).ToResult(ValueError);
    var row2 :- PyFloats(LineAt(ls, 2)).ToResult(ValueError);
    var row3 :- PyFloats(LineAt(ls, 3)).ToResult(ValueError);
    if |row1| != 3 || |row2| != 3 || |row3| != 3 then Err(ValueError)
    else
      var rot := Mat3(Vec3(row1[0], row1[1], row1[2]), Vec3(row2[0], row2[1], row2[2]),
                      Vec3(row3[0], row3[1], row3[2]));
      assert RowEntries(rot.r0) == row1 && RowEntries(rot.r1) == row2 && RowEntries(rot.r2) == row3;
      Ok(rot)
  }

  /** The RADIAL camera of image `i` from the block's first line f, k1, k2. */
  function RadialCamera(i: nat, size: ImageSize, f: seq<real>): (c: Camera)
    requires |f| >= 3
    ensures c.id == i && c.model == "RADIAL" && c.width == size.width && c.height == size.height
    ensures |c.params| == 5 && c.params[0] == f[0] * MaxDim(size.width, size.height) as real
    ensures c.params[1] == size.width as real / 2.0 - 0.5 && c.params[2] == size.height as real / 2.0 - 0.5
    ensures c.params[3..] == f[1..3]
  {
    Camera(i, "RADIAL", size.width, size.height,
           [f[0] * MaxDim(size.width, size.height) as real, size.width as real / 2.0 - 0.5,
            size.height as real / 2.0 - 0.5, f[1], f[2]])
  }

  /**
   * One camera block: the RADIAL camera built from f, k1, k2 and the image
   * size, and the image with its scaled feature positions and no 3D points.
   * The block is five lines: f, k1, k2; three rotation rows; the
   * translation.
   */
  function ReadView(ls: seq<Line>, i: nat, xys: seq<seq<Point2>>, sizes: seq<ImageSize>)
    : (r: Result<Step<(Camera, Image)>, PyBundleError>)
    ensures r.Err? ==> r.error != WrongFormat
    ensures r.Ok? ==> i < |sizes| && i < |xys| && |r.value.rest| <= |ls|
    ensures r.Ok? ==> var (c, im) := r.value.value;
              && c.id == i && c.model == "RADIAL" && c.width == sizes[i].width && c.height == sizes[i].height
              && |c.params| == 5
              && c.params[1] == sizes[i].width as real / 2.0 - 0.5 && c.params[2] == sizes[i].height as real / 2.0 - 0.5
              && im.id == i && im.cameraId == i && im.name == Pad4(i) + ".jpg"
              && |im.xys| == |xys[i]| > 0 && im.point3DIds == Unassigned(|xys[i]|)
    ensures r.Ok? ==> var (c, im) := r.value.value;
              var ps := PyFloats(LineAt(ls, 0));
              && ps.Some? && |ps.value| >= 3
              && c.params[0] == ps.value[0] * MaxDim(sizes[i].width, sizes[i].height) as real
              && c.params[3..] == ps.value[1..3]
              && PyFloats(LineAt(ls, 1)) == Some(RowEntries(im.rot.r0))
              && PyFloats(LineAt(ls, 2)) == Some(RowEntries(im.rot.r1))
              && PyFloats(LineAt(ls, 3)) == Some(RowEntries(im.rot.r2))
              && PyFloats(LineAt(ls, 4)) == Some(im.tvec)
              && im.xys == Pixels(xys[i], sizes[i])
              && r.value.rest == LinesAfter(ls, 5)
  {
    if i >= |sizes| then Err(ImageNotFound)
    else
      var params :- PyFloats(LineAt(ls, 0)).ToResult(ValueError);
      if |params| < 3 then Err(IndexError)
      else
        var cam := RadialCamera(i, sizes[i], params);
        var rot :- ReadRotation(ls);
        var tvec :- PyFloats(LineAt(ls, 4)).ToResult(ValueError);
        if i >= |xys| then Err(IndexError)
        else if |xys[i]| == 0 then Err(ValueError)  // shape (0,) does not broadcast with (2,)
        else
          Ok(Step((cam, Image(i, rot, tvec, i, Pad4(i) + ".jpg", Pixels(xys[i], sizes[i]), Unassigned(|xys[i]|))),
                  LinesAfter(ls, 5)))
  }

  function ReadViews(ls: seq<Line>, i: nat, n: nat, xys: seq<seq<Point2>>, sizes: seq<ImageSize>)
    : (r: Result<Step<(seq<Camera>, seq<Image>)>, PyBundleError>)
    requires i <= n
    ensures r.Err? ==> r.error != WrongFormat
    ensures r.Ok? ==> |r.value.value.0| == |r.value.value.1| == n - i && (i < n ==> n <= |xys|)
    decreases n - i
  {
    if i == n then Ok(Step(([], []), ls))
    else
      var v :- ReadView(ls, i, xys, sizes);
      var tail :- ReadViews(v.rest, i + 1, n, xys, sizes);
      Ok(Step(([v.value.0] + tail.value.0, [v.value.1] + tail.value.1), tail.rest))
  }

  /** Camera and image k of the loop get id i + k, and every image starts with no 3D points. */
  ghost predicate NumberedFrom(cs: seq<Camera>, ims: seq<Image>, i: nat, xys: seq<seq<Point2>>) {
    && |cs| == |ims|
    && forall k | 0 <= k < |ims| :: ims[k].id == i + k && cs[k].id == i + k
                                    && i + k < |xys| && ims[k].point3DIds == Unassigned(|xys[i + k]|)
  }

  lemma NumberedCons(c: Camera, im: Image, cs: seq<Camera>, ims: seq<Image>, i: nat, xys: seq<seq<Point2>>)
    requires i < |xys| && c.id == i && im.id == i && im.point3DIds == Unassigned(|xys[i]|)
    requires NumberedFrom(cs, ims, i + 1, xys)
    ensures NumberedFrom([c] + cs, [im] + ims, i, xys)
  {
    var cs', ims' := [c] + cs, [im] + ims;
    forall k | 1 <= k < |ims'|
      ensures ims'[k].id == i + k && cs'[k].id == i + k
              && i + k < |xys| && ims'[k].point3DIds == Unassigned(|xys[i + k]|)
    {
      assert ims'[k] == ims[k - 1] && cs'[k] == cs[k - 1];
    }
  }

  lemma {:induction false} ReadViewsIds(ls: seq<Line>, i: nat, n: nat, xys: seq<seq<Point2>>, sizes: seq<ImageSize>)
    requires i <= n && ReadViews(ls, i, n, xys, sizes).Ok?
    ensures NumberedFrom(ReadViews(ls, i, n, xys, sizes).value.value.0, ReadViews(ls, i, n, xys, sizes).value.value.1,
                         i, xys)
    decreases n - i
  {
    if i < n {
      var v := ReadView(ls, i, xys, sizes).value;
      ReadViewsIds(v.rest, i + 1, n, xys, sizes);
      var tail := ReadViews(v.rest, i + 1, n, xys, sizes).value;
      NumberedCons(v.value.0, v.value.1, tail.value.0, tail.value.1, i, xys);
    }
  }

  /**
   * `images[image_id].point3D_ids[point2D_id] = p` for each track element, in
   * order; `ids[j]` is image j's `point3D_ids`.
   */
  function Assign(ids: seq<seq<int>>, p: int, views: seq<int>, feats: seq<int>)
    : (r: Result<seq<seq<int>>, PyBundleError>)
    requires |views| == |feats|
    ensures r.Ok? ==> |r.value| == |ids| && forall j | 0 <= j < |ids| :: |r.value[j]| == |ids[j]|
    ensures r.Err? ==> r.error != WrongFormat
    decreases |views|
  {
    if views == [] then Ok(ids)
    else if !(0 <= views[0] < |ids|) then Err(KeyError)
    else
      var row := ids[views[0]];
      if !ValidIndex(feats[0], |row|) then Err(IndexError)
      else
        var ids' := ids[views[0] := row[Slot(feats[0], |row|) := p]];
        assert forall j | 0 <= j < |ids| :: |ids'[j]| == |ids[j]|;
        Assign(ids', p, views[1..], feats[1..])
  }

  /** One point block: position, colour, and the track with its length check. */
  function ReadPoint(ls: seq<Line>, i: nat): (r: Result<Step<Point3D>, PyBundleError>)
    ensures r.Err? ==> r.error != WrongFormat
    ensures r.Ok? ==> r.value.value.id == i && |r.value.value.imageIds| == |r.value.value.point2DIdxs|
    ensures r.Ok? ==> |r.value.rest| <= |ls|
  {
    var l0 := NextLine(ls);
    var l1 := NextLine(l0.rest);
    var l2 := NextLine(l1.rest);
    var xyz :- PyFloats(l0.value).ToResult(ValueError);
    var rgb :- PyInts(l1.value).ToResult(ValueError);
    var elems := l2.value;
    var imageIds :- PyInts(Every3(Drop(elems, 1))).ToResult(ValueError);
    var point2DIdxs :- PyInts(Every3(Drop(elems, 2))).ToResult(ValueError);
    if elems == [] then Err(IndexError)
    else
      var trackLength :- PyInt(elems[0]).ToResult(ValueError);
      if trackLength != |imageIds| || trackLength != |point2DIdxs| then Err(TrackLengthMismatch)
      else Ok(Step(Point3D(i, xyz, rgb, 0.0, imageIds, point2DIdxs), l2.rest))
  }

  /** The point loop; `acc` holds the points read so far and `ids` the images' point ids. */
  function ReadPoints(ls: seq<Line>, i: nat, n: nat, ids: seq<seq<int>>, acc: seq<Point3D>)
    : (r: Result<Step<(seq<seq<int>>, seq<Point3D>)>, PyBundleError>)
    requires i <= n
    ensures r.Err? ==> r.error != WrongFormat
    ensures r.Ok? ==> |r.value.value.0| == |ids| && |r.value.value.1| == |acc| + (n - i)
    ensures r.Ok? ==> forall j | 0 <= j < |ids| :: |r.value.value.0[j]| == |ids[j]|
    decreases n - i
  {
    if i == n then Ok(Step((ids, acc), ls))
    else
      var p :- ReadPoint(ls, i);
      var ids' :- Assign(ids, i, p.value.imageIds, p.value.point2DIdxs);
      ReadPoints(p.rest, i + 1, n, ids', acc + [p.value])
  }

  /** `range(n)` of a negative count is empty. */
  function RangeCount(c: int): nat {
    if c < 0 then 0 else c
  }

  /** The images' `point3D_ids` arrays, which the point loop updates in place. */
  function PointIdRows(images: seq<Image>): (r: seq<seq<int>>)
    ensures |r| == |images| && forall j | 0 <= j < |images| :: r[j] == images[j].point3DIds
  {
    seq(|images|, j requires 0 <= j < |images| => images[j].point3DIds)
  }

  /** The images with their final point ids filled in. */
  function WithIds(images: seq<Image>, ids: seq<seq<int>>): (r: seq<Image>)
    requires |images| == |ids|
    ensures |r| == |images| && forall k | 0 <= k < |images| :: r[k] == images[k].(point3DIds := ids[k])
  {
    seq(|images|, k requires 0 <= k < |images| => images[k].(point3DIds := ids[k]))
  }

  /**
   * `read_bundler(filepath, images_xys, format)`: `firstLine` is the first
   * line of the file and `lines` the split lines after it.
   */
  function ReadBundler(firstLine: string, lines: seq<Line>, xys: seq<seq<Point2>>, sizes: seq<ImageSize>,
                       format: BundleCpp.Format): (r: Result<Reconstruction, PyBundleError>)
    ensures r == Err(WrongFormat) <==> Strip(firstLine) != BundleCpp.VersionLine(format)
    ensures r.Ok? ==> |r.value.cameras| == |r.value.images| == |xys|
  {
    if Strip(firstLine) != BundleCpp.VersionLine(format) then Err(WrongFormat)
    else
      var counts := NextLine(lines);
      if |counts.value| != 2 || !counts.value[0].Int? || !counts.value[1].Int? then Err(ValueError)
      else
        var numImages := RangeCount(counts.value[0].i);
        var numPoints := RangeCount(counts.value[1].i);
        var views :- ReadViews(counts.rest, 0, numImages, xys, sizes);
        var (cameras, images) := views.value;
        var ids := PointIdRows(images);
        var pts :- ReadPoints(views.rest, 0, numPoints, ids, []);
        if pts.rest != [] then Err(DataLeft)
        else if |xys| != numImages then Err(ViewCountMismatch)
        else Ok(Reconstruction(cameras, WithIds(images, pts.value.0), pts.value.1))
  }
}

/**
 * What the point loop of `read_bundler` leaves in the images' `point3D_ids`:
 * each slot holds the index of the LAST point whose track names that image
 * and feature, or -1 when no track does.
 */
module BundlePyTracks {
  import opened Wrappers
  import opened Tokens
  import opened Colmap
  import opened BundlePy

  /** Whether some element of the track writes slot `s` of image `j` (an array of length `n`). */
  function RefersTrack(views: seq<int>, feats: seq<int>, j: int, s: int, n: nat): bool
    requires |views| == |feats|
  {
    views != [] && ((views[0] == j && Slot(feats[0], n) == s) || RefersTrack(views[1..], feats[1..], j, s, n))
  }

  function Refers(p: Point3D, j: int, s: int, n: nat): bool {
    |p.imageIds| == |p.point2DIdxs| && RefersTrack(p.imageIds, p.point2DIdxs, j, s, n)
  }

  /** The index of the last point referring to slot `s` of image `j`, or -1. */
  function LastRef(points: seq<Point3D>, j: int, s: int, n: nat): (r: int)
    ensures -1 <= r < |points|
  {
    if points == [] then -1
    else if Refers(points[|points| - 1], j, s, n) then |points| - 1
    else LastRef(points[..|points| - 1], j, s, n)
  }

  /** `LastRef` names a referring point with no referring point after it, and -1 means none refers. */
  lemma {:induction false} LastRefIsLast(points: seq<Point3D>, j: int, s: int, n: nat)
    ensures var r := LastRef(points, j, s, n);
            && (r >= 0 ==> Refers(points[r], j, s, n) && forall q | r < q < |points| :: !Refers(points[q], j, s, n))
            && (r == -1 ==> forall q | 0 <= q < |points| :: !Refers(points[q], j, s, n))
  {
    if points != [] && !Refers(points[|points| - 1], j, s, n) {
      var init := points[..|points| - 1];
      LastRefIsLast(init, j, s, n);
      assert forall q | 0 <= q < |init| :: init[q] == points[q];
    }
  }

  /** The reference row of image `j` (with `n` keypoints) after reading `points`. */
  function RefRow(points: seq<Point3D>, j: int, n: nat): (r: seq<int>)
    ensures |r| == n && forall s | 0 <= s < n :: r[s] == LastRef(points, j, s, n)
  {
    seq(n, s requires 0 <= s < n => LastRef(points, j, s, n))
  }

  /** The reference definition of the images' point ids after reading `points`. */
  function ExpectedIds(lens: seq<nat>, points: seq<Point3D>): (r: seq<seq<int>>)
    ensures |r| == |lens| && forall j | 0 <= j < |lens| :: r[j] == RefRow(points, j, lens[j])
  {
    seq(|lens|, j requires 0 <= j < |lens| => RefRow(points, j, lens[j]))
  }

  function Lens(ids: seq<seq<int>>): (r: seq<nat>)
    ensures |r| == |ids| && forall j | 0 <= j < |ids| :: r[j] == |ids[j]|
  {
    seq(|ids|, j requires 0 <= j < |ids| => |ids[j]|)
  }

  /** One track overwrites exactly the slots it refers to, with the point's index. */
  lemma {:induction false} AssignWrites(ids: seq<seq<int>>, p: int, views: seq<int>, feats: seq<int>, j: int, s: int)
    requires |views| == |feats| && Assign(ids, p, views, feats).Ok?
    requires 0 <= j < |ids| && 0 <= s < |ids[j]|
    ensures Assign(ids, p, views, feats).value[j][s]
            == if RefersTrack(views, feats, j, s, |ids[j]|) then p else ids[j][s]
    decreases |views|
  {
    if views != [] {
      var row := ids[views[0]];
      var ids' := ids[views[0] := row[Slot(feats[0], |row|) := p]];
      assert Assign(ids, p, views, feats) == Assign(ids', p, views[1..], feats[1..]);
      assert |ids'[j]| == |ids[j]|;
      AssignWrites(ids', p, views[1..], feats[1..], j, s);
    }
  }

  lemma ExpectedAt(lens: seq<nat>, points: seq<Point3D>, j: int, s: int)
    requires 0 <= j < |lens| && 0 <= s < lens[j]
    ensures ExpectedIds(lens, points)[j][s] == LastRef(points, j, s, lens[j])
  {
  }

  lemma LastRefSnoc(acc: seq<Point3D>, p: Point3D, j: int, s: int, n: nat)
    ensures LastRef(acc + [p], j, s, n) == if Refers(p, j, s, n) then |acc| else LastRef(acc, j, s, n)
  {
    var next := acc + [p];
    assert next[..|next| - 1] == acc && next[|next| - 1] == p;
  }

  /** Reading one more point moves the reference definition forward by that point. */
  lemma AssignStep(lens: seq<nat>, acc: seq<Point3D>, p: Point3D)
    requires |p.imageIds| == |p.point2DIdxs|
    requires Assign(ExpectedIds(lens, acc), |acc|, p.imageIds, p.point2DIdxs).Ok?
    ensures Assign(ExpectedIds(lens, acc), |acc|, p.imageIds, p.point2DIdxs).value == ExpectedIds(lens, acc + [p])
  {
    AssignRows(ExpectedIds(lens, acc), acc, p, lens, ExpectedIds(lens, acc + [p]));
  }

  lemma AssignRows(ids: seq<seq<int>>, acc: seq<Point3D>, p: Point3D, lens: seq<nat>, want: seq<seq<int>>)
    requires |p.imageIds| == |p.point2DIdxs|
    requires Assign(ids, |acc|, p.imageIds, p.point2DIdxs).Ok?
    requires |ids| == |lens| == |want|
    requires forall j | 0 <= j < |lens| :: ids[j] == RefRow(acc, j, lens[j])
    requires forall j | 0 <= j < |lens| :: want[j] == RefRow(acc + [p], j, lens[j])
    ensures Assign(ids, |acc|, p.imageIds, p.point2DIdxs).value == want
  {
    var out := Assign(ids, |acc|, p.imageIds, p.point2DIdxs).value;
    forall j | 0 <= j < |lens| ensures out[j] == want[j] {
      AssignRow(ids, acc, p, j, want[j], lens[j]);
    }
  }

  /** Row `j` after assigning the point is the reference row for one more point. */
  lemma AssignRow(ids: seq<seq<int>>, acc: seq<Point3D>, p: Point3D, j: int, want: seq<int>, n: nat)
    requires |p.imageIds| == |p.point2DIdxs|
    requires Assign(ids, |acc|, p.imageIds, p.point2DIdxs).Ok?
    requires 0 <= j < |ids| && |ids[j]| == n && |want| == n
    requires forall s | 0 <= s < n :: ids[j][s] == LastRef(acc, j, s, n)
    requires forall s | 0 <= s < n :: want[s] == LastRef(acc + [p], j, s, n)
    ensures Assign(ids, |acc|, p.imageIds, p.point2DIdxs).value[j] == want
  {
    var out := Assign(ids, |acc|, p.imageIds, p.point2DIdxs).value;
    forall s | 0 <= s < n ensures out[j][s] == want[s] {
      AssignStepAt(ids, acc, p, j, s, n);
    }
  }

  lemma AssignStepAt(ids: seq<seq<int>>, acc: seq<Point3D>, p: Point3D, j: int, s: int, n: nat)
    requires |p.imageIds| == |p.point2DIdxs|
    requires Assign(ids, |acc|, p.imageIds, p.point2DIdxs).Ok?
    requires 0 <= j < |ids| && |ids[j]| == n && 0 <= s < n && ids[j][s] == LastRef(acc, j, s, n)
    ensures Assign(ids, |acc|, p.imageIds, p.point2DIdxs).value[j][s] == LastRef(acc + [p], j, s, n)
  {
    AssignWrites(ids, |acc|, p.imageIds, p.point2DIdxs, j, s);
    LastRefSnoc(acc, p, j, s, n);
  }

  lemma {:induction false} ReadPointsIds(ls: seq<Line>, i: nat, n: nat, lens: seq<nat>, acc: seq<Point3D>)
    requires i <= n && |acc| == i
    requires forall k | 0 <= k < |acc| :: acc[k].id == k
    requires ReadPoints(ls, i, n, ExpectedIds(lens, acc), acc).Ok?
    ensures var (ids, pts) := ReadPoints(ls, i, n, ExpectedIds(lens, acc), acc).value.value;
            && ids == ExpectedIds(lens, pts)
            && forall k | 0 <= k < |pts| :: pts[k].id == k
    decreases n - i
  {
    if i < n {
      var ids := ExpectedIds(lens, acc);
      var p := ReadPoint(ls, i).value;
      AssignStep(lens, acc, p.value);
      ReadPointsIds(p.rest, i + 1, n, lens, acc + [p.value]);
    }
  }

  /**
   * After `read_bundler`, slot `s` of image `j`'s `point3D_ids` holds the
   * index of the last point whose track names (j, s), and -1 if none does;
   * every point's id is its index.
   */
  lemma ReadBundlerTrackIds(firstLine: string, lines: seq<Line>, xys: seq<seq<Point2>>, sizes: seq<ImageSize>,
                            format: BundleCpp.Format)
    requires ReadBundler(firstLine, lines, xys, sizes, format).Ok?
    ensures var rec := ReadBundler(firstLine, lines, xys, sizes, format).value;
            && (forall k | 0 <= k < |xys| :: rec.images[k].id == k && rec.cameras[k].id == k
                                             && |rec.images[k].point3DIds| == |xys[k]|)
            && (forall k | 0 <= k < |rec.points| :: rec.points[k].id == k)
            && forall j, s | 0 <= j < |xys| && 0 <= s < |xys[j]| ::
                 rec.images[j].point3DIds[s] == LastRef(rec.points, j, s, |xys[j]|)
  {
    var counts := NextLine(lines);
    var numImages := RangeCount(counts.value[0].i);
    var numPoints := RangeCount(counts.value[1].i);
    ReadViewsIds(counts.rest, 0, numImages, xys, sizes);
    var views := ReadViews(counts.rest, 0, numImages, xys, sizes).value;
    var images := views.value.1;
    var ids := PointIdRows(images);
    var lens := Lens(ids);
    InitialIds(views.value.0, images, xys);
    ReadPointsIds(views.rest, 0, numPoints, lens, []);
    var pts := ReadPoints(views.rest, 0, numPoints, ids, []).value.value;
    assert ReadBundler(firstLine, lines, xys, sizes, format).value
           == Reconstruction(views.value.0, WithIds(images, pts.0), pts.1);
    AssembledIds(views.value.0, images, pts.0, pts.1, xys);
  }

  /** Before the point loop every slot of every image is -1, the reference for no points. */
  lemma InitialIds(cameras: seq<Camera>, images: seq<Image>, xys: seq<seq<Point2>>)
    requires NumberedFrom(cameras, images, 0, xys)
    ensures PointIdRows(images) == ExpectedIds(Lens(PointIdRows(images)), [])
  {
    var ids := PointIdRows(images);
    var lens := Lens(ids);
    forall j | 0 <= j < |ids| ensures ids[j] == ExpectedIds(lens, [])[j] {
      forall s | 0 <= s < lens[j] ensures ids[j][s] == ExpectedIds(lens, [])[j][s] {
        ExpectedAt(lens, [], j, s);
      }
    }
  }

  /** The numbered images with the point loop's ids filled in hold the reference ids. */
  lemma AssembledIds(cameras: seq<Camera>, images: seq<Image>, ids: seq<seq<int>>, points: seq<Point3D>,
                     xys: seq<seq<Point2>>)
    requires NumberedFrom(cameras, images, 0, xys) && |images| == |xys|
    requires ids == ExpectedIds(Lens(PointIdRows(images)), points)
    requires forall k | 0 <= k < |points| :: points[k].id == k
    ensures var rec := Reconstruction(cameras, WithIds(images, ids), points);
            && (forall k | 0 <= k < |xys| :: rec.images[k].id == k && rec.cameras[k].id == k
                                             && |rec.images[k].point3DIds| == |xys[k]|)
            && forall j, s | 0 <= j < |xys| && 0 <= s < |xys[j]| ::
                 rec.images[j].point3DIds[s] == LastRef(rec.points, j, s, |xys[j]|)
  {
    var lens := Lens(PointIdRows(images));
    var withIds := WithIds(images, ids);
    forall k | 0 <= k < |xys| ensures |withIds[k].point3DIds| == |xys[k]| {
      assert lens[k] == |images[k].point3DIds| == |xys[k]|;
    }
    forall j, s | 0 <= j < |xys| && 0 <= s < |xys[j]|
      ensures withIds[j].point3DIds[s] == LastRef(points, j, s, |xys[j]|)
    {
      assert lens[j] == |xys[j]|;
      ExpectedAt(lens, points, j, s);
    }
  }
}

=== FILE: bytes.dfy ===
/**
 * Bytes and the fixed-width little-endian words the MVE prebundle format is
 * made of: 32-bit signed counts and ids, and 32-bit float bit patterns.
 */
module Bytes {

  type byte = b: int | 0 <= b < 256

  /** A signed 32-bit integer, the `int32_t` of the C++ writer and reader. */
  type int32 = x: int | -0x8000_0000 <= x < 0x8000_0000

  /** An unsigned 32-bit word; float32 values are kept as their bit pattern. */
  type word32 = x: int | 0 <= x < 0x1_0000_0000

  const TwoTo32: int := 0x1_0000_0000

  /**
   * `static_cast<int32_t>` of a container size: the size taken modulo 2^32
   * and read back as a two's complement value.
   */
  function WrapInt32(n: int): (r: int32)
    ensures (r - n) % TwoTo32 == 0
    ensures -0x8000_0000 <= n < 0x8000_0000 ==> r == n
  {
    var m := n % TwoTo32;
    if m >= 0x8000_0000 then m - TwoTo32 else m
  }

  /** The `k` low-order base-256 digits of `n`, least significant first. */
  function LittleEndian(n: nat, k: nat): (r: seq<byte>)
    ensures |r| == k
  {
    if k == 0 then [] else [n % 256] + LittleEndian(n / 256, k - 1)
  }

  /** The number whose base-256 digits, least significant first, are `b`. */
  function FromLittleEndian(b: seq<byte>): nat {
    if b == [] then 0 else b[0] + 256 * FromLittleEndian(b[1..])
  }

  function Pow256(k: nat): (r: nat)
    ensures r > 0
  {
    if k == 0 then 1 else 256 * Pow256(k - 1)
  }

  lemma {:induction false} LittleEndianRoundTrip(n: nat, k: nat)
    requires n < Pow256(k)
    ensures FromLittleEndian(LittleEndian(n, k)) == n
  {
    if k > 0 {
      var q := n / 256;
      assert n == 256 * q + n % 256;
      assert q < Pow256(k - 1);
      LittleEndianRoundTrip(q, k - 1);
      assert LittleEndian(n, k)[1..] == LittleEndian(q, k - 1);
    }
  }

  lemma {:induction false} FromLittleEndianBound(b: seq<byte>)
    ensures FromLittleEndian(b) < Pow256(|b|)
  {
    if b != [] {
      FromLittleEndianBound(b[1..]);
    }
  }

  lemma {:induction false} FromLittleEndianRoundTrip(b: seq<byte>)
    ensures LittleEndian(FromLittleEndian(b), |b|) == b
  {
    if b != [] {
      var n := FromLittleEndian(b);
      Split256(n, FromLittleEndian(b[1..]), b[0]);
      FromLittleEndianRoundTrip(b[1..]);
    }
  }

  /** The four bytes of a word, least significant first (x86 memory order). */
  function EncodeWord(w: word32): (r: seq<byte>)
    ensures |r| == 4
  {
    LittleEndian(w, 4)
  }

  /** Euclidean division by 256 is determined by quotient and remainder. */
  lemma Split256(w: int, q: int, r: int)
    requires 0 <= r < 256 && w == 256 * q + r
    ensures w / 256 == q && w % 256 == r
  {
  }

  function DecodeWord(b: seq<byte>): (w: word32)
    requires |b| == 4
  {
    FromLittleEndianBound(b);
    FromLittleEndian(b)
  }

  lemma WordRoundTrip(w: word32)
    ensures DecodeWord(EncodeWord(w)) == w
  {
    LittleEndianRoundTrip(w, 4);
  }

  /** Every four bytes are the encoding of the word they decode to. */
  lemma EncodeDecodeWord(b: seq<byte>)
    requires |b| == 4
    ensures EncodeWord(DecodeWord(b)) == b
  {
    FromLittleEndianRoundTrip(b);
  }

  function EncodeInt32(x: int32): (r: seq<byte>)
    ensures |r| == 4
  {
    EncodeWord(if x < 0 then x + TwoTo32 else x)
  }

  function DecodeInt32(b: seq<byte>): (x: int32)
    requires |b| == 4
  {
    var w := DecodeWord(b);
    if w >= 0x8000_0000 then w - TwoTo32 else w
  }

  /** Reading back a written `int32_t` gives the same value. */
  lemma Int32RoundTrip(x: int32)
    ensures DecodeInt32(EncodeInt32(x)) == x
  {
    var w := if x < 0 then x + TwoTo32 else x;
    WordRoundTrip(w);
  }
}

=== FILE: cameras.dfy ===
/**
 * The lens models the statistics script projects with (`RadiaCamera`,
 * `OpencvCamera`), the dispatch from a COLMAP camera record to one of them
 * (`format_camera`) and the projection of a world point into an image
 * (`ProjectPoint`).  Arithmetic is over reals: where the source's floating
 * point would produce an infinity (a division by zero), the model yields
 * `None` instead.
 */
module Cameras {
  import opened Wrappers
  import opened Colmap

  /** `RadiaCamera(f, cx, cy, radia1, radia2)`. */
  datatype Radial = Radial(f: real, cx: real, cy: real, k1: real, k2: real)

  /** `OpencvCamera(*params)` of a FULL_OPENCV camera, parameters in COLMAP's order. */
  datatype Opencv = Opencv(fx: real, fy: real, cx: real, cy: real, k1: real, k2: real,
                           p1: real, p2: real, k3: real, k4: real, k5: real, k6: real)

  datatype Lens = RadialLens(radial: Radial) | OpencvLens(opencv: Opencv)

  function SqNorm(p: Point2): real {
    p.x * p.x + p.y * p.y
  }

  /** `u·coef + shift`: one coordinate scaled by a distortion factor and shifted. */
  function Distort(u: real, coef: real, shift: real): real {
    u * coef + shift
  }

  /** `u·f + c`: a normalised coordinate to a pixel coordinate. */
  function ToPixel(u: real, f: real, c: real): real {
    u * f + c
  }

  function Quot(a: real, b: real): real
    requires b != 0.0
  {
    a / b
  }

  /** `1 + r2·k1 + r2·r2·k2`. */
  function RadialFactor(c: Radial, r2: real): real {
    1.0 + r2 * c.k1 + r2 * r2 * c.k2
  }

  /** `RadiaCamera.__call__`: a two-term radial distortion, then focal length and principal point. */
  function RadialProject(c: Radial, p: Point2): (r: Point2)
    ensures p == Point2(0.0, 0.0) ==> r == Point2(c.cx, c.cy)
  {
    var k := RadialFactor(c, SqNorm(p));
    Point2(ToPixel(Distort(p.x, k, 0.0), c.f, c.cx), ToPixel(Distort(p.y, k, 0.0), c.f, c.cy))
  }

  lemma RayProducts(a: real, b: real, m: real, f: real)
    ensures ((a * m + 0.0) * f + 0.0) * b == ((b * m + 0.0) * f + 0.0) * a
  {
  }

  /** The distortion is radial: a pixel lies on the ray from the principal point through `p`. */
  lemma RadialOnRay(c: Radial, p: Point2)
    ensures var r := RadialProject(c, p);
            (r.x - c.cx) * p.y == (r.y - c.cy) * p.x
  {
    var k := RadialFactor(c, SqNorm(p));
    RayProducts(p.x, p.y, k, c.f);
  }

  /** Mirroring a point through the optical axis mirrors its pixel through the principal point. */
  lemma RadialSymmetric(c: Radial, p: Point2)
    ensures var r := RadialProject(c, p);
            var m := RadialProject(c, Point2(-p.x, -p.y));
            m.x - c.cx == -(r.x - c.cx) && m.y - c.cy == -(r.y - c.cy)
  {
    assert SqNorm(Point2(-p.x, -p.y)) == SqNorm(p);
  }

  /** Without distortion coefficients the lens is a pinhole. */
  lemma RadialPinhole(c: Radial, p: Point2)
    requires c.k1 == 0.0 && c.k2 == 0.0
    ensures RadialProject(c, p) == Point2(c.f * p.x + c.cx, c.f * p.y + c.cy)
  {
    assert RadialFactor(c, SqNorm(p)) == 1.0;
  }

  /** The powers of the radius a radial polynomial is evaluated at. */
  datatype Radii = Radii(r2: real, r4: real, r6: real)

  /** r^2, r^4 and r^6. */
  function CorrectRadii(p: Point2): Radii {
    var s := SqNorm(p);
    Radii(s, s * s, s * s * s)
  }

  /** The source's powers: its "r6" is `r4 * r4`, that is r^8. */
  function AsWrittenRadii(p: Point2): Radii {
    var s := SqNorm(p);
    Radii(s, s * s, (s * s) * (s * s))
  }

  /** `1 + a·r2 + b·r4 + d·r6`, the form both polynomials of the source take. */
  function Series(r: Radii, a: real, b: real, d: real): real {
    1.0 + r.r2 * a + r.r4 * b + r.r6 * d
  }

  /** The rational radial factor; `None` where its denominator vanishes. */
  function RationalFactor(c: Opencv, r: Radii): (f: Option<real>)
    ensures f.None? <==> Series(r, c.k4, c.k5, c.k6) == 0.0
  {
    var den := Series(r, c.k4, c.k5, c.k6);
    if den == 0.0 then None else Some(Quot(Series(r, c.k1, c.k2, c.k3), den))
  }

  /** A distortion factor (if defined) and a shift applied to `p`, then the pixel map. */
  function Through(c: Opencv, p: Point2, f: Option<real>, t: Point2): Option<Point2> {
    match f
    case None => None
    case Some(q) => Some(Point2(ToPixel(Distort(p.x, q, t.x), c.fx, c.cx), ToPixel(Distort(p.y, q, t.y), c.fy, c.cy)))
  }

  /**
   * `OpencvCamera.__call__` as written: its sixth-order term is `r4 * r4`,
   * and the tangential shifts go into the argument after the result has been
   * taken, so they never reach the pixel.
   */
  function OpencvAsWritten(c: Opencv, p: Point2): (r: Option<Point2>)
    ensures r.None? <==> Series(AsWrittenRadii(p), c.k4, c.k5, c.k6) == 0.0
  {
    Through(c, p, RationalFactor(c, AsWrittenRadii(p)), Point2(0.0, 0.0))
  }

  /** The tangential shift of the source (`delta1`, `delta2`). */
  function Tangential(c: Opencv, p: Point2): Point2 {
    var uv := p.x * p.y;
    var r2 := SqNorm(p);
    Point2(2.0 * c.p1 * uv + (r2 + 2.0 * p.x * p.x) * c.p2,
           2.0 * c.p2 * uv + (r2 + 2.0 * p.y * p.y) * c.p1)
  }

  /**
   * The FULL_OPENCV projection as intended: radial factor with the terms
   * r^2, r^4, r^6, plus the tangential shift, then focal lengths and
   * principal point.
   */
  function OpencvProject(c: Opencv, p: Point2): (r: Option<Point2>)
    ensures r.None? <==> Series(CorrectRadii(p), c.k4, c.k5, c.k6) == 0.0
  {
    Through(c, p, RationalFactor(c, CorrectRadii(p)), Tangential(c, p))
  }

  /** `1 + s·(a + s·(b + s·d))`: a cubic in `s` by Horner's rule. */
  function Horner(s: real, a: real, b: real, d: real): real {
    1.0 + s * (a + s * (b + s * d))
  }

  /** OpenCV's radial factor at squared radius `s`, both polynomials by Horner's rule. */
  function ReferenceFactor(c: Opencv, s: real): Option<real> {
    var den := Horner(s, c.k4, c.k5, c.k6);
    if den == 0.0 then None else Some(Quot(Horner(s, c.k1, c.k2, c.k3), den))
  }

  /** OpenCV's tangential terms: 2·p1·x·y + p2·(r^2 + 2x^2) and p1·(r^2 + 2y^2) + 2·p2·x·y. */
  function ReferenceShift(c: Opencv, p: Point2): Point2 {
    var s := SqNorm(p);
    Point2(2.0 * c.p1 * (p.x * p.y) + c.p2 * (s + 2.0 * p.x * p.x),
           c.p1 * (s + 2.0 * p.y * p.y) + 2.0 * c.p2 * (p.x * p.y))
  }

  /** OpenCV's documented FULL_OPENCV projection, written independently of the source's form. */
  function OpencvReference(c: Opencv, p: Point2): Option<Point2> {
    Through(c, p, ReferenceFactor(c, SqNorm(p)), ReferenceShift(c, p))
  }

  lemma HornerSeries(s: real, a: real, b: real, d: real)
    ensures Horner(s, a, b, d) == Series(Radii(s, s * s, s * s * s), a, b, d)
  {
    assert s * (a + s * (b + s * d)) == s * a + (s * s) * b + (s * s * s) * d;
  }

  lemma FactorMatchesReference(c: Opencv, p: Point2)
    ensures RationalFactor(c, CorrectRadii(p)) == ReferenceFactor(c, SqNorm(p))
  {
    var s := SqNorm(p);
    HornerSeries(s, c.k1, c.k2, c.k3);
    HornerSeries(s, c.k4, c.k5, c.k6);
    assert CorrectRadii(p) == Radii(s, s * s, s * s * s);
  }

  lemma ShiftMatchesReference(c: Opencv, p: Point2)
    ensures Tangential(c, p) == ReferenceShift(c, p)
  {
  }

  /** The corrected projection is OpenCV's model. */
  lemma OpencvMatchesReference(c: Opencv, p: Point2)
    ensures OpencvProject(c, p) == OpencvReference(c, p)
  {
    FactorMatchesReference(c, p);
    ShiftMatchesReference(c, p);
  }

  lemma FactorWithoutHigherTerms(c: Opencv, p: Point2)
    requires c.k3 == 0.0 && c.k4 == 0.0 && c.k5 == 0.0 && c.k6 == 0.0
    ensures RationalFactor(c, CorrectRadii(p)) == Some(RadialFactor(Radial(c.fx, c.cx, c.cy, c.k1, c.k2), SqNorm(p)))
  {
    var r := CorrectRadii(p);
    assert Series(r, c.k4, c.k5, c.k6) == 1.0;
    assert Series(r, c.k1, c.k2, c.k3) == RadialFactor(Radial(c.fx, c.cx, c.cy, c.k1, c.k2), SqNorm(p));
  }

  lemma NoShift(c: Opencv, p: Point2)
    requires c.p1 == 0.0 && c.p2 == 0.0
    ensures Tangential(c, p) == Point2(0.0, 0.0)
  {
  }

  /** A FULL_OPENCV lens without tangential or higher terms and with `fx == fy` is a RADIAL lens. */
  lemma OpencvExtendsRadial(c: Opencv, p: Point2)
    requires c.fx == c.fy && c.p1 == 0.0 && c.p2 == 0.0
    requires c.k3 == 0.0 && c.k4 == 0.0 && c.k5 == 0.0 && c.k6 == 0.0
    ensures OpencvProject(c, p) == Some(RadialProject(Radial(c.fx, c.cx, c.cy, c.k1, c.k2), p))
  {
    FactorWithoutHigherTerms(c, p);
    NoShift(c, p);
  }

  /** As written, the tangential coefficients have no effect on the pixel. */
  lemma OpencvAsWrittenIgnoresTangential(c: Opencv, p: Point2, a: real, b: real)
    ensures OpencvAsWritten(c.(p1 := a, p2 := b), p) == OpencvAsWritten(c, p)
  {
    var c' := c.(p1 := a, p2 := b);
    assert c'.k1 == c.k1 && c'.k2 == c.k2 && c'.k3 == c.k3;
    assert c'.k4 == c.k4 && c'.k5 == c.k5 && c'.k6 == c.k6;
    assert c'.fx == c.fx && c'.fy == c.fy && c'.cx == c.cx && c'.cy == c.cy;
  }

  /** As written, a pure tangential lens leaves the point where a pinhole puts it, unlike OpenCV's model. */
  lemma OpencvAsWrittenDropsTangential()
    ensures var c := Opencv(1.0, 1.0, 0.0, 0.0, 0.0, 0.0, 1.0, 0.0, 0.0, 0.0, 0.0, 0.0);
            && OpencvAsWritten(c, Point2(1.0, 1.0)) == Some(Point2(1.0, 1.0))
            && OpencvReference(c, Point2(1.0, 1.0)) == Some(Point2(3.0, 5.0))
  {
    var c := Opencv(1.0, 1.0, 0.0, 0.0, 0.0, 0.0, 1.0, 0.0, 0.0, 0.0, 0.0, 0.0);
    var p := Point2(1.0, 1.0);
    assert SqNorm(p) == 2.0;
    assert AsWrittenRadii(p) == Radii(2.0, 4.0, 16.0);
    assert RationalFactor(c, Radii(2.0, 4.0, 16.0)) == Some(1.0);
    assert ReferenceFactor(c, 2.0) == Some(1.0);
    assert ReferenceShift(c, p) == Point2(2.0, 4.0);
  }

  /** As written, the third radial coefficient multiplies r^8: at radius 2 it gives 514 where OpenCV gives 130. */
  lemma OpencvAsWrittenEighthOrder()
    ensures var c := Opencv(1.0, 1.0, 0.0, 0.0, 0.0, 0.0, 0.0, 0.0, 1.0, 0.0, 0.0, 0.0);
            && OpencvAsWritten(c, Point2(2.0, 0.0)) == Some(Point2(514.0, 0.0))
            && OpencvReference(c, Point2(2.0, 0.0)) == Some(Point2(130.0, 0.0))
  {
    var c := Opencv(1.0, 1.0, 0.0, 0.0, 0.0, 0.0, 0.0, 0.0, 1.0, 0.0, 0.0, 0.0);
    var p := Point2(2.0, 0.0);
    assert SqNorm(p) == 4.0;
    assert AsWrittenRadii(p) == Radii(4.0, 16.0, 256.0);
    assert RationalFactor(c, Radii(4.0, 16.0, 256.0)) == Some(257.0);
    assert Horner(4.0, 0.0, 0.0, 1.0) == 65.0;
    assert ReferenceFactor(c, 4.0) == Some(65.0);
    assert ReferenceShift(c, p) == Point2(0.0, 0.0);
  }

  /**
   * A lens applied to a normalised image point, as the statistics script
   * calls it: a FULL_OPENCV lens projects with the source's formula, not
   * with the corrected `OpencvProject`.
   */
  function Project(lens: Lens, p: Point2): (r: Option<Point2>)
    ensures lens.RadialLens? ==> r.Some?
    ensures lens.OpencvLens? ==> (r.None? <==> Series(AsWrittenRadii(p), lens.opencv.k4, lens.opencv.k5, lens.opencv.k6) == 0.0)
  {
    match lens
    case RadialLens(c) => Some(RadialProject(c, p))
    case OpencvLens(c) => OpencvAsWritten(c, p)
  }

  datatype FormatError =
    | IndexError            // a RADIAL camera with fewer than four parameters
    | TypeError             // a FULL_OPENCV camera without exactly twelve parameters
    | Unsupported(model: string)

  const RadialModel: string := "RADIAL"
  const SimpleRadialModel: string := "SIMPLE_RADIAL"
  const FullOpencvModel: string := "FULL_OPENCV"

  /** `format_camera` for one camera. */
  function FormatCamera(cam: Camera): (r: Result<Lens, FormatError>)
    ensures r.Ok? <==> || ((cam.model == RadialModel || cam.model == SimpleRadialModel) && |cam.params| >= 4)
                       || (cam.model == FullOpencvModel && |cam.params| == 12)
    ensures r.Ok? ==> (r.value.RadialLens? <==> cam.model != FullOpencvModel)
    ensures r == Err(Unsupported(cam.model)) <==>
              cam.model != RadialModel && cam.model != SimpleRadialModel && cam.model != FullOpencvModel
  {
    var ps := cam.params;
    if cam.model == RadialModel || cam.model == SimpleRadialModel then
      if |ps| == 4 then Ok(RadialLens(Radial(ps[0], ps[1], ps[2], ps[3], 0.0)))
      else if |ps| < 4 then Err(IndexError)
      else Ok(RadialLens(Radial(ps[0], ps[1], ps[2], ps[3], ps[4])))
    else if cam.model == FullOpencvModel then
      if |ps| != 12 then Err(TypeError)
      else Ok(OpencvLens(Opencv(ps[0], ps[1], ps[2], ps[3], ps[4], ps[5], ps[6], ps[7], ps[8], ps[9], ps[10], ps[11])))
    else Err(Unsupported(cam.model))
  }

  /** COLMAP's parameter list of a lens: RADIAL's five, or FULL_OPENCV's twelve. */
  function LensParams(lens: Lens): (ps: seq<real>)
    ensures |ps| == (if lens.RadialLens? then 5 else 12)
  {
    match lens
    case RadialLens(c) => [c.f, c.cx, c.cy, c.k1, c.k2]
    case OpencvLens(c) => [c.fx, c.fy, c.cx, c.cy, c.k1, c.k2, c.p1, c.p2, c.k3, c.k4, c.k5, c.k6]
  }

  /** Every lens comes back from the camera record that stores its parameters. */
  lemma FormatCameraRoundTrip(lens: Lens, id: int, width: nat, height: nat)
    ensures var model := if lens.RadialLens? then RadialModel else FullOpencvModel;
            FormatCamera(Camera(id, model, width, height, LensParams(lens))) == Ok(lens)
  {
  }

  /** A SIMPLE_RADIAL camera `(f, cx, cy, k)` is the RADIAL lens with no second coefficient. */
  lemma FormatSimpleRadial(id: int, width: nat, height: nat, f: real, cx: real, cy: real, k: real)
    ensures FormatCamera(Camera(id, SimpleRadialModel, width, height, [f, cx, cy, k]))
            == Ok(RadialLens(Radial(f, cx, cy, k, 0.0)))
  {
  }

  /** `format_camera`: every camera keeps its id; the first unsupported one ends the run. */
  function FormatCameras(cameras: seq<Camera>): (r: Result<seq<(int, Lens)>, FormatError>)
    ensures r.Ok? <==> forall k | 0 <= k < |cameras| :: FormatCamera(cameras[k]).Ok?
    ensures r.Ok? ==> |r.value| == |cameras|
    ensures r.Ok? ==> forall k {:trigger r.value[k]} | 0 <= k < |cameras| ::
                        r.value[k] == (cameras[k].id, FormatCamera(cameras[k]).value)
  {
    if cameras == [] then Ok([])
    else
      var lens :- FormatCamera(cameras[0]);
      var rest :- FormatCameras(cameras[1..]);
      assert forall k | 1 <= k < |cameras| :: cameras[k] == cameras[1..][k - 1];
      Ok([(cameras[0].id, lens)] + rest)
  }

  /** `new_cameras[camera_id]`. */
  function LensOf(lenses: seq<(int, Lens)>, id: int): (r: Option<Lens>)
    ensures r.Some? ==> exists k | 0 <= k < |lenses| :: lenses[k] == (id, r.value)
    ensures r.None? ==> forall k | 0 <= k < |lenses| :: lenses[k].0 != id
  {
    if lenses == [] then None
    else if lenses[0].0 == id then Some(lenses[0].1)
    else
      var r := LensOf(lenses[1..], id);
      assert forall k | 1 <= k < |lenses| :: lenses[k] == lenses[1..][k - 1];
      r
  }

  function Dot(row: Vec3, x: Vec3): real {
    row.x * x.x + row.y * x.y + row.z * x.z
  }

  /** `R·x + t` for a rotation by rows and a translation of three entries. */
  function ToCamera(rot: Mat3, t: seq<real>, x: Vec3): Vec3
    requires |t| == 3
  {
    Vec3(Dot(rot.r0, x) + t[0], Dot(rot.r1, x) + t[1], Dot(rot.r2, x) + t[2])
  }

  /**
   * `ProjectPoint`: the pixel of the point's perspective division and its
   * depth in the camera frame; `None` at depth zero or where the lens
   * divides by zero.
   */
  function ProjectPoint(lens: Lens, im: Image, x: Vec3): (r: Option<(Point2, real)>)
    requires |im.tvec| == 3
    ensures r.Some? ==> r.value.1 == ToCamera(im.rot, im.tvec, x).z && r.value.1 != 0.0
    ensures ToCamera(im.rot, im.tvec, x).z == 0.0 ==> r.None?
  {
    var p := ToCamera(im.rot, im.tvec, x);
    if p.z == 0.0 then None
    else
      match Project(lens, Normalise(p))
      case None => None
      case Some(pix) => Some((pix, p.z))
  }

  /** `p[:2] / p[2]`: the perspective division. */
  function Normalise(p: Vec3): Point2
    requires p.z != 0.0
  {
    Point2(Quot(p.x, p.z), Quot(p.y, p.z))
  }

  function Scale(s: real, x: Vec3): Vec3 {
    Vec3(s * x.x, s * x.y, s * x.z)
  }

  lemma DotScale(row: Vec3, x: Vec3, s: real)
    ensures Dot(row, Scale(s, x)) == s * Dot(row, x)
  {
    assert row.x * (s * x.x) == s * (row.x * x.x);
    assert row.y * (s * x.y) == s * (row.y * x.y);
    assert row.z * (s * x.z) == s * (row.z * x.z);
  }

  lemma ToCameraScale(rot: Mat3, t: seq<real>, x: Vec3, s: real)
    requires t == [0.0, 0.0, 0.0]
    ensures ToCamera(rot, t, Scale(s, x)) == Scale(s, ToCamera(rot, t, x))
  {
    DotScale(rot.r0, x, s);
    DotScale(rot.r1, x, s);
    DotScale(rot.r2, x, s);
  }

  lemma NormaliseScale(p: Vec3, s: real)
    requires p.z != 0.0 && s != 0.0
    ensures Scale(s, p).z != 0.0 && Normalise(Scale(s, p)) == Normalise(p)
  {
    assert (s * p.x) / (s * p.z) == p.x / p.z;
    assert (s * p.y) / (s * p.z) == p.y / p.z;
  }

  /**
   * For a camera at the origin, the pixel depends only on the ray through
   * the point: scaling the point scales its depth and keeps its pixel.
   */
  lemma ProjectAlongRay(lens: Lens, im: Image, x: Vec3, s: real)
    requires im.tvec == [0.0, 0.0, 0.0] && s != 0.0
    ensures var a := ProjectPoint(lens, im, x);
            var b := ProjectPoint(lens, im, Scale(s, x));
            && (a.Some? <==> b.Some?)
            && (a.Some? ==> b.value.0 == a.value.0 && b.value.1 == s * a.value.1)
  {
    var p := ToCamera(im.rot, im.tvec, x);
    ToCameraScale(im.rot, im.tvec, x, s);
    if p.z != 0.0 {
      NormaliseScale(p, s);
    }
  }

  /**
   * `ProjectPoint` projects a FULL_OPENCV lens with the source's formula:
   * the camera-frame point (2, 0, 1) through the lens with only k3 = 1
   * lands at 514, not at OpenCV's 130.
   */
  lemma ProjectPointUsesAsWritten(im: Image)
    requires im.rot == Mat3(Vec3(1.0, 0.0, 0.0), Vec3(0.0, 1.0, 0.0), Vec3(0.0, 0.0, 1.0))
    requires im.tvec == [0.0, 0.0, 0.0]
    ensures var c := Opencv(1.0, 1.0, 0.0, 0.0, 0.0, 0.0, 0.0, 0.0, 1.0, 0.0, 0.0, 0.0);
            ProjectPoint(OpencvLens(c), im, Vec3(2.0, 0.0, 1.0)) == Some((Point2(514.0, 0.0), 1.0))
  {
    var c := Opencv(1.0, 1.0, 0.0, 0.0, 0.0, 0.0, 0.0, 0.0, 1.0, 0.0, 0.0, 0.0);
    assert ToCamera(im.rot, im.tvec, Vec3(2.0, 0.0, 1.0)) == Vec3(2.0, 0.0, 1.0);
    assert Normalise(Vec3(2.0, 0.0, 1.0)) == Point2(2.0, 0.0);
    OpencvAsWrittenEighthOrder();
  }

  /** A point in front of an unrotated camera at the origin, on its axis, lands on the principal point. */
  lemma AxisToPrincipalPoint(c: Radial, im: Image, z: real)
    requires im.rot == Mat3(Vec3(1.0, 0.0, 0.0), Vec3(0.0, 1.0, 0.0), Vec3(0.0, 0.0, 1.0))
    requires im.tvec == [0.0, 0.0, 0.0] && z != 0.0
    ensures ProjectPoint(RadialLens(c), im, Vec3(0.0, 0.0, z)) == Some((Point2(c.cx, c.cy), z))
  {
    assert ToCamera(im.rot, im.tvec, Vec3(0.0, 0.0, z)) == Vec3(0.0, 0.0, z);
    assert Normalise(Vec3(0.0, 0.0, z)) == Point2(0.0, 0.0);
  }
}

=== FILE: colmap.dfy ===
/**
 * The COLMAP sparse model as the Python scripts hold it (`Camera`, `Image`
 * and `Point3D` records of COLMAP's read_write_model).  An image's rotation
 * is kept as the 3x3 matrix of its quaternion; converting between the two is
 * floating-point work that is not modelled.
 */
module Colmap {
  import opened Wrappers

  datatype Vec3 = Vec3(x: real, y: real, z: real)

  /** A rotation matrix by rows. */
  datatype Mat3 = Mat3(r0: Vec3, r1: Vec3, r2: Vec3)

  datatype Point2 = Point2(x: real, y: real)

  datatype Camera = Camera(id: int, model: string, width: nat, height: nat, params: seq<real>)

  datatype Image = Image(id: int, rot: Mat3, tvec: seq<real>, cameraId: int, name: string,
                         xys: seq<Point2>, point3DIds: seq<int>)

  datatype Point3D = Point3D(id: int, xyz: seq<real>, rgb: seq<int>, error: real,
                             imageIds: seq<int>, point2DIdxs: seq<int>)

  /** The three dictionaries of a model, each held as its items in insertion order. */
  datatype Reconstruction = Reconstruction(cameras: seq<Camera>, images: seq<Image>, points: seq<Point3D>)

  /** `max(camera.width, camera.height)`. */
  function MaxDim(width: nat, height: nat): (m: nat)
    ensures m >= width && m >= height && (m == width || m == height)
  {
    if width >= height then width else height
  }

  /** A dictionary keyed by id, held as its items in insertion order. */
  ghost predicate DistinctIds(images: seq<Image>) {
    forall i, j | 0 <= i < j < |images| :: images[i].id != images[j].id
  }

  /** `cameras[id]` over a dictionary held as its items. */
  function FindCamera(cameras: seq<Camera>, id: int): (r: Option<Camera>)
    ensures r.Some? <==> exists k | 0 <= k < |cameras| :: cameras[k].id == id
    ensures r.Some? ==> r.value in cameras && r.value.id == id
  {
    if cameras == [] then None
    else if cameras[0].id == id then Some(cameras[0])
    else
      var r := FindCamera(cameras[1..], id);
      assert forall k | 1 <= k < |cameras| :: cameras[k] == cameras[1..][k - 1];
      r
  }
}

=== FILE: converter.dfy ===
/**
 * The converters between reconstruction formats.  `sfm_convert_helper`
 * looks up the module function named `'sfm_' + src + '2' + target`; the
 * table below lists every such function, and each adapter is modelled by
 * the steps it performs in order (selecting an input by build id, running
 * an external program, rewriting files).  What the external programs do is
 * not modelled.
 */
module Converter {
  import opened Wrappers
  import opened Selection
  import Features

  /** The `sfm_*` functions of the converter module. */
  datatype Adapter =
    | ColmapToColmap | ColmapToPmvs | ColmapToMve | ColmapToMvsnet | ColmapToRmvsnet | ColmapToPointmvsnet
    | OpenmvgToColmap | OpenmvgToOpenmvs | OpenmvgToPmvs | OpenmvgToMve
    | TheiasfmToColmap | TheiasfmToOpenmvs | TheiasfmToPmvs | TheiasfmToMve
    | MveToOthers | MveToColmap | MveToOpenmvs | MveToPmvs | MveToMve

  /** The source and target format in an adapter's name. */
  function Formats(a: Adapter): (string, string) {
    match a
    case ColmapToColmap => ("colmap", "colmap")
    case ColmapToPmvs => ("colmap", "pmvs")
    case ColmapToMve => ("colmap", "mve")
    case ColmapToMvsnet => ("colmap", "mvsnet")
    case ColmapToRmvsnet => ("colmap", "rmvsnet")
    case ColmapToPointmvsnet => ("colmap", "pointmvsnet")
    case OpenmvgToColmap => ("openmvg", "colmap")
    case OpenmvgToOpenmvs => ("openmvg", "openmvs")
    case OpenmvgToPmvs => ("openmvg", "pmvs")
    case OpenmvgToMve => ("openmvg", "mve")
    case TheiasfmToColmap => ("theiasfm", "colmap")
    case TheiasfmToOpenmvs => ("theiasfm", "openmvs")
    case TheiasfmToPmvs => ("theiasfm", "pmvs")
    case TheiasfmToMve => ("theiasfm", "mve")
    case MveToOthers => ("mve", "others")
    case MveToColmap => ("mve", "colmap")
    case MveToOpenmvs => ("mve", "openmvs")
    case MveToPmvs => ("mve", "pmvs")
    case MveToMve => ("mve", "mve")
  }

  /** The Python name of an adapter. */
  function Name(a: Adapter): string {
    "sfm_" + (Formats(a).0 + "2" + Formats(a).1)
  }

  /** The adapter whose name carries these formats. */
  function FromFormats(src: string, target: string): Option<Adapter> {
    if src == "colmap" then
      if target == "colmap" then Some(ColmapToColmap)
      else if target == "pmvs" then Some(ColmapToPmvs)
      else if target == "mve" then Some(ColmapToMve)
      else if target == "mvsnet" then Some(ColmapToMvsnet)
      else if target == "rmvsnet" then Some(ColmapToRmvsnet)
      else if target == "pointmvsnet" then Some(ColmapToPointmvsnet)
      else None
    else if src == "openmvg" then
      if target == "colmap" then Some(OpenmvgToColmap)
      else if target == "openmvs" then Some(OpenmvgToOpenmvs)
      else if target == "pmvs" then Some(OpenmvgToPmvs)
      else if target == "mve" then Some(OpenmvgToMve)
      else None
    else if src == "theiasfm" then
      if target == "colmap" then Some(TheiasfmToColmap)
      else if target == "openmvs" then Some(TheiasfmToOpenmvs)
      else if target == "pmvs" then Some(TheiasfmToPmvs)
      else if target == "mve" then Some(TheiasfmToMve)
      else None
    else if src == "mve" then
      if target == "others" then Some(MveToOthers)
      else if target == "colmap" then Some(MveToColmap)
      else if target == "openmvs" then Some(MveToOpenmvs)
      else if target == "pmvs" then Some(MveToPmvs)
      else if target == "mve" then Some(MveToMve)
      else None
    else None
  }

  /** No two adapters carry the same formats, and none has a '2' in a format. */
  lemma FormatsFound(a: Adapter)
    ensures FromFormats(Formats(a).0, Formats(a).1) == Some(a)
    ensures '2' !in Formats(a).0 && '2' !in Formats(a).1
  {
  }

  /** The position of an adapter in the table. */
  function Index(a: Adapter): (k: nat)
    ensures k < |Adapters| && Adapters[k] == a
  {
    match a
    case ColmapToColmap => 0
    case ColmapToPmvs => 1
    case ColmapToMve => 2
    case ColmapToMvsnet => 3
    case ColmapToRmvsnet => 4
    case ColmapToPointmvsnet => 5
    case OpenmvgToColmap => 6
    case OpenmvgToOpenmvs => 7
    case OpenmvgToPmvs => 8
    case OpenmvgToMve => 9
    case TheiasfmToColmap => 10
    case TheiasfmToOpenmvs => 11
    case TheiasfmToPmvs => 12
    case TheiasfmToMve => 13
    case MveToOthers => 14
    case MveToColmap => 15
    case MveToOpenmvs => 16
    case MveToPmvs => 17
    case MveToMve => 18
  }

  const Adapters: seq<Adapter> := [
    ColmapToColmap, ColmapToPmvs, ColmapToMve, ColmapToMvsnet, ColmapToRmvsnet, ColmapToPointmvsnet,
    OpenmvgToColmap, OpenmvgToOpenmvs, OpenmvgToPmvs, OpenmvgToMve,
    TheiasfmToColmap, TheiasfmToOpenmvs, TheiasfmToPmvs, TheiasfmToMve,
    MveToOthers, MveToColmap, MveToOpenmvs, MveToPmvs, MveToMve]

  /** `getattr(module, name)` restricted to the adapters: the first one of that name. */
  function Lookup(table: seq<Adapter>, name: string): (r: Option<Adapter>)
    ensures r.Some? ==> r.value in table && Name(r.value) == name
    ensures r.None? ==> forall k | 0 <= k < |table| :: Name(table[k]) != name
  {
    if table == [] then None
    else if Name(table[0]) == name then Some(table[0])
    else
      var r := Lookup(table[1..], name);
      assert forall k | 1 <= k < |table| :: table[k] == table[1..][k - 1];
      r
  }

  /** `sfm_convert_helper`'s choice of function. */
  function Dispatch(src: string, target: string): (r: Option<Adapter>)
    ensures r.Some? ==> Name(r.value) == "sfm_" + (src + "2" + target)
    ensures r.None? ==> forall k | 0 <= k < |Adapters| :: Name(Adapters[k]) != "sfm_" + (src + "2" + target)
  {
    Lookup(Adapters, "sfm_" + (src + "2" + target))
  }

  /** The position of the first '2'. */
  function FirstTwo(s: string): nat {
    if s == [] || s[0] == '2' then 0 else 1 + FirstTwo(s[1..])
  }

  lemma {:induction false} FirstTwoAt(a: string, b: string)
    requires '2' !in a
    ensures FirstTwo(a + "2" + b) == |a|
  {
    if a != [] {
      assert (a + "2" + b)[1..] == a[1..] + "2" + b;
      FirstTwoAt(a[1..], b);
    }
  }

  lemma NoTwoBefore(u: string, v: string, x: string, y: string)
    requires u + "2" + v == x + "2" + y && '2' !in x && '2' !in y
    ensures '2' !in u
  {
    var w := u + "2" + v;
    assert multiset(w) == multiset(u) + multiset("2") + multiset(v);
    assert multiset(w) == multiset(x) + multiset("2") + multiset(y);
    assert multiset(x)['2'] == 0 && multiset(y)['2'] == 0;
    assert multiset(w)['2'] == 1;
    assert multiset(u)['2'] == 0;
  }

  /** A name with a single '2' after the prefix splits into source and target one way only. */
  lemma SplitUnique(u: string, v: string, x: string, y: string)
    requires "sfm_" + (u + "2" + v) == "sfm_" + (x + "2" + y)
    requires '2' !in x && '2' !in y
    ensures u == x && v == y
  {
    assert u + "2" + v == ("sfm_" + (u + "2" + v))[4..];
    assert x + "2" + y == ("sfm_" + (x + "2" + y))[4..];
    SplitAtTwo(u, v, x, y);
  }

  /** `u + "2" + v` splits at its only '2'. */
  lemma SplitAtTwo(u: string, v: string, x: string, y: string)
    requires u + "2" + v == x + "2" + y
    requires '2' !in x && '2' !in y
    ensures u == x && v == y
  {
    var w := u + "2" + v;
    NoTwoBefore(u, v, x, y);
    FirstTwoAt(u, v);
    FirstTwoAt(x, y);
    assert u == w[..|u|] && x == w[..|x|];
    assert v == w[|u| + 1..] && y == w[|x| + 1..];
  }

  /**
   * The dispatch table is exact: `sfm_convert_helper(src, target)` calls
   * adapter `a` if and only if `(src, target)` are the formats in its name.
   */
  lemma DispatchExact(src: string, target: string, a: Adapter)
    ensures Dispatch(src, target) == Some(a) <==> (src, target) == Formats(a)
  {
    FormatsFound(a);
    if Dispatch(src, target) == Some(a) {
      SplitUnique(src, target, Formats(a).0, Formats(a).1);
    }
    if (src, target) == Formats(a) {
      var k := Index(a);
      var found := Lookup(Adapters, Name(a));
      assert found.Some?;
      FormatsFound(found.value);
      SplitUnique(Formats(found.value).0, Formats(found.value).1, src, target);
    }
  }

  lemma FromFormatsSound(src: string, target: string)
    ensures FromFormats(src, target).Some? ==> Formats(FromFormats(src, target).value) == (src, target)
  {
  }

  /**
   * The name lookup agrees with the explicit table of supported pairs: it
   * finds an adapter exactly for the pairs listed there.
   */
  lemma DispatchAgrees(src: string, target: string)
    ensures Dispatch(src, target) == FromFormats(src, target)
  {
    var found := Dispatch(src, target);
    if found.Some? {
      DispatchExact(src, target, found.value);
      FormatsFound(found.value);
    }
    FromFormatsSound(src, target);
    if FromFormats(src, target).Some? {
      DispatchExact(src, target, FromFormats(src, target).value);
    }
  }

  /** `sfm_theiasfm2pmvs` is found for theiasfm and pmvs and for nothing else. */
  lemma DispatchTheiasfmToPmvs(src: string, target: string)
    ensures Dispatch(src, target) == Some(TheiasfmToPmvs) <==> src == "theiasfm" && target == "pmvs"
  {
    DispatchExact(src, target, TheiasfmToPmvs);
  }

  /** Pairs with no adapter: among them colmap to openmvs, whose function lacks the `sfm_` prefix. */
  lemma NoAdapterForColmapToOpenmvs()
    ensures Dispatch("colmap", "openmvs").None?
  {
    DispatchAgrees("colmap", "openmvs");
  }

  /**
   * The `mvs_*` functions of `pipeline/mvs_converter.py`: each links an mvs
   * result into the fusion directory, and each keeps the format.
   */
  datatype MvsAdapter = MvsColmap | MvsMvsnet | MvsPointmvsnet

  /** The format an mvs adapter both reads and writes. */
  function MvsFormat(a: MvsAdapter): string {
    match a
    case MvsColmap => "colmap"
    case MvsMvsnet => "mvsnet"
    case MvsPointmvsnet => "pointmvsnet"
  }

  /** The Python name of an mvs adapter. */
  function MvsName(a: MvsAdapter): string {
    "mvs_" + (MvsFormat(a) + "2" + MvsFormat(a))
  }

  const MvsAdapters: seq<MvsAdapter> := [MvsColmap, MvsMvsnet, MvsPointmvsnet]

  /** `getattr(module, name)` restricted to the mvs adapters. */
  function MvsLookup(table: seq<MvsAdapter>, name: string): (r: Option<MvsAdapter>)
    ensures r.Some? ==> r.value in table && MvsName(r.value) == name
    ensures r.None? ==> forall k | 0 <= k < |table| :: MvsName(table[k]) != name
  {
    if table == [] then None
    else if MvsName(table[0]) == name then Some(table[0])
    else
      var r := MvsLookup(table[1..], name);
      assert forall k | 1 <= k < |table| :: table[k] == table[1..][k - 1];
      r
  }

  /** `mvs_convert_helper`'s choice of function. */
  function MvsDispatch(src: string, target: string): (r: Option<MvsAdapter>)
    ensures r.Some? ==> MvsName(r.value) == "mvs_" + (src + "2" + target)
    ensures r.None? ==> forall k | 0 <= k < |MvsAdapters| :: MvsName(MvsAdapters[k]) != "mvs_" + (src + "2" + target)
  {
    MvsLookup(MvsAdapters, "mvs_" + (src + "2" + target))
  }

  /**
   * `mvs_convert_helper(src, target)` finds a function exactly when the
   * two formats are the same and one of colmap, mvsnet and pointmvsnet;
   * for every other pair the `getattr` raises.
   */
  lemma MvsDispatchExact(src: string, target: string)
    ensures MvsDispatch(src, target).Some? <==> src == target && src in {"colmap", "mvsnet", "pointmvsnet"}
    ensures MvsDispatch(src, target).Some? ==> MvsFormat(MvsDispatch(src, target).value) == src
  {
    var found := MvsDispatch(src, target);
    if found.Some? {
      var f := MvsFormat(found.value);
      assert '2' !in f;
      assert src + "2" + target == ("mvs_" + (src + "2" + target))[4..];
      assert f + "2" + f == ("mvs_" + (f + "2" + f))[4..];
      SplitAtTwo(src, target, f, f);
    }
    if src == target && src in {"colmap", "mvsnet", "pointmvsnet"} {
      var a := if src == "colmap" then MvsColmap else if src == "mvsnet" then MvsMvsnet else MvsPointmvsnet;
      assert MvsAdapters[if src == "colmap" then 0 else if src == "mvsnet" then 1 else 2] == a;
      assert MvsName(a) == "mvs_" + (src + "2" + target);
    }
  }

  lemma LearnedSource(a: Adapter)
    ensures Formats(a).1 in {"mvsnet", "rmvsnet", "pointmvsnet"} ==> Formats(a).0 == "colmap"
  {
  }

  /** The learned MVS targets are reachable from colmap only. */
  lemma LearnedTargetsFromColmapOnly(src: string, target: string)
    requires target == "mvsnet" || target == "rmvsnet" || target == "pointmvsnet"
    ensures Dispatch(src, target).Some? <==> src == "colmap"
  {
    var found := Dispatch(src, target);
    if found.Some? {
      DispatchExact(src, target, found.value);
      LearnedSource(found.value);
    }
    if src == "colmap" {
      var a := if target == "mvsnet" then ColmapToMvsnet else if target == "rmvsnet" then ColmapToRmvsnet else ColmapToPointmvsnet;
      DispatchExact(src, target, a);
    }
  }

  /** The external programs the adapters run, with their fixed options. */
  const UndistortColmap := "colmap image_undistorter"
  const UndistortPmvs := "colmap image_undistorter --output_type PMVS"
  const UndistortFullScale := "colmap image_undistorter --min_scale 1.0 --max_scale 1.0"
  const OpenmvgToColmapProgram := "openMVG_main_openMVG2Colmap"
  const OpenmvgToOpenmvsProgram := "openMVG_main_openMVG2openMVS"
  const OpenmvgToPmvsProgram := "openMVG_main_openMVG2PMVS"
  const OpenmvgToMveProgram := "openMVG_main_openMVG2MVE2"
  const TheiaToColmapProgram := "export_colmap_files"
  const TheiaToPmvsProgram := "export_reconstruction_to_pmvs"
  const ColmapToOpenmvsProgram := "InterfaceCOLMAP"
  /** The pattern theia's reconstruction files match. */
  const TheiaPattern := "reconstruction.bin*"

  /** One thing an adapter does. */
  datatype Step =
    | Select(dir: string, pattern: string, buildId: Option<int>)  // `GetFileFromBuildId`
    | SparseDirectory(base: string)                               // `create_colmap_sparse_directory`
    | Run(program: string)                                        // an external converter
    | RepairTracks                                                // `fixed_openmvg_to_colmap_error`
    | WriteColmapFromMve                                          // `load_mve_sfm` and `write_model`, then image links
    | WriteMve                                                    // `save_mve_sfm`
    | ExportMvsnet                                                // `export_colmap_to_mvsnet`
    | FixPointmvsnet                                              // `fix_mvsnet_to_pointmvsnet`
    | PickImageSuffix(pattern: string)                            // the `-images` glob of the first image suffix
    | RenameOutputs                                               // renames to colmap's layout
    | RewritePmvsOptions                                          // `option-all` from `pmvs_options.txt`
    | LinkInput                                                   // the output becomes a link to the input

  datatype ConvertError = AssertionError  // `assert build_id is None`, or no image suffix was found

  /** An entry of the images directory, as `pathlib.Path.iterdir` yields it. */
  datatype Entry = Entry(name: string, isFile: bool)

  /**
   * Where the adapters take their input and put their output; `images` is
   * the listing of the images directory, in `iterdir` order.
   */
  datatype Dirs = Dirs(input: string, images: seq<Entry>, output: string)

  /** `PurePath.suffix`: from the last dot on, unless that dot starts or ends the name. */
  function PathSuffix(name: string): (r: string)
    ensures r != [] ==> 0 < |name| - |r| && name == name[..|name| - |r|] + r && r[0] == '.'
  {
    match Features.LastDot(name)
    case Some(i) => if 0 < i < |name| - 1 then name[i..] else ""
    case None => ""
  }

  /** The suffixes `sfm_theiasfm2pmvs` accepts. */
  const ImageSuffixes: set<string> := {".JPG", ".jpg", ".PNG", ".png"}

  /** The loop's test: a file with one of the image suffixes. */
  predicate IsImage(e: Entry) {
    PathSuffix(e.name) in ImageSuffixes && e.isFile
  }

  /** The loop of `sfm_theiasfm2pmvs`: the suffix of the first image entry, or None when there is none. */
  function FirstImageSuffix(es: seq<Entry>): (r: Option<string>)
    ensures r.None? <==> forall k | 0 <= k < |es| :: !IsImage(es[k])
    ensures r.Some? ==> exists k | 0 <= k < |es| ::
              && IsImage(es[k]) && r.value == PathSuffix(es[k].name)
              && forall j | 0 <= j < k :: !IsImage(es[j])
  {
    var images := seq(|es|, k requires 0 <= k < |es| => IsImage(es[k]));
    assert forall k | 0 <= k < |es| :: images[k] == IsImage(es[k]);
    match FirstTrue(images)
    case None => None
    case Some(k) => Some(PathSuffix(es[k].name))
  }

  /** The position of the first `true`. */
  function FirstTrue(bs: seq<bool>): (r: Option<nat>)
    ensures r.None? ==> forall k | 0 <= k < |bs| :: !bs[k]
    ensures r.Some? ==> r.value < |bs| && bs[r.value] && forall j | 0 <= j < r.value :: !bs[j]
  {
    if bs == [] then None
    else if bs[0] then Some(0)
    else
      var r := FirstTrue(bs[1..]);
      assert forall k | 1 <= k < |bs| :: bs[k] == bs[1..][k - 1];
      if r.None? then None else Some(r.value + 1)
  }

  /** A directory holding only `a.jpeg` has no image suffix: the adapter's assertion fails. */
  lemma JpegOnlyHasNoImage()
    ensures FirstImageSuffix([Entry("a.jpeg", true)]).None?
  {
    var name := "a.jpeg";
    assert name[1] == '.' && name[0] != '.' && forall k | 2 <= k < |name| :: name[k] != '.';
    assert Features.LastDot(name) == Some(1);
    assert PathSuffix(name) == name[1..] == ".jpeg";
  }

  /** The adapters that assert that no build id is given. */
  predicate RejectsBuildId(a: Adapter) {
    a.MveToOthers? || a.MveToColmap? || a.MveToOpenmvs? || a.MveToPmvs? || a.OpenmvgToColmap?
  }

  function Undistort(d: Dirs, buildId: Option<int>, program: string): seq<Step> {
    [Select(PathJoin(d.input, "sparse"), "*", buildId), Run(program)]
  }

  /** `sfm_mve2others`: convert through a colmap model in `<out>/tmp`, then on to `outType`. */
  function MveVia(d: Dirs, buildId: Option<int>, toPmvs: bool): Result<seq<Step>, ConvertError> {
    if buildId.Some? then Err(AssertionError)
    else
      var tmp := PathJoin(d.output, "tmp");
      var rest := if toPmvs then Undistort(Dirs(tmp, d.images, d.output), None, UndistortPmvs)
                  else Undistort(Dirs(tmp, d.images, d.output), None, UndistortColmap);
      Ok([SparseDirectory(tmp), WriteColmapFromMve] + rest)
  }

  /** How deep an adapter calls other adapters. */
  function Depth(a: Adapter): nat {
    if a.ColmapToRmvsnet? || a.ColmapToPointmvsnet? || a.TheiasfmToOpenmvs? || a.TheiasfmToMve? then 1 else 0
  }

  /** The steps of an adapter, nested adapter calls expanded. */
  function Plan(a: Adapter, d: Dirs, buildId: Option<int>): (r: Result<seq<Step>, ConvertError>)
    ensures r.Ok? ==> r.value != []
    decreases Depth(a)
  {
    match a
    case ColmapToColmap => Ok(Undistort(d, buildId, UndistortColmap))
    case ColmapToPmvs => Ok(Undistort(d, buildId, UndistortPmvs))
    case ColmapToMve => Ok(Undistort(d, buildId, UndistortColmap) + [WriteMve])
    case ColmapToMvsnet => Ok(Undistort(d, buildId, UndistortFullScale) + [ExportMvsnet])
    case ColmapToRmvsnet => Plan(ColmapToMvsnet, d, buildId)
    case ColmapToPointmvsnet =>
      var p :- Plan(ColmapToMvsnet, d, buildId);
      Ok(p + [FixPointmvsnet])
    case OpenmvgToColmap =>
      // Unlike `sfm_mve2others`, this adapter creates `<out>/tmp/sparse/0`
      // before it asserts that no build id is given; the error carries no steps.
      var tmp := PathJoin(d.output, "tmp");
      if buildId.Some? then Err(AssertionError)
      else Ok([SparseDirectory(tmp), Run(OpenmvgToColmapProgram), RepairTracks]
              + Undistort(Dirs(tmp, d.images, d.output), None, UndistortColmap))
    case OpenmvgToOpenmvs => Ok([Run(OpenmvgToOpenmvsProgram)])
    case OpenmvgToPmvs => Ok([Run(OpenmvgToPmvsProgram), RenameOutputs])
    case OpenmvgToMve => Ok([Run(OpenmvgToMveProgram), RenameOutputs])
    case TheiasfmToColmap =>
      var tmp := PathJoin(d.output, "tmp");
      Ok([Select(d.input, TheiaPattern, buildId), SparseDirectory(tmp), Run(TheiaToColmapProgram)]
         + Undistort(Dirs(tmp, d.images, d.output), None, UndistortColmap))
    case TheiasfmToOpenmvs =>
      var p :- Plan(TheiasfmToColmap, d, buildId);
      Ok(p + [Run(ColmapToOpenmvsProgram)])
    case TheiasfmToPmvs => TheiaToPmvs(d, buildId)
    case TheiasfmToMve =>
      var p :- Plan(TheiasfmToColmap, d, buildId);
      Ok(p + [WriteMve])
    case MveToOthers => MveVia(d, buildId, false)
    case MveToColmap => MveVia(d, buildId, false)
    case MveToOpenmvs =>
      var p :- MveVia(d, buildId, false);
      Ok(p + [Run(ColmapToOpenmvsProgram)])
    case MveToPmvs => MveVia(d, buildId, true)
    case MveToMve => Ok([LinkInput])
  }

  /**
   * Called without a build id, as the pipeline does, only the assertion of
   * `sfm_theiasfm2pmvs` can fail among the adapters' own checks; whether a
   * selection exits is `Exits`.
   */
  lemma PlanWithoutBuildId(a: Adapter, d: Dirs)
    ensures Plan(a, d, None).Err? <==> a.TheiasfmToPmvs? && FirstImageSuffix(d.images).None?
    ensures Plan(a, d, None).Err? ==> Plan(a, d, None).error == AssertionError
  {
    PlanFailsExactly(a, d, None);
  }

  /**
   * `sfm_theiasfm2pmvs`: the glob of the first image suffix in the images
   * directory, asserted to exist; the Theia export; the options rewrite.
   */
  function TheiaToPmvs(d: Dirs, buildId: Option<int>): (r: Result<seq<Step>, ConvertError>)
    ensures r.Err? <==> FirstImageSuffix(d.images).None?
    ensures r.Ok? ==> Selections(r.value) == [buildId]
  {
    var suffix := FirstImageSuffix(d.images);
    if suffix.None? then Err(AssertionError)
    else
      var steps := TheiaSteps("*" + suffix.value, d.input, buildId);
      TheiaStepsSelect("*" + suffix.value, d.input, buildId);
      Ok(steps)
  }

  function TheiaSteps(pattern: string, input: string, buildId: Option<int>): seq<Step> {
    [PickImageSuffix(pattern), Select(input, TheiaPattern, buildId), Run(TheiaToPmvsProgram), RewritePmvsOptions]
  }

  /** The export selects the Theia reconstruction once, with the caller's id. */
  lemma TheiaStepsSelect(pattern: string, input: string, buildId: Option<int>)
    ensures Selections(TheiaSteps(pattern, input, buildId)) == [buildId]
  {
    var steps := TheiaSteps(pattern, input, buildId);
    NoSelections(steps[2..]);
    assert steps[1..][1..] == steps[2..];
  }

  /**
   * An adapter fails its own checks exactly when it rejects build ids and
   * is given one, or it is `sfm_theiasfm2pmvs` and the images directory
   * holds no image file.
   */
  lemma PlanFailsExactly(a: Adapter, d: Dirs, buildId: Option<int>)
    ensures Plan(a, d, buildId).Err? <==>
              || (RejectsBuildId(a) && buildId.Some?)
              || (a.TheiasfmToPmvs? && FirstImageSuffix(d.images).None?)
    ensures Plan(a, d, buildId).Err? ==> Plan(a, d, buildId).error == AssertionError
  {
    if a.ColmapToColmap? || a.ColmapToPmvs? || a.ColmapToMve? || a.ColmapToMvsnet? || a.ColmapToRmvsnet? || a.ColmapToPointmvsnet? {
      ColmapPlansSucceed(a, d, buildId);
    } else if a.TheiasfmToColmap? || a.TheiasfmToOpenmvs? || a.TheiasfmToMve? {
      TheiasPlansSucceed(a, d, buildId);
    } else if a.TheiasfmToPmvs? {
      TheiaFailsWithoutImage(a, d, buildId);
    } else {
      OthersFailOnlyForBuildId(a, d, buildId);
    }
  }

  lemma ColmapPlansSucceed(a: Adapter, d: Dirs, buildId: Option<int>)
    requires a.ColmapToColmap? || a.ColmapToPmvs? || a.ColmapToMve? || a.ColmapToMvsnet? || a.ColmapToRmvsnet? || a.ColmapToPointmvsnet?
    ensures Plan(a, d, buildId).Ok?
  {
    assert Plan(ColmapToMvsnet, d, buildId).Ok?;
  }

  lemma TheiasPlansSucceed(a: Adapter, d: Dirs, buildId: Option<int>)
    requires a.TheiasfmToColmap? || a.TheiasfmToOpenmvs? || a.TheiasfmToMve?
    ensures Plan(a, d, buildId).Ok?
  {
    assert Plan(TheiasfmToColmap, d, buildId).Ok?;
  }

  lemma TheiaFailsWithoutImage(a: Adapter, d: Dirs, buildId: Option<int>)
    requires a.TheiasfmToPmvs?
    ensures Plan(a, d, buildId).Err? <==> FirstImageSuffix(d.images).None?
    ensures Plan(a, d, buildId).Err? ==> Plan(a, d, buildId).error == AssertionError
  {
    assert Plan(a, d, buildId) == TheiaToPmvs(d, buildId);
  }

  lemma OthersFailOnlyForBuildId(a: Adapter, d: Dirs, buildId: Option<int>)
    requires a.OpenmvgToColmap? || a.OpenmvgToOpenmvs? || a.OpenmvgToPmvs? || a.OpenmvgToMve?
          || a.MveToOthers? || a.MveToColmap? || a.MveToOpenmvs? || a.MveToPmvs? || a.MveToMve?
    ensures Plan(a, d, buildId).Err? <==> RejectsBuildId(a) && buildId.Some?
    ensures Plan(a, d, buildId).Err? ==> Plan(a, d, buildId).error == AssertionError
  {
  }

  /** The rmvsnet target behaves as mvsnet; pointmvsnet is mvsnet plus a fix-up step. */
  lemma LearnedTargetsShareMvsnet(d: Dirs, buildId: Option<int>)
    ensures Plan(ColmapToRmvsnet, d, buildId) == Plan(ColmapToMvsnet, d, buildId)
    ensures Plan(ColmapToPointmvsnet, d, buildId) == Ok(Plan(ColmapToMvsnet, d, buildId).value + [FixPointmvsnet])
  {
  }

  /** The build ids the selections of a plan use, in order. */
  function Selections(steps: seq<Step>): (r: seq<Option<int>>)
    ensures |r| <= |steps|
  {
    if steps == [] then []
    else (if steps[0].Select? then [steps[0].buildId] else []) + Selections(steps[1..])
  }

  lemma {:induction false} SelectionsAppend(a: seq<Step>, b: seq<Step>)
    ensures Selections(a + b) == Selections(a) + Selections(b)
  {
    if a == [] {
      assert a + b == b;
    } else {
      assert (a + b)[0] == a[0];
      assert (a + b)[1..] == a[1..] + b;
      SelectionsAppend(a[1..], b);
    }
  }

  lemma {:induction false} NoSelections(steps: seq<Step>)
    requires forall i | 0 <= i < |steps| :: !steps[i].Select?
    ensures Selections(steps) == []
  {
    if steps != [] {
      NoSelections(steps[1..]);
    }
  }

  lemma UndistortSelects(d: Dirs, buildId: Option<int>, program: string, after: seq<Step>)
    ensures Selections(Undistort(d, buildId, program) + after) == [buildId] + Selections(after)
  {
    var u := Undistort(d, buildId, program);
    SelectionsAppend(u, after);
    assert Selections([Run(program)]) == [];
  }

  /**
   * A build id reaches the first selection only: every plan selects its
   * input once with the caller's id, and the adapters that go through an
   * intermediate colmap model select that model's one sparse directory
   * without an id.
   */
  lemma BuildIdSelectsInputOnly(a: Adapter, d: Dirs, buildId: Option<int>)
    requires Plan(a, d, buildId).Ok?
    ensures var s := Selections(Plan(a, d, buildId).value);
            s == [] || s == [buildId] || s == [buildId, None] || s == [None]
  {
    match a
    case ColmapToColmap => ColmapSelects(a, d, buildId);
    case ColmapToPmvs => ColmapSelects(a, d, buildId);
    case ColmapToMve => ColmapSelects(a, d, buildId);
    case ColmapToMvsnet => ColmapSelects(a, d, buildId);
    case ColmapToRmvsnet => ColmapSelects(a, d, buildId);
    case ColmapToPointmvsnet => ColmapSelects(a, d, buildId);
    case OpenmvgToColmap => OpenmvgSelects(d);
    case OpenmvgToOpenmvs => OtherSelects(a, d, buildId);
    case OpenmvgToPmvs => OtherSelects(a, d, buildId);
    case OpenmvgToMve => OtherSelects(a, d, buildId);
    case TheiasfmToColmap => TheiasSelects(d, buildId);
    case TheiasfmToOpenmvs => TheiasFamilySelects(a, d, buildId);
    case TheiasfmToPmvs => TheiasToPmvsSelects(a, d, buildId);
    case TheiasfmToMve => TheiasFamilySelects(a, d, buildId);
    case MveToOthers => MveFamilySelects(a, d, buildId);
    case MveToColmap => MveFamilySelects(a, d, buildId);
    case MveToOpenmvs => MveFamilySelects(a, d, buildId);
    case MveToPmvs => MveFamilySelects(a, d, buildId);
    case MveToMve => OtherSelects(a, d, buildId);
  }

  /** The adapters that run a single program on their input and select nothing. */
  lemma OtherSelects(a: Adapter, d: Dirs, buildId: Option<int>)
    requires a.OpenmvgToOpenmvs? || a.OpenmvgToPmvs? || a.OpenmvgToMve? || a.MveToMve?
    requires Plan(a, d, buildId).Ok?
    ensures Selections(Plan(a, d, buildId).value) == []
  {
    NoSelections(Plan(a, d, buildId).value);
  }

  /** `sfm_theiasfm2pmvs` selects its input once, with the caller's id. */
  lemma TheiasToPmvsSelects(a: Adapter, d: Dirs, buildId: Option<int>)
    requires a.TheiasfmToPmvs? && Plan(a, d, buildId).Ok?
    ensures Selections(Plan(a, d, buildId).value) == [buildId]
  {
    assert Plan(a, d, buildId) == TheiaToPmvs(d, buildId);
  }

  lemma TheiasFamilySelects(a: Adapter, d: Dirs, buildId: Option<int>)
    requires a.TheiasfmToOpenmvs? || a.TheiasfmToMve?
    ensures Selections(Plan(a, d, buildId).value) == [buildId, None]
  {
    TheiasSelects(d, buildId);
    var last := if a.TheiasfmToMve? then WriteMve else Run(ColmapToOpenmvsProgram);
    SelectionsAppend(Plan(TheiasfmToColmap, d, buildId).value, [last]);
    NoSelections([last]);
  }

  lemma MveFamilySelects(a: Adapter, d: Dirs, buildId: Option<int>)
    requires a.MveToOthers? || a.MveToColmap? || a.MveToOpenmvs? || a.MveToPmvs?
    requires Plan(a, d, buildId).Ok?
    ensures Selections(Plan(a, d, buildId).value) == [None]
  {
    match a
    case MveToOpenmvs =>
      MveSelects(d, buildId, false);
      SelectionsAppend(MveVia(d, buildId, false).value, [Run(ColmapToOpenmvsProgram)]);
      NoSelections([Run(ColmapToOpenmvsProgram)]);
    case MveToPmvs => MveSelects(d, buildId, true);
    case _ => MveSelects(d, buildId, false);
  }

  lemma ColmapSelects(a: Adapter, d: Dirs, buildId: Option<int>)
    requires a.ColmapToColmap? || a.ColmapToPmvs? || a.ColmapToMve? || a.ColmapToMvsnet? || a.ColmapToRmvsnet? || a.ColmapToPointmvsnet?
    ensures Selections(Plan(a, d, buildId).value) == [buildId]
  {
    var p := UndistortFullScale;
    match a
    case ColmapToColmap =>
      UndistortSelects(d, buildId, UndistortColmap, []);
      assert Undistort(d, buildId, UndistortColmap) + [] == Undistort(d, buildId, UndistortColmap);
    case ColmapToPmvs =>
      var q := UndistortPmvs;
      UndistortSelects(d, buildId, q, []);
      assert Undistort(d, buildId, q) + [] == Undistort(d, buildId, q);
    case ColmapToMve =>
      UndistortSelects(d, buildId, UndistortColmap, [WriteMve]);
    case ColmapToMvsnet =>
      UndistortSelects(d, buildId, p, [ExportMvsnet]);
    case ColmapToRmvsnet =>
      UndistortSelects(d, buildId, p, [ExportMvsnet]);
    case ColmapToPointmvsnet =>
      UndistortSelects(d, buildId, p, [ExportMvsnet]);
      SelectionsAppend(Undistort(d, buildId, p) + [ExportMvsnet], [FixPointmvsnet]);
  }

  lemma OpenmvgSelects(d: Dirs)
    ensures Selections(Plan(OpenmvgToColmap, d, None).value) == [None]
  {
    var tmp := PathJoin(d.output, "tmp");
    var head := [SparseDirectory(tmp), Run(OpenmvgToColmapProgram), RepairTracks];
    var inner := Undistort(Dirs(tmp, d.images, d.output), None, UndistortColmap);
    NoSelections(head);
    SelectionsAppend(head, inner);
    UndistortSelects(Dirs(tmp, d.images, d.output), None, UndistortColmap, []);
    assert inner + [] == inner;
  }

  lemma TheiasSelects(d: Dirs, buildId: Option<int>)
    ensures Selections(Plan(TheiasfmToColmap, d, buildId).value) == [buildId, None]
  {
    var tmp := PathJoin(d.output, "tmp");
    var head := [Select(d.input, TheiaPattern, buildId), SparseDirectory(tmp), Run(TheiaToColmapProgram)];
    var inner := Undistort(Dirs(tmp, d.images, d.output), None, UndistortColmap);
    SelectionsAppend(head, inner);
    NoSelections(head[1..]);
    UndistortSelects(Dirs(tmp, d.images, d.output), None, UndistortColmap, []);
    assert inner + [] == inner;
  }

  lemma MveSelects(d: Dirs, buildId: Option<int>, toPmvs: bool)
    requires buildId.None?
    ensures Selections(MveVia(d, buildId, toPmvs).value) == [None]
  {
    var tmp := PathJoin(d.output, "tmp");
    var p := if toPmvs then UndistortPmvs else UndistortColmap;
    var inner := Undistort(Dirs(tmp, d.images, d.output), None, p);
    NoSelections([SparseDirectory(tmp), WriteColmapFromMve]);
    SelectionsAppend([SparseDirectory(tmp), WriteColmapFromMve], inner);
    UndistortSelects(Dirs(tmp, d.images, d.output), None, p, []);
    assert inner + [] == inner;
  }

  /**
   * What `pathlib.Path(dir).glob(pattern)` yields for each directory and
   * pattern the adapters search, in the order it yields them; a pair the
   * map lacks yields nothing.
   */
  type Globs = map<(string, string), seq<string>>

  function Candidates(g: Globs, dir: string, pattern: string): seq<string> {
    if (dir, pattern) in g then g[(dir, pattern)] else []
  }

  /** A `GetFileFromBuildId` step that does not single out one file: it logs and calls `exit(1)`. */
  predicate Exits(s: Step, g: Globs) {
    s.Select? && GetFileFromBuildId(Candidates(g, s.dir, s.pattern), s.buildId).Err?
  }

  /** Every selection of a plan finds its file. */
  predicate AllFound(steps: seq<Step>, g: Globs) {
    forall k | 0 <= k < |steps| :: !Exits(steps[k], g)
  }

  /** A plan that selects nothing never exits, whatever the globs yield. */
  lemma {:induction false} NoSelectionsFind(steps: seq<Step>, g: Globs)
    requires Selections(steps) == []
    ensures AllFound(steps, g)
  {
    if steps != [] {
      assert !steps[0].Select?;
      NoSelectionsFind(steps[1..], g);
      assert forall k | 1 <= k < |steps| :: steps[k] == steps[1..][k - 1];
    }
  }

  /** `sfm_colmap2pmvs` without a build id: select the one sparse model, then undistort into pmvs. */
  lemma ColmapToPmvsPlan(a: Adapter, d: Dirs)
    requires a.ColmapToPmvs?
    ensures Plan(a, d, None) == Ok(Undistort(d, None, UndistortPmvs))
  {
  }

  /** The undistortion finds its input exactly when the glob of `sparse` yields one path. */
  lemma UndistortFinds(d: Dirs, program: string, g: Globs)
    ensures AllFound(Undistort(d, None, program), g) <==> |Candidates(g, PathJoin(d.input, "sparse"), "*")| == 1
  {
    var steps := Undistort(d, None, program);
    assert !Exits(steps[1], g);
    assert AllFound(steps, g) <==> !Exits(steps[0], g);
  }

  /**
   * `create_colmap_sparse_directory`: creates whichever of `base`,
   * `base/sparse` and `base/sparse/0` is missing and returns the last.
   */
  function CreateSparseDirectory(base: string, existing: set<string>): (r: (string, set<string>))
    ensures r.0 == PathJoin(PathJoin(base, "sparse"), "0")
    ensures r.1 == existing + {base, PathJoin(base, "sparse"), r.0}
  {
    var sparse := PathJoin(base, "sparse");
    var zero := PathJoin(sparse, "0");
    var e1 := if base in existing then existing else existing + {base};
    var e2 := if sparse in e1 then e1 else e1 + {sparse};
    var e3 := if zero in e2 then e2 else e2 + {zero};
    (zero, e3)
  }

  /** Creating the sparse directory again changes nothing and returns the same path. */
  lemma CreateSparseDirectoryIdempotent(base: string, existing: set<string>)
    ensures var (p, after) := CreateSparseDirectory(base, existing);
            CreateSparseDirectory(base, after) == (p, after)
  {
  }

  /** The older converter's `openmvg2colmap`: it too asserts that no build id is given. */
  function OpenmvgToColmapDirect(buildId: Option<int>): (r: Result<seq<Step>, ConvertError>)
    ensures r.Err? <==> buildId.Some?
    ensures r.Ok? ==> RepairTracks in r.value
  {
    if buildId.Some? then Err(AssertionError) else Ok([Run(OpenmvgToColmapProgram), RepairTracks])
  }
}

=== FILE: features.dfy ===
/**
 * Byte-wise string order, as `std::string` and `boost::filesystem::path`
 * compare the names of entries of one directory, and a sort by it.
 */
module NameOrder {

  /** `a` sorts before `b` or equals it. */
  predicate LexLeq(a: string, b: string) {
    |a| == 0 || (|b| > 0 && (a[0] < b[0] || (a[0] == b[0] && LexLeq(a[1..], b[1..]))))
  }

  lemma {:induction false} LexLeqReflexive(a: string)
    ensures LexLeq(a, a)
  {
    if |a| > 0 {
      LexLeqReflexive(a[1..]);
    }
  }

  lemma {:induction false} LexLeqTotal(a: string, b: string)
    ensures LexLeq(a, b) || LexLeq(b, a)
  {
    if |a| > 0 && |b| > 0 && a[0] == b[0] {
      LexLeqTotal(a[1..], b[1..]);
    }
  }

  lemma {:induction false} LexLeqTransitive(a: string, b: string, c: string)
    requires LexLeq(a, b) && LexLeq(b, c)
    ensures LexLeq(a, c)
  {
    if |a| > 0 && a[0] == b[0] && b[0] == c[0] {
      LexLeqTransitive(a[1..], b[1..], c[1..]);
    }
  }

  lemma {:induction false} LexLeqAntisymmetric(a: string, b: string)
    requires LexLeq(a, b) && LexLeq(b, a)
    ensures a == b
  {
    if |a| > 0 {
      LexLeqAntisymmetric(a[1..], b[1..]);
      assert a == [a[0]] + a[1..] && b == [b[0]] + b[1..];
    }
  }

  ghost predicate LexSorted(xs: seq<string>) {
    forall i, j | 0 <= i < j < |xs| :: LexLeq(xs[i], xs[j])
  }

  function InsertName(x: string, xs: seq<string>): (r: seq<string>)
    ensures multiset(r) == multiset(xs) + multiset{x}
  {
    if xs == [] || LexLeq(x, xs[0]) then [x] + xs
    else
      assert xs == [xs[0]] + xs[1..];
      [xs[0]] + InsertName(x, xs[1..])
  }

  lemma {:induction false} InsertNameSorted(x: string, xs: seq<string>)
    requires LexSorted(xs)
    ensures LexSorted(InsertName(x, xs))
  {
    var r := InsertName(x, xs);
    if xs == [] || LexLeq(x, xs[0]) {
      forall j | 1 <= j < |r| ensures LexLeq(x, r[j]) {
        if j > 1 {
          LexLeqTransitive(x, xs[0], xs[j - 1]);
        }
      }
    } else {
      LexLeqTotal(x, xs[0]);
      var tail := InsertName(x, xs[1..]);
      InsertNameSorted(x, xs[1..]);
      forall j | 0 <= j < |tail| ensures LexLeq(xs[0], tail[j]) {
        assert tail[j] in multiset(xs[1..]) + multiset{x};
        if tail[j] != x {
          var k :| 1 <= k < |xs| && xs[k] == tail[j];
        }
      }
    }
  }

  /** `std::sort` of a list of names. */
  function SortNames(xs: seq<string>): (r: seq<string>)
    ensures multiset(r) == multiset(xs)
    ensures LexSorted(r)
  {
    if xs == [] then []
    else
      assert xs == [xs[0]] + xs[1..];
      InsertNameSorted(xs[0], SortNames(xs[1..]));
      InsertName(xs[0], SortNames(xs[1..]))
  }

  lemma TailsSame(xs: seq<string>, ys: seq<string>)
    requires xs != [] && ys != [] && xs[0] == ys[0] && multiset(xs) == multiset(ys)
    ensures multiset(xs[1..]) == multiset(ys[1..])
  {
    assert xs == [xs[0]] + xs[1..] && ys == [ys[0]] + ys[1..];
    assert multiset(xs[1..]) == multiset(xs) - multiset{xs[0]};
    assert multiset(ys[1..]) == multiset(ys) - multiset{ys[0]};
  }

  lemma SortedTail(xs: seq<string>)
    requires xs != [] && LexSorted(xs)
    ensures LexSorted(xs[1..])
  {
    forall i, j | 0 <= i < j < |xs| - 1 ensures LexLeq(xs[1..][i], xs[1..][j]) {
      assert xs[1..][i] == xs[i + 1] && xs[1..][j] == xs[j + 1];
    }
  }

  /** A sorted order of a multiset of names is unique, so the sort does not depend on the input order. */
  lemma {:induction false} SortedUnique(xs: seq<string>, ys: seq<string>)
    requires LexSorted(xs) && LexSorted(ys) && multiset(xs) == multiset(ys)
    ensures xs == ys
  {
    if xs != [] {
      assert ys != [] by {
        assert xs[0] in multiset(ys);
      }
      assert xs[0] in multiset(ys) && ys[0] in multiset(xs);
      var i :| 0 <= i < |ys| && ys[i] == xs[0];
      var j :| 0 <= j < |xs| && xs[j] == ys[0];
      assert LexLeq(ys[0], xs[0]) by {
        if i > 0 {
          assert LexLeq(ys[0], ys[i]);
        } else {
          LexLeqReflexive(xs[0]);
        }
      }
      assert LexLeq(xs[0], ys[0]) by {
        if j > 0 {
          assert LexLeq(xs[0], xs[j]);
        } else {
          LexLeqReflexive(xs[0]);
        }
      }
      LexLeqAntisymmetric(xs[0], ys[0]);
      TailsSame(xs, ys);
      SortedTail(xs);
      SortedTail(ys);
      SortedUnique(xs[1..], ys[1..]);
    }
  }
}

/**
 * `FeatureDetector::run`: list the images of a directory, match every pair
 * of them, keep the matches that pass Lowe's ratio test and write the pairs
 * with enough matches.  Keypoint detection and nearest-neighbour search are
 * a parameter: for two images it gives the two nearest neighbours of each
 * descriptor.
 */
module Features {
  import opened Wrappers
  import opened Tokens
  import opened NameOrder

  /** The last dot of `s`. */
  function LastDot(s: string): (r: Option<nat>)
    ensures r.Some? ==> r.value < |s| && s[r.value] == '.' && forall k | r.value < k < |s| :: s[k] != '.'
    ensures r.None? ==> forall k | 0 <= k < |s| :: s[k] != '.'
  {
    if s == [] then None
    else if s[|s| - 1] == '.' then Some(|s| - 1)
    else LastDot(s[..|s| - 1])
  }

  /**
   * `path::extension()` of a file name (Boost.Filesystem version 3): the
   * name from its last dot on; nothing for a name without a dot and for the
   * names "." and "..".
   */
  function Extension(name: string): (e: string)
    ensures e == [] <==> (name == "." || name == ".." || forall k | 0 <= k < |name| :: name[k] != '.')
    ensures e != [] ==> && |e| <= |name| && name[|name| - |e|..] == e
                        && e[0] == '.' && forall k | 1 <= k < |e| :: e[k] != '.'
  {
    if name == "." || name == ".." then ""
    else match LastDot(name)
      case None => ""
      case Some(k) => name[k..]
  }

  predicate IsImage(name: string) {
    Extension(name) in {".jpg", ".JPG", ".png", ".PNG"}
  }

  predicate EndsWith(name: string, suffix: string) {
    |suffix| <= |name| && name[|name| - |suffix|..] == suffix
  }

  lemma {:induction false} LastDotAt(s: string, k: nat)
    requires k < |s| && s[k] == '.' && forall m | k < m < |s| :: s[m] != '.'
    ensures LastDot(s) == Some(k)
  {
    if k < |s| - 1 {
      LastDotAt(s[..|s| - 1], k);
    }
  }

  lemma ExtensionOfSuffix(name: string, ext: string)
    requires |ext| == 4 && ext[0] == '.' && forall k | 1 <= k < 4 :: ext[k] != '.'
    requires EndsWith(name, ext)
    ensures Extension(name) == ext
  {
    var k := |name| - 4;
    forall m | k <= m < |name| ensures name[m] == ext[m - k] {
      assert name[k..][m - k] == name[m];
    }
    LastDotAt(name, k);
    assert |name| >= 4;
  }

  /** A file is an image exactly when its name ends in one of the four extensions. */
  lemma ImageBySuffix(name: string)
    ensures IsImage(name) <==> EndsWith(name, ".jpg") || EndsWith(name, ".JPG") || EndsWith(name, ".png") || EndsWith(name, ".PNG")
  {
    var e := Extension(name);
    if IsImage(name) {
      assert EndsWith(name, e);
    }
    if EndsWith(name, ".jpg") {
      ExtensionOfSuffix(name, ".jpg");
    } else if EndsWith(name, ".JPG") {
      ExtensionOfSuffix(name, ".JPG");
    } else if EndsWith(name, ".png") {
      ExtensionOfSuffix(name, ".png");
    } else if EndsWith(name, ".PNG") {
      ExtensionOfSuffix(name, ".PNG");
    }
  }

  /** The directory entries with an image extension, in directory order. */
  function ImageFilter(names: seq<string>): (r: seq<string>)
    ensures forall x {:trigger multiset(r)[x]} :: multiset(r)[x] == if IsImage(x) then multiset(names)[x] else 0
  {
    if names == [] then []
    else
      assert names == [names[0]] + names[1..];
      (if IsImage(names[0]) then [names[0]] else []) + ImageFilter(names[1..])
  }

  /** The sorted list of images of a directory. */
  function ImageList(names: seq<string>): (r: seq<string>)
    ensures LexSorted(r)
    ensures forall x {:trigger multiset(r)[x]} :: multiset(r)[x] == if IsImage(x) then multiset(names)[x] else 0
  {
    SortNames(ImageFilter(names))
  }

  /** The listing does not depend on the order the directory yields its entries in. */
  lemma ImageListIgnoresOrder(names: seq<string>, others: seq<string>)
    requires multiset(names) == multiset(others)
    ensures ImageList(names) == ImageList(others)
  {
    var a := ImageList(names);
    var b := ImageList(others);
    assert multiset(a) == multiset(b) by {
      forall x ensures multiset(a)[x] == multiset(b)[x] {
      }
    }
    SortedUnique(a, b);
  }

  /** The pairs `(i, j)` for one `i`: `j` from `i + 1` up to `n`. */
  function Row(i: nat, n: nat): (r: seq<(nat, nat)>)
    ensures |r| == if i < n then n - i - 1 else 0
    ensures forall k {:trigger r[k]} | 0 <= k < |r| :: r[k] == (i, i + 1 + k)
  {
    if i + 1 >= n then [] else seq(n - i - 1, k requires 0 <= k < n - i - 1 => (i, i + 1 + k))
  }

  function PairsFrom(i: nat, n: nat): seq<(nat, nat)>
    decreases n - i
  {
    if i >= n then [] else Row(i, n) + PairsFrom(i + 1, n)
  }

  /** The matching jobs: `(i, j)` for all `i < j < n`, row by row. */
  function Pairs(n: nat): seq<(nat, nat)> {
    PairsFrom(0, n)
  }

  predicate PairLess(a: (int, int), b: (int, int)) {
    a.0 < b.0 || (a.0 == b.0 && a.1 < b.1)
  }

  ghost predicate Increasing(ps: seq<(int, int)>) {
    forall a, b | 0 <= a < b < |ps| :: PairLess(ps[a], ps[b])
  }

  function Triangle(m: nat): nat {
    m * (m - 1) / 2
  }

  lemma TriangleStep(m: nat)
    requires m > 0
    ensures Triangle(m) == (m - 1) + Triangle(m - 1)
  {
    assert m * (m - 1) == 2 * (m - 1) + (m - 1) * (m - 2);
  }

  lemma {:induction false} PairsFromShape(i: nat, n: nat)
    ensures var r := PairsFrom(i, n);
            && |r| == (if i < n then Triangle(n - i) else 0)
            && forall k | 0 <= k < |r| :: i <= r[k].0 < r[k].1 < n
    decreases n - i
  {
    if i < n {
      PairsFromShape(i + 1, n);
      TriangleStep(n - i);
      var row := Row(i, n);
      var rest := PairsFrom(i + 1, n);
      var r: seq<(nat, nat)> := row + rest;
      forall k | 0 <= k < |r| ensures i <= r[k].0 < r[k].1 < n {
        if k >= |row| {
          assert r[k] == rest[k - |row|];
        }
      }
    }
  }

  lemma {:induction false} PairsFromIncreasing(i: nat, n: nat)
    ensures Increasing(PairsFrom(i, n))
    decreases n - i
  {
    if i < n {
      PairsFromIncreasing(i + 1, n);
      PairsFromShape(i + 1, n);
      var row := Row(i, n);
      var rest := PairsFrom(i + 1, n);
      var r := row + rest;
      forall a, b | 0 <= a < b < |r| ensures PairLess(r[a], r[b]) {
        if b < |row| {
        } else if a < |row| {
          assert r[b] == rest[b - |row|];
        } else {
          assert r[a] == rest[a - |row|] && r[b] == rest[b - |row|];
        }
      }
    }
  }

  lemma {:induction false} PairsFromComplete(i: nat, n: nat, p: nat, q: nat)
    requires i <= p < q < n
    ensures (p, q) in PairsFrom(i, n)
    decreases n - i
  {
    if p == i {
      assert Row(i, n)[q - i - 1] == (p, q);
    } else {
      PairsFromComplete(i + 1, n, p, q);
    }
  }

  /** Every pair `i < j < n` is matched, once each, in lexicographic order: `n(n-1)/2` jobs. */
  lemma PairsSpec(n: nat)
    ensures |Pairs(n)| == Triangle(n)
    ensures Increasing(Pairs(n))
    ensures forall k | 0 <= k < |Pairs(n)| :: Pairs(n)[k].0 < Pairs(n)[k].1 < n
    ensures forall p, q | 0 <= p < q < n :: (p, q) in Pairs(n)
  {
    PairsFromShape(0, n);
    PairsFromIncreasing(0, n);
    forall p, q | 0 <= p < q < n ensures (p, q) in Pairs(n) {
      PairsFromComplete(0, n, p, q);
    }
  }

  datatype DMatch = DMatch(queryIdx: int, trainIdx: int, distance: real)

  /** The two nearest neighbours of one query descriptor. */
  datatype Knn = Knn(best: DMatch, second: DMatch)

  const RatioThreshold: real := 0.7

  predicate Distinctive(m: Knn) {
    m.best.distance < RatioThreshold * m.second.distance
  }

  /** Lowe's ratio test: the nearest neighbour of each distinctive query, in query order. */
  function RatioTest(knn: seq<Knn>): (r: seq<DMatch>)
    ensures |r| <= |knn|
    ensures |r| == |knn| <==> forall k | 0 <= k < |knn| :: Distinctive(knn[k])
    ensures r == [] <==> forall k | 0 <= k < |knn| :: !Distinctive(knn[k])
  {
    if knn == [] then []
    else
      assert forall k | 1 <= k < |knn| :: knn[k] == knn[1..][k - 1];
      (if Distinctive(knn[0]) then [knn[0].best] else []) + RatioTest(knn[1..])
  }

  lemma {:induction false} RatioTestAppend(a: seq<Knn>, b: seq<Knn>)
    ensures RatioTest(a + b) == RatioTest(a) + RatioTest(b)
  {
    if a != [] {
      var head := if Distinctive(a[0]) then [a[0].best] else [];
      assert (a + b)[0] == a[0];
      assert (a + b)[1..] == a[1..] + b;
      RatioTestAppend(a[1..], b);
      assert RatioTest(a + b) == head + (RatioTest(a[1..]) + RatioTest(b));
      assert RatioTest(a) == head + RatioTest(a[1..]);
    } else {
      assert a + b == b;
    }
  }

  /** The test keeps a query's nearest neighbour exactly when the query is distinctive. */
  lemma {:induction false} RatioTestKeeps(knn: seq<Knn>, k: nat)
    requires k < |knn|
    ensures RatioTest(knn[..k + 1]) == RatioTest(knn[..k]) + (if Distinctive(knn[k]) then [knn[k].best] else [])
  {
    assert knn[..k + 1] == knn[..k] + [knn[k]];
    RatioTestAppend(knn[..k], [knn[k]]);
  }

  /** Nothing but distinctive nearest neighbours is kept. */
  lemma {:induction false} RatioTestSound(knn: seq<Knn>, m: DMatch)
    requires m in RatioTest(knn)
    ensures exists k | 0 <= k < |knn| :: knn[k].best == m && Distinctive(knn[k])
  {
    if !(Distinctive(knn[0]) && knn[0].best == m) {
      RatioTestSound(knn[1..], m);
      var k :| 0 <= k < |knn[1..]| && knn[1..][k].best == m && Distinctive(knn[1..][k]);
      assert knn[k + 1] == knn[1..][k];
    }
  }

  /** Every distinctive nearest neighbour is kept. */
  lemma {:induction false} RatioTestComplete(knn: seq<Knn>, k: nat)
    requires k < |knn| && Distinctive(knn[k])
    ensures knn[k].best in RatioTest(knn)
  {
    if k > 0 {
      assert knn[1..][k - 1] == knn[k];
      RatioTestComplete(knn[1..], k - 1);
    }
  }

  const MinMatches: nat := 16

  /** One record of the match file: a pair and its `(queryIdx, trainIdx)` list. */
  datatype MatchRecord = MatchRecord(i: int, j: int, idxs: seq<(int, int)>)

  function Indices(ms: seq<DMatch>): (r: seq<(int, int)>)
    ensures |r| == |ms| && forall k {:trigger r[k]} | 0 <= k < |ms| :: r[k] == (ms[k].queryIdx, ms[k].trainIdx)
  {
    seq(|ms|, k requires 0 <= k < |ms| => (ms[k].queryIdx, ms[k].trainIdx))
  }

  /** The records of the pairs with at least `MinMatches` good matches, in pair order. */
  function Kept(pairs: seq<(nat, nat)>, good: seq<seq<DMatch>>): (r: seq<MatchRecord>)
    requires |good| == |pairs|
    ensures |r| <= |pairs|
    ensures |r| == |pairs| <==> forall k | 0 <= k < |pairs| :: |good[k]| >= MinMatches
    ensures r == [] <==> forall k | 0 <= k < |pairs| :: |good[k]| < MinMatches
  {
    if pairs == [] then []
    else
      assert forall k | 1 <= k < |pairs| :: good[k] == good[1..][k - 1];
      (if |good[0]| >= MinMatches then [MatchRecord(pairs[0].0, pairs[0].1, Indices(good[0]))] else [])
      + Kept(pairs[1..], good[1..])
  }

  lemma {:induction false} KeptSound(pairs: seq<(nat, nat)>, good: seq<seq<DMatch>>, rec: MatchRecord)
    requires |good| == |pairs| && rec in Kept(pairs, good)
    ensures exists k | 0 <= k < |pairs| :: && pairs[k] == (rec.i, rec.j) && |good[k]| >= MinMatches
                                            && rec.idxs == Indices(good[k])
  {
    if !(|good[0]| >= MinMatches && rec == MatchRecord(pairs[0].0, pairs[0].1, Indices(good[0]))) {
      KeptSound(pairs[1..], good[1..], rec);
      var k :| 0 <= k < |pairs[1..]| && pairs[1..][k] == (rec.i, rec.j) && |good[1..][k]| >= MinMatches
               && rec.idxs == Indices(good[1..][k]);
      assert pairs[k + 1] == pairs[1..][k] && good[k + 1] == good[1..][k];
    }
  }

  lemma {:induction false} KeptComplete(pairs: seq<(nat, nat)>, good: seq<seq<DMatch>>, k: nat)
    requires |good| == |pairs| && k < |pairs| && |good[k]| >= MinMatches
    ensures MatchRecord(pairs[k].0, pairs[k].1, Indices(good[k])) in Kept(pairs, good)
  {
    if k > 0 {
      assert pairs[1..][k - 1] == pairs[k] && good[1..][k - 1] == good[k];
      KeptComplete(pairs[1..], good[1..], k - 1);
    }
  }

  function PairOf(rec: MatchRecord): (int, int) {
    (rec.i, rec.j)
  }

  ghost predicate RecordsIncreasing(recs: seq<MatchRecord>) {
    forall a, b | 0 <= a < b < |recs| :: PairLess(PairOf(recs[a]), PairOf(recs[b]))
  }

  lemma {:induction false} KeptIncreasing(pairs: seq<(nat, nat)>, good: seq<seq<DMatch>>)
    requires |good| == |pairs| && Increasing(pairs)
    ensures RecordsIncreasing(Kept(pairs, good))
  {
    if pairs != [] {
      var rest := Kept(pairs[1..], good[1..]);
      assert Increasing(pairs[1..]) by {
        forall a, b | 0 <= a < b < |pairs[1..]| ensures PairLess(pairs[1..][a], pairs[1..][b]) {
          assert pairs[1..][a] == pairs[a + 1] && pairs[1..][b] == pairs[b + 1];
        }
      }
      KeptIncreasing(pairs[1..], good[1..]);
      if |good[0]| >= MinMatches {
        var head := MatchRecord(pairs[0].0, pairs[0].1, Indices(good[0]));
        var r := [head] + rest;
        forall b | 1 <= b < |r| ensures PairLess(PairOf(head), PairOf(r[b])) {
          assert r[b] in rest;
          KeptSound(pairs[1..], good[1..], r[b]);
          var k :| 0 <= k < |pairs[1..]| && pairs[1..][k] == PairOf(r[b]) && |good[1..][k]| >= MinMatches
                   && r[b].idxs == Indices(good[1..][k]);
          assert pairs[1..][k] == pairs[k + 1];
        }
        forall a, b | 0 <= a < b < |r| ensures PairLess(PairOf(r[a]), PairOf(r[b])) {
          if a > 0 {
            assert r[a] == rest[a - 1] && r[b] == rest[b - 1];
          }
        }
      }
    }
  }

  /** The lines of one record: "i j", the match count, then one "queryIdx trainIdx" per match. */
  function MatchLines(idxs: seq<(int, int)>): (r: seq<Line>)
    ensures |r| == |idxs| && forall k {:trigger r[k]} | 0 <= k < |idxs| :: r[k] == [Int(idxs[k].0), Int(idxs[k].1)]
  {
    seq(|idxs|, k requires 0 <= k < |idxs| => [Int(idxs[k].0), Int(idxs[k].1)])
  }

  function RecordLines(rec: MatchRecord): (r: seq<Line>) {
    [[Int(rec.i), Int(rec.j)], [Int(|rec.idxs|)]] + MatchLines(rec.idxs)
  }

  /** The match file. */
  function Emit(recs: seq<MatchRecord>): (r: seq<Line>)
    ensures |r| >= 2 * |recs|
    ensures recs != [] ==> r[0] == [Int(recs[0].i), Int(recs[0].j)] && r[1] == [Int(|recs[0].idxs|)]
  {
    if recs == [] then [] else RecordLines(recs[0]) + Emit(recs[1..])
  }

  datatype ReadError = Malformed

  /** Reads `n` "queryIdx trainIdx" lines. */
  function ReadIdxs(lines: seq<Line>, n: nat): Result<seq<(int, int)>, ReadError>
    requires n <= |lines|
  {
    if n == 0 then Ok([])
    else if |lines[0]| == 2 && lines[0][0].Int? && lines[0][1].Int? then
      var rest :- ReadIdxs(lines[1..], n - 1);
      Ok([(lines[0][0].i, lines[0][1].i)] + rest)
    else Err(Malformed)
  }

  /** A reader of the match file: records until the lines run out. */
  function ReadMatchFile(lines: seq<Line>): Result<seq<MatchRecord>, ReadError>
    decreases |lines|
  {
    if lines == [] then Ok([])
    else if |lines| < 2 then Err(Malformed)
    else
      var h := lines[0];
      var c := lines[1];
      if !(|h| == 2 && h[0].Int? && h[1].Int? && |c| == 1 && c[0].Int? && 0 <= c[0].i <= |lines| - 2) then Err(Malformed)
      else
        var n: nat := c[0].i;
        var idxs :- ReadIdxs(lines[2..], n);
        var rest :- ReadMatchFile(lines[2 + n..]);
        Ok([MatchRecord(h[0].i, h[1].i, idxs)] + rest)
  }

  lemma {:induction false} ReadIdxsRoundTrip(idxs: seq<(int, int)>, rest: seq<Line>)
    ensures ReadIdxs(MatchLines(idxs) + rest, |idxs|) == Ok(idxs)
  {
    if idxs != [] {
      var lines := MatchLines(idxs) + rest;
      assert lines[0] == [Int(idxs[0].0), Int(idxs[0].1)];
      assert lines[1..] == MatchLines(idxs[1..]) + rest;
      ReadIdxsRoundTrip(idxs[1..], rest);
      assert idxs == [(idxs[0].0, idxs[0].1)] + idxs[1..];
    }
  }

  /** The match file reads back as the records written, in order. */
  lemma {:induction false} EmitRoundTrip(recs: seq<MatchRecord>)
    ensures ReadMatchFile(Emit(recs)) == Ok(recs)
  {
    if recs != [] {
      var rec := recs[0];
      var n := |rec.idxs|;
      var lines := Emit(recs);
      var body := MatchLines(rec.idxs) + Emit(recs[1..]);
      assert lines == [[Int(rec.i), Int(rec.j)], [Int(n)]] + body;
      assert lines[2..] == body;
      assert lines[2 + n..] == Emit(recs[1..]);
      ReadIdxsRoundTrip(rec.idxs, Emit(recs[1..]));
      EmitRoundTrip(recs[1..]);
      assert recs == [MatchRecord(rec.i, rec.j, rec.idxs)] + recs[1..];
    }
  }

  /** The good matches of every job, in job order. */
  function Good(images: seq<string>, pairs: seq<(nat, nat)>, knn: (string, string) -> seq<Knn>): (r: seq<seq<DMatch>>)
    requires forall k | 0 <= k < |pairs| :: pairs[k].0 < |images| && pairs[k].1 < |images|
    ensures |r| == |pairs|
    ensures forall k {:trigger r[k]} | 0 <= k < |pairs| :: r[k] == RatioTest(knn(images[pairs[k].0], images[pairs[k].1]))
  {
    seq(|pairs|, k requires 0 <= k < |pairs| => RatioTest(knn(images[pairs[k].0], images[pairs[k].1])))
  }

  datatype Entry = Absent | NotADirectory | Directory(names: seq<string>)

  datatype Failure = MissingArgument | NoSuchDirectory | NotDirectory

  datatype Output = Output(filename: string, lines: seq<Line>)

  /** The records of a directory listing: every pair of its images with enough good matches. */
  function Records(names: seq<string>, knn: (string, string) -> seq<Knn>): (r: seq<MatchRecord>)
    ensures RecordsIncreasing(r)
  {
    var images := ImageList(names);
    var pairs := Pairs(|images|);
    PairsSpec(|images|);
    KeptIncreasing(pairs, Good(images, pairs, knn));
    Kept(pairs, Good(images, pairs, knn))
  }

  /**
   * `FeatureDetector::run`: `EXIT_FAILURE` for a missing argument or a
   * path that is not a directory; otherwise the output file name and the
   * lines written to it.
   */
  function Run(imageDirectory: Option<string>, outputFilename: Option<string>, fs: string -> Entry,
               knn: (string, string) -> seq<Knn>): (r: Result<Output, Failure>)
    ensures r == Err(MissingArgument) <==> imageDirectory.None? || outputFilename.None?
    ensures r == Err(NoSuchDirectory) <==> imageDirectory.Some? && outputFilename.Some? && fs(imageDirectory.value).Absent?
    ensures r == Err(NotDirectory) <==> imageDirectory.Some? && outputFilename.Some? && fs(imageDirectory.value).NotADirectory?
    ensures r.Ok? ==> && r.value.filename == outputFilename.value
                      && var recs := Records(fs(imageDirectory.value).names, knn);
                         && ReadMatchFile(r.value.lines) == Ok(recs)
                         && RecordsIncreasing(recs)
  {
    if imageDirectory.None? || outputFilename.None? then Err(MissingArgument)
    else match fs(imageDirectory.value)
      case Absent => Err(NoSuchDirectory)
      case NotADirectory => Err(NotDirectory)
      case Directory(names) =>
        var recs := Records(names, knn);
        EmitRoundTrip(recs);
        Ok(Output(outputFilename.value, Emit(recs)))
  }

  ghost predicate WithinImages(pairs: seq<(nat, nat)>, n: nat) {
    forall k | 0 <= k < |pairs| :: pairs[k].0 < pairs[k].1 < n
  }

  /** A kept record is a job with enough good matches, and lists them. */
  lemma KeptRecord(images: seq<string>, pairs: seq<(nat, nat)>, knn: (string, string) -> seq<Knn>, rec: MatchRecord)
    requires WithinImages(pairs, |images|) && rec in Kept(pairs, Good(images, pairs, knn))
    ensures && 0 <= rec.i < rec.j < |images|
            && |RatioTest(knn(images[rec.i], images[rec.j]))| >= MinMatches
            && rec.idxs == Indices(RatioTest(knn(images[rec.i], images[rec.j])))
  {
    var good := Good(images, pairs, knn);
    KeptSound(pairs, good, rec);
    var k :| 0 <= k < |pairs| && pairs[k] == (rec.i, rec.j) && |good[k]| >= MinMatches && rec.idxs == Indices(good[k]);
    assert good[k] == RatioTest(knn(images[pairs[k].0], images[pairs[k].1]));
  }

  /** A job with enough good matches is kept. */
  lemma JobKept(images: seq<string>, pairs: seq<(nat, nat)>, knn: (string, string) -> seq<Knn>, k: nat)
    requires WithinImages(pairs, |images|) && k < |pairs|
    requires |RatioTest(knn(images[pairs[k].0], images[pairs[k].1]))| >= MinMatches
    ensures var good := RatioTest(knn(images[pairs[k].0], images[pairs[k].1]));
            MatchRecord(pairs[k].0, pairs[k].1, Indices(good)) in Kept(pairs, Good(images, pairs, knn))
  {
    KeptComplete(pairs, Good(images, pairs, knn), k);
  }

  /**
   * A pair of images is written exactly when it is a pair `i < j` of the
   * sorted listing with at least `MinMatches` distinctive matches, and its
   * record lists those matches in query order.
   */
  lemma RecordsExact(names: seq<string>, knn: (string, string) -> seq<Knn>, i: int, j: int, idxs: seq<(int, int)>)
    ensures var images := ImageList(names);
            MatchRecord(i, j, idxs) in Records(names, knn) <==>
              && 0 <= i < j < |images|
              && var good := RatioTest(knn(images[i], images[j]));
                 |good| >= MinMatches && idxs == Indices(good)
  {
    var images := ImageList(names);
    var pairs := Pairs(|images|);
    PairsSpec(|images|);
    assert Records(names, knn) == Kept(pairs, Good(images, pairs, knn));
    KeptExact(images, pairs, knn, i, j, idxs);
  }

  lemma KeptExact(images: seq<string>, pairs: seq<(nat, nat)>, knn: (string, string) -> seq<Knn>,
                  i: int, j: int, idxs: seq<(int, int)>)
    requires WithinImages(pairs, |images|)
    requires forall p, q | 0 <= p < q < |images| :: (p, q) in pairs
    ensures MatchRecord(i, j, idxs) in Kept(pairs, Good(images, pairs, knn)) <==>
              && 0 <= i < j < |images|
              && var good := RatioTest(knn(images[i], images[j]));
                 |good| >= MinMatches && idxs == Indices(good)
  {
    var rec := MatchRecord(i, j, idxs);
    if rec in Kept(pairs, Good(images, pairs, knn)) {
      KeptRecord(images, pairs, knn, rec);
    }
    if 0 <= i < j < |images| {
      assert (i, j) in pairs;
      var k :| 0 <= k < |pairs| && pairs[k] == (i, j);
      if |RatioTest(knn(images[i], images[j]))| >= MinMatches {
        JobKept(images, pairs, knn, k);
      }
    }
  }
}

=== FILE: mve_feature.dfy ===
/**
 * `read_mve_feature` in load_mve_sfm.py: the Python reader of the prebundle
 * file.  It keeps only the per-view positions, skips colours and matches,
 * and insists that the whole file is consumed.
 *
 * Python's `f.read(n)` returns at most `n` bytes, and all remaining bytes
 * when `n` is negative; `struct.unpack` needs exactly the format's size and
 * `struct.iter_unpack` a multiple of it, and both raise `struct.error`
 * otherwise.  These rules are modelled as written, so a negative count in
 * the file behaves as it does in Python.
 */
module MveFeature {
  import opened Wrappers
  import opened Bytes
  import opened Prebundle

  datatype PyError =
    | AssertionFailed  // the signature or the end-of-file `assert`
    | StructError      // struct.error: a short or ragged buffer

  /** `f.read(n)`: the bytes read and the bytes left. */
  function PyRead(s: seq<byte>, n: int): (r: Parsed<seq<byte>>)
    ensures r.value + r.rest == s
    ensures 0 <= n <= |s| ==> |r.value| == n
  {
    if n < 0 || n >= |s| then Parsed(s, []) else Parsed(s[..n], s[n..])
  }

  /** `integer_struct.unpack(f.read(4))[0]`. */
  function PyReadInt(s: seq<byte>): Result<Parsed<int32>, PyError> {
    var c := PyRead(s, 4);
    if |c.value| != 4 then Err(StructError) else Ok(Parsed(DecodeInt32(c.value), c.rest))
  }

  /** `vec_struct.iter_unpack(buffer)` over a buffer whose size is a multiple of 8. */
  function DecodePositions(b: seq<byte>): (r: seq<Vec2f>)
    requires |b| % 8 == 0
    ensures |r| == |b| / 8
  {
    if b == [] then [] else [Vec2f(DecodeWord(b[..4]), DecodeWord(b[4..8]))] + DecodePositions(b[8..])
  }

  /** Reads `count` positions the way the view loop does; a negative count reads the rest of the file. */
  function PyReadPositions(s: seq<byte>, count: int32): Result<Parsed<seq<Vec2f>>, PyError> {
    var c := PyRead(s, 8 * count);
    if |c.value| % 8 != 0 then Err(StructError) else Ok(Parsed(DecodePositions(c.value), c.rest))
  }

  /** Reads and drops `count` records of `size` bytes through `iter_unpack`. */
  function PySkip(s: seq<byte>, count: int32, size: nat): Result<seq<byte>, PyError>
    requires size > 0
  {
    var c := PyRead(s, size * count);
    if |c.value| % size != 0 then Err(StructError) else Ok(c.rest)
  }

  function PyReadView(s: seq<byte>): Result<Parsed<seq<Vec2f>>, PyError> {
    var np :- PyReadInt(s);
    var ps :- PyReadPositions(np.rest, np.value);
    var nc :- PyReadInt(ps.rest);
    var rest :- PySkip(nc.rest, nc.value, 3);
    Ok(Parsed(ps.value, rest))
  }

  function PyReadViews(s: seq<byte>, n: nat): Result<Parsed<seq<seq<Vec2f>>>, PyError>
    decreases n
  {
    if n == 0 then Ok(Parsed([], s))
    else
      var v :- PyReadView(s);
      var tail :- PyReadViews(v.rest, n - 1);
      Ok(Parsed([v.value] + tail.value, tail.rest))
  }

  /** One pair: `match_struct.unpack(f.read(12))`, then the matches are skipped. */
  function PySkipPair(s: seq<byte>): Result<seq<byte>, PyError> {
    var h := PyRead(s, 12);
    if |h.value| != 12 then Err(StructError)
    else PySkip(h.rest, DecodeInt32(h.value[8..12]), 8)
  }

  function PySkipPairs(s: seq<byte>, n: nat): Result<seq<byte>, PyError>
    decreases n
  {
    if n == 0 then Ok(s)
    else
      var rest :- PySkipPair(s);
      PySkipPairs(rest, n - 1)
  }

  /** `range(n)` of a negative count is empty. */
  function RangeCount(c: int32): nat {
    if c < 0 then 0 else c
  }

  /** `read_mve_feature`: one position list per view, in file order. */
  function ReadMveFeature(data: seq<byte>): (r: Result<seq<seq<Vec2f>>, PyError>)
    ensures r.Ok? ==> |data| >= SignatureLen + 8 && data[..SignatureLen] == Signature
  {
    var sig := PyRead(data, SignatureLen);
    if sig.value != Signature then Err(AssertionFailed)
    else
      var nv :- PyReadInt(sig.rest);
      var views :- PyReadViews(nv.rest, RangeCount(nv.value));
      var np :- PyReadInt(views.rest);
      var left :- PySkipPairs(np.rest, RangeCount(np.value));
      if left != [] then Err(AssertionFailed) else Ok(views.value)
  }

  /** The position lists of a prebundle's viewports. */
  function PositionLists(vs: seq<Viewport>): (r: seq<seq<Vec2f>>)
    ensures |r| == |vs|
    ensures forall i | 0 <= i < |vs| :: r[i] == vs[i].features.positions
  {
    if vs == [] then [] else [vs[0].features.positions] + PositionLists(vs[1..])
  }
}

/** `read_mve_feature` accepts exactly what `save_prebundle_data` writes. */
module MveFeatureRoundTrip {
  import opened Wrappers
  import opened Bytes
  import opened Prebundle
  import opened MveFeature
  import PrebundleRoundTrip

  /** Splits a sequence whose head is known: `f.read(n)` returns that head. */
  lemma PyReadPrefix(a: seq<byte>, rest: seq<byte>)
    ensures PyRead(a + rest, |a|) == Parsed(a, rest)
  {
    var s := a + rest;
    assert s[..|a|] == a && s[|a|..] == rest;
  }

  lemma PyReadIntAfter(x: int32, rest: seq<byte>)
    ensures PyReadInt(EncodeInt32(x) + rest) == Ok(Parsed(x, rest))
  {
    PyReadPrefix(EncodeInt32(x), rest);
    Int32RoundTrip(x);
  }

  lemma {:induction false} DecodeSavedPositions(ps: seq<Vec2f>)
    ensures DecodePositions(SavePositions(ps)) == ps
  {
    if ps != [] {
      var b := SavePositions(ps);
      assert b[..4] == EncodeWord(ps[0].x);
      assert b[4..8] == EncodeWord(ps[0].y);
      assert b[8..] == SavePositions(ps[1..]);
      WordRoundTrip(ps[0].x);
      WordRoundTrip(ps[0].y);
      DecodeSavedPositions(ps[1..]);
      assert [ps[0]] + ps[1..] == ps;
    }
  }

  lemma PyPositionsAfter(ps: seq<Vec2f>, rest: seq<byte>)
    requires |ps| < 0x8000_0000
    ensures PyReadPositions(SavePositions(ps) + rest, |ps|) == Ok(Parsed(ps, rest))
  {
    PyReadPrefix(SavePositions(ps), rest);
    DecodeSavedPositions(ps);
  }

  lemma PySkipAfter(b: seq<byte>, rest: seq<byte>, count: int32, size: nat)
    requires size > 0 && count >= 0 && |b| == size * count && |b| % size == 0
    ensures PySkip(b + rest, count, size) == Ok(rest)
  {
    PyReadPrefix(b, rest);
  }

  lemma {:induction false} TripleMod(n: nat)
    ensures (3 * n) % 3 == 0
  {
    if n > 0 {
      TripleMod(n - 1);
      assert 3 * n == 3 * (n - 1) + 3;
    }
  }

  /** The colour block is skipped whole, without being decoded. */
  lemma SkipColorsAfter(cs: seq<Color>, rest: seq<byte>)
    requires |cs| < 0x8000_0000
    ensures PySkip(SaveColors(cs) + rest, |cs| as int32, 3) == Ok(rest)
  {
    var b := SaveColors(cs);
    TripleMod(|cs|);
    PySkipAfter(b, rest, |cs| as int32, 3);
  }

  lemma PyViewAfter(v: Viewport, rest: seq<byte>)
    requires |v.features.positions| < 0x8000_0000 && |v.features.colors| < 0x8000_0000
    ensures PyReadView(SaveViewport(v) + rest) == Ok(Parsed(v.features.positions, rest))
  {
    var f := v.features;
    var cnt2 := EncodeInt32(|f.colors|);
    var tail2 := SaveColors(f.colors) + rest;
    var tail1 := SavePositions(f.positions) + (cnt2 + tail2);
    var s := SaveViewport(v) + rest;
    assert s == EncodeInt32(|f.positions|) + tail1;
    assert PyReadInt(s) == Ok(Parsed(|f.positions| as int32, tail1)) by {
      PyReadIntAfter(|f.positions|, tail1);
    }
    assert PyReadPositions(tail1, |f.positions|) == Ok(Parsed(f.positions, cnt2 + tail2)) by {
      PyPositionsAfter(f.positions, cnt2 + tail2);
    }
    assert PyReadInt(cnt2 + tail2) == Ok(Parsed(|f.colors| as int32, tail2)) by {
      PyReadIntAfter(|f.colors|, tail2);
    }
    SkipColorsAfter(f.colors, rest);
    PyViewSteps(s, |f.positions|, tail1, f.positions, cnt2 + tail2, |f.colors|, tail2, rest);
  }

  /** The four reads of one view, chained. */
  lemma PyViewSteps(s: seq<byte>, np: int32, t1: seq<byte>, ps: seq<Vec2f>, t2: seq<byte>,
                    nc: int32, t3: seq<byte>, rest: seq<byte>)
    requires PyReadInt(s) == Ok(Parsed(np, t1))
    requires PyReadPositions(t1, np) == Ok(Parsed(ps, t2))
    requires PyReadInt(t2) == Ok(Parsed(nc, t3))
    requires PySkip(t3, nc, 3) == Ok(rest)
    ensures PyReadView(s) == Ok(Parsed(ps, rest))
  {
  }

  lemma {:induction false} PyViewsAfter(vs: seq<Viewport>, rest: seq<byte>)
    requires forall v | v in vs :: |v.features.positions| < 0x8000_0000 && |v.features.colors| < 0x8000_0000
    ensures PyReadViews(SaveViewports(vs) + rest, |vs|) == Ok(Parsed(PositionLists(vs), rest))
  {
    if vs != [] {
      assert SaveViewports(vs) + rest == SaveViewport(vs[0]) + (SaveViewports(vs[1..]) + rest);
      PyViewAfter(vs[0], SaveViewports(vs[1..]) + rest);
      PyViewsAfter(vs[1..], rest);
    } else {
      assert SaveViewports(vs) + rest == rest;
    }
  }

  lemma PyPairAfter(p: TwoViewMatching, rest: seq<byte>)
    requires |p.matches| < 0x8000_0000
    ensures PySkipPair(SavePair(p) + rest) == Ok(rest)
  {
    var c := EncodeInt32(|p.matches|);
    var head := EncodeInt32(p.view1) + EncodeInt32(p.view2) + c;
    assert SavePair(p) + rest == head + (SaveMatches(p.matches) + rest);
    PyReadPrefix(head, SaveMatches(p.matches) + rest);
    assert head[8..12] == c;
    Int32RoundTrip(|p.matches|);
    PySkipAfter(SaveMatches(p.matches), rest, |p.matches|, 8);
  }

  lemma {:induction false} PyPairsAfter(ps: seq<TwoViewMatching>, rest: seq<byte>)
    requires forall p | p in ps :: |p.matches| < 0x8000_0000
    ensures PySkipPairs(SavePairs(ps) + rest, |ps|) == Ok(rest)
  {
    if ps != [] {
      assert SavePairs(ps) + rest == SavePair(ps[0]) + (SavePairs(ps[1..]) + rest);
      PyPairAfter(ps[0], SavePairs(ps[1..]) + rest);
      PyPairsAfter(ps[1..], rest);
    } else {
      assert SavePairs(ps) + rest == rest;
    }
  }

  /** Everything after the signature is consumed by the view and pair loops, leaving `rest`. */
  lemma PyBodyAfter(d: PrebundleData, rest: seq<byte>)
    requires FitsInt32(d)
    ensures var body := EncodeInt32(|d.viewports|) + SaveViewports(d.viewports)
                        + EncodeInt32(|d.matching|) + SavePairs(d.matching) + rest;
            && PyReadInt(body) == Ok(Parsed(|d.viewports| as int32, SaveViewports(d.viewports)
                                                   + (EncodeInt32(|d.matching|) + (SavePairs(d.matching) + rest))))
            && PyReadViews(SaveViewports(d.viewports) + (EncodeInt32(|d.matching|) + (SavePairs(d.matching) + rest)),
                           |d.viewports|)
               == Ok(Parsed(PositionLists(d.viewports), EncodeInt32(|d.matching|) + (SavePairs(d.matching) + rest)))
            && PyReadInt(EncodeInt32(|d.matching|) + (SavePairs(d.matching) + rest))
               == Ok(Parsed(|d.matching| as int32, SavePairs(d.matching) + rest))
            && PySkipPairs(SavePairs(d.matching) + rest, |d.matching|) == Ok(rest)
  {
    var t2 := SavePairs(d.matching) + rest;
    var t1 := SaveViewports(d.viewports) + (EncodeInt32(|d.matching|) + t2);
    var body := EncodeInt32(|d.viewports|) + SaveViewports(d.viewports)
                + EncodeInt32(|d.matching|) + SavePairs(d.matching) + rest;
    assert body == EncodeInt32(|d.viewports|) + t1;
    PyReadIntAfter(|d.viewports|, t1);
    PyViewsAfter(d.viewports, EncodeInt32(|d.matching|) + t2);
    PyReadIntAfter(|d.matching|, t2);
    PyPairsAfter(d.matching, rest);
  }

  /** `read_mve_feature` on a saved file returns each viewport's positions, in order. */
  lemma ReadSavedFeatures(d: PrebundleData)
    requires FitsInt32(d)
    ensures ReadMveFeature(Save(d)) == Ok(PositionLists(d.viewports))
  {
    assert Save(d) + [] == Save(d);
    SavedThenRest(d, []);
  }

  /** Bytes after the data trip the Python end-of-file assertion; the C++ reader ignores them. */
  lemma TrailingBytesRejected(d: PrebundleData, rest: seq<byte>)
    requires FitsInt32(d) && rest != []
    ensures ReadMveFeature(Save(d) + rest) == Err(AssertionFailed)
    ensures Load(Save(d) + rest) == Ok(Parsed(d, rest))
  {
    SavedThenRest(d, rest);
    PrebundleRoundTrip.SaveLoadRoundTrip(d, rest);
  }

  lemma SavedThenRest(d: PrebundleData, rest: seq<byte>)
    requires FitsInt32(d)
    ensures ReadMveFeature(Save(d) + rest) == if rest == [] then Ok(PositionLists(d.viewports)) else Err(AssertionFailed)
  {
    var body := EncodeInt32(|d.viewports|) + SaveViewports(d.viewports)
                + EncodeInt32(|d.matching|) + SavePairs(d.matching) + rest;
    assert Save(d) + rest == Signature + body;
    PyReadPrefix(Signature, body);
    PyBodyAfter(d, rest);
  }
}

=== FILE: mve_writer.dfy ===
/**
 * `save_mve_sfm` in load_mve_sfm.py: turns a COLMAP model into MVE's
 * Photosynther bundle (synth_0.out) and one meta.ini per view.  Images are
 * written in ascending id order and renumbered 0..n-1 by their position in
 * that order; tracks refer to the new numbers.  The directory creation and
 * the image renames are file-system effects and are not modelled.
 */
module MveWriter {
  import opened Wrappers
  import opened Colmap
  import opened Synth
  import opened Sorting
  import opened Strings

  datatype SaveError =
    | KeyError         // a camera id or a track's image id that is not in the model
    | IndexError       // a parameter, translation, position or colour entry that is missing
    | AssertionFailed  // the meta.ini asserts: a PINHOLE camera with equal focal lengths

  /** The contents of a view's meta.ini. */
  datatype Meta = Meta(focal: real, principal: (real, real), rot: Mat3, trans: seq<real>,
                       id: nat, name: string, dir: string)

  /** COLMAP cameras always have a positive size; the writer divides by it. */
  ghost predicate SizedCameras(cameras: seq<Camera>) {
    forall k | 0 <= k < |cameras| :: cameras[k].width > 0 && cameras[k].height > 0
  }

  function ImageKey(im: Image): real {
    im.id as real
  }

  /** `sorted(images.items(), key=lambda x: x[0])`. */
  function ById(images: seq<Image>): (r: seq<Image>)
    ensures multiset(r) == multiset(images) && |r| == |images|
    ensures forall i, j | 0 <= i < j < |r| :: r[i].id <= r[j].id
  {
    var r := SortBy(images, ImageKey);
    assert |r| == |multiset(r)| == |multiset(images)| == |images|;
    assert forall i, j | 0 <= i < j < |r| :: ImageKey(r[i]) <= ImageKey(r[j]);
    r
  }

  /** `new_image_id[image_id]`: the position of the first image with that id. */
  function IndexOfId(images: seq<Image>, id: int): (r: Option<nat>)
    ensures r.Some? ==> r.value < |images| && images[r.value].id == id
                        && forall k | 0 <= k < r.value :: images[k].id != id
    ensures r.None? ==> forall k | 0 <= k < |images| :: images[k].id != id
  {
    if images == [] then None
    else if images[0].id == id then Some(0)
    else
      match IndexOfId(images[1..], id)
      case None => None
      case Some(k) => Some(k + 1)
  }

  /** `v[0], v[1], v[2]` of a vector the writer formats with three `%f` or `%d`. */
  function First3<T>(v: seq<T>): (r: Result<seq<T>, SaveError>)
    ensures r.Ok? <==> |v| >= 3
    ensures r.Ok? ==> r.value == v[..3]
  {
    if |v| < 3 then Err(IndexError) else Ok(v[..3])
  }

  /** The five camera lines for one image: f / max_dim, two zero distortion terms, R and t. */
  function WriteCamera(cameras: seq<Camera>, im: Image): (r: Result<SynthCamera, SaveError>)
    requires SizedCameras(cameras)
    ensures r.Ok? <==> var c := FindCamera(cameras, im.cameraId);
                       c.Some? && |c.value.params| >= 1 && |im.tvec| >= 3
    ensures r.Ok? ==> var c := FindCamera(cameras, im.cameraId).value;
                      && r.value.flen * MaxDim(c.width, c.height) as real == c.params[0]
                      && r.value.k1 == 0.0 && r.value.k2 == 0.0
                      && r.value.rot == im.rot && r.value.trans == im.tvec[..3]
  {
    var cam :- FindCamera(cameras, im.cameraId).ToResult(KeyError);
    assert cam.width > 0;
    var maxDim := MaxDim(cam.width, cam.height) as real;
    if |cam.params| == 0 then Err(IndexError)
    else
      var t :- First3(im.tvec);
      Ok(SynthCamera(cam.params[0] / maxDim, 0.0, 0.0, im.rot, t))
  }

  function WriteCameras(cameras: seq<Camera>, images: seq<Image>): (r: Result<seq<SynthCamera>, SaveError>)
    requires SizedCameras(cameras)
    ensures r.Ok? <==> forall k | 0 <= k < |images| :: WriteCamera(cameras, images[k]).Ok?
    ensures r.Ok? ==> |r.value| == |images|
                      && forall k | 0 <= k < |images| :: r.value[k] == WriteCamera(cameras, images[k]).value
  {
    if images == [] then Ok([])
    else
      var c :- WriteCamera(cameras, images[0]);
      var cs :- WriteCameras(cameras, images[1..]);
      assert forall k | 1 <= k < |images| :: images[k] == images[1..][k - 1];
      Ok([c] + cs)
  }

  /**
   * `' %d %d 0' % (new_image_id[image_id], point2D_id)` over
   * `zip(image_ids, point2D_idxs)`, which stops at the shorter list.
   */
  function WriteTrack(sorted: seq<Image>, ids: seq<int>, idxs: seq<int>): (r: Result<seq<TrackElem>, SaveError>)
    ensures r.Ok? <==> forall m | 0 <= m < |ids| && m < |idxs| :: IndexOfId(sorted, ids[m]).Some?
    ensures r.Ok? ==> && (|r.value| == if |ids| < |idxs| then |ids| else |idxs|)
                      && forall m | 0 <= m < |r.value| ::
                           r.value[m] == TrackElem(IndexOfId(sorted, ids[m]).value, idxs[m])
  {
    if ids == [] || idxs == [] then Ok([])
    else
      var n :- IndexOfId(sorted, ids[0]).ToResult(KeyError);
      var rest :- WriteTrack(sorted, ids[1..], idxs[1..]);
      assert forall m | 1 <= m < |ids| :: ids[m] == ids[1..][m - 1];
      assert forall m | 1 <= m < |idxs| :: idxs[m] == idxs[1..][m - 1];
      Ok([TrackElem(n, idxs[0])] + rest)
  }

  /** The three lines of a point: position, colour, and the track after its length. */
  function WritePoint(sorted: seq<Image>, p: Point3D): (r: Result<SynthPoint, SaveError>)
    ensures r.Ok? <==> |p.xyz| >= 3 && |p.rgb| >= 3 && WriteTrack(sorted, p.imageIds, p.point2DIdxs).Ok?
    ensures r.Ok? ==> r.value == SynthPoint(p.xyz[..3], p.rgb[..3], |p.imageIds|,
                                            WriteTrack(sorted, p.imageIds, p.point2DIdxs).value)
  {
    var xyz :- First3(p.xyz);
    var rgb :- First3(p.rgb);
    var track :- WriteTrack(sorted, p.imageIds, p.point2DIdxs);
    Ok(SynthPoint(xyz, rgb, |p.imageIds|, track))
  }

  function WritePoints(sorted: seq<Image>, points: seq<Point3D>): (r: Result<seq<SynthPoint>, SaveError>)
    ensures r.Ok? <==> forall k | 0 <= k < |points| :: WritePoint(sorted, points[k]).Ok?
    ensures r.Ok? ==> |r.value| == |points|
                      && forall k | 0 <= k < |points| :: r.value[k] == WritePoint(sorted, points[k]).value
  {
    if points == [] then Ok([])
    else
      var q :- WritePoint(sorted, points[0]);
      var qs :- WritePoints(sorted, points[1..]);
      assert forall k | 1 <= k < |points| :: points[k] == points[1..][k - 1];
      Ok([q] + qs)
  }

  /** synth_0.out: every image in id order, then every point in the model's order. */
  function WriteSynth(m: Reconstruction): (r: Result<SynthFile, SaveError>)
    requires SizedCameras(m.cameras)
    ensures r.Ok? <==> WriteCameras(m.cameras, ById(m.images)).Ok? && WritePoints(ById(m.images), m.points).Ok?
    ensures r.Ok? ==> |r.value.cameras| == |m.images| && |r.value.points| == |m.points|
    ensures r.Ok? ==> r.value == SynthFile(WriteCameras(m.cameras, ById(m.images)).value,
                                           WritePoints(ById(m.images), m.points).value)
  {
    var sorted := ById(m.images);
    var cs :- WriteCameras(m.cameras, sorted);
    var ps :- WritePoints(sorted, m.points);
    Ok(SynthFile(cs, ps))
  }

  /** The only camera model meta.ini can describe. */
  const Pinhole: string := "PINHOLE"

  /** What the meta.ini loop asserts of a camera: PINHOLE with equal focal lengths. */
  predicate PinholeReady(cam: Camera) {
    && cam.model == Pinhole && |cam.params| >= 4
    && -0.00000001 < cam.params[0] - cam.params[1] < 0.00000001
  }

  /** What the meta.ini loop asserts of an image's camera before writing. */
  predicate MetaReady(cameras: seq<Camera>, im: Image) {
    var c := FindCamera(cameras, im.cameraId);
    c.Some? && PinholeReady(c.value)
  }

  /** `'view_%04d.mve' % k`. */
  function ViewDir(k: nat): string {
    "view_" + Pad4(k) + ".mve"
  }

  /** The meta.ini for an image whose camera has been found. */
  function CameraMeta(cam: Camera, im: Image, k: nat): (r: Result<Meta, SaveError>)
    requires cam.width > 0 && cam.height > 0
    ensures r.Ok? <==> PinholeReady(cam)
    ensures r.Ok? ==> && r.value.rot == im.rot && r.value.trans == im.tvec
                      && r.value.id == k && r.value.name == im.name
                      && r.value.dir == ViewDir(k)
  {
    var maxDim := MaxDim(cam.width, cam.height) as real;
    if cam.model != Pinhole then Err(AssertionFailed)
    else if |cam.params| < 2 then Err(IndexError)
    else if !(-0.00000001 < cam.params[0] - cam.params[1] < 0.00000001) then Err(AssertionFailed)
    else if |cam.params| < 4 then Err(IndexError)
    else
      Ok(Meta(cam.params[0] / maxDim, (cam.params[2] / cam.width as real, cam.params[3] / cam.height as real),
              im.rot, im.tvec, k, im.name, ViewDir(k)))
  }

  /** The meta.ini of the image at position `k` in id order. */
  function WriteMeta(cameras: seq<Camera>, im: Image, k: nat): (r: Result<Meta, SaveError>)
    requires SizedCameras(cameras)
    ensures r.Ok? <==> MetaReady(cameras, im)
    ensures r.Ok? ==> && r.value.rot == im.rot && r.value.trans == im.tvec
                      && r.value.id == k && r.value.name == im.name
                      && r.value.dir == ViewDir(k)
  {
    match FindCamera(cameras, im.cameraId)
    case None => Err(KeyError)
    case Some(cam) => CameraMeta(cam, im, k)
  }

  /**
   * The intrinsics in meta.ini are normalised: scaled back by the larger image
   * side (focal length) and by the width and height (principal point), they
   * give the camera's own parameters.
   */
  lemma CameraMetaNormalised(cam: Camera, im: Image, k: nat, meta: Meta)
    requires cam.width > 0 && cam.height > 0 && CameraMeta(cam, im, k) == Ok(meta)
    ensures meta.focal * MaxDim(cam.width, cam.height) as real == cam.params[0]
    ensures meta.principal.0 * cam.width as real == cam.params[2]
    ensures meta.principal.1 * cam.height as real == cam.params[3]
  {
    Unscale(meta.focal, cam.params[0], MaxDim(cam.width, cam.height) as real);
    Unscale(meta.principal.0, cam.params[2], cam.width as real);
    Unscale(meta.principal.1, cam.params[3], cam.height as real);
  }

  lemma Unscale(q: real, x: real, d: real)
    requires d > 0.0 && q == x / d
    ensures q * d == x
  {
  }

  /** The first position from `from` on whose image the meta.ini loop rejects. */
  function FirstUnready(cameras: seq<Camera>, sorted: seq<Image>, from: nat): (r: Option<nat>)
    requires from <= |sorted|
    ensures r.None? <==> forall q {:trigger sorted[q]} | from <= q < |sorted| :: MetaReady(cameras, sorted[q])
    ensures r.Some? ==> && from <= r.value < |sorted| && !MetaReady(cameras, sorted[r.value])
                        && forall q {:trigger sorted[q]} | from <= q < r.value :: MetaReady(cameras, sorted[q])
    decreases |sorted| - from
  {
    if from == |sorted| then None
    else if !MetaReady(cameras, sorted[from]) then Some(from)
    else FirstUnready(cameras, sorted, from + 1)
  }

  /**
   * The meta.ini loop over the images in id order, numbering them from `k`:
   * it stops at the first image it rejects, with that image's error.
   */
  function WriteMetas(cameras: seq<Camera>, sorted: seq<Image>, k: nat): (r: Result<seq<Meta>, SaveError>)
    requires SizedCameras(cameras)
    ensures r.Ok? <==> forall q {:trigger sorted[q]} | 0 <= q < |sorted| :: MetaReady(cameras, sorted[q])
    ensures r.Ok? ==> && |r.value| == |sorted|
                      && forall q {:trigger r.value[q]} | 0 <= q < |sorted| ::
                           r.value[q] == WriteMeta(cameras, sorted[q], k + q).value
  {
    match FirstUnready(cameras, sorted, 0)
    case Some(q) => WriteMeta(cameras, sorted[q], k + q).PropagateFailure()
    case None => Ok(seq(|sorted|, q requires 0 <= q < |sorted| => WriteMeta(cameras, sorted[q], k + q).value))
  }

  /**
   * The whole save: synth_0.out, then the meta.ini files.  A failure in the
   * second loop happens after synth_0.out has been written.
   */
  function SaveMveSfm(m: Reconstruction): (r: Result<(SynthFile, seq<Meta>), SaveError>)
    requires SizedCameras(m.cameras)
    ensures r.Ok? <==> WriteSynth(m).Ok? && forall q | 0 <= q < |m.images| :: MetaReady(m.cameras, ById(m.images)[q])
    ensures r.Ok? ==> r.value.0 == WriteSynth(m).value && |r.value.1| == |m.images|
  {
    var synth :- WriteSynth(m);
    var metas :- WriteMetas(m.cameras, ById(m.images), 0);
    Ok((synth, metas))
  }
}

/** Properties of the renumbering and of the agreement between the two outputs. */
module MveWriterFacts {
  import opened Wrappers
  import opened Colmap
  import opened Synth
  import opened Strings
  import opened MveWriter

  /** Every image of the model gets a new number. */
  lemma EveryImageRenumbered(images: seq<Image>, a: int)
    requires 0 <= a < |images|
    ensures IndexOfId(ById(images), images[a].id).Some?
  {
    var sorted := ById(images);
    assert images[a] in multiset(images);
    assert images[a] in sorted;
    var k :| 0 <= k < |sorted| && sorted[k] == images[a];
  }

  /** The renumbering keeps the order of the original ids. */
  lemma RenumberKeepsOrder(images: seq<Image>, x: int, y: int)
    requires x < y
    requires IndexOfId(ById(images), x).Some? && IndexOfId(ById(images), y).Some?
    ensures IndexOfId(ById(images), x).value < IndexOfId(ById(images), y).value
  {
  }

  /** The number of occurrences of an image in a list whose ids are distinct. */
  lemma {:induction false} AtMostOnce(images: seq<Image>, im: Image)
    requires DistinctIds(images)
    ensures multiset(images)[im] <= 1
  {
    if images != [] {
      var tail := images[1..];
      assert images == [images[0]] + tail;
      assert DistinctIds(tail) by {
        forall i, j | 0 <= i < j < |tail| ensures tail[i].id != tail[j].id {
          assert tail[i] == images[i + 1] && tail[j] == images[j + 1];
        }
      }
      AtMostOnce(tail, im);
      if images[0] == im {
        forall k | 0 <= k < |tail| ensures tail[k] != im {
          assert tail[k] == images[k + 1];
        }
        assert im !in multiset(tail);
      }
    }
  }

  lemma TwiceCounted(s: seq<Image>, i: int, j: int)
    requires 0 <= i < j < |s| && s[i] == s[j]
    ensures multiset(s)[s[i]] >= 2
  {
    assert s == s[..j] + [s[j]] + s[j + 1..];
    assert s[i] in s[..j];
  }

  /** With distinct ids the sorted list has strictly increasing ids. */
  lemma ByIdStrict(images: seq<Image>)
    requires DistinctIds(images)
    ensures forall i, j | 0 <= i < j < |ById(images)| :: ById(images)[i].id < ById(images)[j].id
  {
    var sorted := ById(images);
    forall i, j | 0 <= i < j < |sorted| ensures sorted[i].id < sorted[j].id {
      if sorted[i].id == sorted[j].id {
        var x, y := sorted[i], sorted[j];
        assert x in multiset(images) && y in multiset(images);
        var a :| 0 <= a < |images| && images[a] == x;
        var b :| 0 <= b < |images| && images[b] == y;
        assert a == b;
        TwiceCounted(sorted, i, j);
        AtMostOnce(images, x);
      }
    }
  }

  /**
   * With distinct ids the renumbering is a bijection onto 0..n-1: the image
   * at position k of the id order is numbered k.
   */
  lemma RenumberIsPosition(images: seq<Image>, k: int)
    requires DistinctIds(images) && 0 <= k < |images|
    ensures IndexOfId(ById(images), ById(images)[k].id) == Some(k)
  {
    ByIdStrict(images);
  }

  /** The focal length in meta.ini is the one in synth_0.out for the same view. */
  lemma MetaAgreesWithSynth(m: Reconstruction, k: int)
    requires SizedCameras(m.cameras)
    requires SaveMveSfm(m).Ok? && 0 <= k < |m.images|
    ensures var (synth, metas) := SaveMveSfm(m).value;
            && metas[k].focal == synth.cameras[k].flen
            && metas[k].rot == synth.cameras[k].rot
            && metas[k].id == k
  {
    var sorted := ById(m.images);
    var c := FindCamera(m.cameras, sorted[k].cameraId).value;
    var (synth, metas) := SaveMveSfm(m).value;
    assert c.width > 0;
    assert MaxDim(c.width, c.height) as real > 0.0;
    assert metas[k].focal * MaxDim(c.width, c.height) as real == synth.cameras[k].flen * MaxDim(c.width, c.height) as real;
  }

  /** Different view numbers give different directory names. */
  lemma ViewDirInjective(i: nat, j: nat)
    requires ViewDir(i) == ViewDir(j)
    ensures i == j
  {
    var d := ViewDir(i);
    assert |Pad4(i)| == |Pad4(j)|;
    assert Pad4(i) == d[5..|d| - 4];
    assert Pad4(j) == ViewDir(j)[5..|d| - 4];
    Pad4RoundTrip(i);
    Pad4RoundTrip(j);
  }

  /** Different views go to different directories. */
  lemma MetaDirsDistinct(m: Reconstruction, i: int, j: int)
    requires SizedCameras(m.cameras)
    requires SaveMveSfm(m).Ok? && 0 <= i < j < |m.images|
    ensures SaveMveSfm(m).value.1[i].dir != SaveMveSfm(m).value.1[j].dir
  {
    var metas := SaveMveSfm(m).value.1;
    assert metas[i].dir == ViewDir(i) && metas[j].dir == ViewDir(j);
    if ViewDir(i) == ViewDir(j) {
      ViewDirInjective(i, j);
    }
  }
}

=== FILE: pipeline.dfy ===
/**
 * The work directories of a pipeline run and the stages that fill them.
 * A stage is gated: it runs when its directory is missing or, for the
 * stages after the first, when the counter `force_run` is positive; a stage
 * that runs (re)creates its directory, does its work, and adds one to
 * `force_run`.  The file system is the set of existing directory paths;
 * the stage programs themselves are external calls.
 */
module Workspace {
  import opened Wrappers
  import Converter
  import Selection
  import Statistics

  /** A call into code outside the driver. */
  datatype Work =
    | Convert(adapter: Converter.Adapter, input: string, output: string)  // an `sfm_*` adapter
    | Link(mvsAdapter: Converter.MvsAdapter, input: string, output: string) // an `mvs_*` adapter
    | Call(helper: string, args: seq<string>)                            // a stage program

  /** What the driver does to the workspace, in order. */
  datatype Action =
    | MakeDir(path: string)    // `os.mkdir`
    | RemoveTree(path: string) // `shutil.rmtree(path, ignore_errors=True)`
    | Do(work: Work)

  /** The exception that ends a run. */
  datatype Abort =
    | RuntimeError    // a bare `raise` in a stage runner
    | AttributeError  // `getattr` finds no adapter of that name
    | AssertionError  // an adapter's own `assert`
    | NameError       // a call of a name that is not defined
    | SystemExit      // `exit(1)` after `GetFileFromBuildId` finds no single file

  /** `path` is `dir` itself or lies beneath it. */
  predicate Under(path: string, dir: string) {
    path == dir || dir + "/" <= path
  }

  function Effect(fs: set<string>, a: Action): set<string> {
    match a
    case MakeDir(p) => fs + {p}
    case RemoveTree(p) => set q | q in fs && !Under(q, p)
    case Do(_) => fs
  }

  /** The directories that exist after a sequence of actions. */
  function Replay(fs: set<string>, actions: seq<Action>): set<string>
    decreases |actions|
  {
    if actions == [] then fs else Replay(Effect(fs, actions[0]), actions[1..])
  }

  lemma {:induction false} ReplayAppend(fs: set<string>, a: seq<Action>, b: seq<Action>)
    ensures Replay(fs, a + b) == Replay(Replay(fs, a), b)
    decreases |a|
  {
    if a == [] {
      assert a + b == b;
    } else {
      assert (a + b)[0] == a[0];
      assert (a + b)[1..] == a[1..] + b;
      ReplayAppend(Effect(fs, a[0]), a[1..], b);
    }
  }

  function Dos(w: seq<Work>): (r: seq<Action>)
    ensures |r| == |w| && forall i | 0 <= i < |w| :: r[i] == Do(w[i])
  {
    seq(|w|, i requires 0 <= i < |w| => Do(w[i]))
  }

  /** External calls leave the directories as they are. */
  lemma {:induction false} ReplayWork(fs: set<string>, w: seq<Work>)
    ensures Replay(fs, Dos(w)) == fs
    decreases |w|
  {
    if w != [] {
      assert Dos(w)[1..] == Dos(w[1..]);
      ReplayWork(fs, w[1..]);
    }
  }

  /**
   * A gated stage: its work directory, whether a positive `force_run`
   * reruns it, whether it removes an old directory first, and what it does
   * once the directory is ready (or the exception it raises there).
   */
  datatype Gate = Gate(dir: string, forced: bool, clean: bool, work: Result<seq<Work>, Abort>)

  /** The driver's state between stages: what it did, the directories, the counter, which stages ran. */
  datatype State = State(actions: seq<Action>, fs: set<string>, forceRun: int, ran: seq<bool>, abort: Option<Abort>)

  /** `force_run` before the first stage. */
  function InitialForceRun(autoRerun: bool): int {
    if autoRerun then -1000 else 0
  }

  function Start(autoRerun: bool, fs: set<string>): State {
    State([], fs, InitialForceRun(autoRerun), [], None)
  }

  /** The gate condition: the directory is missing, or the stage can be forced and `force_run > 0`. */
  predicate Runs(g: Gate, s: State) {
    g.dir !in s.fs || (g.forced && s.forceRun > 0)
  }

  function Prepare(g: Gate): seq<Action> {
    (if g.clean then [RemoveTree(g.dir)] else []) + [MakeDir(g.dir)]
  }

  /** Preparing a stage leaves its directory fresh and, when it cleans, nothing else beneath it. */
  lemma PrepareEffect(fs: set<string>, g: Gate)
    ensures forall p :: p in Replay(fs, Prepare(g)) <==> p == g.dir || (p in fs && !(g.clean && Under(p, g.dir)))
  {
    var prep := Prepare(g);
    if g.clean {
      assert prep == [RemoveTree(g.dir), MakeDir(g.dir)];
      var removed := Effect(fs, RemoveTree(g.dir));
      assert Replay(fs, prep) == Replay(removed, [MakeDir(g.dir)]);
      assert Replay(removed, [MakeDir(g.dir)]) == Replay(removed + {g.dir}, []);
    } else {
      assert prep == [MakeDir(g.dir)];
      assert Replay(fs, prep) == Replay(fs + {g.dir}, []);
    }
  }

  /**
   * One stage of the driver: skipped when the gate is shut, otherwise its
   * directory is prepared, its work done, and the counter raised, unless
   * the work raises.  A run that has stopped stays stopped.
   */
  function Gated(s: State, g: Gate): (r: State)
    ensures s.abort.Some? ==> r == s
    ensures s.abort.None? ==> r.ran == s.ran + [Runs(g, s)]
    ensures s.abort.None? ==> r.abort == (if Runs(g, s) && g.work.Err? then Some(g.work.error) else None)
    ensures s.abort.None? ==> r.forceRun == s.forceRun + (if Runs(g, s) && g.work.Ok? then 1 else 0)
  {
    if s.abort.Some? then s
    else if !Runs(g, s) then s.(ran := s.ran + [false])
    else
      var prep := Prepare(g);
      var fs := Replay(s.fs, prep);
      match g.work
      case Err(e) => State(s.actions + prep, fs, s.forceRun, s.ran + [true], Some(e))
      case Ok(w) => State(s.actions + prep + Dos(w), fs, s.forceRun + 1, s.ran + [true], None)
  }

  /**
   * A stage that runs first clears its directory if it cleans, then creates
   * it, then does its work; a stage that is skipped does nothing.  Either
   * way the directories are those its actions produce.
   */
  lemma GatedActions(s: State, g: Gate)
    ensures var r := Gated(s, g);
            && s.actions <= r.actions && r.fs == Replay(s.fs, r.actions[|s.actions|..])
            && (s.abort.None? && !Runs(g, s) ==> r.actions == s.actions)
            && (s.abort.None? && Runs(g, s) ==>
                  r.actions == s.actions + Prepare(g) + (if g.work.Ok? then Dos(g.work.value) else []))
  {
    var r := Gated(s, g);
    if s.abort.Some? || !Runs(g, s) {
      assert s.actions[|s.actions|..] == [];
    } else {
      var prep := Prepare(g);
      match g.work
      case Err(e) =>
        assert (s.actions + prep)[|s.actions|..] == prep;
      case Ok(w) =>
        assert (s.actions + prep + Dos(w))[|s.actions|..] == prep + Dos(w);
        ReplayAppend(s.fs, prep, Dos(w));
        ReplayWork(Replay(s.fs, prep), w);
    }
  }

  /** The directories after a stage that runs: its own, and the old ones not cleared with it. */
  lemma GatedDirs(s: State, g: Gate)
    ensures var r := Gated(s, g);
            forall p :: p in r.fs <==>
              if s.abort.None? && Runs(g, s) then p == g.dir || (p in s.fs && !(g.clean && Under(p, g.dir)))
              else p in s.fs
  {
    PrepareEffect(s.fs, g);
  }

  /** A step between two stages that is not gated: it does its work or stops the run. */
  function Then(s: State, mid: Result<seq<Work>, Abort>): (r: State)
    ensures r.ran == s.ran && r.fs == s.fs && r.forceRun == s.forceRun
    ensures s.actions <= r.actions && r.fs == Replay(s.fs, r.actions[|s.actions|..])
    ensures s.abort.Some? ==> r == s
    ensures s.abort.None? ==> r.abort == (if mid.Ok? then None else Some(mid.error))
    ensures s.abort.None? && mid.Ok? ==> r.actions == s.actions + Dos(mid.value)
  {
    if s.abort.Some? then
      assert s.actions[|s.actions|..] == [];
      s
    else
      match mid
      case Err(e) =>
        assert s.actions[|s.actions|..] == [];
        s.(abort := Some(e))
      case Ok(w) =>
        assert (s.actions + Dos(w))[|s.actions|..] == Dos(w);
        ReplayWork(s.fs, w);
        s.(actions := s.actions + Dos(w))
  }

  /** A driver of three gated stages with one ungated step before the last. */
  function Chain(s: State, g1: Gate, g2: Gate, mid: Result<seq<Work>, Abort>, g3: Gate): State {
    Gated(Then(Gated(Gated(s, g1), g2), mid), g3)
  }

  /** Neither directory lies beneath the other. */
  predicate Apart(a: string, b: string) {
    !Under(a, b) && !Under(b, a)
  }

  /** The first stage is never forced and clears nothing; the others are forced; the directories are apart. */
  predicate Layout(g1: Gate, g2: Gate, g3: Gate) {
    && !g1.forced && !g1.clean && g2.forced && g3.forced
    && Apart(g1.dir, g2.dir) && Apart(g1.dir, g3.dir) && Apart(g2.dir, g3.dir)
  }

  /** A stage leaves the directories outside its own as they were. */
  lemma GateKeeps(s: State, g: Gate, d: string)
    requires !Under(d, g.dir)
    ensures d in Gated(s, g).fs <==> d in s.fs
  {
    GatedDirs(s, g);
  }

  /** After a stage that was reached, its directory exists. */
  lemma GateLeaves(s: State, g: Gate)
    requires s.abort.None?
    ensures g.dir in Gated(s, g).fs
  {
    GatedDirs(s, g);
  }

  lemma {:induction false} CountOne(b: seq<bool>)
    requires |b| == 1
    ensures Statistics.CountTrue(b) == (if b[0] then 1 else 0)
  {
    assert b[..0] == [];
  }

  lemma {:induction false} CountMore(b: seq<bool>, x: bool)
    ensures Statistics.CountTrue(b + [x]) == Statistics.CountTrue(b) + (if x then 1 else 0)
  {
    assert (b + [x])[..|b|] == b;
  }

  /**
   * The gate of each stage in terms of the directories at the start: the
   * first stage runs exactly when its directory is missing, a later one
   * when its directory is missing or the counter, the initial value plus
   * one per stage that ran before it, is positive.  A run that completes
   * has passed every stage and raised the counter once per stage that ran.
   */
  lemma ChainRules(s: State, g1: Gate, g2: Gate, mid: Result<seq<Work>, Abort>, g3: Gate)
    requires s.abort.None? && s.ran == [] && Layout(g1, g2, g3)
    ensures var r := Chain(s, g1, g2, mid, g3);
            && 1 <= |r.ran| <= 3
            && (r.ran[0] <==> g1.dir !in s.fs)
            && (|r.ran| >= 2 ==> (r.ran[1] <==> g2.dir !in s.fs || s.forceRun + Statistics.CountTrue(r.ran[..1]) > 0))
            && (|r.ran| == 3 ==> (r.ran[2] <==> g3.dir !in s.fs || s.forceRun + Statistics.CountTrue(r.ran[..2]) > 0))
            && (r.abort.None? ==> |r.ran| == 3 && r.forceRun == s.forceRun + Statistics.CountTrue(r.ran))
  {
    var s1 := Gated(s, g1);
    var s2 := Gated(s1, g2);
    var m := Then(s2, mid);
    var r := Gated(m, g3);
    GateKeeps(s, g1, g2.dir);
    GateKeeps(s, g1, g3.dir);
    GateKeeps(s1, g2, g3.dir);
    if s1.abort.None? {
      assert r.ran[..1] == s1.ran;
      CountOne(s1.ran);
      if s2.abort.None? {
        assert r.ran[..2] == s2.ran;
        CountMore(s1.ran, s2.ran[1]);
        if m.abort.None? && r.abort.None? {
          CountMore(s2.ran, r.ran[2]);
        }
      }
    }
  }

  /** Stages that ran form a suffix: once one ran, every later one did. */
  predicate Cascades(b: seq<bool>) {
    forall i, j | 0 <= i < j < |b| :: b[i] ==> b[j]
  }

  lemma CascadesOfThree(b: seq<bool>)
    requires |b| <= 3
    requires |b| >= 2 ==> (b[0] ==> b[1])
    requires |b| == 3 ==> (b[0] || b[1] ==> b[2])
    ensures Cascades(b)
  {
  }

  /** With the counter starting at zero, once a stage runs every later stage that is reached runs too. */
  lemma ChainCascade(s: State, g1: Gate, g2: Gate, mid: Result<seq<Work>, Abort>, g3: Gate)
    requires s.abort.None? && s.ran == [] && Layout(g1, g2, g3) && s.forceRun == 0
    ensures Cascades(Chain(s, g1, g2, mid, g3).ran)
  {
    var b := Chain(s, g1, g2, mid, g3).ran;
    ChainRules(s, g1, g2, mid, g3);
    if |b| >= 2 {
      CountOne(b[..1]);
    }
    if |b| == 3 {
      CountMore(b[..1], b[1]);
      assert b[..1] + [b[1]] == b[..2];
    }
    CascadesOfThree(b);
  }

  /** With the counter starting at -3 or below it never turns positive: exactly the missing stages run. */
  lemma ChainRunsMissing(s: State, g1: Gate, g2: Gate, mid: Result<seq<Work>, Abort>, g3: Gate)
    requires s.abort.None? && s.ran == [] && Layout(g1, g2, g3) && s.forceRun <= -3
    ensures var r := Chain(s, g1, g2, mid, g3);
            forall i | 0 <= i < |r.ran| :: r.ran[i] <==> [g1.dir, g2.dir, g3.dir][i] !in s.fs
  {
    var r := Chain(s, g1, g2, mid, g3);
    ChainRules(s, g1, g2, mid, g3);
    assert Statistics.CountTrue(r.ran[..1]) <= 1;
    if |r.ran| == 3 {
      assert Statistics.CountTrue(r.ran[..2]) <= 2;
    }
  }

  /** A stage keeps the directories equal to those the whole trace of actions produces. */
  lemma GatedReplays(fs0: set<string>, s: State, g: Gate)
    requires s.fs == Replay(fs0, s.actions)
    ensures Gated(s, g).fs == Replay(fs0, Gated(s, g).actions)
  {
    var r := Gated(s, g);
    GatedActions(s, g);
    var t := r.actions[|s.actions|..];
    assert r.actions == s.actions + t;
    ReplayAppend(fs0, s.actions, t);
  }

  lemma ThenReplays(fs0: set<string>, s: State, mid: Result<seq<Work>, Abort>)
    requires s.fs == Replay(fs0, s.actions)
    ensures Then(s, mid).fs == Replay(fs0, Then(s, mid).actions)
  {
    var r := Then(s, mid);
    var t := r.actions[|s.actions|..];
    assert r.actions == s.actions + t;
    ReplayAppend(fs0, s.actions, t);
  }

  /** The directories at the end of a run are those its actions produce from the ones at the start. */
  lemma ChainReplays(s: State, g1: Gate, g2: Gate, mid: Result<seq<Work>, Abort>, g3: Gate)
    requires s.actions == []
    ensures var r := Chain(s, g1, g2, mid, g3);
            r.fs == Replay(s.fs, r.actions)
  {
    var s1 := Gated(s, g1);
    var s2 := Gated(s1, g2);
    var m := Then(s2, mid);
    GatedReplays(s.fs, s, g1);
    GatedReplays(s.fs, s1, g2);
    ThenReplays(s.fs, s2, mid);
    GatedReplays(s.fs, m, g3);
  }

  /** A completed run leaves every stage directory in place. */
  lemma ChainDirs(s: State, g1: Gate, g2: Gate, mid: Result<seq<Work>, Abort>, g3: Gate)
    requires s.abort.None? && Layout(g1, g2, g3)
    ensures var r := Chain(s, g1, g2, mid, g3);
            r.abort.None? ==> g1.dir in r.fs && g2.dir in r.fs && g3.dir in r.fs
  {
    var s1 := Gated(s, g1);
    var s2 := Gated(s1, g2);
    var m := Then(s2, mid);
    var r := Gated(m, g3);
    if r.abort.None? {
      GateLeaves(s, g1);
      GateLeaves(s1, g2);
      GateLeaves(m, g3);
      GateKeeps(s1, g2, g1.dir);
      GateKeeps(m, g3, g1.dir);
      GateKeeps(m, g3, g2.dir);
    }
  }

  /** `os.path.join` puts the same prefix before every name that does not start with a separator. */
  lemma JoinedSuffix(ws: string, x: string)
    requires x != [] && x[0] != '/'
    ensures Selection.PathJoin(ws, x) == JoinPrefix(ws) + x
  {
  }

  function JoinPrefix(ws: string): string {
    if ws == [] || ws[|ws| - 1] == '/' then ws else ws + "/"
  }

  /**
   * Two distinct names without separators, joined to the same workspace,
   * give paths neither of which lies beneath the other.
   */
  lemma JoinedApart(ws: string, x: string, y: string)
    requires x != [] && y != [] && x[0] != '/' && y[0] != '/'
    requires '/' !in x && '/' !in y && x != y
    ensures !Under(Selection.PathJoin(ws, x), Selection.PathJoin(ws, y))
  {
    JoinedSuffix(ws, x);
    JoinedSuffix(ws, y);
    var p := JoinPrefix(ws);
    assert (p + x)[|p|..] == x && (p + y)[|p|..] == y;
    var under := p + y + "/";
    assert under[|p| + |y|] == '/';
    assert |under| <= |p + x| ==> (p + x)[|p| + |y|] == x[|y|];
  }
}

/**
 * `pipeline/pipeline_run.py`: the sfm, mvs and fuse stages, each in its own
 * directory of the workspace.  The sfm stage runs only when its directory is
 * missing; the mvs stage clears its directory, converts the sfm result with
 * `sfm_convert_helper` and runs the mvs program; the fuse stage clears its
 * directory, converts with `mvs_convert_helper` and runs the fusion.
 */
module Stages {
  import opened Wrappers
  import opened Workspace
  import Selection
  import Converter
  import Statistics

  /** The command line after argparse. */
  datatype Options = Options(imagesDir: string, workspace: string, sfm: string, mvs: string, fuse: string, autoRerun: bool, numGpu: int)

  const SfmChoices: set<string> := {"colmap", "openmvg", "theiasfm", "mve"}
  const MvsChoices: set<string> := {"colmap", "openmvs", "pmvs", "cmvs", "mve", "mvsnet", "rmvsnet", "pointmvsnet"}

  /** What argparse lets through. */
  predicate Valid(o: Options) {
    o.sfm in SfmChoices && o.mvs in MvsChoices && o.fuse in MvsChoices
  }

  function SfmName(o: Options): string { "sfm_" + o.sfm }
  function MvsName(o: Options): string { "mvs_" + o.sfm + "2" + o.mvs }
  function FuseName(o: Options): string { "fuse_" + o.sfm + "2" + o.mvs + "2" + o.fuse }

  function SfmDir(o: Options): string { Selection.PathJoin(o.workspace, SfmName(o)) }
  function MvsDir(o: Options): string { Selection.PathJoin(o.workspace, MvsName(o)) }
  function FuseDir(o: Options): string { Selection.PathJoin(o.workspace, FuseName(o)) }

  /** The work directories in stage order. */
  function StageDirs(o: Options): (r: seq<string>)
    ensures |r| == 3
  {
    [SfmDir(o), MvsDir(o), FuseDir(o)]
  }

  /**
   * What the run finds on disk besides its work directories: the listing
   * of the images directory, in `iterdir` order, and what each glob of
   * `GetFileFromBuildId` yields.
   */
  datatype Listings = Listings(images: seq<Converter.Entry>, globs: Converter.Globs)

  /**
   * `sfm_theiasfm2pmvs` on an images directory without a .jpg/.png file:
   * its assertion on the image suffix fails.
   */
  predicate NoImagesForPmvs(o: Options, ls: Listings) {
    o.sfm == "theiasfm" && o.mvs == "pmvs" && Converter.FirstImageSuffix(ls.images).None?
  }

  /** The steps of adapter `a` in the mvs stage: the sfm result in, the mvs directory out, no build id. */
  function MvsPlan(a: Converter.Adapter, o: Options, ls: Listings): Result<seq<Converter.Step>, Converter.ConvertError> {
    Converter.Plan(a, Converter.Dirs(SfmDir(o), ls.images, MvsDir(o)), None)
  }

  /** A `GetFileFromBuildId` of the adapter the mvs stage calls does not single out one file. */
  predicate SelectionExits(o: Options, ls: Listings) {
    match Converter.Dispatch(o.sfm, o.mvs)
    case None => false
    case Some(a) => MvsPlan(a, o, ls).Ok? && !Converter.AllFound(MvsPlan(a, o, ls).value, ls.globs)
  }

  /**
   * The mvs stage: the sfm result converted by the adapter its name
   * selects, then the mvs program.  It fails without an adapter
   * (AttributeError), on the image assertion of `sfm_theiasfm2pmvs`
   * (AssertionError), or when a selection exits.
   */
  function MvsWork(o: Options, ls: Listings): (r: Result<seq<Work>, Abort>)
    ensures r.Err? <==> Converter.Dispatch(o.sfm, o.mvs).None? || NoImagesForPmvs(o, ls) || SelectionExits(o, ls)
    ensures r.Err? ==> r.error == if Converter.Dispatch(o.sfm, o.mvs).None? then AttributeError
                                  else if NoImagesForPmvs(o, ls) then AssertionError else SystemExit
    ensures r.Ok? ==> |r.value| == 2 && r.value[0].Convert? && Converter.Formats(r.value[0].adapter) == (o.sfm, o.mvs)
  {
    Converter.DispatchTheiasfmToPmvs(o.sfm, o.mvs);
    match Converter.Dispatch(o.sfm, o.mvs)
    case None => Err(AttributeError)
    case Some(a) =>
      Converter.DispatchExact(o.sfm, o.mvs, a);
      Converted(a, o, ls)
  }

  /**
   * The adapter `a` called on the sfm result, then the mvs program, unless
   * the adapter's image assertion fails or one of its selections exits.
   */
  function Converted(a: Converter.Adapter, o: Options, ls: Listings): (r: Result<seq<Work>, Abort>)
    ensures r.Err? <==> (a.TheiasfmToPmvs? && Converter.FirstImageSuffix(ls.images).None?)
                        || (MvsPlan(a, o, ls).Ok? && !Converter.AllFound(MvsPlan(a, o, ls).value, ls.globs))
    ensures r.Err? ==> r.error == if a.TheiasfmToPmvs? && Converter.FirstImageSuffix(ls.images).None? then AssertionError else SystemExit
    ensures r.Ok? ==> r.value == [Convert(a, SfmDir(o), MvsDir(o)), Call("mvs_run_helper", [o.mvs, MvsDir(o)])]
  {
    Converter.PlanWithoutBuildId(a, Converter.Dirs(SfmDir(o), ls.images, MvsDir(o)));
    match MvsPlan(a, o, ls)
    case Err(_) => Err(AssertionError)
    case Ok(steps) =>
      if Converter.AllFound(steps, ls.globs) then Ok([Convert(a, SfmDir(o), MvsDir(o)), Call("mvs_run_helper", [o.mvs, MvsDir(o)])])
      else Err(SystemExit)
  }

  /**
   * colmap to pmvs: the mvs stage goes through exactly when the glob of
   * the sfm result's `sparse` directory yields one model; with two, such
   * as `0` and `1`, `GetFileFromBuildId` exits.
   */
  lemma ColmapToPmvsNeedsOneModel(o: Options, ls: Listings)
    requires o.sfm == "colmap" && o.mvs == "pmvs"
    ensures MvsWork(o, ls).Ok? <==> |Converter.Candidates(ls.globs, Selection.PathJoin(SfmDir(o), "sparse"), "*")| == 1
    ensures MvsWork(o, ls).Err? ==> MvsWork(o, ls).error == SystemExit
  {
    var a := Converter.ColmapToPmvs;
    Converter.DispatchExact(o.sfm, o.mvs, a);
    var d := Converter.Dirs(SfmDir(o), ls.images, MvsDir(o));
    Converter.ColmapToPmvsPlan(a, d);
    Converter.UndistortFinds(d, Converter.UndistortPmvs, ls.globs);
    assert !NoImagesForPmvs(o, ls);
  }

  /**
   * The sfm stage never stops the run: the run helper is taken to return
   * normally, although for theiasfm and mve it passes two arguments to a
   * function that takes three.
   */
  function SfmGate(o: Options): Gate {
    Gate(SfmDir(o), false, false, Ok([Call("sfm_run_helper", [o.sfm, o.imagesDir, SfmDir(o)])]))
  }

  function MvsGate(o: Options, ls: Listings): Gate {
    Gate(MvsDir(o), true, true, MvsWork(o, ls))
  }

  /** The fuse stage: the mvs result linked by the adapter its name selects, then the fusion program. */
  function FuseWork(o: Options): (r: Result<seq<Work>, Abort>)
    ensures r.Err? <==> Converter.MvsDispatch(o.mvs, o.fuse).None?
    ensures r.Err? ==> r.error == AttributeError
    ensures r.Ok? ==> |r.value| == 2 && r.value[0].Link? && Converter.MvsFormat(r.value[0].mvsAdapter) == o.mvs == o.fuse
  {
    Converter.MvsDispatchExact(o.mvs, o.fuse);
    match Converter.MvsDispatch(o.mvs, o.fuse)
    case None => Err(AttributeError)
    case Some(a) => Ok([Link(a, MvsDir(o), FuseDir(o)), Call("fuse_run_helper", [o.fuse, FuseDir(o)])])
  }

  function FuseGate(o: Options): Gate {
    Gate(FuseDir(o), true, true, FuseWork(o))
  }

  /**
   * The stages of a run over a workspace whose existing directories are
   * `fs`, once the GPU choice of `Drive` has gone through.
   */
  function Run(o: Options, fs: set<string>, ls: Listings): (r: State)
    ensures 2 <= |r.ran| <= 3
    ensures r.ran[0] <==> SfmDir(o) !in fs
    ensures r.abort.None? ==> |r.ran| == 3
  {
    Gated(Gated(Gated(Start(o.autoRerun, fs), SfmGate(o)), MvsGate(o, ls)), FuseGate(o))
  }

  /**
   * The whole driver: `SetupFreeGpu(num_gpu)` on the rows `nvidia-smi`
   * prints, whose exception ends the run before any stage, then the stages.
   */
  function Drive(o: Options, rows: seq<Selection.StatusRow>, fs: set<string>, ls: Listings): (r: Result<State, Selection.GpuError>)
    ensures r.Err? <==> o.numGpu > 0 && (Selection.ParseStatus(rows).None? || o.numGpu > |Selection.ParseStatus(rows).value|)
    ensures r.Err? ==> r.error == if Selection.ParseStatus(rows).None? then Selection.ValueError else Selection.IndexError
    ensures r.Ok? ==> r.value == Run(o, fs, ls)
  {
    match Selection.SetupFreeGpuFromStatus(o.numGpu, rows)
    case Err(e) => Err(e)
    case Ok(_) => Ok(Run(o, fs, ls))
  }

  /** `--num_gpu 2` on a machine with one GPU stops the run with IndexError before the sfm stage. */
  lemma TwoGpusOnOneMachine(o: Options, g: Selection.Gpu, fs: set<string>, ls: Listings)
    requires o.numGpu == 2 && g.index >= 0 && g.free >= 0
    ensures Drive(o, [Selection.PrintedRow(g)], fs, ls) == Err(Selection.IndexError)
  {
    Selection.StatusRoundTrip([g]);
    assert seq(1, k requires 0 <= k < 1 => Selection.PrintedRow([g][k])) == [Selection.PrintedRow(g)];
  }

  /** The driver is a chain of three gated stages with nothing in between. */
  lemma RunIsChain(o: Options, fs: set<string>, ls: Listings)
    ensures Run(o, fs, ls) == Chain(Start(o.autoRerun, fs), SfmGate(o), MvsGate(o, ls), Ok([]), FuseGate(o))
  {
    var s2 := Gated(Gated(Start(o.autoRerun, fs), SfmGate(o)), MvsGate(o, ls));
    assert s2.actions + Dos([]) == s2.actions;
  }

  lemma ChoiceHasNoSlash(x: string)
    requires x in SfmChoices || x in MvsChoices
    ensures x != [] && '/' !in x
  {
  }

  /** The three work directories are distinct and none lies beneath another. */
  lemma DirsApart(o: Options)
    requires Valid(o)
    ensures !Under(SfmDir(o), MvsDir(o)) && !Under(SfmDir(o), FuseDir(o))
    ensures !Under(MvsDir(o), SfmDir(o)) && !Under(MvsDir(o), FuseDir(o))
    ensures !Under(FuseDir(o), SfmDir(o)) && !Under(FuseDir(o), MvsDir(o))
  {
    ChoiceHasNoSlash(o.sfm);
    ChoiceHasNoSlash(o.mvs);
    ChoiceHasNoSlash(o.fuse);
    var s, m, f := SfmName(o), MvsName(o), FuseName(o);
    assert s[0] == 's' && m[0] == 'm' && f[0] == 'f';
    assert '/' !in s && '/' !in m && '/' !in f;
    JoinedApart(o.workspace, s, m);
    JoinedApart(o.workspace, s, f);
    JoinedApart(o.workspace, m, s);
    JoinedApart(o.workspace, m, f);
    JoinedApart(o.workspace, f, s);
    JoinedApart(o.workspace, f, m);
  }

  lemma LayoutHolds(o: Options, ls: Listings)
    requires Valid(o)
    ensures Layout(SfmGate(o), MvsGate(o, ls), FuseGate(o))
  {
    DirsApart(o);
  }

  /**
   * The gate of each stage in terms of the directories that existed at the
   * start: the sfm stage runs exactly when its directory is missing, and
   * the mvs and fuse stages when their directory is missing or `force_run`,
   * the initial value plus one per stage that ran before, is positive.  The
   * mvs stage is always reached; a completed run has raised the counter once
   * per stage that ran.
   */
  lemma StageRules(o: Options, fs: set<string>, ls: Listings)
    requires Valid(o)
    ensures var r := Run(o, fs, ls); var f := InitialForceRun(o.autoRerun);
            && 2 <= |r.ran| <= 3
            && (r.ran[0] <==> SfmDir(o) !in fs)
            && (r.ran[1] <==> MvsDir(o) !in fs || f + Statistics.CountTrue(r.ran[..1]) > 0)
            && (|r.ran| == 3 ==> (r.ran[2] <==> FuseDir(o) !in fs || f + Statistics.CountTrue(r.ran[..2]) > 0))
            && (r.abort.None? ==> |r.ran| == 3 && r.forceRun == f + Statistics.CountTrue(r.ran))
  {
    var s0, g1, g2, g3 := Start(o.autoRerun, fs), SfmGate(o), MvsGate(o, ls), FuseGate(o);
    RunIsChain(o, fs, ls);
    LayoutHolds(o, ls);
    ChainRules(s0, g1, g2, Ok([]), g3);
    assert Gated(s0, g1).abort.None?;
  }

  /** Without `--auto_rerun`, once a stage runs every later stage runs too. */
  lemma CascadeWithoutAutoRerun(o: Options, fs: set<string>, ls: Listings)
    requires Valid(o) && !o.autoRerun
    ensures Cascades(Run(o, fs, ls).ran)
  {
    RunIsChain(o, fs, ls);
    LayoutHolds(o, ls);
    ChainCascade(Start(o.autoRerun, fs), SfmGate(o), MvsGate(o, ls), Ok([]), FuseGate(o));
  }

  /**
   * With `--auto_rerun` the counter starts so low that it never turns
   * positive: exactly the stages whose directory is missing run.
   */
  lemma AutoRerunRunsMissing(o: Options, fs: set<string>, ls: Listings)
    requires Valid(o) && o.autoRerun
    ensures var r := Run(o, fs, ls);
            forall i | 0 <= i < |r.ran| :: r.ran[i] <==> StageDirs(o)[i] !in fs
  {
    RunIsChain(o, fs, ls);
    LayoutHolds(o, ls);
    ChainRunsMissing(Start(o.autoRerun, fs), SfmGate(o), MvsGate(o, ls), Ok([]), FuseGate(o));
  }

  /** The directories after a run are those its actions produce. */
  lemma RunReplays(o: Options, fs: set<string>, ls: Listings)
    ensures Run(o, fs, ls).fs == Replay(fs, Run(o, fs, ls).actions)
  {
    RunIsChain(o, fs, ls);
    ChainReplays(Start(o.autoRerun, fs), SfmGate(o), MvsGate(o, ls), Ok([]), FuseGate(o));
  }

  /** A completed run leaves every work directory in place. */
  lemma RunLeavesStageDirs(o: Options, fs: set<string>, ls: Listings)
    requires Valid(o)
    ensures var r := Run(o, fs, ls);
            r.abort.None? ==> SfmDir(o) in r.fs && MvsDir(o) in r.fs && FuseDir(o) in r.fs
  {
    RunIsChain(o, fs, ls);
    LayoutHolds(o, ls);
    ChainDirs(Start(o.autoRerun, fs), SfmGate(o), MvsGate(o, ls), Ok([]), FuseGate(o));
  }

  /**
   * The run stops exactly when a stage that runs cannot convert its input:
   * the mvs stage without an `sfm_*` function for the sfm and mvs formats
   * (AttributeError), with `sfm_theiasfm2pmvs` and no image file
   * (AssertionError) or with a selection that finds no single file
   * (SystemExit), or the fuse stage without an `mvs_*` function for the
   * mvs and fuse formats (AttributeError).  Nothing after the stop runs.
   */
  lemma StopsWithoutAdapter(o: Options, fs: set<string>, ls: Listings)
    ensures var r := Run(o, fs, ls);
            var mvsFails := Converter.Dispatch(o.sfm, o.mvs).None? || NoImagesForPmvs(o, ls) || SelectionExits(o, ls);
            && 2 <= |r.ran|
            && (r.abort.Some? <==>
                  || (r.ran[1] && mvsFails)
                  || (|r.ran| == 3 && r.ran[2] && Converter.MvsDispatch(o.mvs, o.fuse).None?))
            && (r.abort.Some? ==> r.abort in {Some(AttributeError), Some(AssertionError), Some(SystemExit)})
            && (r.ran[1] && Converter.Dispatch(o.sfm, o.mvs).None? ==> r.abort == Some(AttributeError))
            && (r.ran[1] && NoImagesForPmvs(o, ls) ==> r.abort == Some(AssertionError))
            && (r.ran[1] && SelectionExits(o, ls) ==> r.abort == Some(SystemExit))
            && (|r.ran| == 3 && r.abort.Some? ==> r.abort == Some(AttributeError))
            && (r.ran[1] && mvsFails ==> |r.ran| == 2)
  {
    var s1 := Gated(Start(o.autoRerun, fs), SfmGate(o));
    assert s1.abort.None? && |s1.ran| == 1;
    var g2, g3 := MvsGate(o, ls), FuseGate(o);
    assert g2.work.Err? <==> Converter.Dispatch(o.sfm, o.mvs).None? || NoImagesForPmvs(o, ls) || SelectionExits(o, ls);
    assert g3.work.Err? <==> Converter.MvsDispatch(o.mvs, o.fuse).None?;
    assert g3.work.Err? ==> g3.work.error == AttributeError;
    assert Run(o, fs, ls) == Gated(Gated(s1, g2), g3);
    LastTwoGates(s1, g2, g3);
    if NoImagesForPmvs(o, ls) {
      Converter.DispatchExact(o.sfm, o.mvs, Converter.TheiasfmToPmvs);
      assert g2.work.error == AssertionError;
    } else if SelectionExits(o, ls) {
      assert g2.work.error == SystemExit;
    }
  }

  /**
   * Two gates after a stage that went through: the run stops exactly when a
   * gate that opens has failing work, and a stop at the first of them skips
   * the second.
   */
  lemma LastTwoGates(s1: State, g2: Gate, g3: Gate)
    requires s1.abort.None? && |s1.ran| == 1
    ensures var s3 := Gated(Gated(s1, g2), g3);
            && 2 <= |s3.ran|
            && (s3.abort.Some? <==> (s3.ran[1] && g2.work.Err?) || (|s3.ran| == 3 && s3.ran[2] && g3.work.Err?))
            && (s3.ran[1] && g2.work.Err? ==> s3.abort == Some(g2.work.error) && |s3.ran| == 2)
            && (s3.abort.Some? && !(s3.ran[1] && g2.work.Err?) ==> s3.abort == Some(g3.work.error))
  {
    var s2 := Gated(s1, g2);
    var s3 := Gated(s2, g3);
    assert s2.ran[1] == Runs(g2, s1);
    if s2.abort.Some? {
      assert s3 == s2;
    } else {
      assert s3.ran == s2.ran + [Runs(g3, s2)];
      assert s3.ran[1] == s2.ran[1];
    }
  }

  /** colmap to openmvs, among the documented choices, has no adapter: the run stops there. */
  lemma ColmapToOpenmvsStops(o: Options, fs: set<string>, ls: Listings)
    requires o.sfm == "colmap" && o.mvs == "openmvs"
    ensures var r := Run(o, fs, ls);
            r.ran[1] ==> r.abort == Some(AttributeError)
  {
    StopsWithoutAdapter(o, fs, ls);
    Converter.NoAdapterForColmapToOpenmvs();
  }

  /**
   * Fusing with a different algorithm than the mvs stage, or fusing the
   * output of pmvs, cmvs, openmvs, mve or rmvsnet at all, stops the run
   * whenever the fuse stage runs.
   */
  lemma FuseStopsUnlessLinked(o: Options, fs: set<string>, ls: Listings)
    requires o.mvs != o.fuse || o.mvs !in {"colmap", "mvsnet", "pointmvsnet"}
    ensures var r := Run(o, fs, ls);
            |r.ran| == 3 && r.ran[2] ==> r.abort == Some(AttributeError)
  {
    StopsWithoutAdapter(o, fs, ls);
    Converter.MvsDispatchExact(o.mvs, o.fuse);
  }
}

/**
 * `pipeline_run.py`, the older driver: an sfm stage, a normalize stage and
 * an mvs stage, whose runners accept colmap only.  Between normalize and
 * mvs, when the sfm and mvs algorithms differ, the normalized model is
 * converted into `sfm_normalize_<mvs>` and the mvs stage reads it from
 * there.  The source calls an undefined `convert` for that step; `Run`
 * models the conversion as intended and `RunAsWritten` the failing call.
 */
module LegacyStages {
  import opened Wrappers
  import opened Workspace
  import Selection
  import Statistics

  /** The command line after argparse. */
  datatype Options = Options(imagesDir: string, workspace: string, sfm: string, mvs: string, autoRerun: bool, numGpu: int)

  const SfmChoices: set<string> := {"colmap", "openmvg", "theiasfm", "mve"}
  const MvsChoices: set<string> := {"colmap", "openmvs", "pmvs", "cmvs", "mve"}

  /** What argparse lets through. */
  predicate Valid(o: Options) {
    o.sfm in SfmChoices && o.mvs in MvsChoices
  }

  function SfmDir(o: Options): string { Selection.PathJoin(o.workspace, "sfm_" + o.sfm) }
  function NormalizeDir(o: Options, alg: string): string { Selection.PathJoin(o.workspace, "sfm_normalize_" + alg) }
  function MvsDir(o: Options): string { Selection.PathJoin(o.workspace, "mvs_" + o.mvs) }

  /** The stage runners: colmap's program, or a bare `raise` for any other algorithm. */
  function Runner(alg: string, program: Work): (r: Result<seq<Work>, Abort>)
    ensures r.Ok? <==> alg == "colmap"
    ensures r.Ok? ==> r.value == [program]
    ensures r.Err? ==> r.error == RuntimeError
  {
    if alg == "colmap" then Ok([program]) else Err(RuntimeError)
  }

  function SfmGate(o: Options): Gate {
    Gate(SfmDir(o), false, false, Runner(o.sfm, Call("sfm_colmap", [o.imagesDir, SfmDir(o)])))
  }

  function NormalizeGate(o: Options): Gate {
    var dir := NormalizeDir(o, o.sfm);
    Gate(dir, true, true, Runner(o.sfm, Call("sfm_normalize_colmap", [SfmDir(o), dir, o.imagesDir])))
  }

  function MvsGate(o: Options, input: string): Gate {
    Gate(MvsDir(o), true, true, Runner(o.mvs, Call("mvs_colmap", [input, MvsDir(o)])))
  }

  /** Where the mvs stage reads the normalized model. */
  function MvsInput(o: Options): string {
    if o.sfm != o.mvs then NormalizeDir(o, o.mvs) else NormalizeDir(o, o.sfm)
  }

  /** The conversion between normalize and mvs, as intended: only when the algorithms differ. */
  function Conversion(o: Options): Result<seq<Work>, Abort> {
    if o.sfm != o.mvs then Ok([Call("convert", [NormalizeDir(o, o.sfm), NormalizeDir(o, o.mvs)])]) else Ok([])
  }

  /** The step as written: the name `convert` is not defined, so calling it raises. */
  function ConversionAsWritten(o: Options): Result<seq<Work>, Abort> {
    if o.sfm != o.mvs then Err(NameError) else Ok([])
  }

  /** A run with the conversion as intended. */
  function Run(o: Options, fs: set<string>): (r: State)
    ensures 1 <= |r.ran| <= 3
    ensures r.ran[0] <==> SfmDir(o) !in fs
    ensures r.abort.None? ==> |r.ran| == 3
  {
    Chain(Start(o.autoRerun, fs), SfmGate(o), NormalizeGate(o), Conversion(o), MvsGate(o, MvsInput(o)))
  }

  /** A run as written. */
  function RunAsWritten(o: Options, fs: set<string>): (r: State)
    ensures 1 <= |r.ran| <= 3
    ensures r.ran[0] <==> SfmDir(o) !in fs
    ensures r.abort.None? ==> |r.ran| == 3
  {
    Chain(Start(o.autoRerun, fs), SfmGate(o), NormalizeGate(o), ConversionAsWritten(o), MvsGate(o, MvsInput(o)))
  }

  /**
   * The whole driver: `SetupFreeGpu(num_gpu)` on the rows `nvidia-smi`
   * prints, whose exception ends the run before any stage, then the stages
   * as written.
   */
  function Drive(o: Options, rows: seq<Selection.StatusRow>, fs: set<string>): (r: Result<State, Selection.GpuError>)
    ensures r.Err? <==> o.numGpu > 0 && (Selection.ParseStatus(rows).None? || o.numGpu > |Selection.ParseStatus(rows).value|)
    ensures r.Err? ==> r.error == if Selection.ParseStatus(rows).None? then Selection.ValueError else Selection.IndexError
    ensures r.Ok? ==> r.value == RunAsWritten(o, fs)
  {
    match Selection.SetupFreeGpuFromStatus(o.numGpu, rows)
    case Err(e) => Err(e)
    case Ok(_) => Ok(RunAsWritten(o, fs))
  }

  /** The state after the sfm and normalize stages, the same in both runs. */
  function AfterNormalize(o: Options, fs: set<string>): State {
    Gated(Gated(Start(o.autoRerun, fs), SfmGate(o)), NormalizeGate(o))
  }

  lemma ChoiceHasNoSlash(x: string)
    requires x in SfmChoices || x in MvsChoices
    ensures x != [] && x[0] != 'n' && '/' !in x
  {
  }

  /** The three stage directories are distinct and none lies beneath another. */
  lemma LayoutHolds(o: Options, input: string)
    requires Valid(o)
    ensures Layout(SfmGate(o), NormalizeGate(o), MvsGate(o, input))
  {
    ChoiceHasNoSlash(o.sfm);
    ChoiceHasNoSlash(o.mvs);
    var s, n, m := "sfm_" + o.sfm, "sfm_normalize_" + o.sfm, "mvs_" + o.mvs;
    assert s[0] == 's' && n[0] == 's' && m[0] == 'm';
    assert s[4] != n[4];
    assert '/' !in s && '/' !in n && '/' !in m;
    JoinedApart(o.workspace, s, n);
    JoinedApart(o.workspace, n, s);
    JoinedApart(o.workspace, s, m);
    JoinedApart(o.workspace, m, s);
    JoinedApart(o.workspace, n, m);
    JoinedApart(o.workspace, m, n);
  }

  /**
   * The gate of each stage in terms of the directories that existed at the
   * start, as in the newer driver: sfm runs exactly when its directory is
   * missing; normalize and mvs when theirs is missing or `force_run` is
   * positive.  A completed run has raised the counter once per stage that ran.
   */
  lemma StageRules(o: Options, fs: set<string>)
    requires Valid(o)
    ensures var r := Run(o, fs); var f := InitialForceRun(o.autoRerun);
            && 1 <= |r.ran| <= 3
            && (r.ran[0] <==> SfmDir(o) !in fs)
            && (|r.ran| >= 2 ==> (r.ran[1] <==> NormalizeDir(o, o.sfm) !in fs || f + Statistics.CountTrue(r.ran[..1]) > 0))
            && (|r.ran| == 3 ==> (r.ran[2] <==> MvsDir(o) !in fs || f + Statistics.CountTrue(r.ran[..2]) > 0))
            && (r.abort.None? ==> |r.ran| == 3 && r.forceRun == f + Statistics.CountTrue(r.ran))
  {
    LayoutHolds(o, MvsInput(o));
    ChainRules(Start(o.autoRerun, fs), SfmGate(o), NormalizeGate(o), Conversion(o), MvsGate(o, MvsInput(o)));
  }

  /** Without `--auto_rerun`, once a stage runs every later stage that is reached runs too. */
  lemma CascadeWithoutAutoRerun(o: Options, fs: set<string>)
    requires Valid(o) && !o.autoRerun
    ensures Cascades(Run(o, fs).ran)
  {
    LayoutHolds(o, MvsInput(o));
    ChainCascade(Start(o.autoRerun, fs), SfmGate(o), NormalizeGate(o), Conversion(o), MvsGate(o, MvsInput(o)));
  }

  /** With `--auto_rerun`, exactly the stages whose directory is missing run. */
  lemma AutoRerunRunsMissing(o: Options, fs: set<string>)
    requires Valid(o) && o.autoRerun
    ensures var r := Run(o, fs);
            forall i | 0 <= i < |r.ran| :: r.ran[i] <==> [SfmDir(o), NormalizeDir(o, o.sfm), MvsDir(o)][i] !in fs
  {
    LayoutHolds(o, MvsInput(o));
    ChainRunsMissing(Start(o.autoRerun, fs), SfmGate(o), NormalizeGate(o), Conversion(o), MvsGate(o, MvsInput(o)));
  }

  /** The directories after a run are those its actions produce, and a completed run leaves every stage directory. */
  lemma RunLeavesStageDirs(o: Options, fs: set<string>)
    requires Valid(o)
    ensures var r := Run(o, fs);
            && r.fs == Replay(fs, r.actions)
            && (r.abort.None? ==> SfmDir(o) in r.fs && NormalizeDir(o, o.sfm) in r.fs && MvsDir(o) in r.fs)
  {
    var s0 := Start(o.autoRerun, fs);
    LayoutHolds(o, MvsInput(o));
    ChainReplays(s0, SfmGate(o), NormalizeGate(o), Conversion(o), MvsGate(o, MvsInput(o)));
    ChainDirs(s0, SfmGate(o), NormalizeGate(o), Conversion(o), MvsGate(o, MvsInput(o)));
  }

  /**
   * The runners accept colmap only: a stage that runs with another
   * algorithm stops the run with the `RuntimeError` of a bare `raise`.
   */
  lemma RunnersAcceptOnlyColmap(o: Options, fs: set<string>)
    ensures var r := Run(o, fs);
            && (r.ran[0] && o.sfm != "colmap" ==> r.abort == Some(RuntimeError) && |r.ran| == 1)
            && (|r.ran| >= 2 && r.ran[1] && o.sfm != "colmap" ==> r.abort == Some(RuntimeError) && |r.ran| == 2)
            && (|r.ran| == 3 && r.ran[2] && o.mvs != "colmap" ==> r.abort == Some(RuntimeError))
  {
    var s1 := Gated(Start(o.autoRerun, fs), SfmGate(o));
    var s2 := Gated(s1, NormalizeGate(o));
    var m := Then(s2, Conversion(o));
  }

  /**
   * With the conversion as intended, when the algorithms differ and the
   * first two stages succeed, the normalized model is converted and the
   * mvs stage is reached; if it runs, it reads the converted model.
   */
  lemma ConversionFeedsMvs(o: Options, fs: set<string>)
    requires o.sfm != o.mvs
    ensures var a := AfterNormalize(o, fs); var r := Run(o, fs);
            && (a.abort.None? ==> |r.ran| == 3)
            && (a.abort.None? ==> |a.actions| < |r.actions| && r.actions[..|a.actions|] == a.actions
                                  && r.actions[|a.actions|] == Do(Call("convert", [NormalizeDir(o, o.sfm), NormalizeDir(o, o.mvs)])))
            && (|r.ran| == 3 && r.ran[2] && r.abort.None? ==>
                  r.actions[|r.actions| - 1] == Do(Call("mvs_colmap", [NormalizeDir(o, o.mvs), MvsDir(o)])))
  {
    var a := AfterNormalize(o, fs);
    var m := Then(a, Conversion(o));
    var g := MvsGate(o, MvsInput(o));
    GatedActions(m, g);
    var r := Gated(m, g);
    if a.abort.None? {
      var c := Call("convert", [NormalizeDir(o, o.sfm), NormalizeDir(o, o.mvs)]);
      assert m.actions == a.actions + Dos([c]);
      assert m.actions[|a.actions|] == Do(c);
      assert r.actions[..|m.actions|] == m.actions;
      assert r.actions[|a.actions|] == m.actions[|a.actions|];
      assert r.actions[..|a.actions|] == m.actions[..|a.actions|];
    }
  }

  /**
   * As written, a run whose algorithms differ never reaches the mvs stage:
   * it stops at the latest at the undefined `convert`.
   */
  lemma ConvertIsUndefined(o: Options, fs: set<string>)
    requires o.sfm != o.mvs
    ensures var r := RunAsWritten(o, fs);
            && r.abort.Some? && |r.ran| <= 2
            && (AfterNormalize(o, fs).abort.None? ==> r.abort == Some(NameError))
  {
  }

  /** When the algorithms agree there is nothing to convert, and the two runs coincide. */
  lemma AsWrittenAgreesWhenSame(o: Options, fs: set<string>)
    requires o.sfm == o.mvs
    ensures RunAsWritten(o, fs) == Run(o, fs)
  {
  }
}


=== FILE: prebundle.dfy ===
/**
 * The MVE "prebundle" binary file: per-view feature positions and colours
 * followed by the pairwise feature matches, as written by
 * `save_prebundle_data` and read back by `load_prebundle_data` /
 * `load_prebundle_from_file` (C++) and by `read_mve_feature` (Python).
 *
 * Layout: the 14-byte signature "MVE_PREBUNDLE\n", an int32 view count, per
 * view an int32 position count and 8-byte positions then an int32 colour
 * count and 3-byte colours, an int32 pair count, and per pair the int32
 * ids of both views, an int32 match count and 8-byte index pairs.  All
 * integers are little-endian.
 */
module Prebundle {
  import opened Wrappers
  import opened Bytes

  /** A `math::Vec2f`, kept as the bit patterns of its two float32 fields. */
  datatype Vec2f = Vec2f(x: word32, y: word32)

  /** A `math::Vec3uc` colour. */
  datatype Color = Color(r: byte, g: byte, b: byte)

  /** The serialized part of a `FeatureSet`; the two lists are independent. */
  datatype FeatureSet = FeatureSet(positions: seq<Vec2f>, colors: seq<Color>)

  /** The serialized part of a `Viewport`. */
  datatype Viewport = Viewport(features: FeatureSet)

  /** A `CorrespondenceIndex`: a feature of the first view and one of the second. */
  datatype Correspondence = Correspondence(first: int32, second: int32)

  datatype TwoViewMatching = TwoViewMatching(view1: int32, view2: int32, matches: seq<Correspondence>)

  /** What `load_prebundle_data` fills into its two output parameters. */
  datatype PrebundleData = PrebundleData(viewports: seq<Viewport>, matching: seq<TwoViewMatching>)

  datatype LoadError =
    | InvalidSignature   // std::invalid_argument("Invalid prebundle file signature")
    | NegativeSize       // resize/reserve with a negative int32 count: std::length_error
    | PrematureEof       // std::runtime_error("Premature EOF")

  const Signature: seq<byte> := [77, 86, 69, 95, 80, 82, 69, 66, 85, 78, 68, 76, 69, 10]  // "MVE_PREBUNDLE\n"

  const SignatureLen: nat := 14

  /* ------------------------------ Writer ------------------------------ */

  function SavePositions(ps: seq<Vec2f>): (r: seq<byte>)
    ensures |r| == 8 * |ps|
  {
    if ps == [] then [] else EncodeWord(ps[0].x) + EncodeWord(ps[0].y) + SavePositions(ps[1..])
  }

  function SaveColors(cs: seq<Color>): (r: seq<byte>)
    ensures |r| == 3 * |cs|
  {
    if cs == [] then [] else [cs[0].r, cs[0].g, cs[0].b] + SaveColors(cs[1..])
  }

  /** Position count, positions, colour count, colours: the two counts are written independently. */
  function SaveViewport(v: Viewport): seq<byte> {
    var f := v.features;
    EncodeInt32(WrapInt32(|f.positions|)) + SavePositions(f.positions)
    + EncodeInt32(WrapInt32(|f.colors|)) + SaveColors(f.colors)
  }

  function SaveViewports(vs: seq<Viewport>): seq<byte> {
    if vs == [] then [] else SaveViewport(vs[0]) + SaveViewports(vs[1..])
  }

  function SaveMatches(ms: seq<Correspondence>): (r: seq<byte>)
    ensures |r| == 8 * |ms|
  {
    if ms == [] then [] else EncodeInt32(ms[0].first) + EncodeInt32(ms[0].second) + SaveMatches(ms[1..])
  }

  function SavePair(p: TwoViewMatching): seq<byte> {
    EncodeInt32(p.view1) + EncodeInt32(p.view2) + EncodeInt32(WrapInt32(|p.matches|)) + SaveMatches(p.matches)
  }

  function SavePairs(ps: seq<TwoViewMatching>): seq<byte> {
    if ps == [] then [] else SavePair(ps[0]) + SavePairs(ps[1..])
  }

  /** `save_prebundle_data`: every count is the container size cast to int32. */
  function Save(d: PrebundleData): (r: seq<byte>)
    ensures |r| >= SignatureLen + 8 && r[..SignatureLen] == Signature
    ensures r[SignatureLen..SignatureLen + 4] == EncodeInt32(WrapInt32(|d.viewports|))
  {
    assert |Signature| == SignatureLen;
    Signature + EncodeInt32(WrapInt32(|d.viewports|)) + SaveViewports(d.viewports)
    + EncodeInt32(WrapInt32(|d.matching|)) + SavePairs(d.matching)
  }

  /** Every size the writer casts to int32 fits, so no count wraps around. */
  ghost predicate FitsInt32(d: PrebundleData) {
    && |d.viewports| < 0x8000_0000
    && |d.matching| < 0x8000_0000
    && (forall v | v in d.viewports ::
          |v.features.positions| < 0x8000_0000 && |v.features.colors| < 0x8000_0000)
    && (forall p | p in d.matching :: |p.matches| < 0x8000_0000)
  }

  /* -------------------------- C++ reader ---------------------------- */

  /** A parsed value and the bytes left after it. */
  datatype Parsed<T> = Parsed(value: T, rest: seq<byte>)

  function ReadInt32(s: seq<byte>): (r: Result<Parsed<int32>, LoadError>)
    ensures r.Err? ==> r.error != InvalidSignature
  {
    if |s| < 4 then Err(PrematureEof) else Ok(Parsed(DecodeInt32(s[..4]), s[4..]))
  }

  function ReadPositions(s: seq<byte>, n: nat): (r: Result<Parsed<seq<Vec2f>>, LoadError>)
    ensures r.Err? ==> r.error != InvalidSignature
    decreases n
  {
    if n == 0 then Ok(Parsed([], s))
    else if |s| < 8 then Err(PrematureEof)
    else
      var p := Vec2f(DecodeWord(s[..4]), DecodeWord(s[4..8]));
      var tail :- ReadPositions(s[8..], n - 1);
      Ok(Parsed([p] + tail.value, tail.rest))
  }

  function ReadColors(s: seq<byte>, n: nat): (r: Result<Parsed<seq<Color>>, LoadError>)
    ensures r.Err? ==> r.error != InvalidSignature
    decreases n
  {
    if n == 0 then Ok(Parsed([], s))
    else if |s| < 3 then Err(PrematureEof)
    else
      var tail :- ReadColors(s[3..], n - 1);
      Ok(Parsed([Color(s[0], s[1], s[2])] + tail.value, tail.rest))
  }

  /** A count that sizes a container with `resize` or `reserve`: negative is a length error. */
  function SizeCount(c: int32): Result<nat, LoadError> {
    if c < 0 then Err(NegativeSize) else Ok(c)
  }

  function ReadViewport(s: seq<byte>): (r: Result<Parsed<Viewport>, LoadError>)
    ensures r.Err? ==> r.error != InvalidSignature
  {
    var np :- ReadInt32(s);
    var n :- SizeCount(np.value);
    var ps :- ReadPositions(np.rest, n);
    var nc :- ReadInt32(ps.rest);
    var m :- SizeCount(nc.value);
    var cs :- ReadColors(nc.rest, m);
    Ok(Parsed(Viewport(FeatureSet(ps.value, cs.value)), cs.rest))
  }

  function ReadViewports(s: seq<byte>, n: nat): (r: Result<Parsed<seq<Viewport>>, LoadError>)
    ensures r.Err? ==> r.error != InvalidSignature
    decreases n
  {
    if n == 0 then Ok(Parsed([], s))
    else
      var v :- ReadViewport(s);
      var tail :- ReadViewports(v.rest, n - 1);
      Ok(Parsed([v.value] + tail.value, tail.rest))
  }

  function ReadMatches(s: seq<byte>, n: nat): (r: Result<Parsed<seq<Correspondence>>, LoadError>)
    ensures r.Err? ==> r.error != InvalidSignature
    decreases n
  {
    if n == 0 then Ok(Parsed([], s))
    else
      var i1 :- ReadInt32(s);
      var i2 :- ReadInt32(i1.rest);
      var tail :- ReadMatches(i2.rest, n - 1);
      Ok(Parsed([Correspondence(i1.value, i2.value)] + tail.value, tail.rest))
  }

  function ReadPair(s: seq<byte>): (r: Result<Parsed<TwoViewMatching>, LoadError>)
    ensures r.Err? ==> r.error != InvalidSignature
  {
    var id1 :- ReadInt32(s);
    var id2 :- ReadInt32(id1.rest);
    var nm :- ReadInt32(id2.rest);
    var n :- SizeCount(nm.value);
    var ms :- ReadMatches(nm.rest, n);
    Ok(Parsed(TwoViewMatching(id1.value, id2.value, ms.value), ms.rest))
  }

  function ReadPairs(s: seq<byte>, n: nat): (r: Result<Parsed<seq<TwoViewMatching>>, LoadError>)
    ensures r.Err? ==> r.error != InvalidSignature
    decreases n
  {
    if n == 0 then Ok(Parsed([], s))
    else
      var p :- ReadPair(s);
      var tail :- ReadPairs(p.rest, n - 1);
      Ok(Parsed([p.value] + tail.value, tail.rest))
  }

  /** The pair loop runs `for (i = 0; i < num_pairs; ++i)`: a negative count reads no pair. */
  function PairLoopCount(c: int32): nat {
    if c < 0 then 0 else c
  }

  /**
   * `load_prebundle_from_file` over the file's bytes: `load_prebundle_data`
   * followed by the end-of-file check.  Bytes after the last pair are not
   * looked at.
   */
  function Load(data: seq<byte>): (r: Result<Parsed<PrebundleData>, LoadError>)
    ensures r == Err(InvalidSignature) <==> |data| < SignatureLen || data[..SignatureLen] != Signature
  {
    if |data| < SignatureLen || data[..SignatureLen] != Signature then Err(InvalidSignature)
    else LoadBody(data[SignatureLen..])
  }

  /** Everything after the signature: the view count, the views, the pair count, the pairs. */
  function LoadBody(s: seq<byte>): (r: Result<Parsed<PrebundleData>, LoadError>)
    ensures r.Err? ==> r.error != InvalidSignature
  {
    var nv :- ReadInt32(s);
    var n :- SizeCount(nv.value);
    var vs :- ReadViewports(nv.rest, n);
    var np :- ReadInt32(vs.rest);
    var ps :- ReadPairs(np.rest, PairLoopCount(np.value));
    Ok(Parsed(PrebundleData(vs.value, ps.value), ps.rest))
  }
}

/** The C++ reader inverts the C++ writer. */
module PrebundleRoundTrip {
  import opened Wrappers
  import opened Bytes
  import opened Prebundle

  lemma {:induction false} PositionsRoundTrip(ps: seq<Vec2f>, rest: seq<byte>)
    ensures ReadPositions(SavePositions(ps) + rest, |ps|) == Ok(Parsed(ps, rest))
  {
    if ps != [] {
      var s := SavePositions(ps) + rest;
      assert s == EncodeWord(ps[0].x) + EncodeWord(ps[0].y) + (SavePositions(ps[1..]) + rest);
      assert s[..4] == EncodeWord(ps[0].x);
      assert s[4..8] == EncodeWord(ps[0].y);
      assert s[8..] == SavePositions(ps[1..]) + rest;
      WordRoundTrip(ps[0].x);
      WordRoundTrip(ps[0].y);
      PositionsRoundTrip(ps[1..], rest);
      assert Vec2f(DecodeWord(s[..4]), DecodeWord(s[4..8])) == ps[0];
      assert [ps[0]] + ps[1..] == ps;
      assert |s| >= 8;
      assert ReadPositions(s, |ps|) == Ok(Parsed([ps[0]] + ps[1..], rest));
    } else {
      assert SavePositions(ps) + rest == rest;
    }
  }

  lemma {:induction false} ColorsRoundTrip(cs: seq<Color>, rest: seq<byte>)
    ensures ReadColors(SaveColors(cs) + rest, |cs|) == Ok(Parsed(cs, rest))
  {
    if cs != [] {
      var s := SaveColors(cs) + rest;
      assert s == [cs[0].r, cs[0].g, cs[0].b] + (SaveColors(cs[1..]) + rest);
      assert s[3..] == SaveColors(cs[1..]) + rest;
      ColorsRoundTrip(cs[1..], rest);
      assert [cs[0]] + cs[1..] == cs;
      assert ReadColors(s, |cs|) == Ok(Parsed([Color(s[0], s[1], s[2])] + cs[1..], rest));
    } else {
      assert SaveColors(cs) + rest == rest;
    }
  }

  lemma ReadInt32After(x: int32, rest: seq<byte>)
    ensures ReadInt32(EncodeInt32(x) + rest) == Ok(Parsed(x, rest))
  {
    var s := EncodeInt32(x) + rest;
    assert s[..4] == EncodeInt32(x);
    assert s[4..] == rest;
    Int32RoundTrip(x);
  }

  lemma ViewportRoundTrip(v: Viewport, rest: seq<byte>)
    requires |v.features.positions| < 0x8000_0000 && |v.features.colors| < 0x8000_0000
    ensures ReadViewport(SaveViewport(v) + rest) == Ok(Parsed(v, rest))
  {
    var f := v.features;
    var cnt1 := EncodeInt32(WrapInt32(|f.positions|));
    var cnt2 := EncodeInt32(WrapInt32(|f.colors|));
    var tail2 := SaveColors(f.colors) + rest;
    var tail1 := SavePositions(f.positions) + (cnt2 + tail2);
    assert SaveViewport(v) + rest == cnt1 + tail1;
    ReadInt32After(|f.positions|, tail1);
    PositionsRoundTrip(f.positions, cnt2 + tail2);
    ReadInt32After(|f.colors|, tail2);
    ColorsRoundTrip(f.colors, rest);
  }

  lemma {:induction false} ViewportsRoundTrip(vs: seq<Viewport>, rest: seq<byte>)
    requires forall v | v in vs :: |v.features.positions| < 0x8000_0000 && |v.features.colors| < 0x8000_0000
    ensures ReadViewports(SaveViewports(vs) + rest, |vs|) == Ok(Parsed(vs, rest))
  {
    if vs != [] {
      assert SaveViewports(vs) + rest == SaveViewport(vs[0]) + (SaveViewports(vs[1..]) + rest);
      ViewportRoundTrip(vs[0], SaveViewports(vs[1..]) + rest);
      ViewportsRoundTrip(vs[1..], rest);
      assert [vs[0]] + vs[1..] == vs;
    } else {
      assert SaveViewports(vs) + rest == rest;
    }
  }

  lemma {:induction false} MatchesRoundTrip(ms: seq<Correspondence>, rest: seq<byte>)
    ensures ReadMatches(SaveMatches(ms) + rest, |ms|) == Ok(Parsed(ms, rest))
  {
    if ms != [] {
      var tail := SaveMatches(ms[1..]) + rest;
      var mid := EncodeInt32(ms[0].second) + tail;
      var s := SaveMatches(ms) + rest;
      assert ReadInt32(s) == Ok(Parsed(ms[0].first, mid)) by {
        assert s == EncodeInt32(ms[0].first) + mid;
        ReadInt32After(ms[0].first, mid);
      }
      assert ReadInt32(mid) == Ok(Parsed(ms[0].second, tail)) by {
        ReadInt32After(ms[0].second, tail);
      }
      assert ReadMatches(tail, |ms| - 1) == Ok(Parsed(ms[1..], rest)) by {
        MatchesRoundTrip(ms[1..], rest);
      }
      assert [ms[0]] + ms[1..] == ms;
    } else {
      assert SaveMatches(ms) + rest == rest;
    }
  }

  lemma PairRoundTrip(p: TwoViewMatching, rest: seq<byte>)
    requires |p.matches| < 0x8000_0000
    ensures ReadPair(SavePair(p) + rest) == Ok(Parsed(p, rest))
  {
    var tail := SaveMatches(p.matches) + rest;
    var c := EncodeInt32(|p.matches|);
    assert SavePair(p) + rest == EncodeInt32(p.view1) + (EncodeInt32(p.view2) + (c + tail));
    ReadInt32After(p.view1, EncodeInt32(p.view2) + (c + tail));
    ReadInt32After(p.view2, c + tail);
    ReadInt32After(|p.matches|, tail);
    MatchesRoundTrip(p.matches, rest);
  }

  lemma {:induction false} PairsRoundTrip(ps: seq<TwoViewMatching>, rest: seq<byte>)
    requires forall p | p in ps :: |p.matches| < 0x8000_0000
    ensures ReadPairs(SavePairs(ps) + rest, |ps|) == Ok(Parsed(ps, rest))
  {
    if ps != [] {
      var tail := SavePairs(ps[1..]) + rest;
      PairsRoundTrip(ps[1..], rest);
      PairsStep(ps[0], ps[1..], rest);
      assert [ps[0]] + ps[1..] == ps;
    } else {
      assert SavePairs(ps) + rest == rest;
    }
  }

  lemma PairsStep(p: TwoViewMatching, ps: seq<TwoViewMatching>, rest: seq<byte>)
    requires |p.matches| < 0x8000_0000
    requires ReadPairs(SavePairs(ps) + rest, |ps|) == Ok(Parsed(ps, rest))
    ensures ReadPairs(SavePairs([p] + ps) + rest, |ps| + 1) == Ok(Parsed([p] + ps, rest))
  {
    var tail := SavePairs(ps) + rest;
    ReadFirstPair(p, ps, rest);
    ReadPairsCons(SavePairs([p] + ps) + rest, |ps| + 1, p, tail, ps, rest);
  }

  lemma ReadFirstPair(p: TwoViewMatching, ps: seq<TwoViewMatching>, rest: seq<byte>)
    requires |p.matches| < 0x8000_0000
    ensures ReadPair(SavePairs([p] + ps) + rest) == Ok(Parsed(p, SavePairs(ps) + rest))
  {
    assert ([p] + ps)[1..] == ps;
    assert SavePairs([p] + ps) + rest == SavePair(p) + (SavePairs(ps) + rest);
    PairRoundTrip(p, SavePairs(ps) + rest);
  }

  lemma ReadPairsCons(s: seq<byte>, n: nat, p: TwoViewMatching, mid: seq<byte>,
                      ps: seq<TwoViewMatching>, rest: seq<byte>)
    requires n > 0 && ReadPair(s) == Ok(Parsed(p, mid)) && ReadPairs(mid, n - 1) == Ok(Parsed(ps, rest))
    ensures ReadPairs(s, n) == Ok(Parsed([p] + ps, rest))
  {
  }

  lemma LoadBodyRoundTrip(d: PrebundleData, rest: seq<byte>)
    requires FitsInt32(d)
    ensures LoadBody(EncodeInt32(|d.viewports|) + SaveViewports(d.viewports)
                     + EncodeInt32(|d.matching|) + SavePairs(d.matching) + rest)
            == Ok(Parsed(d, rest))
  {
    var t2 := SavePairs(d.matching) + rest;
    var t1 := SaveViewports(d.viewports) + (EncodeInt32(|d.matching|) + t2);
    var s := EncodeInt32(|d.viewports|) + SaveViewports(d.viewports)
             + EncodeInt32(|d.matching|) + SavePairs(d.matching) + rest;
    assert s == EncodeInt32(|d.viewports|) + t1;
    ReadInt32After(|d.viewports|, t1);
    ViewportsRoundTrip(d.viewports, EncodeInt32(|d.matching|) + t2);
    ReadInt32After(|d.matching|, t2);
    PairsRoundTrip(d.matching, rest);
  }

  /**
   * Loading what `save_prebundle_data` wrote restores every viewport's
   * positions and colours and every pair's ids and matches, in order; bytes
   * after the data are left unread.
   */
  lemma SaveLoadRoundTrip(d: PrebundleData, rest: seq<byte>)
    requires FitsInt32(d)
    ensures Load(Save(d) + rest) == Ok(Parsed(d, rest))
  {
    var body := EncodeInt32(|d.viewports|) + SaveViewports(d.viewports)
                + EncodeInt32(|d.matching|) + SavePairs(d.matching) + rest;
    var data := Save(d) + rest;
    assert data == Signature + body;
    assert data[..SignatureLen] == Signature && data[SignatureLen..] == body;
    LoadBodyRoundTrip(d, rest);
  }


}

=== FILE: save_roundtrip.dfy ===
/**
 * `save_mve_sfm` followed by the two Bundler readers: the synth_0.out that a
 * successful save writes is taken back whole by the C++ `load_bundler_ps`
 * and by the Python `read_bundler`, under the conditions each reader puts
 * on the numbers in the file.
 */
module SaveRoundTrip {
  import opened Wrappers
  import opened Colmap
  import opened Synth
  import opened Tokens
  import opened MveWriter
  import BundleCpp
  import CppStream
  import SynthCpp
  import BundlePy
  import SynthPy

  /** A track that `zip` does not cut short: at least as many feature indices as image ids. */
  predicate FullTrack(p: Point3D) {
    |p.imageIds| <= |p.point2DIdxs|
  }

  /** A written camera carries the three translation entries. */
  lemma WrittenTrans(m: Reconstruction, f: SynthFile, k: int)
    requires SizedCameras(m.cameras) && WriteSynth(m) == Ok(f) && 0 <= k < |f.cameras|
    ensures |f.cameras[k].trans| == 3
  {
    var sorted := ById(m.images);
    assert f.cameras[k] == WriteCamera(m.cameras, sorted[k]).value;
  }

  /** A written point has the model's track length and views numbered below the image count. */
  lemma WrittenPoint(m: Reconstruction, f: SynthFile, k: int)
    requires SizedCameras(m.cameras) && WriteSynth(m) == Ok(f) && 0 <= k < |f.points|
    requires FullTrack(m.points[k])
    ensures var q := f.points[k];
            && |q.xyz| == 3 && |q.rgb| == 3 && q.count == |q.track| == |m.points[k].imageIds|
            && forall j | 0 <= j < |q.track| ::
                 && q.track[j].view == IndexOfId(ById(m.images), m.points[k].imageIds[j]).value
                 && 0 <= q.track[j].view < |m.images|
                 && q.track[j].feature == m.points[k].point2DIdxs[j]
  {
    var sorted := ById(m.images);
    var p := m.points[k];
    assert f.points[k] == WritePoint(sorted, p).value;
    var t := WriteTrack(sorted, p.imageIds, p.point2DIdxs);
    assert t.Ok?;
  }

  /** What the C++ reader needs of the model behind a written file. */
  ghost predicate CppLoadable(m: Reconstruction) {
    && |m.images| <= BundleCpp.MaxViews && |m.points| <= BundleCpp.MaxFeatures
    && forall k | 0 <= k < |m.points| ::
         && FullTrack(m.points[k]) && |m.points[k].imageIds| <= |m.images|
         && forall j | 0 <= j < |m.points[k].imageIds| :: SynthCpp.FitsInt(m.points[k].point2DIdxs[j])
  }

  /**
   * A saved model whose counts and feature indices fit the C++ reader's
   * bounds reads back with `load_bundler_ps`: one camera per image in id
   * order and one feature per point, exactly as written.
   */
  lemma CppReadsSaved(m: Reconstruction)
    requires SizedCameras(m.cameras) && SaveMveSfm(m).Ok? && CppLoadable(m)
    ensures var f := SaveMveSfm(m).value.0;
            && |f.cameras| == |m.images| && |f.points| == |m.points|
            && BundleCpp.LoadBundlerPs(Version, Flatten(SynthLines(f)), true, BundleCpp.Photosynther)
               == Ok(BundleCpp.Bundle(SynthCpp.CppCameras(f.cameras), SynthCpp.CppFeatures(f.points)))
  {
    var f := SaveMveSfm(m).value.0;
    assert WriteSynth(m) == Ok(f);
    forall k | 0 <= k < |f.cameras|
      ensures |f.cameras[k].trans| == 3
    {
      WrittenTrans(m, f, k);
    }
    forall k | 0 <= k < |f.points|
      ensures SynthCpp.PointReadable(f.points[k], |f.cameras|)
    {
      WrittenPoint(m, f, k);
      var q := f.points[k];
      forall j | 0 <= j < |q.track|
        ensures SynthCpp.FitsInt(q.track[j].view) && SynthCpp.FitsInt(q.track[j].feature)
      {
        assert q.track[j].view < BundleCpp.MaxViews;
      }
    }
    assert SynthCpp.CppReadable(f);
    SynthCpp.CppReadsSynth(f);
  }

  /** What the Python reader needs of the model behind a written file, its image sizes and features. */
  ghost predicate PyLoadable(m: Reconstruction, xys: seq<seq<Point2>>, sizes: seq<BundlePy.ImageSize>) {
    && |xys| == |m.images| <= |sizes|
    && (forall k | 0 <= k < |xys| :: |xys[k]| > 0)
    && forall k | 0 <= k < |m.points| ::
         && FullTrack(m.points[k])
         && forall j | 0 <= j < |m.points[k].imageIds| ::
              var v := IndexOfId(ById(m.images), m.points[k].imageIds[j]);
              v.Some? && v.value < |xys| && BundlePy.ValidIndex(m.points[k].point2DIdxs[j], |xys[v.value]|)
  }

  /**
   * A saved model whose images have features and whose tracks name
   * existing features reads back with `read_bundler`: the cameras and
   * points are those of the written file.
   */
  lemma PyReadsSaved(m: Reconstruction, xys: seq<seq<Point2>>, sizes: seq<BundlePy.ImageSize>)
    requires SizedCameras(m.cameras) && SaveMveSfm(m).Ok? && PyLoadable(m, xys, sizes)
    ensures var f := SaveMveSfm(m).value.0;
            var r := BundlePy.ReadBundler(Version, SynthLines(f), xys, sizes, BundleCpp.Photosynther);
            && r.Ok?
            && r.value.cameras == SynthPy.PyCameras(f.cameras, 0, sizes)
            && r.value.points == SynthPy.PyPoints(f.points, 0)
  {
    var f := SaveMveSfm(m).value.0;
    assert WriteSynth(m) == Ok(f);
    var lens := seq(|xys|, j requires 0 <= j < |xys| => |xys[j]|);
    forall k | 0 <= k < |f.points|
      ensures f.points[k].count == |f.points[k].track| && SynthPy.TrackFits(f.points[k].track, lens)
    {
      WrittenPoint(m, f, k);
    }
    assert SynthPy.PyReadable(f, xys, sizes);
    SynthPy.PyReadsSynth(f, xys, sizes);
  }
}

=== FILE: selection.dfy ===
/**
 * Picking one input among several: a reconstruction file by build id
 * (`GetFileFromBuildId`, the Theia adapter's file choice), the GPUs with the
 * most free memory (`SetupFreeGpu`, after `nvidia-smi` has been parsed), and
 * the availability check of the learned MVS algorithms.  Directory
 * listings, `nvidia-smi` and the environment are parameters or results.
 */
module Selection {
  import opened Wrappers
  import opened Strings
  import opened Sorting

  datatype LookupError =
    | NotExactlyOne  // `LogThanExitIfFailed(len(...) == 1, ...)` logs and exits
    | EmptyPath      // `str(x)[-1]` of an empty path

  /** `str(x.as_posix())[-1] == str(build_id)`: the last character of the path is the id's text. */
  predicate Selects(path: string, id: int)
    requires path != []
  {
    [path[|path| - 1]] == IntToString(id)
  }

  /** `list(filter(...))` over the glob results. */
  function Matching(cands: seq<string>, id: int): (r: Result<seq<string>, LookupError>)
    ensures r.Err? <==> exists k | 0 <= k < |cands| :: cands[k] == []
    ensures r.Ok? ==> |r.value| <= |cands|
  {
    if cands == [] then Ok([])
    else if cands[0] == [] then Err(EmptyPath)
    else
      var rest := Matching(cands[1..], id);
      assert forall k | 1 <= k < |cands| :: cands[k] == cands[1..][k - 1];
      if rest.Err? then rest
      else Ok((if Selects(cands[0], id) then [cands[0]] else []) + rest.value)
  }

  /** Candidate `k` is the only one the id selects. */
  ghost predicate UniqueMatch(cands: seq<string>, id: int, k: int)
    requires forall m | 0 <= m < |cands| :: cands[m] != []
  {
    && 0 <= k < |cands| && Selects(cands[k], id)
    && forall m | 0 <= m < |cands| && Selects(cands[m], id) :: m == k
  }

  lemma {:induction false} MatchingOne(cands: seq<string>, id: int)
    requires forall m | 0 <= m < |cands| :: cands[m] != []
    ensures var r := Matching(cands, id).value;
            && (|r| == 1 <==> exists k :: UniqueMatch(cands, id, k))
            && (|r| == 0 <==> forall m | 0 <= m < |cands| :: !Selects(cands[m], id))
            && forall k | UniqueMatch(cands, id, k) :: r == [cands[k]]
  {
    if cands != [] {
      var tail := cands[1..];
      assert forall m | 1 <= m < |cands| :: cands[m] == tail[m - 1];
      MatchingOne(tail, id);
      var rt := Matching(tail, id).value;
      if Selects(cands[0], id) {
        if |rt| == 0 {
          assert UniqueMatch(cands, id, 0);
        } else {
          forall k | 0 <= k < |cands| ensures !UniqueMatch(cands, id, k) {
            if k == 0 {
              var m :| 0 <= m < |tail| && Selects(tail[m], id);
              assert Selects(cands[m + 1], id);
            }
          }
        }
      } else {
        if |rt| == 1 {
          var k :| UniqueMatch(tail, id, k);
          assert UniqueMatch(cands, id, k + 1);
        }
        forall k | UniqueMatch(cands, id, k) ensures UniqueMatch(tail, id, k - 1) {
        }
      }
    }
  }

  /**
   * `GetFileFromBuildId` over the glob results: without an id there must be
   * exactly one candidate; with an id, exactly one candidate whose last
   * character is the id's text.
   */
  function GetFileFromBuildId(cands: seq<string>, buildId: Option<int>): (r: Result<string, LookupError>)
    ensures buildId.None? ==> (r.Ok? <==> |cands| == 1) && (r.Ok? ==> r.value == cands[0])
    ensures buildId.Some? && (forall m | 0 <= m < |cands| :: cands[m] != []) ==>
              && (r.Ok? <==> exists k :: UniqueMatch(cands, buildId.value, k))
              && forall k | UniqueMatch(cands, buildId.value, k) :: r == Ok(cands[k])
  {
    match buildId
    case None =>
      if |cands| == 1 then Ok(cands[0]) else Err(NotExactlyOne)
    case Some(id) =>
      var selected :- Matching(cands, id);
      MatchingOne(cands, id);
      if |selected| == 1 then Ok(selected[0]) else Err(NotExactlyOne)
  }

  /** An id that prints as more than one character (10 and up, or negative) never selects a file. */
  lemma MultiDigitIdNeverMatches(cands: seq<string>, id: int)
    requires id < 0 || id >= 10
    ensures GetFileFromBuildId(cands, Some(id)).Err?
  {
    IntToStringSingle(id);
    if forall m | 0 <= m < |cands| :: cands[m] != [] {
      MatchingOne(cands, id);
      assert forall m | 0 <= m < |cands| :: !Selects(cands[m], id);
    }
  }

  /** `os.path.join(a, b)` of two path pieces. */
  function PathJoin(a: string, b: string): (r: string)
    ensures b != [] && b[0] != '/' ==> |r| >= |b| && r[|r| - |b|..] == b
  {
    if b != [] && b[0] == '/' then b
    else if a == [] || a[|a| - 1] == '/' then a + b
    else a + "/" + b
  }

  /**
   * The reconstruction file of the Theia adapter: the only
   * `reconstruction.bin*` candidate without an id; with one, the name
   * `reconstruction.bin-<id>` in the directory, whether or not it exists.
   */
  function TheiaReconstructionFile(dir: string, cands: seq<string>, buildId: Option<int>): (r: Result<string, LookupError>)
    ensures buildId.None? ==> (r.Ok? <==> |cands| == 1) && (r.Ok? ==> r.value == cands[0])
    ensures buildId.Some? ==> r.Ok? && r.value == TheiaBuildFile(dir, buildId.value)
  {
    match buildId
    case None => if |cands| == 1 then Ok(cands[0]) else Err(NotExactlyOne)
    case Some(id) => Ok(PathJoin(dir, "reconstruction.bin-" + IntToString(id)))
  }

  function TheiaBuildFile(dir: string, id: int): (r: string)
    ensures var name := "reconstruction.bin-" + IntToString(id);
            |r| >= |name| && r[|r| - |name|..] == name
  {
    PathJoin(dir, "reconstruction.bin-" + IntToString(id))
  }

  /**
   * For a one-digit id the two ways of choosing agree whenever the build's
   * file is the only candidate ending in that digit; for longer ids the
   * generic lookup always fails while the Theia adapter still names a file.
   */
  lemma TheiaAgreesWithLookup(dir: string, cands: seq<string>, id: int, k: nat)
    requires forall m | 0 <= m < |cands| :: cands[m] != []
    requires k < |cands| && cands[k] == TheiaBuildFile(dir, id)
    requires forall m | 0 <= m < |cands| && m != k :: !Selects(cands[m], id)
    ensures 0 <= id < 10 ==> GetFileFromBuildId(cands, Some(id)) == TheiaReconstructionFile(dir, cands, Some(id))
    ensures !(0 <= id < 10) ==> GetFileFromBuildId(cands, Some(id)).Err? && TheiaReconstructionFile(dir, cands, Some(id)).Ok?
  {
    IntToStringSingle(id);
    if 0 <= id < 10 {
      var f := cands[k];
      var name := "reconstruction.bin-" + IntToString(id);
      assert f[|f| - 1] == f[|f| - |name|..][|name| - 1] == name[|name| - 1];
      assert UniqueMatch(cands, id, k);
    } else {
      MultiDigitIdNeverMatches(cands, id);
    }
  }

  /** One row of `nvidia-smi --query-gpu=index,memory.free`, parsed. */
  datatype Gpu = Gpu(index: int, free: int)

  /** `text.split(' ')[0]`: the text up to its first space. */
  function FirstField(text: string): (r: string)
    ensures |r| <= |text| && r == text[..|r|] && ' ' !in r
    ensures |r| < |text| ==> text[|r|] == ' '
  {
    if text == [] || text[0] == ' ' then "" else [text[0]] + FirstField(text[1..])
  }

  predicate IsDecimal(s: string) {
    s != [] && forall k | 0 <= k < |s| :: IsDigit(s[k])
  }

  /** `int(field.strip())` for the index field. */
  function ParseIndex(field: string): (r: Option<nat>)
    ensures r.Some? <==> IsDecimal(Strip(field))
  {
    var f := Strip(field);
    if IsDecimal(f) then Some(ParseDigits(f)) else None
  }

  /** `int(field.strip().split(' ')[0])` for a field such as " 11019 MiB": the leading decimal number. */
  function FreeMemory(field: string): (r: Option<nat>)
    ensures r.Some? <==> IsDecimal(FirstField(Strip(field)))
  {
    var f := FirstField(Strip(field));
    if IsDecimal(f) then Some(ParseDigits(f)) else None
  }

  /**
   * `nvidia-smi` prints the index as "<i>" and the free memory as
   * "<n> MiB", each with whitespace around it after the comma split; the
   * parse reads the numbers back.
   */
  lemma ParseIndexRoundTrip(i: nat, pre: string, post: string)
    requires AllSpace(pre) && AllSpace(post)
    ensures ParseIndex(pre + NatToString(i) + post) == Some(i)
  {
    var s := NatToString(i);
    assert IsDigit(s[0]) && IsDigit(s[|s| - 1]);
    StripPadded(pre, s, post);
    NatToStringRoundTrip(i);
  }

  lemma FreeMemoryRoundTrip(n: nat, unit: string, pre: string, post: string)
    requires AllSpace(pre) && AllSpace(post)
    requires unit != [] && !IsSpace(unit[|unit| - 1])
    ensures FreeMemory(pre + NatToString(n) + " " + unit + post) == Some(n)
  {
    var s := NatToString(n);
    var w := s + (" " + unit);
    assert w[0] == s[0] && IsDigit(s[0]);
    assert w[|w| - 1] == unit[|unit| - 1];
    assert pre + NatToString(n) + " " + unit + post == pre + w + post;
    StripPadded(pre, w, post);
    FirstFieldStops(s, " " + unit);
    NatToStringRoundTrip(n);
  }

  lemma {:induction false} FirstFieldStops(s: string, rest: string)
    requires ' ' !in s && rest != [] && rest[0] == ' '
    ensures FirstField(s + rest) == s
  {
    if s != [] {
      assert (s + rest)[1..] == s[1..] + rest;
      FirstFieldStops(s[1..], rest);
      assert s == [s[0]] + s[1..];
    }
  }

  /** The key of `sort(key=lambda x: x[memory], reverse=True)`: a stable sort, most free memory first. */
  function MostFreeFirst(g: Gpu): real {
    -(g.free as real)
  }

  datatype Chosen = Chosen(gpus: seq<string>, visibleDevices: string)

  datatype GpuError =
    | IndexError  // `gpu_status[i]` for `i` beyond the number of GPUs
    | ValueError  // `int(...)` of a field that is not a number

  /** The GPUs, most free memory first, ties in `nvidia-smi` order. */
  function Ranked(gpus: seq<Gpu>): (r: seq<Gpu>)
    ensures |r| == |gpus| && multiset(r) == multiset(gpus)
    ensures SortedBy(r, MostFreeFirst)
  {
    var sorted := SortBy(gpus, MostFreeFirst);
    assert |sorted| == |multiset(sorted)| == |gpus|;
    sorted
  }

  /** The first `n` ranked GPU indices, as text, and their comma-joined list. */
  function Choose(n: nat, gpus: seq<Gpu>): (c: Chosen)
    requires n <= |gpus|
    ensures |c.gpus| == n
  {
    var ranked := Ranked(gpus);
    var ids := seq(n, i requires 0 <= i < n => IntToString(ranked[i].index));
    Chosen(ids, Join(ids, ","))
  }

  /**
   * `SetupFreeGpu(n)` after parsing: nothing for `n <= 0`; otherwise the
   * indices of the `n` GPUs with most free memory and the value given to
   * `CUDA_VISIBLE_DEVICES`.
   */
  function SetupFreeGpu(n: int, gpus: seq<Gpu>): (r: Result<Option<Chosen>, GpuError>)
    ensures r == Ok(None) <==> n <= 0
    ensures r.Err? <==> n > |gpus|
    ensures r.Err? ==> r.error == IndexError
    ensures r.Ok? && r.value.Some? ==> 0 < n <= |gpus| && r.value.value == Choose(n, gpus)
  {
    if n <= 0 then Ok(None)
    else if n > |gpus| then Err(IndexError)
    else Ok(Some(Choose(n, gpus)))
  }

  /** One data row of `nvidia-smi --query-gpu=index,memory.free --format=csv`, as `DictReader` splits it. */
  datatype StatusRow = StatusRow(index: string, memory: string)

  /** The row `nvidia-smi` prints for a GPU: "<index>, <free> MiB", split at the comma. */
  function PrintedRow(g: Gpu): (r: StatusRow)
    requires g.index >= 0 && g.free >= 0
    ensures ParseIndex(r.index) == Some(g.index as nat)
    ensures FreeMemory(r.memory) == Some(g.free as nat)
  {
    PrintedFieldsParse(g);
    StatusRow(NatToString(g.index), " " + NatToString(g.free) + " MiB")
  }

  /** The parse loop of `SetupFreeGpu`: every row's index and free memory, or `ValueError`. */
  function ParseStatus(rows: seq<StatusRow>): (r: Option<seq<Gpu>>)
    ensures r.Some? <==> forall k | 0 <= k < |rows| :: ParseIndex(rows[k].index).Some? && FreeMemory(rows[k].memory).Some?
    ensures r.Some? ==> |r.value| == |rows| && forall k | 0 <= k < |rows| ::
              r.value[k] == Gpu(ParseIndex(rows[k].index).value, FreeMemory(rows[k].memory).value)
  {
    if forall k | 0 <= k < |rows| :: ParseIndex(rows[k].index).Some? && FreeMemory(rows[k].memory).Some? then
      Some(seq(|rows|, k requires 0 <= k < |rows| => Gpu(ParseIndex(rows[k].index).value, FreeMemory(rows[k].memory).value)))
    else None
  }

  lemma PrintedFieldsParse(g: Gpu)
    requires g.index >= 0 && g.free >= 0
    ensures ParseIndex(NatToString(g.index)) == Some(g.index as nat)
    ensures FreeMemory(" " + NatToString(g.free) + " MiB") == Some(g.free as nat)
  {
    var i := NatToString(g.index);
    ParseIndexRoundTrip(g.index, "", "");
    assert "" + i + "" == i;
    FreeMemoryRoundTrip(g.free, "MiB", " ", "");
    assert " " + NatToString(g.free) + " " + "MiB" + "" == " " + NatToString(g.free) + " MiB";
  }

  /** The rows `nvidia-smi` prints parse back to the GPUs they describe. */
  lemma StatusRoundTrip(gpus: seq<Gpu>)
    requires forall k | 0 <= k < |gpus| :: gpus[k].index >= 0 && gpus[k].free >= 0
    ensures ParseStatus(seq(|gpus|, k requires 0 <= k < |gpus| => PrintedRow(gpus[k]))) == Some(gpus)
  {
    var rows := seq(|gpus|, k requires 0 <= k < |gpus| => PrintedRow(gpus[k]));
    var r := ParseStatus(rows);
    assert r.Some?;
    assert forall k | 0 <= k < |gpus| :: r.value[k] == gpus[k];
    assert r.value == gpus;
  }

  /**
   * `SetupFreeGpu(n)` from `nvidia-smi`'s rows: nothing for `n <= 0`
   * before any query; otherwise a field that does not parse raises
   * `ValueError`, and the parsed GPUs are chosen from as above.
   */
  function SetupFreeGpuFromStatus(n: int, rows: seq<StatusRow>): (r: Result<Option<Chosen>, GpuError>)
    ensures r == Ok(None) <==> n <= 0
    ensures n > 0 ==> (r == Err(ValueError) <==> ParseStatus(rows).None?)
    ensures n > 0 && ParseStatus(rows).Some? ==> r == SetupFreeGpu(n, ParseStatus(rows).value)
  {
    if n <= 0 then Ok(None)
    else
      match ParseStatus(rows)
      case None => Err(ValueError)
      case Some(gpus) => SetupFreeGpu(n, gpus)
  }

  /**
   * The chosen GPUs are the first `n` of a stable ordering of all GPUs by
   * decreasing free memory: each chosen one has at least as much free memory
   * as each one left out.
   */
  lemma ChosenHaveMostFreeMemory(n: nat, gpus: seq<Gpu>)
    requires 0 < n <= |gpus|
    ensures forall i | 0 <= i < n :: Choose(n, gpus).gpus[i] == IntToString(Ranked(gpus)[i].index)
    ensures forall i, j | 0 <= i < n <= j < |gpus| :: Ranked(gpus)[i].free >= Ranked(gpus)[j].free
  {
    var ranked := Ranked(gpus);
    forall i, j | 0 <= i < n <= j < |gpus| ensures ranked[i].free >= ranked[j].free {
      assert MostFreeFirst(ranked[i]) <= MostFreeFirst(ranked[j]);
    }
  }

  /** `s.split(sep)`. */
  function Split(s: string, sep: char): (r: seq<string>)
    ensures |r| >= 1
  {
    if s == [] then [""]
    else
      var rest := Split(s[1..], sep);
      if s[0] == sep then [""] + rest else [[s[0]] + rest[0]] + rest[1..]
  }

  lemma {:induction false} SplitPiece(p: string, sep: char, rest: string)
    requires sep !in p
    ensures Split(p + [sep] + rest, sep) == [p] + Split(rest, sep)
    ensures Split(p, sep) == [p]
  {
    if p == [] {
      assert [sep] + rest == p + [sep] + rest;
      assert ([sep] + rest)[1..] == rest;
    } else {
      assert (p + [sep] + rest)[1..] == p[1..] + [sep] + rest;
      SplitPiece(p[1..], sep, rest);
      assert p == [p[0]] + p[1..];
    }
  }

  /** Joining parts without the separator and splitting again gives the parts back. */
  lemma {:induction false} SplitJoin(parts: seq<string>, sep: char)
    requires |parts| >= 1 && forall k | 0 <= k < |parts| :: sep !in parts[k]
    ensures Split(Join(parts, [sep]), sep) == parts
  {
    if |parts| == 1 {
      SplitPiece(parts[0], sep, "");
    } else {
      SplitJoin(parts[1..], sep);
      SplitPiece(parts[0], sep, Join(parts[1..], [sep]));
      assert parts == [parts[0]] + parts[1..];
    }
  }

  /** `CUDA_VISIBLE_DEVICES` lists exactly the chosen GPU indices. */
  lemma VisibleDevicesListChosen(n: nat, gpus: seq<Gpu>)
    requires 0 < n <= |gpus|
    ensures Split(Choose(n, gpus).visibleDevices, ',') == Choose(n, gpus).gpus
  {
    var chosen := Choose(n, gpus);
    var ranked := Ranked(gpus);
    forall k | 0 <= k < n ensures ',' !in chosen.gpus[k] {
      assert chosen.gpus[k] == IntToString(ranked[k].index);
      NoCommaInNumber(ranked[k].index);
    }
    SplitJoin(chosen.gpus, ',');
  }

  lemma NoCommaInNumber(i: int)
    ensures ',' !in IntToString(i)
  {
    var s := if i < 0 then NatToString(-i) else NatToString(i);
    assert forall k | 0 <= k < |s| :: IsDigit(s[k]);
  }

  datatype NetworkError = ArgumentTypeError  // the network's directory was not found

  /**
   * `mvs_network_check`: the algorithm name comes back unchanged unless it
   * is one of the learned networks and that network's directory is missing
   * (an empty path).
   */
  function MvsNetworkCheck(alg: string, mvsnetPath: string, pointmvsnetPath: string): (r: Result<string, NetworkError>)
    ensures r.Ok? ==> r.value == alg
    ensures r.Err? <==> || ((alg == "mvsnet" || alg == "rmvsnet") && mvsnetPath == "")
                        || (alg == "pointmvsnet" && pointmvsnetPath == "")
  {
    if alg == "mvsnet" || alg == "rmvsnet" then
      if mvsnetPath == "" then Err(ArgumentTypeError) else Ok(alg)
    else if alg == "pointmvsnet" then
      if pointmvsnetPath == "" then Err(ArgumentTypeError) else Ok(alg)
    else Ok(alg)
  }

  /** Used as an argument type, the check is idempotent. */
  lemma MvsNetworkCheckIdempotent(alg: string, mvsnetPath: string, pointmvsnetPath: string)
    requires MvsNetworkCheck(alg, mvsnetPath, pointmvsnetPath).Ok?
    ensures var once := MvsNetworkCheck(alg, mvsnetPath, pointmvsnetPath).value;
            MvsNetworkCheck(once, mvsnetPath, pointmvsnetPath) == Ok(once)
  {
  }
}

=== FILE: sorting.dfy ===
/**
 * Python's `sorted(xs, key=...)` and `list.sort(key=..., reverse=...)`:
 * a stable sort by a numeric key.  Stability means that elements with the
 * same key keep their relative order; with `reverse=True` Python still keeps
 * that order, which is a stable ascending sort by the negated key.
 */
module Sorting {

  ghost predicate SortedBy<T>(xs: seq<T>, key: T -> real) {
    forall i, j | 0 <= i < j < |xs| :: key(xs[i]) <= key(xs[j])
  }

  /** The elements whose key is `k`, in their order in `xs`. */
  function WithKey<T>(xs: seq<T>, key: T -> real, k: real): (r: seq<T>)
    ensures |r| <= |xs|
  {
    if xs == [] then []
    else if key(xs[0]) == k then [xs[0]] + WithKey(xs[1..], key, k)
    else WithKey(xs[1..], key, k)
  }

  /** Puts `x` in front of the first element whose key is not smaller than its own. */
  function Insert<T(==)>(x: T, xs: seq<T>, key: T -> real): (r: seq<T>)
    ensures multiset(r) == multiset(xs) + multiset{x}
  {
    if xs == [] || key(x) <= key(xs[0]) then [x] + xs
    else
      assert xs == [xs[0]] + xs[1..];
      [xs[0]] + Insert(x, xs[1..], key)
  }

  lemma {:induction false} InsertSorted<T>(x: T, xs: seq<T>, key: T -> real)
    requires SortedBy(xs, key)
    ensures SortedBy(Insert(x, xs, key), key)
  {
    if xs != [] && key(x) > key(xs[0]) {
      var tail := Insert(x, xs[1..], key);
      InsertSorted(x, xs[1..], key);
      forall j | 0 <= j < |tail| ensures key(xs[0]) <= key(tail[j]) {
        assert tail[j] in multiset(xs[1..]) + multiset{x};
      }
    }
  }

  /** `sorted(xs, key=key)`. */
  function SortBy<T(==)>(xs: seq<T>, key: T -> real): (r: seq<T>)
    ensures multiset(r) == multiset(xs)
    ensures SortedBy(r, key)
  {
    if xs == [] then []
    else
      assert xs == [xs[0]] + xs[1..];
      InsertSorted(xs[0], SortBy(xs[1..], key), key);
      Insert(xs[0], SortBy(xs[1..], key), key)
  }

  lemma {:induction false} InsertKeepsKeyOrder<T>(x: T, xs: seq<T>, key: T -> real, k: real)
    requires SortedBy(xs, key)
    ensures WithKey(Insert(x, xs, key), key, k)
            == if key(x) == k then [x] + WithKey(xs, key, k) else WithKey(xs, key, k)
  {
    if xs == [] || key(x) <= key(xs[0]) {
      var r := [x] + xs;
      assert r[1..] == xs;
    } else {
      var r := Insert(x, xs, key);
      assert r[1..] == Insert(x, xs[1..], key);
      InsertKeepsKeyOrder(x, xs[1..], key, k);
      if key(x) == k {
        // xs[0] has a key below k, so it is not among the key-k elements.
        assert WithKey(xs, key, k) == WithKey(xs[1..], key, k);
      }
    }
  }

  /** Stability: for every key, the elements with that key appear in input order. */
  lemma {:induction false} SortByIsStable<T>(xs: seq<T>, key: T -> real, k: real)
    ensures WithKey(SortBy(xs, key), key, k) == WithKey(xs, key, k)
  {
    if xs != [] {
      SortByIsStable(xs[1..], key, k);
      InsertKeepsKeyOrder(xs[0], SortBy(xs[1..], key), key, k);
    }
  }
}

=== FILE: statistics.dfy ===
/**
 * The statistics the evaluation script prints about a sparse model
 * (`PrintReprojectionErrors`, `PrintTrackLengthHistogram`): one reprojection
 * error per observation, the number of observations behind their camera,
 * mean and median error, and the mean track length.  The distance between a
 * feature and its projection is a parameter (the source takes a Euclidean
 * norm); logging, `np.median` of the track lengths and the histogram are
 * not modelled.
 */
module Statistics {
  import opened Wrappers
  import opened Colmap
  import opened Cameras
  import opened Sorting
  import Tracks
  import TracksFacts

  datatype StatError =
    | KeyError         // an observation names an image, or an image a camera, that is not there
    | IndexError       // a feature index outside the image's arrays
    | AssertionFailed  // the feature does not name the track that observes it
    | NonFinite        // the projection divides by zero; the source would carry an infinity on

  /** One pass of the inner loop: a track and one `(image id, feature index)` pair of it. */
  datatype Obs = Obs(point: Point3D, view: int, feature: int)

  function Min(a: nat, b: nat): nat {
    if a <= b then a else b
  }

  /** `zip(track.image_ids, track.point2D_idxs)`: pairs up to the shorter array. */
  function TrackObs(p: Point3D): (r: seq<Obs>)
    ensures |r| == Min(|p.imageIds|, |p.point2DIdxs|)
    ensures forall k {:trigger r[k]} | 0 <= k < |r| :: r[k] == Obs(p, p.imageIds[k], p.point2DIdxs[k])
  {
    var n := Min(|p.imageIds|, |p.point2DIdxs|);
    seq(n, k requires 0 <= k < n => Obs(p, p.imageIds[k], p.point2DIdxs[k]))
  }

  /** Every observation, tracks in dictionary order, pairs in array order. */
  function Observations(points: seq<Point3D>): seq<Obs> {
    if points == [] then [] else TrackObs(points[0]) + Observations(points[1..])
  }

  /** Every pair of every track is visited. */
  lemma {:induction false} ObservationsComplete(points: seq<Point3D>, t: nat, k: nat)
    requires t < |points| && k < |TrackObs(points[t])|
    ensures TrackObs(points[t])[k] in Observations(points)
  {
    if t > 0 {
      assert points[1..][t - 1] == points[t];
      ObservationsComplete(points[1..], t - 1, k);
    }
  }

  /** Nothing but pairs of the tracks is visited. */
  lemma {:induction false} ObservationsSound(points: seq<Point3D>, o: Obs)
    requires o in Observations(points)
    ensures exists t, k | 0 <= t < |points| && 0 <= k < |TrackObs(points[t])| :: o == TrackObs(points[t])[k]
  {
    if o !in TrackObs(points[0]) {
      ObservationsSound(points[1..], o);
      var t, k :| 0 <= t < |points[1..]| && 0 <= k < |TrackObs(points[1..][t])| && o == TrackObs(points[1..][t])[k];
      assert points[1..][t] == points[t + 1];
    }
  }

  /** Python's `s[i]`: negative indices count from the end. */
  function PyIndex<T>(s: seq<T>, i: int): (r: Option<T>)
    ensures r.Some? <==> -|s| <= i < |s|
  {
    if 0 <= i < |s| then Some(s[i])
    else if -|s| <= i < 0 then Some(s[|s| + i])
    else None
  }

  /** `images[view_id]` over a dictionary held as its items. */
  function FindImage(images: seq<Image>, id: int): (r: Option<Image>)
    ensures r.Some? ==> exists k | 0 <= k < |images| :: images[k] == r.value && r.value.id == id
    ensures r.None? ==> forall k | 0 <= k < |images| :: images[k].id != id
  {
    if images == [] then None
    else if images[0].id == id then Some(images[0])
    else
      var r := FindImage(images[1..], id);
      assert forall k | 1 <= k < |images| :: images[k] == images[1..][k - 1];
      r
  }

  /** Every image has a translation of three entries. */
  ghost predicate Shaped(images: seq<Image>) {
    forall k | 0 <= k < |images| :: |images[k].tvec| == 3
  }

  function XyzOf(p: Point3D): Vec3
    requires |p.xyz| == 3
  {
    Vec3(p.xyz[0], p.xyz[1], p.xyz[2])
  }

  /**
   * One iteration of the inner loop: look the image and its camera up, check
   * that the feature names the track, project the track's position, and
   * report the distance and whether the point is behind the camera.
   */
  function Observe(lenses: seq<(int, Lens)>, images: seq<Image>, o: Obs, dist: (Point2, Point2) -> real)
    : (r: Result<(real, bool), StatError>)
    requires Shaped(images) && |o.point.xyz| == 3
    ensures r.Ok? ==> exists im :: FindImage(images, o.view) == Some(im) && PyIndex(im.point3DIds, o.feature) == Some(o.point.id)
  {
    var im :- FindImage(images, o.view).ToResult(StatError.KeyError);
    var lens :- LensOf(lenses, im.cameraId).ToResult(StatError.KeyError);
    var id :- PyIndex(im.point3DIds, o.feature).ToResult(StatError.IndexError);
    if id != o.point.id then Err(AssertionFailed)
    else
      var feature :- PyIndex(im.xys, o.feature).ToResult(StatError.IndexError);
      var proj :- ProjectPoint(lens, im, XyzOf(o.point)).ToResult(NonFinite);
      Ok((dist(feature, proj.0), proj.1 < 0.0))
  }

  /** Every track position has three coordinates. */
  ghost predicate ShapedObs(obs: seq<Obs>) {
    forall k | 0 <= k < |obs| :: |obs[k].point.xyz| == 3
  }

  /** The first observation, from `from` on, the loop stops at. */
  function FirstFailing(lenses: seq<(int, Lens)>, images: seq<Image>, obs: seq<Obs>, dist: (Point2, Point2) -> real,
                        from: nat): (r: Option<nat>)
    requires Shaped(images) && ShapedObs(obs)
    ensures r.None? <==> forall k | from <= k < |obs| :: Observe(lenses, images, obs[k], dist).Ok?
    ensures r.Some? ==> && from <= r.value < |obs|
                        && Observe(lenses, images, obs[r.value], dist).Err?
                        && forall k | from <= k < r.value :: Observe(lenses, images, obs[k], dist).Ok?
    decreases |obs| - from
  {
    if from >= |obs| then None
    else if Observe(lenses, images, obs[from], dist).Err? then Some(from)
    else FirstFailing(lenses, images, obs, dist, from + 1)
  }

  /** The loop over all observations: a distance and a behind-camera flag each, or the first failure. */
  function Reproject(lenses: seq<(int, Lens)>, images: seq<Image>, obs: seq<Obs>, dist: (Point2, Point2) -> real)
    : (r: Result<seq<(real, bool)>, StatError>)
    requires Shaped(images) && ShapedObs(obs)
    ensures r.Ok? <==> forall k | 0 <= k < |obs| :: Observe(lenses, images, obs[k], dist).Ok?
    ensures r.Ok? ==> |r.value| == |obs|
    ensures r.Ok? ==> forall k {:trigger r.value[k]} | 0 <= k < |obs| :: r.value[k] == Observe(lenses, images, obs[k], dist).value
    ensures r.Err? ==> exists q | 0 <= q < |obs| :: && Observe(lenses, images, obs[q], dist) == Err(r.error)
                                                   && forall k | 0 <= k < q :: Observe(lenses, images, obs[k], dist).Ok?
  {
    match FirstFailing(lenses, images, obs, dist, 0)
    case Some(q) => Err(Observe(lenses, images, obs[q], dist).error)
    case None => Ok(seq(|obs|, k requires 0 <= k < |obs| => Observe(lenses, images, obs[k], dist).value))
  }

  /** Python's `sum(xs)`, added left to right. */
  function Sum(xs: seq<real>): real {
    if xs == [] then 0.0 else Sum(xs[..|xs| - 1]) + xs[|xs| - 1]
  }

  /** `sum(xs) / len(xs)`. */
  function Mean(xs: seq<real>): (m: real)
    requires |xs| > 0
    ensures m * (|xs| as real) == Sum(xs)
  {
    var n := |xs| as real;
    var total := Sum(xs);
    DivTimes(total, n);
    total / n
  }

  lemma DivTimes(a: real, n: real)
    requires n != 0.0
    ensures (a / n) * n == a
  {
  }

  function CountTrue(bs: seq<bool>): (n: nat)
    ensures n <= |bs|
  {
    if bs == [] then 0 else CountTrue(bs[..|bs| - 1]) + (if bs[|bs| - 1] then 1 else 0)
  }

  function Firsts(rs: seq<(real, bool)>): (r: seq<real>)
    ensures |r| == |rs| && forall k {:trigger r[k]} | 0 <= k < |rs| :: r[k] == rs[k].0
  {
    seq(|rs|, k requires 0 <= k < |rs| => rs[k].0)
  }

  function Seconds(rs: seq<(real, bool)>): (r: seq<bool>)
    ensures |r| == |rs| && forall k {:trigger r[k]} | 0 <= k < |rs| :: r[k] == rs[k].1
  {
    seq(|rs|, k requires 0 <= k < |rs| => rs[k].1)
  }

  function Identity(x: real): real {
    x
  }

  datatype Stats = Stats(observations: nat, behind: nat, sorted: seq<real>, mean: real, median: real)

  /**
   * The summary of the loop's results: `None` when there were no
   * observations (the early return), otherwise the count, the
   * behind-camera count, the sorted errors, their mean and the element at
   * index `len // 2`.
   */
  function Summarise(rs: seq<(real, bool)>): (r: Option<Stats>)
    ensures r.None? <==> rs == []
    ensures r.Some? ==>
              && r.value.observations == |rs| == |r.value.sorted|
              && multiset(r.value.sorted) == multiset(Firsts(rs))
              && SortedBy(r.value.sorted, Identity)
              && r.value.median == r.value.sorted[|rs| / 2]
              && r.value.mean == Mean(r.value.sorted)
              && r.value.behind == CountTrue(Seconds(rs))
  {
    var errors := Firsts(rs);
    if |errors| == 0 then None
    else
      var sorted := SortBy(errors, Identity);
      assert |sorted| == |multiset(sorted)| == |errors|;
      Some(Stats(|errors|, CountTrue(Seconds(rs)), sorted, Mean(sorted), sorted[|sorted| / 2]))
  }

  /** `PrintReprojectionErrors`: the loop over every observation, then its summary. */
  function ReprojectionStats(lenses: seq<(int, Lens)>, images: seq<Image>, obs: seq<Obs>, dist: (Point2, Point2) -> real)
    : (r: Result<Option<Stats>, StatError>)
    requires Shaped(images) && ShapedObs(obs)
    ensures r.Ok? <==> forall k | 0 <= k < |obs| :: Observe(lenses, images, obs[k], dist).Ok?
    ensures r.Ok? ==> (r.value.None? <==> obs == [])
    ensures r.Ok? ==> r.value == Summarise(Reproject(lenses, images, obs, dist).value)
  {
    var rs :- Reproject(lenses, images, obs, dist);
    Ok(Summarise(rs))
  }

  /** The median splits the sorted errors: none before it is larger, none after it smaller. */
  lemma MedianSplits(s: Stats)
    requires |s.sorted| > 0 && SortedBy(s.sorted, Identity) && s.median == s.sorted[|s.sorted| / 2]
    ensures s.median in s.sorted
    ensures forall k | 0 <= k < |s.sorted| / 2 :: s.sorted[k] <= s.median
    ensures forall k | |s.sorted| / 2 < k < |s.sorted| :: s.median <= s.sorted[k]
  {
    var m := |s.sorted| / 2;
    forall k | 0 <= k < m ensures s.sorted[k] <= s.median {
      assert Identity(s.sorted[k]) <= Identity(s.sorted[m]);
    }
    forall k | m < k < |s.sorted| ensures s.median <= s.sorted[k] {
      assert Identity(s.sorted[m]) <= Identity(s.sorted[k]);
    }
  }

  /** A sum of values in `[lo, hi]` lies between `n·lo` and `n·hi`. */
  lemma {:induction false} SumBounds(xs: seq<real>, lo: real, hi: real)
    requires forall k | 0 <= k < |xs| :: lo <= xs[k] <= hi
    ensures (|xs| as real) * lo <= Sum(xs) <= (|xs| as real) * hi
  {
    if xs != [] {
      var init := xs[..|xs| - 1];
      assert forall k | 0 <= k < |init| :: init[k] == xs[k];
      SumBounds(init, lo, hi);
      assert (|xs| as real) * lo == (|init| as real) * lo + lo;
      assert (|xs| as real) * hi == (|init| as real) * hi + hi;
    }
  }

  /** A mean of values in `[lo, hi]` lies in `[lo, hi]`. */
  lemma MeanBounds(xs: seq<real>, mean: real, lo: real, hi: real)
    requires |xs| > 0 && mean * (|xs| as real) == Sum(xs)
    requires forall k | 0 <= k < |xs| :: lo <= xs[k] <= hi
    ensures lo <= mean <= hi
  {
    SumBounds(xs, lo, hi);
    Cancel(Sum(xs), mean, |xs| as real, lo, hi);
  }

  lemma Cancel(total: real, m: real, n: real, lo: real, hi: real)
    requires n > 0.0 && m * n == total && n * lo <= total <= n * hi
    ensures lo <= m <= hi
  {
  }

  /** The mean error lies between the smallest and the largest error. */
  lemma MeanBetweenExtremes(s: Stats)
    requires |s.sorted| > 0 && SortedBy(s.sorted, Identity) && s.mean == Mean(s.sorted)
    ensures s.sorted[0] <= s.mean <= s.sorted[|s.sorted| - 1]
  {
    var n := |s.sorted|;
    forall k | 0 <= k < n ensures s.sorted[0] <= s.sorted[k] <= s.sorted[n - 1] {
      if k > 0 {
        assert Identity(s.sorted[0]) <= Identity(s.sorted[k]);
      }
      if k < n - 1 {
        assert Identity(s.sorted[k]) <= Identity(s.sorted[n - 1]);
      }
    }
    MeanBounds(s.sorted, s.mean, s.sorted[0], s.sorted[n - 1]);
  }

  /** The behind-camera count is the number of flagged observations: none, some, or all. */
  lemma {:induction false} CountTrueExtremes(bs: seq<bool>)
    ensures CountTrue(bs) == 0 <==> forall k | 0 <= k < |bs| :: !bs[k]
    ensures CountTrue(bs) == |bs| <==> forall k | 0 <= k < |bs| :: bs[k]
  {
    if bs != [] {
      var init := bs[..|bs| - 1];
      assert forall k | 0 <= k < |init| :: init[k] == bs[k];
      CountTrueExtremes(init);
    }
  }

  datatype TrackError = NoTracks

  function TrackLengths(points: seq<Point3D>): (r: seq<real>)
    ensures |r| == |points| && forall t {:trigger r[t]} | 0 <= t < |points| :: r[t] == |points[t].imageIds| as real
  {
    seq(|points|, t requires 0 <= t < |points| => |points[t].imageIds| as real)
  }

  /** The mean track length of `PrintTrackLengthHistogram`; a model without tracks is fatal. */
  function MeanTrackLength(points: seq<Point3D>): (r: Result<real, TrackError>)
    ensures r.Err? <==> points == []
    ensures r.Ok? ==> r.value * (|points| as real) == Sum(TrackLengths(points))
  {
    if points == [] then Err(NoTracks)
    else Ok(Mean(TrackLengths(points)))
  }

  /** The mean track length lies between the shortest and the longest track. */
  lemma MeanTrackLengthBounds(points: seq<Point3D>, lo: nat, hi: nat)
    requires points != [] && forall t | 0 <= t < |points| :: lo <= |points[t].imageIds| <= hi
    ensures lo as real <= MeanTrackLength(points).value <= hi as real
  {
    MeanBounds(TrackLengths(points), MeanTrackLength(points).value, lo as real, hi as real);
  }

  /** With distinct image ids, the lookup by id finds the image that carries it. */
  lemma {:induction false} FindImageDistinct(images: seq<Image>, q: nat)
    requires DistinctIds(images) && q < |images|
    ensures FindImage(images, images[q].id) == Some(images[q])
  {
    if q > 0 {
      assert images[0].id != images[q].id;
      var rest := images[1..];
      assert DistinctIds(rest) by {
        forall i, j | 0 <= i < j < |rest| ensures rest[i].id != rest[j].id {
          assert rest[i] == images[i + 1] && rest[j] == images[j + 1];
        }
      }
      assert rest[q - 1] == images[q];
      FindImageDistinct(rest, q - 1);
    }
  }

  /** Every image has as many keypoints as feature-to-track entries. */
  ghost predicate Parallel(images: seq<Image>) {
    forall q | 0 <= q < |images| :: |images[q].xys| == |images[q].point3DIds|
  }

  /**
   * On tracks the repair has rebuilt, the statistics loop never trips its
   * consistency assertion and never indexes out of range: an observation
   * can only fail for a missing camera or a projection through the camera
   * centre.
   */
  lemma RepairedObservationConsistent(lenses: seq<(int, Lens)>, images: seq<Image>, points: seq<Point3D>,
                                      dist: (Point2, Point2) -> real, t: nat, k: nat)
    requires Tracks.DistinctPointIds(points) && DistinctIds(images) && Shaped(images) && Parallel(images)
    requires Tracks.FixTracks(images, points).Ok? && t < |points| && |points[t].xyz| == 3
    requires k < |points[t].imageIds| && k < |points[t].point2DIdxs|
    ensures var track := Tracks.FixTracks(images, points).value[t];
            && k < |TrackObs(track)|
            && |track.xyz| == 3
            && var r := Observe(lenses, images, TrackObs(track)[k], dist);
               r.Err? ==> r.error == StatError.KeyError || r.error == NonFinite
  {
    TracksFacts.FixedSlotSound(images, points, t, k);
    Tracks.FixTracksSpec(images, points);
    var track := Tracks.FixTracks(images, points).value[t];
    var q :| 0 <= q < |images| && images[q].id == track.imageIds[k]
             && TracksFacts.Names(images, q, track.point2DIdxs[k], track.id);
    FindImageDistinct(images, q);
    var o := TrackObs(track)[k];
    assert o == Obs(track, track.imageIds[k], track.point2DIdxs[k]);
    assert FindImage(images, o.view) == Some(images[q]);
    assert PyIndex(images[q].point3DIds, o.feature) == Some(o.point.id);
    assert PyIndex(images[q].xys, o.feature).Some?;
  }
}

=== FILE: strings.dfy ===
/**
 * Decimal text of integers as Python prints it: `str(n)`, `'%04d' % n`, and
 * `','.join(parts)`; and `str.strip()`.
 */
module Strings {

  predicate IsDigit(c: char) {
    '0' <= c <= '9'
  }

  function DigitChar(d: int): (c: char)
    requires 0 <= d < 10
    ensures IsDigit(c) && c as int - '0' as int == d
  {
    (d + '0' as int) as char
  }

  /** `str(n)` for `n >= 0`: digits, most significant first, no leading zero. */
  function NatToString(n: nat): (s: string)
    ensures |s| >= 1 && forall k | 0 <= k < |s| :: IsDigit(s[k])
    ensures |s| == 1 <==> n < 10
    ensures |s| > 1 ==> s[0] != '0'
  {
    if n < 10 then [DigitChar(n)] else NatToString(n / 10) + [DigitChar(n % 10)]
  }

  /** `str(i)` for any integer. */
  function IntToString(i: int): (s: string)
    ensures |s| >= 1
    ensures i < 0 <==> s[0] == '-'
  {
    if i < 0 then "-" + NatToString(-i) else NatToString(i)
  }

  /** The value of a string of decimal digits; leading zeros are allowed. */
  function ParseDigits(s: string): (n: nat)
    requires forall k | 0 <= k < |s| :: IsDigit(s[k])
  {
    if s == [] then 0 else assert IsDigit(s[|s| - 1]); 10 * ParseDigits(s[..|s| - 1]) + (s[|s| - 1] as int - '0' as int)
  }

  lemma {:induction false} NatToStringRoundTrip(n: nat)
    ensures ParseDigits(NatToString(n)) == n
  {
    if n >= 10 {
      var s := NatToString(n);
      assert s[..|s| - 1] == NatToString(n / 10);
      NatToStringRoundTrip(n / 10);
    }
  }

  /** Different numbers print differently. */
  lemma NatToStringInjective(m: nat, n: nat)
    requires NatToString(m) == NatToString(n)
    ensures m == n
  {
    NatToStringRoundTrip(m);
    NatToStringRoundTrip(n);
  }

  /** `str(i)` is one character exactly for the digits 0 to 9. */
  lemma {:induction false} IntToStringSingle(i: int)
    ensures |IntToString(i)| == 1 <==> 0 <= i < 10
  {
  }

  function Zeros(k: nat): (s: string)
    ensures |s| == k && forall j | 0 <= j < k :: s[j] == '0'
  {
    if k == 0 then "" else "0" + Zeros(k - 1)
  }

  /** `'%04d' % n` for `n >= 0`: at least four digits, zero-padded on the left. */
  function Pad4(n: nat): (s: string)
    ensures |s| == if |NatToString(n)| < 4 then 4 else |NatToString(n)|
    ensures forall k | 0 <= k < |s| :: IsDigit(s[k])
  {
    var d := NatToString(n);
    if |d| < 4 then Zeros(4 - |d|) + d else d
  }

  lemma {:induction false} ParseLeadingZeros(k: nat, d: string)
    requires forall j | 0 <= j < |d| :: IsDigit(d[j])
    ensures ParseDigits(Zeros(k) + d) == ParseDigits(d)
    decreases |d|
  {
    var s := Zeros(k) + d;
    if d == [] {
      assert s == Zeros(k);
      ZerosParse(k);
    } else {
      assert s[..|s| - 1] == Zeros(k) + d[..|d| - 1];
      ParseLeadingZeros(k, d[..|d| - 1]);
    }
  }

  lemma {:induction false} ZerosParse(k: nat)
    ensures ParseDigits(Zeros(k)) == 0
  {
    if k > 0 {
      assert Zeros(k)[..k - 1] == Zeros(k - 1);
      ZerosParse(k - 1);
    }
  }

  /** The padded text still reads back as `n`, so distinct views get distinct names. */
  lemma Pad4RoundTrip(n: nat)
    ensures ParseDigits(Pad4(n)) == n
  {
    var d := NatToString(n);
    NatToStringRoundTrip(n);
    if |d| < 4 {
      ParseLeadingZeros(4 - |d|, d);
    }
  }

  /** `sep.join(parts)`. */
  function Join(parts: seq<string>, sep: string): (s: string)
    ensures parts == [] ==> s == ""
    ensures |parts| == 1 ==> s == parts[0]
  {
    if parts == [] then ""
    else if |parts| == 1 then parts[0]
    else parts[0] + sep + Join(parts[1..], sep)
  }

  /**
   * Python's `str.isspace()` for one character: tab to carriage return, the
   * four separators 0x1c to 0x1f, space, NEL, no-break space, and the
   * Unicode space and line separators.
   */
  predicate IsSpace(c: char) {
    var n := c as int;
    || 0x09 <= n <= 0x0d || 0x1c <= n <= 0x20 || n == 0x85 || n == 0xa0 || n == 0x1680
    || 0x2000 <= n <= 0x200a || n == 0x2028 || n == 0x2029 || n == 0x202f || n == 0x205f || n == 0x3000
  }

  predicate AllSpace(s: string) {
    forall k | 0 <= k < |s| :: IsSpace(s[k])
  }

  /** `str.strip()`. */
  function Strip(s: string): (r: string)
    ensures |r| <= |s|
    ensures r != [] ==> !IsSpace(r[0]) && !IsSpace(r[|r| - 1])
  {
    if s != [] && IsSpace(s[0]) then Strip(s[1..])
    else if s != [] && IsSpace(s[|s| - 1]) then Strip(s[..|s| - 1])
    else s
  }

  /** `r` is `s[i..i + |r|]` with only whitespace before and after it. */
  predicate SpaceFramed(s: string, r: string, i: int) {
    0 <= i && i + |r| <= |s| && r == s[i..i + |r|] && AllSpace(s[..i]) && AllSpace(s[i + |r|..])
  }

  lemma FramedFront(c: char, t: string, r: string, i: int)
    requires IsSpace(c) && SpaceFramed(t, r, i)
    ensures SpaceFramed([c] + t, r, i + 1)
  {
    var s := [c] + t;
    assert s[i + 1..i + 1 + |r|] == t[i..i + |r|];
    assert s[..i + 1] == [c] + t[..i];
    assert s[i + 1 + |r|..] == t[i + |r|..];
  }

  lemma FramedBack(t: string, c: char, r: string, i: int)
    requires IsSpace(c) && SpaceFramed(t, r, i)
    ensures SpaceFramed(t + [c], r, i)
  {
    var s := t + [c];
    assert s[i..i + |r|] == t[i..i + |r|];
    assert s[..i] == t[..i];
    assert s[i + |r|..] == t[i + |r|..] + [c];
  }

  /**
   * `strip()` removes whitespace at both ends and nothing else: what is left
   * is a slice of the input with only whitespace before and after it.
   */
  lemma {:induction false} StripInfix(s: string)
    ensures exists i :: SpaceFramed(s, Strip(s), i)
    decreases |s|
  {
    var r := Strip(s);
    if s != [] && IsSpace(s[0]) {
      StripInfix(s[1..]);
      var i :| SpaceFramed(s[1..], r, i);
      FramedFront(s[0], s[1..], r, i);
      assert [s[0]] + s[1..] == s;
    } else if s != [] && IsSpace(s[|s| - 1]) {
      StripInfix(s[..|s| - 1]);
      var i :| SpaceFramed(s[..|s| - 1], r, i);
      FramedBack(s[..|s| - 1], s[|s| - 1], r, i);
      assert s[..|s| - 1] + [s[|s| - 1]] == s;
    } else {
      assert SpaceFramed(s, r, 0);
    }
  }

  /**
   * `strip()` of text that is whitespace, then a word that neither starts
   * nor ends with whitespace, then whitespace: the word.
   */
  lemma {:induction false} StripPadded(pre: string, w: string, post: string)
    requires AllSpace(pre) && AllSpace(post)
    requires w != [] && !IsSpace(w[0]) && !IsSpace(w[|w| - 1])
    ensures Strip(pre + w + post) == w
    decreases |pre| + |post|
  {
    var t := pre + w + post;
    if pre != [] {
      assert t[0] == pre[0];
      assert t[1..] == pre[1..] + w + post;
      StripPadded(pre[1..], w, post);
    } else if post != [] {
      assert t[0] == w[0];
      assert t[|t| - 1] == post[|post| - 1];
      assert t[..|t| - 1] == pre + w + post[..|post| - 1];
      StripPadded(pre, w, post[..|post| - 1]);
    } else {
      assert t == w;
    }
  }
}

=== FILE: synth.dfy ===
/**
 * The Photosynther bundle file ("synth_0.out") as `save_mve_sfm` writes it:
 * the line "drews 1.0", a line with the camera and point counts, five lines
 * per camera (focal length and two distortion terms, three rotation rows,
 * the translation) and three lines per point (position, colour, and the
 * track: its length, then view, feature and a 0 per element).
 */
module Synth {
  import opened Tokens
  import opened Colmap

  const Version: string := "drews 1.0"

  datatype SynthCamera = SynthCamera(flen: real, k1: real, k2: real, rot: Mat3, trans: seq<real>)

  datatype TrackElem = TrackElem(view: int, feature: int)

  /** `count` is the written track length, which the writer takes from the image id list. */
  datatype SynthPoint = SynthPoint(xyz: seq<real>, rgb: seq<int>, count: int, track: seq<TrackElem>)

  datatype SynthFile = SynthFile(cameras: seq<SynthCamera>, points: seq<SynthPoint>)

  function RowLine(v: Vec3): (l: Line)
    ensures l == DecTokens([v.x, v.y, v.z])
  {
    [Dec(v.x), Dec(v.y), Dec(v.z)]
  }

  function CameraLines(c: SynthCamera): (ls: seq<Line>)
    ensures |ls| == 5
  {
    [DecTokens([c.flen, c.k1, c.k2]), RowLine(c.rot.r0), RowLine(c.rot.r1), RowLine(c.rot.r2), DecTokens(c.trans)]
  }

  /** `' %d %d 0'` per track element. */
  function TrackTokens(t: seq<TrackElem>): (r: Line)
    ensures |r| == 3 * |t|
  {
    if t == [] then [] else [Int(t[0].view), Int(t[0].feature), Int(0)] + TrackTokens(t[1..])
  }

  function PointLines(p: SynthPoint): (ls: seq<Line>)
    ensures |ls| == 3
  {
    [DecTokens(p.xyz), IntTokens(p.rgb), [Int(p.count)] + TrackTokens(p.track)]
  }

  function CamerasLines(cs: seq<SynthCamera>): (ls: seq<Line>)
    ensures |ls| == 5 * |cs|
  {
    if cs == [] then [] else CameraLines(cs[0]) + CamerasLines(cs[1..])
  }

  function PointsLines(ps: seq<SynthPoint>): (ls: seq<Line>)
    ensures |ls| == 3 * |ps|
  {
    if ps == [] then [] else PointLines(ps[0]) + PointsLines(ps[1..])
  }

  /** Every line after the version line. */
  function SynthLines(f: SynthFile): (ls: seq<Line>)
    ensures |ls| == 1 + 5 * |f.cameras| + 3 * |f.points|
    ensures ls[0] == [Int(|f.cameras|), Int(|f.points|)]
  {
    [[Int(|f.cameras|), Int(|f.points|)]] + CamerasLines(f.cameras) + PointsLines(f.points)
  }
}

=== FILE: synth_cpp.dfy ===
/**
 * The Photosynther file that `save_mve_sfm` writes, read back by
 * `load_bundler_ps_intern`: every camera and every point comes back, colours
 * scaled by 1/255 and references without positions.  The writer ends every
 * line with a newline, so the stream never runs into the end of the file
 * while a token is parsed.
 */
module SynthCpp {
  import opened Wrappers
  import opened Tokens
  import opened Colmap
  import opened Synth
  import opened CppStream
  import opened BundleCpp

  /** The nine rotation entries in the order the C++ reader stores them. */
  function RotEntries(m: Mat3): (r: seq<real>)
    ensures |r| == 9
  {
    [m.r0.x, m.r0.y, m.r0.z, m.r1.x, m.r1.y, m.r1.z, m.r2.x, m.r2.y, m.r2.z]
  }

  function CppCamera(c: SynthCamera): CameraInfo {
    CameraInfo(c.flen, [c.k1, c.k2], RotEntries(c.rot), c.trans)
  }

  function CppCameras(cs: seq<SynthCamera>): (r: seq<CameraInfo>)
    ensures |r| == |cs|
  {
    seq(|cs|, k requires 0 <= k < |cs| => CppCamera(cs[k]))
  }

  function Reals(xs: seq<int>): (r: seq<real>)
    ensures |r| == |xs| && forall k | 0 <= k < |xs| :: r[k] == xs[k] as real
  {
    seq(|xs|, k requires 0 <= k < |xs| => xs[k] as real)
  }

  function CppRefs(t: seq<TrackElem>): (r: seq<Feature2D>)
    ensures |r| == |t|
  {
    seq(|t|, k requires 0 <= k < |t| => Feature2D(t[k].view, t[k].feature, NoPosition))
  }

  function CppFeature(p: SynthPoint): Feature3D {
    Feature3D(p.xyz, ScaleColor(Reals(p.rgb)), CppRefs(p.track))
  }

  function CppFeatures(ps: seq<SynthPoint>): (r: seq<Feature3D>)
    ensures |r| == |ps|
  {
    seq(|ps|, k requires 0 <= k < |ps| => CppFeature(ps[k]))
  }

  predicate FitsInt(i: int) {
    IntMin <= i <= IntMax
  }

  /** A point the C++ reader takes back whole when there are `numViews` cameras. */
  ghost predicate PointReadable(p: SynthPoint, numViews: int) {
    && |p.xyz| == 3 && |p.rgb| == 3 && p.count == |p.track| <= numViews
    && forall m | 0 <= m < |p.track| :: FitsInt(p.track[m].view) && FitsInt(p.track[m].feature)
  }

  ghost predicate CppReadable(f: SynthFile) {
    && |f.cameras| <= MaxViews && |f.points| <= MaxFeatures
    && (forall k | 0 <= k < |f.cameras| :: |f.cameras[k].trans| == 3)
    && forall k | 0 <= k < |f.points| :: PointReadable(f.points[k], |f.cameras|)
  }

  lemma FlattenCons(l: Line, ls: seq<Line>)
    ensures Flatten([l] + ls) == l + Flatten(ls)
  {
    assert ([l] + ls)[1..] == ls;
  }

  lemma {:induction false} FlattenAppend(a: seq<Line>, b: seq<Line>)
    ensures Flatten(a + b) == Flatten(a) + Flatten(b)
  {
    if a != [] {
      assert (a + b)[1..] == a[1..] + b;
      FlattenAppend(a[1..], b);
    } else {
      assert a + b == b;
    }
  }

  lemma DecTokensAppend(a: seq<real>, b: seq<real>)
    ensures DecTokens(a + b) == DecTokens(a) + DecTokens(b)
  {
    assert |DecTokens(a + b)| == |DecTokens(a) + DecTokens(b)|;
  }

  /** The three rotation rows are the nine rotation entries in reading order. */
  lemma RotTokens(m: Mat3)
    ensures DecTokens(RotEntries(m)) == RowLine(m.r0) + (RowLine(m.r1) + RowLine(m.r2))
  {
    var a, b, d := [m.r0.x, m.r0.y, m.r0.z], [m.r1.x, m.r1.y, m.r1.z], [m.r2.x, m.r2.y, m.r2.z];
    assert RotEntries(m) == a + (b + d);
    DecTokensAppend(a, b + d);
    DecTokensAppend(b, d);
  }

  /** The camera's five lines are its fifteen numbers in reading order. */
  lemma CameraTokens(c: SynthCamera)
    ensures Flatten(CameraLines(c)) == DecTokens([c.flen]) + DecTokens([c.k1, c.k2]) + DecTokens(RotEntries(c.rot)) + DecTokens(c.trans)
  {
    var l0, l1, l2, l3, l4 := DecTokens([c.flen, c.k1, c.k2]), RowLine(c.rot.r0), RowLine(c.rot.r1), RowLine(c.rot.r2), DecTokens(c.trans);
    assert CameraLines(c) == [l0] + [l1, l2, l3, l4];
    FlattenCons(l0, [l1, l2, l3, l4]);
    assert [l1, l2, l3, l4] == [l1] + [l2, l3, l4];
    FlattenCons(l1, [l2, l3, l4]);
    assert [l2, l3, l4] == [l2] + [l3, l4];
    FlattenCons(l2, [l3, l4]);
    assert [l3, l4] == [l3] + [l4];
    FlattenCons(l3, [l4]);
    FlattenCons(l4, []);
    assert Flatten([l4]) == l4;
    assert [c.flen, c.k1, c.k2] == [c.flen] + [c.k1, c.k2];
    DecTokensAppend([c.flen], [c.k1, c.k2]);
    RotTokens(c.rot);
    var a, b, r := DecTokens([c.flen]), DecTokens([c.k1, c.k2]), DecTokens(RotEntries(c.rot));
    assert Flatten(CameraLines(c)) == l0 + (l1 + (l2 + (l3 + l4)));
    ConcatAssoc(l2, l3, l4);
    ConcatAssoc(l1, l2 + l3, l4);
    ConcatAssoc(l0, l1 + (l2 + l3), l4);
  }

  lemma ConcatAssoc<T>(x: seq<T>, y: seq<T>, z: seq<T>)
    ensures x + (y + z) == (x + y) + z
  {
  }

  lemma ReadIntAfter(i: int, rest: seq<Token>)
    requires FitsInt(i)
    ensures ReadInt(Open([Int(i)] + rest, true)) == Got(Open(rest, true), i)
  {
    assert ([Int(i)] + rest)[1..] == rest;
  }

  lemma ReadFloatAfter(t: Token, rest: seq<Token>)
    requires !t.Word?
    ensures ReadFloat(Open([t] + rest, true)) == Got(Open(rest, true), PyFloat(t).value)
  {
    assert ([t] + rest)[1..] == rest;
  }

  lemma {:induction false} ReadFloatsInts(xs: seq<int>, rest: seq<Token>)
    ensures ReadFloats(Open(IntTokens(xs) + rest, true), |xs|) == Got(Open(rest, true), Reals(xs))
  {
    if xs != [] {
      var toks := IntTokens(xs) + rest;
      assert toks == [Int(xs[0])] + (IntTokens(xs[1..]) + rest);
      ReadFloatAfter(Int(xs[0]), IntTokens(xs[1..]) + rest);
      ReadFloatsInts(xs[1..], rest);
      assert [xs[0] as real] + Reals(xs[1..]) == Reals(xs);
    } else {
      assert IntTokens(xs) + rest == rest;
    }
  }

  lemma ReadCameraAfter(c: SynthCamera, rest: seq<Token>)
    requires |c.trans| == 3
    ensures ReadCamera(Open(Flatten(CameraLines(c)) + rest, true)) == Got(Open(rest, true), CppCamera(c))
  {
    CameraTokens(c);
    var t3 := DecTokens(c.trans) + rest;
    var t2 := DecTokens(RotEntries(c.rot)) + t3;
    var t1 := DecTokens([c.k1, c.k2]) + t2;
    var st := Open(Flatten(CameraLines(c)) + rest, true);
    assert st.toks == [Dec(c.flen)] + t1;
    assert ReadFloat(st) == Got(Open(t1, true), c.flen) by {
      ReadFloatAfter(Dec(c.flen), t1);
    }
    assert ReadFloats(Open(t1, true), 2) == Got(Open(t2, true), [c.k1, c.k2]) by {
      ReadFloatsAfter([c.k1, c.k2], t2, true);
    }
    assert ReadFloats(Open(t2, true), 9) == Got(Open(t3, true), RotEntries(c.rot)) by {
      ReadFloatsAfter(RotEntries(c.rot), t3, true);
    }
    assert ReadFloats(Open(t3, true), 3) == Got(Open(rest, true), c.trans) by {
      ReadFloatsAfter(c.trans, rest, true);
    }
    ReadCameraSteps(st, Open(t1, true), c.flen, Open(t2, true), [c.k1, c.k2], Open(t3, true), RotEntries(c.rot),
                    Open(rest, true), c.trans);
  }

  /** The four extractions of a camera block, chained. */
  lemma ReadCameraSteps(st: Stream, s1: Stream, f: real, s2: Stream, d: seq<real>, s3: Stream, rot: seq<real>,
                        s4: Stream, t: seq<real>)
    requires ReadFloat(st) == Got(s1, f)
    requires ReadFloats(s1, 2) == Got(s2, d)
    requires ReadFloats(s2, 9) == Got(s3, rot)
    requires ReadFloats(s3, 3) == Got(s4, t)
    ensures ReadCamera(st) == Got(s4, CameraInfo(f, d, rot, t))
  {
  }

  /** The tokens of a list of blocks are the first block's tokens, then the others'. */
  lemma BlocksTokens(first: seq<Line>, others: seq<Line>, rest: seq<Token>)
    ensures Flatten(first + others) + rest == Flatten(first) + (Flatten(others) + rest)
  {
    FlattenAppend(first, others);
  }

  lemma CppCamerasCons(cs: seq<SynthCamera>)
    requires cs != []
    ensures [CppCamera(cs[0])] + CppCameras(cs[1..]) == CppCameras(cs)
  {
    assert |[CppCamera(cs[0])] + CppCameras(cs[1..])| == |CppCameras(cs)|;
  }

  lemma CamerasStep(st: Stream, st1: Stream, c: CameraInfo, m: nat, tail: Got<seq<CameraInfo>>)
    requires ReadCamera(st) == Got(st1, c) && ReadCameras(st1, m) == tail
    ensures ReadCameras(st, m + 1) == Got(tail.st, [c] + tail.v)
  {
  }

  lemma ReadCameraAt(c: SynthCamera, rest: seq<Token>, toks: seq<Token>)
    requires |c.trans| == 3 && toks == Flatten(CameraLines(c)) + rest
    ensures ReadCamera(Open(toks, true)) == Got(Open(rest, true), CppCamera(c))
  {
    ReadCameraAfter(c, rest);
  }

  lemma {:induction false} ReadCamerasAfter(cs: seq<SynthCamera>, rest: seq<Token>)
    requires forall k | 0 <= k < |cs| :: |cs[k].trans| == 3
    ensures ReadCameras(Open(Flatten(CamerasLines(cs)) + rest, true), |cs|) == Got(Open(rest, true), CppCameras(cs))
  {
    if cs != [] {
      var tail := Flatten(CamerasLines(cs[1..])) + rest;
      var toks := Flatten(CamerasLines(cs)) + rest;
      assert CamerasLines(cs) == CameraLines(cs[0]) + CamerasLines(cs[1..]);
      BlocksTokens(CameraLines(cs[0]), CamerasLines(cs[1..]), rest);
      assert toks == Flatten(CameraLines(cs[0])) + tail;
      ReadCameraAt(cs[0], tail, toks);
      ReadCamerasAfter(cs[1..], rest);
      CamerasStep(Open(toks, true), Open(tail, true), CppCamera(cs[0]), |cs[1..]|,
                  Got(Open(rest, true), CppCameras(cs[1..])));
      CppCamerasCons(cs);
    } else {
      assert Flatten(CamerasLines(cs)) + rest == rest;
    }
  }

  lemma {:induction false} ReadRefsAfter(t: seq<TrackElem>, rest: seq<Token>)
    requires forall m | 0 <= m < |t| :: FitsInt(t[m].view) && FitsInt(t[m].feature)
    ensures ReadRefs(Open(TrackTokens(t) + rest, true), |t|, Photosynther) == Got(Open(rest, true), CppRefs(t))
  {
    if t != [] {
      var tail := TrackTokens(t[1..]) + rest;
      assert TrackTokens(t) + rest == [Int(t[0].view)] + ([Int(t[0].feature)] + ([Int(0)] + tail));
      ReadIntAfter(t[0].view, [Int(t[0].feature)] + ([Int(0)] + tail));
      ReadIntAfter(t[0].feature, [Int(0)] + tail);
      ReadFloatAfter(Int(0), tail);
      assert ReadRef(Open(TrackTokens(t) + rest, true), Photosynther)
             == Got(Open(tail, true), Feature2D(t[0].view, t[0].feature, NoPosition));
      ReadRefsAfter(t[1..], rest);
      assert [Feature2D(t[0].view, t[0].feature, NoPosition)] + CppRefs(t[1..]) == CppRefs(t);
    } else {
      assert TrackTokens(t) + rest == rest;
    }
  }

  lemma PointTokens(p: SynthPoint, rest: seq<Token>)
    ensures Flatten(PointLines(p)) + rest == DecTokens(p.xyz) + (IntTokens(p.rgb) + ([Int(p.count)] + (TrackTokens(p.track) + rest)))
  {
    var ls := PointLines(p);
    FlattenCons(ls[0], ls[1..]);
    FlattenCons(ls[1], ls[2..]);
    FlattenCons(ls[2], []);
    assert ls[1..] == [ls[1]] + ls[2..] && ls[2..] == [ls[2]] + [];
  }

  lemma ReadFeatureAfter(p: SynthPoint, numViews: int, rest: seq<Token>, toks: seq<Token>)
    requires PointReadable(p, numViews) && numViews <= MaxViews
    requires toks == Flatten(PointLines(p)) + rest
    ensures var st := Open(toks, true);
            var pos := ReadFloats(st, 3);
            var col := ReadFloats(pos.st, 3);
            var amount := ReadInt(col.st);
            && pos.v == p.xyz && col.v == Reals(p.rgb) && amount.v == |p.track|
            && ReadRefs(amount.st, amount.v, Photosynther) == Got(Open(rest, true), CppRefs(p.track))
  {
    var t3 := TrackTokens(p.track) + rest;
    var t2 := [Int(p.count)] + t3;
    var t1 := IntTokens(p.rgb) + t2;
    PointTokens(p, rest);
    ReadFloatsAfter(p.xyz, t1, true);
    ReadFloatsInts(p.rgb, t2);
    ReadIntAfter(p.count, t3);
    ReadRefsAfter(p.track, rest);
  }

  lemma CppFeaturesCons(ps: seq<SynthPoint>)
    requires ps != []
    ensures [CppFeature(ps[0])] + CppFeatures(ps[1..]) == CppFeatures(ps)
  {
    assert |[CppFeature(ps[0])] + CppFeatures(ps[1..])| == |CppFeatures(ps)|;
  }

  lemma FeaturesStep(st: Stream, m: nat, numViews: int, st1: Stream, f: Feature3D, tail: seq<Feature3D>)
    requires var pos := ReadFloats(st, 3);
             var col := ReadFloats(pos.st, 3);
             var amount := ReadInt(col.st);
             && pos.v == f.pos && ScaleColor(col.v) == f.color && 0 <= amount.v <= numViews
             && ReadRefs(amount.st, amount.v, Photosynther) == Got(st1, f.refs) && !st1.eof
    requires ReadFeatures(st1, m, numViews, Photosynther) == Ok(tail)
    ensures ReadFeatures(st, m + 1, numViews, Photosynther) == Ok([f] + tail)
  {
  }

  lemma {:induction false} ReadFeaturesAfter(ps: seq<SynthPoint>, numViews: int, rest: seq<Token>)
    requires numViews <= MaxViews
    requires forall k | 0 <= k < |ps| :: PointReadable(ps[k], numViews)
    ensures ReadFeatures(Open(Flatten(PointsLines(ps)) + rest, true), |ps|, numViews, Photosynther) == Ok(CppFeatures(ps))
  {
    if ps != [] {
      var tail := Flatten(PointsLines(ps[1..])) + rest;
      var toks := Flatten(PointsLines(ps)) + rest;
      assert PointsLines(ps) == PointLines(ps[0]) + PointsLines(ps[1..]);
      BlocksTokens(PointLines(ps[0]), PointsLines(ps[1..]), rest);
      assert PointReadable(ps[0], numViews);
      ReadFeatureAfter(ps[0], numViews, tail, toks);
      ReadFeaturesAfter(ps[1..], numViews, rest);
      FeaturesStep(Open(toks, true), |ps[1..]|, numViews, Open(tail, true), CppFeature(ps[0]), CppFeatures(ps[1..]));
      CppFeaturesCons(ps);
    }
  }

  /** The file after its first line: the two counts, the camera blocks, the point blocks. */
  lemma SynthTokens(f: SynthFile)
    ensures Flatten(SynthLines(f))
            == [Int(|f.cameras|)] + ([Int(|f.points|)] + (Flatten(CamerasLines(f.cameras)) + (Flatten(PointsLines(f.points)) + [])))
  {
    var ls := SynthLines(f);
    FlattenCons(ls[0], CamerasLines(f.cameras) + PointsLines(f.points));
    assert ls == [ls[0]] + (CamerasLines(f.cameras) + PointsLines(f.points));
    BlocksTokens(CamerasLines(f.cameras), PointsLines(f.points), []);
    assert Flatten(PointsLines(f.points)) + [] == Flatten(PointsLines(f.points));
  }

  /**
   * `load_bundler_ps_intern` returns every camera and every point that the
   * writer put in the file, when the counts are within the reader's bounds
   * and no track is longer than the number of cameras.
   */
  lemma CppReadsSynth(f: SynthFile)
    requires CppReadable(f)
    ensures LoadBundlerPs(Version, Flatten(SynthLines(f)), true, Photosynther)
            == Ok(Bundle(CppCameras(f.cameras), CppFeatures(f.points)))
  {
    var pts := Flatten(PointsLines(f.points)) + [];
    var body := Flatten(CamerasLines(f.cameras)) + pts;
    SynthTokens(f);
    ReadIntAfter(|f.cameras|, [Int(|f.points|)] + body);
    ReadIntAfter(|f.points|, body);
    ReadCamerasAfter(f.cameras, pts);
    ReadFeaturesAfter(f.points, |f.cameras|, []);
  }
}

=== FILE: synth_py.dfy ===
/**
 * The Photosynther file that `save_mve_sfm` writes, read back by
 * `read_bundler`: camera i comes back as a RADIAL camera whose first
 * parameter is the written focal length times the image's larger side, and
 * every point comes back with the views and features of its track.
 */
module SynthPy {
  import opened Wrappers
  import opened Tokens
  import opened Colmap
  import opened Strings
  import opened Synth
  import opened BundlePy
  import BundleCpp
  import BundlePyTracks

  function Views(t: seq<TrackElem>): (r: seq<int>)
    ensures |r| == |t| && forall k {:trigger r[k]} | 0 <= k < |t| :: r[k] == t[k].view
  {
    seq(|t|, k requires 0 <= k < |t| => t[k].view)
  }

  function Feats(t: seq<TrackElem>): (r: seq<int>)
    ensures |r| == |t| && forall k {:trigger r[k]} | 0 <= k < |t| :: r[k] == t[k].feature
  {
    seq(|t|, k requires 0 <= k < |t| => t[k].feature)
  }

  /** The camera `read_bundler` builds from a written camera block and the image size. */
  function PyCamera(c: SynthCamera, i: nat, size: ImageSize): Camera {
    var m := MaxDim(size.width, size.height) as real;
    Camera(i, "RADIAL", size.width, size.height,
           [c.flen * m, size.width as real / 2.0 - 0.5, size.height as real / 2.0 - 0.5, c.k1, c.k2])
  }

  /** The image `read_bundler` builds, before the tracks fill in its point ids. */
  function PyImage(c: SynthCamera, i: nat, xy: seq<Point2>, size: ImageSize): Image {
    Image(i, c.rot, c.trans, i, Pad4(i) + ".jpg", Pixels(xy, size), Unassigned(|xy|))
  }

  /** The cameras `read_bundler` builds from written camera blocks i, i + 1, .... */
  function PyCameras(cs: seq<SynthCamera>, i: nat, sizes: seq<ImageSize>): (r: seq<Camera>)
    requires i + |cs| <= |sizes|
    ensures |r| == |cs| && forall k {:trigger r[k]} | 0 <= k < |cs| :: r[k] == PyCamera(cs[k], i + k, sizes[i + k])
  {
    seq(|cs|, k requires 0 <= k < |cs| => PyCamera(cs[k], i + k, sizes[i + k]))
  }

  function PyImages(cs: seq<SynthCamera>, i: nat, xys: seq<seq<Point2>>, sizes: seq<ImageSize>): (r: seq<Image>)
    requires i + |cs| <= |sizes| && i + |cs| <= |xys|
    ensures |r| == |cs| && forall k {:trigger r[k]} | 0 <= k < |cs| :: r[k] == PyImage(cs[k], i + k, xys[i + k], sizes[i + k])
  {
    seq(|cs|, k requires 0 <= k < |cs| => PyImage(cs[k], i + k, xys[i + k], sizes[i + k]))
  }

  function PyPoint(p: SynthPoint, i: nat): Point3D {
    Point3D(i, p.xyz, p.rgb, 0.0, Views(p.track), Feats(p.track))
  }

  function PyPoints(ps: seq<SynthPoint>, i: nat): (r: seq<Point3D>)
    ensures |r| == |ps| && forall k {:trigger r[k]} | 0 <= k < |ps| :: r[k] == PyPoint(ps[k], i + k)
  {
    seq(|ps|, k requires 0 <= k < |ps| => PyPoint(ps[k], i + k))
  }

  /** Every element of the track names an image and a valid feature index of it. */
  ghost predicate TrackFits(t: seq<TrackElem>, lens: seq<nat>) {
    forall m | 0 <= m < |t| :: 0 <= t[m].view < |lens| && ValidIndex(t[m].feature, lens[t[m].view])
  }

  ghost predicate RowsHave(ids: seq<seq<int>>, lens: seq<nat>) {
    |ids| == |lens| && forall j | 0 <= j < |lens| :: |ids[j]| == lens[j]
  }

  /** What `read_bundler` needs to take the file back without an error. */
  ghost predicate PyReadable(f: SynthFile, xys: seq<seq<Point2>>, sizes: seq<ImageSize>) {
    && |xys| == |f.cameras| <= |sizes|
    && (forall k | 0 <= k < |xys| :: |xys[k]| > 0)
    && forall k | 0 <= k < |f.points| ::
         f.points[k].count == |f.points[k].track|
         && TrackFits(f.points[k].track, seq(|xys|, j requires 0 <= j < |xys| => |xys[j]|))
  }

  lemma StripVersion()
    ensures Strip(Version) == Version
  {
    assert !IsSpace(Version[0]) && !IsSpace(Version[|Version| - 1]);
  }

  /** A written camera block reads back as the camera and image `read_bundler` builds from it. */
  lemma ReadViewAt(c: SynthCamera, i: nat, xys: seq<seq<Point2>>, sizes: seq<ImageSize>, rest: seq<Line>, ls: seq<Line>)
    requires i < |sizes| && i < |xys| && |xys[i]| > 0
    requires ls == CameraLines(c) + rest
    ensures ReadView(ls, i, xys, sizes) == Ok(Step((PyCamera(c, i, sizes[i]), PyImage(c, i, xys[i], sizes[i])), rest))
  {
    assert ls[0] == DecTokens([c.flen, c.k1, c.k2]);
    assert ls[1] == DecTokens([c.rot.r0.x, c.rot.r0.y, c.rot.r0.z]);
    assert ls[2] == DecTokens([c.rot.r1.x, c.rot.r1.y, c.rot.r1.z]);
    assert ls[3] == DecTokens([c.rot.r2.x, c.rot.r2.y, c.rot.r2.z]);
    assert ls[4] == DecTokens(c.trans);
    assert ls[5..] == rest;
    assert ls[1..][1..][1..][1..][1..] == rest;
    DecTokensRoundTrip([c.flen, c.k1, c.k2]);
    DecTokensRoundTrip([c.rot.r0.x, c.rot.r0.y, c.rot.r0.z]);
    DecTokensRoundTrip([c.rot.r1.x, c.rot.r1.y, c.rot.r1.z]);
    DecTokensRoundTrip([c.rot.r2.x, c.rot.r2.y, c.rot.r2.z]);
    DecTokensRoundTrip(c.trans);
    var l0 := NextLine(ls);
    assert l0.value == ls[0] && l0.rest == ls[1..];
    var l1 := NextLine(l0.rest);
    var l2 := NextLine(l1.rest);
    var l3 := NextLine(l2.rest);
    var l4 := NextLine(l3.rest);
    assert l4.rest == rest;
    assert PyFloats(l0.value) == Some([c.flen, c.k1, c.k2]);
    assert PyFloats(l4.value) == Some(c.trans);
    assert PyFloats(l1.value) == Some([c.rot.r0.x, c.rot.r0.y, c.rot.r0.z]);
    assert PyFloats(l2.value) == Some([c.rot.r1.x, c.rot.r1.y, c.rot.r1.z]);
    assert PyFloats(l3.value) == Some([c.rot.r2.x, c.rot.r2.y, c.rot.r2.z]);
    assert c.rot == Mat3(Vec3(c.rot.r0.x, c.rot.r0.y, c.rot.r0.z), Vec3(c.rot.r1.x, c.rot.r1.y, c.rot.r1.z),
                         Vec3(c.rot.r2.x, c.rot.r2.y, c.rot.r2.z));
    var r := ReadView(ls, i, xys, sizes);
    assert r.Ok?;
    assert r.value.rest == rest;
    var cam := r.value.value.0;
    var want := PyCamera(c, i, sizes[i]);
    assert cam.id == want.id && cam.model == want.model && cam.width == want.width && cam.height == want.height;
    assert cam.params[0] == want.params[0];
    assert cam.params[1..] == want.params[1..];
    assert cam.params == want.params;
    assert r.value.value.1 == PyImage(c, i, xys[i], sizes[i]);
  }

  lemma ViewsStep(ls: seq<Line>, i: nat, j: nat, n: nat, xys: seq<seq<Point2>>, sizes: seq<ImageSize>,
                  v: Step<(Camera, Image)>, tail: Step<(seq<Camera>, seq<Image>)>)
    requires i < n && j == i + 1
    requires ReadView(ls, i, xys, sizes) == Ok(v)
    requires ReadViews(v.rest, j, n, xys, sizes) == Ok(tail)
    ensures ReadViews(ls, i, n, xys, sizes)
            == Ok(Step(([v.value.0] + tail.value.0, [v.value.1] + tail.value.1), tail.rest))
  {
  }

  /** One written camera block in front of lines that read back as `tail`. */
  lemma ViewsCons(c: SynthCamera, i: nat, j: nat, n: nat, xys: seq<seq<Point2>>, sizes: seq<ImageSize>,
                  ls: seq<Line>, rest: seq<Line>, tail: Step<(seq<Camera>, seq<Image>)>)
    requires i < n && j == i + 1 && i < |sizes| && i < |xys| && |xys[i]| > 0
    requires ls == CameraLines(c) + rest
    requires ReadViews(rest, j, n, xys, sizes) == Ok(tail)
    ensures ReadViews(ls, i, n, xys, sizes)
            == Ok(Step(([PyCamera(c, i, sizes[i])] + tail.value.0, [PyImage(c, i, xys[i], sizes[i])] + tail.value.1),
                       tail.rest))
  {
    ReadViewAt(c, i, xys, sizes, rest, ls);
    ViewsStep(ls, i, j, n, xys, sizes, Step((PyCamera(c, i, sizes[i]), PyImage(c, i, xys[i], sizes[i])), rest), tail);
  }

  lemma PyCamerasCons(cs: seq<SynthCamera>, i: nat, j: nat, sizes: seq<ImageSize>)
    requires cs != [] && j == i + 1 && i + |cs| <= |sizes|
    ensures PyCameras(cs, i, sizes) == [PyCamera(cs[0], i, sizes[i])] + PyCameras(cs[1..], j, sizes)
  {
    var l, r := PyCameras(cs, i, sizes), [PyCamera(cs[0], i, sizes[i])] + PyCameras(cs[1..], j, sizes);
    forall k | 1 <= k < |cs| ensures l[k] == r[k] {
      assert r[k] == PyCameras(cs[1..], j, sizes)[k - 1];
      assert j + (k - 1) == i + k && cs[1..][k - 1] == cs[k];
    }
  }

  lemma PyImagesCons(cs: seq<SynthCamera>, i: nat, j: nat, xys: seq<seq<Point2>>, sizes: seq<ImageSize>)
    requires cs != [] && j == i + 1 && i + |cs| <= |sizes| && i + |cs| <= |xys|
    ensures PyImages(cs, i, xys, sizes) == [PyImage(cs[0], i, xys[i], sizes[i])] + PyImages(cs[1..], j, xys, sizes)
  {
    var l, r := PyImages(cs, i, xys, sizes), [PyImage(cs[0], i, xys[i], sizes[i])] + PyImages(cs[1..], j, xys, sizes);
    forall k | 1 <= k < |cs| ensures l[k] == r[k] {
      PyImagesShift(cs, i, j, xys, sizes, k);
    }
  }

  lemma PyImagesShift(cs: seq<SynthCamera>, i: nat, j: nat, xys: seq<seq<Point2>>, sizes: seq<ImageSize>, k: nat)
    requires 1 <= k < |cs| && j == i + 1 && i + |cs| <= |sizes| && i + |cs| <= |xys|
    ensures PyImages(cs[1..], j, xys, sizes)[k - 1] == PyImage(cs[k], i + k, xys[i + k], sizes[i + k])
  {
    assert cs[1..][k - 1] == cs[k];
  }

  lemma {:induction false} ReadViewsAfter(cs: seq<SynthCamera>, i: nat, n: nat, xys: seq<seq<Point2>>,
                                          sizes: seq<ImageSize>, rest: seq<Line>)
    requires n == i + |cs| && n <= |sizes| && n <= |xys|
    requires forall k | i <= k < n :: |xys[k]| > 0
    ensures ReadViews(CamerasLines(cs) + rest, i, n, xys, sizes)
            == Ok(Step((PyCameras(cs, i, sizes), PyImages(cs, i, xys, sizes)), rest))
    decreases |cs|
  {
    if cs == [] {
      assert CamerasLines(cs) + rest == rest;
    } else {
      var c2, j := cs[1..], i + 1;
      var tail := CamerasLines(c2) + rest;
      assert CamerasLines(cs) + rest == CameraLines(cs[0]) + tail;
      ReadViewsAfter(c2, j, n, xys, sizes, rest);
      ViewsCons(cs[0], i, j, n, xys, sizes, CamerasLines(cs) + rest, tail,
                Step((PyCameras(c2, j, sizes), PyImages(c2, j, xys, sizes)), rest));
      PyCamerasCons(cs, i, j, sizes);
      PyImagesCons(cs, i, j, xys, sizes);
    }
  }

  /** `elems[1::3]` of a written track line is the list of views. */
  lemma {:induction false} Every3Views(t: seq<TrackElem>)
    ensures Every3(TrackTokens(t)) == IntTokens(Views(t))
  {
    if t != [] {
      var tt := TrackTokens(t);
      assert Drop(tt, 3) == TrackTokens(t[1..]);
      Every3Views(t[1..]);
      assert Views(t) == [t[0].view] + Views(t[1..]);
      assert IntTokens(Views(t)) == [Int(t[0].view)] + IntTokens(Views(t[1..]));
    }
  }

  /** `elems[2::3]` of a written track line is the list of features. */
  lemma {:induction false} Every3Feats(n: int, t: seq<TrackElem>)
    ensures Every3(Drop([Int(n)] + TrackTokens(t), 2)) == IntTokens(Feats(t))
  {
    if t != [] {
      var d := Drop([Int(n)] + TrackTokens(t), 2);
      assert d == [Int(t[0].feature), Int(0)] + TrackTokens(t[1..]);
      assert Drop(d, 3) == Drop([Int(n)] + TrackTokens(t[1..]), 2);
      Every3Feats(n, t[1..]);
      assert Feats(t) == [t[0].feature] + Feats(t[1..]);
      assert IntTokens(Feats(t)) == [Int(t[0].feature)] + IntTokens(Feats(t[1..]));
    }
  }

  lemma ReadPointAt(p: SynthPoint, i: nat, rest: seq<Line>, ls: seq<Line>)
    requires p.count == |p.track|
    requires ls == PointLines(p) + rest
    ensures ReadPoint(ls, i) == Ok(Step(PyPoint(p, i), rest))
  {
    var elems := [Int(p.count)] + TrackTokens(p.track);
    assert ls[0] == DecTokens(p.xyz) && ls[1] == IntTokens(p.rgb) && ls[2] == elems;
    assert ls[1..][1..][1..] == rest;
    assert Drop(elems, 1) == TrackTokens(p.track);
    DecTokensRoundTrip(p.xyz);
    IntTokensRoundTrip(p.rgb);
    Every3Views(p.track);
    Every3Feats(p.count, p.track);
    IntTokensRoundTrip(Views(p.track));
    IntTokensRoundTrip(Feats(p.track));
  }

  /** A track whose elements all fit is assigned without an error. */
  lemma {:induction false} AssignOk(ids: seq<seq<int>>, lens: seq<nat>, p: int, t: seq<TrackElem>)
    requires RowsHave(ids, lens) && TrackFits(t, lens)
    ensures Assign(ids, p, Views(t), Feats(t)).Ok?
    ensures RowsHave(Assign(ids, p, Views(t), Feats(t)).value, lens)
    decreases |t|
  {
    if t != [] {
      var row := ids[t[0].view];
      var ids' := ids[t[0].view := row[Slot(t[0].feature, |row|) := p]];
      assert Views(t)[1..] == Views(t[1..]) && Feats(t)[1..] == Feats(t[1..]);
      assert Assign(ids, p, Views(t), Feats(t)) == Assign(ids', p, Views(t[1..]), Feats(t[1..]));
      assert RowsHave(ids', lens);
      assert TrackFits(t[1..], lens) by {
        forall m | 0 <= m < |t[1..]| ensures 0 <= t[1..][m].view < |lens| && ValidIndex(t[1..][m].feature, lens[t[1..][m].view]) {
          assert t[1..][m] == t[m + 1];
        }
      }
      AssignOk(ids', lens, p, t[1..]);
    }
  }

  lemma PointsStep(ls: seq<Line>, i: nat, j: nat, n: nat, ids: seq<seq<int>>, acc: seq<Point3D>,
                   p: Step<Point3D>, ids': seq<seq<int>>, tail: Step<(seq<seq<int>>, seq<Point3D>)>)
    requires i < n && j == i + 1
    requires ReadPoint(ls, i) == Ok(p)
    requires Assign(ids, i, p.value.imageIds, p.value.point2DIdxs) == Ok(ids')
    requires ReadPoints(p.rest, j, n, ids', acc + [p.value]) == Ok(tail)
    ensures ReadPoints(ls, i, n, ids, acc) == Ok(tail)
  {
  }

  lemma PyPointsCons(ps: seq<SynthPoint>, i: nat, j: nat)
    requires ps != [] && j == i + 1
    ensures PyPoints(ps, i) == [PyPoint(ps[0], i)] + PyPoints(ps[1..], j)
  {
    var l, r := PyPoints(ps, i), [PyPoint(ps[0], i)] + PyPoints(ps[1..], j);
    forall k | 1 <= k < |ps| ensures l[k] == r[k] {
      assert r[k] == PyPoints(ps[1..], j)[k - 1];
      assert j + (k - 1) == i + k && ps[1..][k - 1] == ps[k];
    }
  }

  /** One written point block in front of lines that read back as `r`. */
  lemma PointsCons(p: SynthPoint, i: nat, j: nat, n: nat, ids: seq<seq<int>>, acc: seq<Point3D>,
                   ls: seq<Line>, rest: seq<Line>, r: Step<(seq<seq<int>>, seq<Point3D>)>)
    requires i < n && j == i + 1 && p.count == |p.track|
    requires ls == PointLines(p) + rest
    requires Assign(ids, i, Views(p.track), Feats(p.track)).Ok?
    requires ReadPoints(rest, j, n, Assign(ids, i, Views(p.track), Feats(p.track)).value, acc + [PyPoint(p, i)]) == Ok(r)
    ensures ReadPoints(ls, i, n, ids, acc) == Ok(r)
  {
    ReadPointAt(p, i, rest, ls);
    var q := PyPoint(p, i);
    PointsStep(ls, i, j, n, ids, acc, Step(q, rest), Assign(ids, i, q.imageIds, q.point2DIdxs).value, r);
  }

  lemma SnocAppend<T>(acc: seq<T>, q: T, more: seq<T>)
    ensures acc + [q] + more == acc + ([q] + more)
  {
  }

  lemma {:induction false} ReadPointsAfter(ps: seq<SynthPoint>, i: nat, n: nat, lens: seq<nat>, ids: seq<seq<int>>,
                                           acc: seq<Point3D>, rest: seq<Line>)
    requires n == i + |ps| && RowsHave(ids, lens)
    requires forall k | 0 <= k < |ps| :: ps[k].count == |ps[k].track| && TrackFits(ps[k].track, lens)
    ensures var r := ReadPoints(PointsLines(ps) + rest, i, n, ids, acc);
            r.Ok? && r.value.value.1 == acc + PyPoints(ps, i) && r.value.rest == rest
    decreases |ps|
  {
    if ps == [] {
      assert PointsLines(ps) + rest == rest;
      assert acc + PyPoints(ps, i) == acc;
    } else {
      var p0, p2, j := ps[0], ps[1..], i + 1;
      var tail := PointsLines(p2) + rest;
      assert PointsLines(ps) + rest == PointLines(p0) + tail;
      AssignOk(ids, lens, i, p0.track);
      var ids' := Assign(ids, i, Views(p0.track), Feats(p0.track)).value;
      var q := PyPoint(p0, i);
      assert forall k | 0 <= k < |p2| :: p2[k] == ps[k + 1];
      ReadPointsAfter(p2, j, n, lens, ids', acc + [q], rest);
      var r := ReadPoints(tail, j, n, ids', acc + [q]).value;
      PointsCons(p0, i, j, n, ids, acc, PointsLines(ps) + rest, tail, r);
      PyPointsCons(ps, i, j);
      SnocAppend(acc, q, PyPoints(p2, j));
    }
  }

  /** The counts line, the camera blocks and the point blocks, read in order. */
  lemma BundlerParts(lines: seq<Line>, xys: seq<seq<Point2>>, sizes: seq<ImageSize>, numPoints: nat,
                     views: Step<(seq<Camera>, seq<Image>)>, pts: Step<(seq<seq<int>>, seq<Point3D>)>)
    requires lines != [] && lines[0] == [Int(|xys|), Int(numPoints)]
    requires ReadViews(lines[1..], 0, |xys|, xys, sizes) == Ok(views)
    requires ReadPoints(views.rest, 0, numPoints, PointIdRows(views.value.1), []) == Ok(pts)
    requires pts.rest == []
    ensures ReadBundler(Version, lines, xys, sizes, BundleCpp.Photosynther)
            == Ok(Reconstruction(views.value.0, WithIds(views.value.1, pts.value.0), pts.value.1))
  {
    StripVersion();
  }

  /** The camera, image and point loops over a written file, before the point ids are spelled out. */
  lemma PyReadsSynthParts(f: SynthFile, xys: seq<seq<Point2>>, sizes: seq<ImageSize>)
    requires PyReadable(f, xys, sizes)
    ensures var images := PyImages(f.cameras, 0, xys, sizes);
            var r := ReadPoints(PointsLines(f.points), 0, |f.points|, PointIdRows(images), []);
            && r.Ok?
            && ReadBundler(Version, SynthLines(f), xys, sizes, BundleCpp.Photosynther)
               == Ok(Reconstruction(PyCameras(f.cameras, 0, sizes), WithIds(images, r.value.value.0), PyPoints(f.points, 0)))
  {
    var lens := seq(|xys|, j requires 0 <= j < |xys| => |xys[j]|);
    var ls := SynthLines(f);
    var pl := PointsLines(f.points);
    assert ls[1..] == CamerasLines(f.cameras) + pl;
    ReadViewsAfter(f.cameras, 0, |xys|, xys, sizes, pl);
    var images := PyImages(f.cameras, 0, xys, sizes);
    var views := Step((PyCameras(f.cameras, 0, sizes), images), pl);
    var ids := PointIdRows(images);
    assert RowsHave(ids, lens);
    assert pl + [] == pl;
    ReadPointsAfter(f.points, 0, |f.points|, lens, ids, [], []);
    var pts := ReadPoints(pl, 0, |f.points|, ids, []).value;
    assert [] + PyPoints(f.points, 0) == PyPoints(f.points, 0);
    BundlerParts(ls, xys, sizes, |f.points|, views, pts);
  }

  /** A row of `point3D_ids` is determined by its length and its slots. */
  lemma RowIs(row: seq<int>, points: seq<Point3D>, j: int, n: nat)
    requires |row| == n && forall s | 0 <= s < n :: row[s] == BundlePyTracks.LastRef(points, j, s, n)
    ensures row == BundlePyTracks.RefRow(points, j, n)
  {
  }

  /**
   * `read_bundler` takes back what the writer put in the file: one RADIAL
   * camera per written camera, its image with the rotation and translation
   * and with each feature slot naming the last point whose track uses it,
   * and every point with its track split into views and features.
   */
  lemma PyReadsSynth(f: SynthFile, xys: seq<seq<Point2>>, sizes: seq<ImageSize>)
    requires PyReadable(f, xys, sizes)
    ensures var r := ReadBundler(Version, SynthLines(f), xys, sizes, BundleCpp.Photosynther);
            && r.Ok?
            && r.value.cameras == PyCameras(f.cameras, 0, sizes)
            && r.value.points == PyPoints(f.points, 0)
            && |r.value.images| == |xys|
            && forall k | 0 <= k < |xys| ::
                 r.value.images[k] == PyImage(f.cameras[k], k, xys[k], sizes[k])
                                        .(point3DIds := BundlePyTracks.RefRow(PyPoints(f.points, 0), k, |xys[k]|))
  {
    PyReadsSynthParts(f, xys, sizes);
    var rec := ReadBundler(Version, SynthLines(f), xys, sizes, BundleCpp.Photosynther).value;
    BundlePyTracks.ReadBundlerTrackIds(Version, SynthLines(f), xys, sizes, BundleCpp.Photosynther);
    forall k | 0 <= k < |xys|
      ensures rec.images[k] == PyImage(f.cameras[k], k, xys[k], sizes[k])
                                 .(point3DIds := BundlePyTracks.RefRow(rec.points, k, |xys[k]|))
    {
      RowIs(rec.images[k].point3DIds, rec.points, k, |xys[k]|);
    }
  }
}

=== FILE: tokens.dfy ===
/**
 * The text files of the Bundler family ("synth_0.out") seen as
 * whitespace-separated tokens.  A token is classified by how it parses:
 * a decimal integer, a number that is not an integer literal ("0.500000"),
 * or anything else.  Both the Python readers (`int(...)`, `float(...)`) and
 * the C++ stream extraction (`in >> x`) are stated over this classification.
 */
module Tokens {
  import opened Wrappers

  datatype Token =
    | Int(i: int)   // an integer literal such as "-12"
    | Dec(x: real)  // a number with a fraction or exponent, such as "0.250000"
    | Word          // not a number

  /** A line as `line.split()` returns it. */
  type Line = seq<Token>

  /** Python `int(tok)`: only integer literals parse. */
  function PyInt(t: Token): (r: Option<int>)
    ensures r.Some? <==> t.Int?
    ensures r.Some? ==> r.value == t.i
  {
    match t
    case Int(i) => Some(i)
    case _ => None
  }

  /** Python `float(tok)`: integer literals parse too. */
  function PyFloat(t: Token): (r: Option<real>)
    ensures r.Some? <==> !t.Word?
    ensures t.Int? ==> r == Some(t.i as real)
    ensures t.Dec? ==> r == Some(t.x)
  {
    match t
    case Int(i) => Some(i as real)
    case Dec(x) => Some(x)
    case Word => None
  }

  /** `tuple(map(int, tokens))`: fails on the first token that is not an integer literal. */
  function PyInts(ts: seq<Token>): (r: Option<seq<int>>)
    ensures r.Some? <==> forall k | 0 <= k < |ts| :: ts[k].Int?
    ensures r.Some? ==> |r.value| == |ts| && forall k | 0 <= k < |ts| :: r.value[k] == ts[k].i
  {
    if ts == [] then Some([])
    else
      match PyInt(ts[0])
      case None => None
      case Some(v) =>
        match PyInts(ts[1..])
        case None => None
        case Some(vs) => Some([v] + vs)
  }

  /** `tuple(map(float, tokens))`. */
  function PyFloats(ts: seq<Token>): (r: Option<seq<real>>)
    ensures r.Some? <==> forall k | 0 <= k < |ts| :: !ts[k].Word?
    ensures r.Some? ==> |r.value| == |ts| && forall k | 0 <= k < |ts| :: Some(r.value[k]) == PyFloat(ts[k])
  {
    if ts == [] then Some([])
    else
      match PyFloat(ts[0])
      case None => None
      case Some(v) =>
        match PyFloats(ts[1..])
        case None => None
        case Some(vs) => Some([v] + vs)
  }

  /** The tokens for integers written with `%d`. */
  function IntTokens(xs: seq<int>): (r: Line)
    ensures |r| == |xs| && forall k | 0 <= k < |xs| :: r[k] == Int(xs[k])
  {
    seq(|xs|, k requires 0 <= k < |xs| => Int(xs[k]))
  }

  /** The tokens for numbers written with `%f`. */
  function DecTokens(xs: seq<real>): (r: Line)
    ensures |r| == |xs| && forall k | 0 <= k < |xs| :: r[k] == Dec(xs[k])
  {
    seq(|xs|, k requires 0 <= k < |xs| => Dec(xs[k]))
  }

  /** Integers written with `%d` read back with `int`. */
  lemma IntTokensRoundTrip(xs: seq<int>)
    ensures PyInts(IntTokens(xs)) == Some(xs)
  {
    var r := PyInts(IntTokens(xs));
    assert r.Some? && r.value == xs;
  }

  /** Numbers written with `%f` read back with `float`; rounding to six decimals is not modelled. */
  lemma DecTokensRoundTrip(xs: seq<real>)
    ensures PyFloats(DecTokens(xs)) == Some(xs)
  {
    var r := PyFloats(DecTokens(xs));
    assert r.Some? && r.value == xs;
  }

  /** All lines of a file, one after another, as a stream of tokens. */
  function Flatten(lines: seq<Line>): (r: seq<Token>)
    ensures |r| == 0 <==> forall k | 0 <= k < |lines| :: lines[k] == []
  {
    if lines == [] then [] else lines[0] + Flatten(lines[1..])
  }
}

=== FILE: tracks.dfy ===
/**
 * The track repair that runs after openMVG's COLMAP export
 * (`fixed_openmvg_to_colmap_error`, and its copy `FixedOpenmvgToColmapError`).
 * The exporter gets a track's observation list partly wrong while the images'
 * feature-to-point lists are right, so the repair rebuilds every track's
 * (image id, feature index) list from the images: images in dictionary order,
 * features in index order, each observation written into the next free slot
 * of the track it names.  Reading and writing the text files is not modelled.
 */
module Tracks {
  import opened Wrappers
  import opened Colmap

  datatype FixError =
    | KeyError         // a feature names a point id that is not a track (−1 included)
    | IndexError       // a track receives more observations than its arrays hold
    | AssertionFailed  // a track receives fewer observations than it had

  /** One observation: the image's id and the feature's index in it. */
  datatype Ref = Ref(image: int, idx: nat)

  /** `points3D` is a dictionary: its ids are distinct. */
  ghost predicate DistinctPointIds(points: seq<Point3D>) {
    forall i, j | 0 <= i < j < |points| :: points[i].id != points[j].id
  }

  /** `points3Ds[pid]`: the position of the track with that id. */
  function PointIndex(points: seq<Point3D>, pid: int): (r: Option<nat>)
    ensures r.Some? ==> r.value < |points| && points[r.value].id == pid
    ensures r.None? ==> forall t | 0 <= t < |points| :: points[t].id != pid
  {
    if points == [] then None
    else if points[0].id == pid then Some(0)
    else
      match PointIndex(points[1..], pid)
      case None => None
      case Some(t) => Some(t + 1)
  }

  /** The observations of track `pid` among the first `n` features of `im`. */
  function ImageRefs(im: Image, pid: int, n: nat): (r: seq<Ref>)
    requires n <= |im.point3DIds|
    ensures |r| <= n
  {
    if n == 0 then []
    else ImageRefs(im, pid, n - 1) + (if im.point3DIds[n - 1] == pid then [Ref(im.id, n - 1)] else [])
  }

  /** The observations of track `pid` in the first `a` images, in visiting order. */
  function Refs(images: seq<Image>, a: nat, pid: int): seq<Ref>
    requires a <= |images|
  {
    if a == 0 then [] else Refs(images, a - 1, pid) + ImageRefs(images[a - 1], pid, |images[a - 1].point3DIds|)
  }

  /** Every observation of track `pid`, in the order the repair visits them. */
  function AllRefs(images: seq<Image>, pid: int): seq<Ref> {
    Refs(images, |images|, pid)
  }

  /** A position of the double loop: feature `i` of image `a`, or the end. */
  predicate Pos(images: seq<Image>, a: nat, i: nat) {
    a <= |images| && (a == |images| ==> i == 0) && (a < |images| ==> i <= |images[a].point3DIds|)
  }

  /** The observations of track `pid` visited before position (a, i). */
  function RefsUpTo(images: seq<Image>, a: nat, i: nat, pid: int): seq<Ref>
    requires Pos(images, a, i)
  {
    Refs(images, a, pid) + (if a < |images| then ImageRefs(images[a], pid, i) else [])
  }

  function RefImages(refs: seq<Ref>): (r: seq<int>)
    ensures |r| == |refs|
  {
    if refs == [] then [] else [refs[0].image] + RefImages(refs[1..])
  }

  function RefIdxs(refs: seq<Ref>): (r: seq<int>)
    ensures |r| == |refs|
  {
    if refs == [] then [] else [refs[0].idx as int] + RefIdxs(refs[1..])
  }

  /** Slots `0 .. |prefix|-1` of an array overwritten, the rest kept. */
  function Overwrite(s: seq<int>, prefix: seq<int>): (r: seq<int>)
    requires |prefix| <= |s|
    ensures |r| == |s|
  {
    prefix + s[|prefix|..]
  }

  /**
   * A track's observation arrays with their first `|refs|` slots rewritten;
   * nothing else of the track changes.
   */
  function Refilled(p: Point3D, refs: seq<Ref>): (r: Point3D)
    requires |refs| <= |p.imageIds| && |refs| <= |p.point2DIdxs|
    ensures r.id == p.id && r.xyz == p.xyz && r.rgb == p.rgb && r.error == p.error
    ensures |r.imageIds| == |p.imageIds| && |r.point2DIdxs| == |p.point2DIdxs|
  {
    p.(imageIds := Overwrite(p.imageIds, RefImages(refs)), point2DIdxs := Overwrite(p.point2DIdxs, RefIdxs(refs)))
  }

  /** Every feature of every image names an existing track. */
  ghost predicate AllKnown(images: seq<Image>, points: seq<Point3D>) {
    forall q, i | 0 <= q < |images| && 0 <= i < |images[q].point3DIds| ::
      PointIndex(points, images[q].point3DIds[i]).Some?
  }

  /** A track named by more observations than its arrays can hold. */
  ghost predicate Overfull(images: seq<Image>, p: Point3D) {
    |AllRefs(images, p.id)| > |p.imageIds| || |AllRefs(images, p.id)| > |p.point2DIdxs|
  }

  /**
   * The repair succeeds: every feature names a track, and every track gets
   * exactly as many observations as its feature-index array had.
   */
  ghost predicate Repairable(images: seq<Image>, points: seq<Point3D>) {
    && AllKnown(images, points)
    && forall t | 0 <= t < |points| ::
         |AllRefs(images, points[t].id)| == |points[t].point2DIdxs|
         && |AllRefs(images, points[t].id)| <= |points[t].imageIds|
  }

  /** The state of one track after the observations in `refs` have been written. */
  ghost predicate Slot(p: Point3D, cur: Point3D, count: nat, refs: seq<Ref>) {
    && count == |refs| && |refs| <= |p.imageIds| && |refs| <= |p.point2DIdxs|
    && cur == Refilled(p, refs)
  }

  ghost predicate Before(q: nat, j: nat, a: nat, i: nat) {
    q < a || (q == a && j < i)
  }

  /** The loop state at position (a, i). */
  ghost predicate Progress(images: seq<Image>, points: seq<Point3D>, a: nat, i: nat,
                           pts: seq<Point3D>, counts: seq<nat>)
    requires Pos(images, a, i)
  {
    && |pts| == |points| && |counts| == |points|
    && (forall t | 0 <= t < |points| :: Slot(points[t], pts[t], counts[t], RefsUpTo(images, a, i, points[t].id)))
    && forall q, j | 0 <= q < |images| && 0 <= j < |images[q].point3DIds| && Before(q, j, a, i) ::
         PointIndex(points, images[q].point3DIds[j]).Some?
  }

  /** The cause that explains a failure of the double loop. */
  ghost predicate Explains(images: seq<Image>, points: seq<Point3D>, e: FixError) {
    || (e == KeyError && !AllKnown(images, points))
    || (e == IndexError && exists t | 0 <= t < |points| :: Overfull(images, points[t]))
  }

  /** The loop state at the start of image `a`. */
  ghost predicate Reached(images: seq<Image>, points: seq<Point3D>, a: nat, pts: seq<Point3D>, counts: seq<nat>) {
    Pos(images, a, 0) && Progress(images, points, a, 0, pts, counts)
  }

  /**
   * One feature `i` of the image `imageId`, naming track `pid`: look the track
   * up, then write the observation into its next free slot.
   */
  function Visit(points: seq<Point3D>, pid: int, imageId: int, i: nat, pts: seq<Point3D>, counts: seq<nat>)
    : (r: Result<(seq<Point3D>, seq<nat>), FixError>)
    requires |pts| == |points| && |counts| == |points|
    ensures r.Ok? ==> |r.value.0| == |points| && |r.value.1| == |points|
  {
    match PointIndex(points, pid)
    case None => Err(KeyError)
    case Some(t) =>
      var cnt := counts[t];
      var p := pts[t];
      if cnt >= |p.imageIds| || cnt >= |p.point2DIdxs| then Err(IndexError)
      else Ok((pts[t := p.(imageIds := p.imageIds[cnt := imageId], point2DIdxs := p.point2DIdxs[cnt := i])],
               counts[t := cnt + 1]))
  }

  /** The double loop from position (a, i) on: images in order, features in index order. */
  function VisitFrom(images: seq<Image>, points: seq<Point3D>, a: nat, i: nat, pts: seq<Point3D>, counts: seq<nat>)
    : (r: Result<(seq<Point3D>, seq<nat>), FixError>)
    requires Pos(images, a, i) && |pts| == |points| && |counts| == |points|
    ensures r.Ok? ==> |r.value.0| == |points| && |r.value.1| == |points|
    decreases |images| - a, if a < |images| then |images[a].point3DIds| - i else 0
  {
    if a == |images| then Ok((pts, counts))
    else if i == |images[a].point3DIds| then VisitFrom(images, points, a + 1, 0, pts, counts)
    else
      var next :- Visit(points, images[a].point3DIds[i], images[a].id, i, pts, counts);
      VisitFrom(images, points, a, i + 1, next.0, next.1)
  }

  function ZeroCounts(n: nat): (r: seq<nat>)
    ensures |r| == n && forall t | 0 <= t < n :: r[t] == 0
  {
    seq(n, t => 0)
  }

  /**
   * `fixed_openmvg_to_colmap_error`: the double loop, then the assertion that
   * every track was filled exactly; the tracks as they are then written out.
   */
  function FixTracks(images: seq<Image>, points: seq<Point3D>): (r: Result<seq<Point3D>, FixError>)
    ensures r.Ok? ==> |r.value| == |points|
  {
    var visited :- VisitFrom(images, points, 0, 0, points, ZeroCounts(|points|));
    var (pts, counts) := visited;
    if |counts| == |points| && forall t | 0 <= t < |points| :: counts[t] == |points[t].point2DIdxs| then Ok(pts)
    else Err(AssertionFailed)
  }

  /**
   * The repair against its reference: it succeeds exactly when every feature
   * names a track and every track gets as many observations as it had; then
   * each track's arrays are its observations, in visiting order, written over
   * their first slots; and each failure is the exception the source raises,
   * with its cause.
   */
  lemma FixTracksSpec(images: seq<Image>, points: seq<Point3D>)
    requires DistinctPointIds(points)
    ensures var r := FixTracks(images, points);
            && (r.Ok? <==> Repairable(images, points))
            && (r.Ok? ==> && |r.value| == |points|
                          && forall t | 0 <= t < |points| ::
                               && |AllRefs(images, points[t].id)| <= |points[t].imageIds|
                               && |AllRefs(images, points[t].id)| <= |points[t].point2DIdxs|
                               && r.value[t] == Refilled(points[t], AllRefs(images, points[t].id)))
            && (r == Err(KeyError) ==> !AllKnown(images, points))
            && (r == Err(IndexError) ==> exists t | 0 <= t < |points| :: Overfull(images, points[t]))
            && (r == Err(AssertionFailed) ==> && AllKnown(images, points)
                                              && forall t | 0 <= t < |points| :: !Overfull(images, points[t]))
  {
    var zero := ZeroCounts(|points|);
    StartProgress(images, points, zero);
    VisitFromSpec(images, points, 0, 0, points, zero);
    var v := VisitFrom(images, points, 0, 0, points, zero);
    if v.Ok? {
      EndProgress(images, points, v.value.0, v.value.1);
    }
  }

  /** The double loop keeps `Progress` and fails only for a reason `Explains` names. */
  lemma {:induction false} VisitFromSpec(images: seq<Image>, points: seq<Point3D>, a: nat, i: nat,
                                         pts: seq<Point3D>, counts: seq<nat>)
    requires DistinctPointIds(points)
    requires Pos(images, a, i) && Progress(images, points, a, i, pts, counts)
    ensures var r := VisitFrom(images, points, a, i, pts, counts);
            && (r.Ok? ==> Reached(images, points, |images|, r.value.0, r.value.1))
            && (r.Err? ==> r.error != AssertionFailed && Explains(images, points, r.error))
    decreases |images| - a, if a < |images| then |images[a].point3DIds| - i else 0
  {
    var r := VisitFrom(images, points, a, i, pts, counts);
    if a == |images| {
      assert r == Ok((pts, counts));
    } else if i == |images[a].point3DIds| {
      NextImage(images, points, a, pts, counts);
      VisitFromSpec(images, points, a + 1, 0, pts, counts);
      assert r == VisitFrom(images, points, a + 1, 0, pts, counts);
    } else {
      VisitStep(images, points, a, i, pts, counts);
      var step := Visit(points, images[a].point3DIds[i], images[a].id, i, pts, counts);
      if step.Ok? {
        var j := i + 1;
        VisitFromSpec(images, points, a, j, step.value.0, step.value.1);
        assert r == VisitFrom(images, points, a, j, step.value.0, step.value.1);
      } else {
        assert r == Err(step.error);
      }
    }
  }

  /** A visited feature either advances the loop state or fails for the reason it names. */
  lemma VisitStep(images: seq<Image>, points: seq<Point3D>, a: nat, i: nat, pts: seq<Point3D>, counts: seq<nat>)
    requires DistinctPointIds(points)
    requires a < |images| && i < |images[a].point3DIds| && Pos(images, a, i)
    requires Progress(images, points, a, i, pts, counts)
    ensures var step := Visit(points, images[a].point3DIds[i], images[a].id, i, pts, counts);
            && (step.Ok? ==> Pos(images, a, i + 1) && Progress(images, points, a, i + 1, step.value.0, step.value.1))
            && (step.Err? ==> step.error != AssertionFailed && Explains(images, points, step.error))
  {
    var pid := images[a].point3DIds[i];
    match PointIndex(points, pid)
    case None =>
      UnknownWitness(images, points, a, i);
    case Some(t) =>
      var cnt := counts[t];
      if cnt >= |pts[t].imageIds| || cnt >= |pts[t].point2DIdxs| {
        OverfullWitness(images, a, i, points[t], cnt);
        assert Overfull(images, points[t]);
      } else {
        StepProgress(images, points, a, i, pts, counts, t);
      }
  }

  lemma StartProgress(images: seq<Image>, points: seq<Point3D>, counts: seq<nat>)
    requires |counts| == |points| && forall t | 0 <= t < |points| :: counts[t] == 0
    ensures Reached(images, points, 0, points, counts)
  {
    forall t | 0 <= t < |points|
      ensures Slot(points[t], points[t], counts[t], RefsUpTo(images, 0, 0, points[t].id))
    {
      var p := points[t];
      assert RefsUpTo(images, 0, 0, p.id) == [];
      assert Refilled(p, []) == p;
    }
  }

  /** One feature of the inner loop: how the observations of a track grow. */
  lemma RefsUpToStep(images: seq<Image>, a: nat, i: nat, pid: int)
    requires a < |images| && i < |images[a].point3DIds|
    ensures Pos(images, a, i) && Pos(images, a, i + 1)
    ensures RefsUpTo(images, a, i + 1, pid)
            == RefsUpTo(images, a, i, pid)
               + (if images[a].point3DIds[i] == pid then [Ref(images[a].id, i)] else [])
  {
    var more := if images[a].point3DIds[i] == pid then [Ref(images[a].id, i)] else [];
    assert ImageRefs(images[a], pid, i + 1) == ImageRefs(images[a], pid, i) + more;
    ConcatAssoc(Refs(images, a, pid), ImageRefs(images[a], pid, i), more);
  }

  lemma ConcatAssoc<T>(x: seq<T>, y: seq<T>, z: seq<T>)
    ensures x + (y + z) == (x + y) + z
  {
  }

  lemma {:induction false} RefImagesSnoc(refs: seq<Ref>, x: Ref)
    ensures RefImages(refs + [x]) == RefImages(refs) + [x.image]
  {
    if refs != [] {
      assert (refs + [x])[1..] == refs[1..] + [x];
      RefImagesSnoc(refs[1..], x);
    }
  }

  lemma {:induction false} RefIdxsSnoc(refs: seq<Ref>, x: Ref)
    ensures RefIdxs(refs + [x]) == RefIdxs(refs) + [x.idx as int]
  {
    if refs != [] {
      assert (refs + [x])[1..] == refs[1..] + [x];
      RefIdxsSnoc(refs[1..], x);
    }
  }

  /** Overwriting one more slot is a single update of the array. */
  lemma OverwriteSnoc(s: seq<int>, prefix: seq<int>, v: int)
    requires |prefix| < |s|
    ensures Overwrite(s, prefix + [v]) == Overwrite(s, prefix)[|prefix| := v]
  {
    var n := |prefix|;
    assert Overwrite(s, prefix + [v]) == prefix + [v] + s[n + 1..];
    assert Overwrite(s, prefix) == prefix + s[n..];
    assert s[n..] == [s[n]] + s[n + 1..];
  }

  /** Writing one more observation into a track's next free slot. */
  lemma RefilledSnoc(p: Point3D, refs: seq<Ref>, x: Ref)
    requires |refs| < |p.imageIds| && |refs| < |p.point2DIdxs|
    ensures Refilled(p, refs + [x])
            == var cur := Refilled(p, refs);
               cur.(imageIds := cur.imageIds[|refs| := x.image], point2DIdxs := cur.point2DIdxs[|refs| := x.idx])
  {
    RefImagesSnoc(refs, x);
    RefIdxsSnoc(refs, x);
    OverwriteSnoc(p.imageIds, RefImages(refs), x.image);
    OverwriteSnoc(p.point2DIdxs, RefIdxs(refs), x.idx);
  }

  lemma StepProgress(images: seq<Image>, points: seq<Point3D>, a: nat, i: nat,
                     pts: seq<Point3D>, counts: seq<nat>, t0: nat)
    requires DistinctPointIds(points)
    requires a < |images| && i < |images[a].point3DIds| && Pos(images, a, i)
    requires Progress(images, points, a, i, pts, counts)
    requires PointIndex(points, images[a].point3DIds[i]) == Some(t0)
    requires counts[t0] < |pts[t0].imageIds| && counts[t0] < |pts[t0].point2DIdxs|
    ensures Pos(images, a, i + 1)
    ensures var p := pts[t0];
            var cnt := counts[t0];
            Progress(images, points, a, i + 1,
                     pts[t0 := p.(imageIds := p.imageIds[cnt := images[a].id], point2DIdxs := p.point2DIdxs[cnt := i])],
                     counts[t0 := cnt + 1])
  {
    var pid := images[a].point3DIds[i];
    var p := pts[t0];
    var cnt := counts[t0];
    var pts' := pts[t0 := p.(imageIds := p.imageIds[cnt := images[a].id], point2DIdxs := p.point2DIdxs[cnt := i])];
    var counts' := counts[t0 := cnt + 1];
    forall t | 0 <= t < |points|
      ensures Slot(points[t], pts'[t], counts'[t], RefsUpTo(images, a, i + 1, points[t].id))
    {
      SlotStep(images, a, i, points[t], pts[t], counts[t], pid, t == t0, pts'[t], counts'[t]);
    }
    KnownStep(images, points, a, i);
  }

  /** A feature that names a track extends the prefix of known features by one. */
  lemma KnownStep(images: seq<Image>, points: seq<Point3D>, a: nat, i: nat)
    requires a < |images| && i < |images[a].point3DIds|
    requires PointIndex(points, images[a].point3DIds[i]).Some?
    requires forall q, j | 0 <= q < |images| && 0 <= j < |images[q].point3DIds| && Before(q, j, a, i) ::
               PointIndex(points, images[q].point3DIds[j]).Some?
    ensures forall q, j | 0 <= q < |images| && 0 <= j < |images[q].point3DIds| && Before(q, j, a, i + 1) ::
              PointIndex(points, images[q].point3DIds[j]).Some?
  {
    forall q, j | 0 <= q < |images| && 0 <= j < |images[q].point3DIds| && Before(q, j, a, i + 1)
      ensures PointIndex(points, images[q].point3DIds[j]).Some?
    {
      if q != a || j != i {
        assert Before(q, j, a, i);
      }
    }
  }

  /** One track across one feature: it grows when the feature names it, and is kept otherwise. */
  lemma SlotStep(images: seq<Image>, a: nat, i: nat, p: Point3D, cur: Point3D, count: nat, pid: int,
                 hit: bool, cur': Point3D, count': nat)
    requires a < |images| && i < |images[a].point3DIds| && Pos(images, a, i)
    requires images[a].point3DIds[i] == pid && (hit <==> p.id == pid)
    requires Slot(p, cur, count, RefsUpTo(images, a, i, p.id))
    requires hit ==> count < |cur.imageIds| && count < |cur.point2DIdxs|
    requires hit ==> cur' == cur.(imageIds := cur.imageIds[count := images[a].id],
                                  point2DIdxs := cur.point2DIdxs[count := i])
                     && count' == count + 1
    requires !hit ==> cur' == cur && count' == count
    ensures Pos(images, a, i + 1) && Slot(p, cur', count', RefsUpTo(images, a, i + 1, p.id))
  {
    RefsUpToStep(images, a, i, p.id);
    if hit {
      var refs, x := RefsUpTo(images, a, i, pid), Ref(images[a].id, i);
      RefilledSnoc(p, refs, x);
      assert RefsUpTo(images, a, i + 1, p.id) == refs + [x];
      assert cur' == Refilled(p, refs + [x]);
    } else {
      var refs := RefsUpTo(images, a, i, p.id);
      assert refs + [] == refs;
      assert RefsUpTo(images, a, i + 1, p.id) == refs;
    }
  }

  lemma NextImage(images: seq<Image>, points: seq<Point3D>, a: nat, pts: seq<Point3D>, counts: seq<nat>)
    requires a < |images| && Pos(images, a, |images[a].point3DIds|)
    requires Progress(images, points, a, |images[a].point3DIds|, pts, counts)
    ensures Reached(images, points, a + 1, pts, counts)
  {
    var n := |images[a].point3DIds|;
    forall t | 0 <= t < |points|
      ensures RefsUpTo(images, a + 1, 0, points[t].id) == RefsUpTo(images, a, n, points[t].id)
    {
      var pid := points[t].id;
      if a + 1 < |images| {
        assert ImageRefs(images[a + 1], pid, 0) == [];
      }
      assert Refs(images, a + 1, pid) == Refs(images, a, pid) + ImageRefs(images[a], pid, n);
    }
    forall q, j | 0 <= q < |images| && 0 <= j < |images[q].point3DIds| && Before(q, j, a + 1, 0)
      ensures PointIndex(points, images[q].point3DIds[j]).Some?
    {
      assert Before(q, j, a, n);
    }
  }

  lemma EndProgress(images: seq<Image>, points: seq<Point3D>, pts: seq<Point3D>, counts: seq<nat>)
    requires Reached(images, points, |images|, pts, counts)
    ensures AllKnown(images, points)
    ensures forall t | 0 <= t < |points| :: Slot(points[t], pts[t], counts[t], AllRefs(images, points[t].id))
  {
    forall t | 0 <= t < |points|
      ensures Slot(points[t], pts[t], counts[t], AllRefs(images, points[t].id))
    {
      assert RefsUpTo(images, |images|, 0, points[t].id) == AllRefs(images, points[t].id);
    }
    forall q, i | 0 <= q < |images| && 0 <= i < |images[q].point3DIds|
      ensures PointIndex(points, images[q].point3DIds[i]).Some?
    {
      assert Before(q, i, |images|, 0);
    }
  }

  lemma UnknownWitness(images: seq<Image>, points: seq<Point3D>, a: nat, i: nat)
    requires a < |images| && i < |images[a].point3DIds|
    requires PointIndex(points, images[a].point3DIds[i]).None?
    ensures Explains(images, points, KeyError)
  {
  }

  /** Observation counts only grow as the loop advances. */
  lemma {:induction false} ImageRefsGrow(im: Image, pid: int, n: nat, m: nat)
    requires n <= m <= |im.point3DIds|
    ensures |ImageRefs(im, pid, n)| <= |ImageRefs(im, pid, m)|
    decreases m - n
  {
    if n < m {
      ImageRefsGrow(im, pid, n, m - 1);
    }
  }

  lemma {:induction false} RefsGrow(images: seq<Image>, a: nat, b: nat, pid: int)
    requires a <= b <= |images|
    ensures |Refs(images, a, pid)| <= |Refs(images, b, pid)|
    decreases b - a
  {
    if a < b {
      RefsGrow(images, a, b - 1, pid);
    }
  }

  /** A feature whose track is already full shows that the track is overfull. */
  lemma OverfullWitness(images: seq<Image>, a: nat, i: nat, p: Point3D, cnt: nat)
    requires a < |images| && i < |images[a].point3DIds| && images[a].point3DIds[i] == p.id
    requires Pos(images, a, i) && cnt == |RefsUpTo(images, a, i, p.id)|
    requires cnt >= |p.imageIds| || cnt >= |p.point2DIdxs|
    ensures Overfull(images, p)
  {
    RefsUpToStep(images, a, i, p.id);
    RefsUpToBound(images, a, i + 1, p.id);
  }

  /** The observations met up to any position are at most all of them. */
  lemma RefsUpToBound(images: seq<Image>, a: nat, i: nat, pid: int)
    requires a < |images| && i <= |images[a].point3DIds|
    ensures Pos(images, a, i) && |RefsUpTo(images, a, i, pid)| <= |AllRefs(images, pid)|
  {
    ImageRefsGrow(images[a], pid, i, |images[a].point3DIds|);
    assert |RefsUpTo(images, a, i, pid)| <= |Refs(images, a + 1, pid)|;
    RefsGrow(images, a + 1, |images|, pid);
  }
}

/** What the rebuilt observation lists mean, slot by slot. */
module TracksFacts {
  import opened Wrappers
  import opened Colmap
  import opened Tracks

  /** The feature `(q, j)` exists and names track `pid`. */
  predicate Names(images: seq<Image>, q: int, j: int, pid: int) {
    0 <= q < |images| && 0 <= j < |images[q].point3DIds| && images[q].point3DIds[j] == pid
  }

  lemma {:induction false} ImageRefsSound(im: Image, pid: int, n: nat)
    requires n <= |im.point3DIds|
    ensures forall x | x in ImageRefs(im, pid, n) :: x.image == im.id && x.idx < n && im.point3DIds[x.idx] == pid
  {
    if n > 0 {
      ImageRefsSound(im, pid, n - 1);
    }
  }

  lemma {:induction false} ImageRefsComplete(im: Image, pid: int, n: nat)
    requires n <= |im.point3DIds|
    ensures forall j | 0 <= j < n && im.point3DIds[j] == pid :: Ref(im.id, j) in ImageRefs(im, pid, n)
  {
    if n > 0 {
      ImageRefsComplete(im, pid, n - 1);
    }
  }

  /** Every collected observation is a feature of one of the first `a` images naming `pid`. */
  lemma {:induction false} RefsSound(images: seq<Image>, a: nat, pid: int)
    requires a <= |images|
    ensures forall x | x in Refs(images, a, pid) ::
              exists q | 0 <= q < a :: images[q].id == x.image && Names(images, q, x.idx, pid)
  {
    if a > 0 {
      RefsSound(images, a - 1, pid);
      var im := images[a - 1];
      ImageRefsSound(im, pid, |im.point3DIds|);
      forall x | x in Refs(images, a, pid)
        ensures exists q | 0 <= q < a :: images[q].id == x.image && Names(images, q, x.idx, pid)
      {
        if x !in Refs(images, a - 1, pid) {
          assert images[a - 1].id == x.image && Names(images, a - 1, x.idx, pid);
        }
      }
    }
  }

  /** Every feature of the first `a` images naming `pid` is collected. */
  lemma {:induction false} RefsComplete(images: seq<Image>, a: nat, pid: int)
    requires a <= |images|
    ensures forall q, j | 0 <= q < a && Names(images, q, j, pid) :: Ref(images[q].id, j) in Refs(images, a, pid)
  {
    if a > 0 {
      RefsComplete(images, a - 1, pid);
      var im := images[a - 1];
      ImageRefsComplete(im, pid, |im.point3DIds|);
    }
  }

  lemma {:induction false} RefImagesAt(refs: seq<Ref>, k: nat)
    requires k < |refs|
    ensures RefImages(refs)[k] == refs[k].image
  {
    if k > 0 {
      RefImagesAt(refs[1..], k - 1);
    }
  }

  lemma {:induction false} RefIdxsAt(refs: seq<Ref>, k: nat)
    requires k < |refs|
    ensures RefIdxs(refs)[k] == refs[k].idx
  {
    if k > 0 {
      RefIdxsAt(refs[1..], k - 1);
    }
  }

  /** Slot `k` of a refilled track holds the `k`-th observation, or is kept past them. */
  lemma RefilledAt(p: Point3D, refs: seq<Ref>, k: nat)
    requires |refs| <= |p.imageIds| && |refs| <= |p.point2DIdxs|
    ensures k < |refs| ==> Refilled(p, refs).imageIds[k] == refs[k].image
                           && Refilled(p, refs).point2DIdxs[k] == refs[k].idx
    ensures |refs| <= k < |p.imageIds| ==> Refilled(p, refs).imageIds[k] == p.imageIds[k]
    ensures |refs| <= k < |p.point2DIdxs| ==> Refilled(p, refs).point2DIdxs[k] == p.point2DIdxs[k]
  {
    if k < |refs| {
      RefImagesAt(refs, k);
      RefIdxsAt(refs, k);
    }
  }

  /**
   * After a successful repair, every slot of a track's feature-index array is
   * an observation: a feature of the image whose id sits in the same slot of
   * the image-id array, and that feature names the track.
   */
  lemma FixedSlotSound(images: seq<Image>, points: seq<Point3D>, t: nat, k: nat)
    requires DistinctPointIds(points)
    requires FixTracks(images, points).Ok? && t < |points| && k < |points[t].point2DIdxs|
    ensures var track := FixTracks(images, points).value[t];
            && track.id == points[t].id
            && k < |track.imageIds| && k < |track.point2DIdxs|
            && exists q | 0 <= q < |images| ::
                 images[q].id == track.imageIds[k] && Names(images, q, track.point2DIdxs[k], track.id)
  {
    FixTracksSpec(images, points);
    var pid := points[t].id;
    var refs := AllRefs(images, pid);
    RefilledAt(points[t], refs, k);
    RefsSound(images, |images|, pid);
    assert refs[k] in refs;
  }

  /**
   * After a successful repair, every feature that names a track appears as
   * an observation in some slot of that track.
   */
  lemma FixedFeatureFound(images: seq<Image>, points: seq<Point3D>, t: nat, q: nat, j: nat)
    requires DistinctPointIds(points)
    requires FixTracks(images, points).Ok? && t < |points| && Names(images, q, j, points[t].id)
    ensures var track := FixTracks(images, points).value[t];
            exists k | 0 <= k < |track.point2DIdxs| && k < |track.imageIds| ::
              track.imageIds[k] == images[q].id && track.point2DIdxs[k] == j
  {
    FixTracksSpec(images, points);
    var pid := points[t].id;
    var refs := AllRefs(images, pid);
    RefsComplete(images, |images|, pid);
    var k :| 0 <= k < |refs| && refs[k] == Ref(images[q].id, j);
    RefilledAt(points[t], refs, k);
  }
}

=== FILE: wrappers.dfy ===
/** Optional values and results with failure propagation (the `:-` operator). */
module Wrappers {

  datatype Option<+T> = None | Some(value: T) {
    /** The value, or `Err(e)` when there is none. */
    function ToResult<E>(e: E): Result<T, E> {
      match this
      case Some(v) => Ok(v)
      case None => Err(e)
    }
  }

  datatype Result<+T, +E> = Ok(value: T) | Err(error: E) {
    predicate IsFailure() {
      Err?
    }

    function PropagateFailure<U>(): Result<U, E>
      requires Err?
    {
      Err(error)
    }

    function Extract(): T
      requires Ok?
    {
      value
    }
  }
}
